=== FILE: README.md ===
# Scene graph annotator, modelled in Dafny

The scene graph annotator is a browser viewer for 3D scans of rooms,
together with a handful of evaluation scripts.

- **The viewer.** `generate_html_sampled.py` writes the current viewer and
  `generate_html.py` writes an older one. Both emit HTML with JavaScript.
  The viewer decodes PLY meshes and point clouds, converts MultiScan
  annotations into scene graphs, and lets an annotator mark:
  - similar object pairs;
  - predicted attributes and relationships as correct or incorrect;
  - missing attributes and relationships.

  It exports these annotations as JSON and imports them back.
- **The scripts** read those JSON files:
  - `evaluate_similarity.py` and `generate_similarity_detail_report.py`
    score predicted similar pairs;
  - `evaluate_relationship.py` counts the relationship verdicts;
  - `evaluate_attribute.py` and `evaluate_attribute_all.py` compare
    attribute lists;
  - `sample_scene_graphs.py` cuts a scene graph down to a sample of its
    objects.

The model is a set of pure functions over immutable datatypes, one module
per component:

- `Wrappers` (wrappers.dfy): `Option` and `Result`
- `Numeric` (numeric.dfy): little-endian integers, IEEE-754 float32/float64 decoding to exact reals, `NaN` replacement
- `JsText` (jstext.dfy): the JavaScript string builtins the viewer relies on: `trim`, `includes`, `split`, `parseInt`, `parseFloat`, `slice`, integer printing
- `PyText` (pytext.dfy): the Python helpers the scripts rely on: `Path.stem`, `str.replace`, `str.split`, `sorted`
- `Mesh` (mesh.dfy): geometry handed to the renderer: point-cloud thinning, index filtering, the colour file, bounds
- `PlyHeader` (ply_header.dfy): the header window, the header scan and the record layout it declares
- `PlyBinary` (ply_binary.dfy): the binary vertex and face loops
- `PlyAscii` (ply_ascii.dfy): the ASCII vertex and face readers
- `Ply` (ply.dfy): `parsePLY` of both viewers
- `MultiScan` (multiscan.dfy): `convertMultiscanToSceneGraph`
- `SceneGraph` (scene_graph.dfy): dataset detection, the relationship panel, the attribute filter, similarity candidates
- `Session` (session.dfy): the annotation state and every control's transition
- `AnnotationDoc` (annotation_doc.dfy): export and import of annotation files
- `EvalSimilarity` (eval_similarity.dfy): both similarity scorers
- `EvalRelationship` (eval_relationship.dfy): relationship verdict counting, per dataset and combined
- `EvalAttribute` (eval_attribute.dfy): ground-truth and prediction grouping, per-object scoring
- `EvalAttributeAll` (eval_attribute_all.dfy): scene ids of file names, aggregation over scenes
- `Sampling` (sampling.dfy): object sampling and scene-graph filtering

Some choices in the model:

- **Floating point.** Decoded floats are exact reals. `Num` is `Finite(v)`
  or `NonFinite`, which stands for `NaN` and the infinities. Rounding is
  not modelled, and neither is the finite range of a double, so parsed
  decimals never overflow or underflow.
- **Opaque operations become parameters.** These are:
  - `Math.pow(x, 2.4)`, in the sRGB transfer;
  - `Math.sqrt`, in the quaternion conversion;
  - the UTF-8 `TextDecoder`;
  - Python's `int()` on dictionary keys;
  - `random.sample`, only assumed to return the requested number of
    draws, without replacement, from its population;
  - the CLIP similarity trials.
- **Clocks.** Clock readings are plain arguments.

Behaviours of the code worth noting:

- The "on top of" rule accepts a vertical offset strictly between 0.05
  and 0.5. Two unit boxes stacked 0.3 apart overlap by 0.7, so they give
  no edge (`MultiScan.StackedUnitBoxesNoEdge`).
- A binary triangle is dropped when ANY of its vertices sits at the origin,
  not only when all three do. The ASCII reader has no origin check.
- Importing a file replaces only the sections it contains.
- Loading a scene keeps the similarity list.
- Entering similarity mode clears the highlights.

## Model

| member | source | states |
|---|---|---|
| Numeric.Sanitize | generate_html_sampled.py:1558-1561 | a non-finite coordinate becomes 0 and a finite one is kept |
| Numeric.LeUint | generate_html_sampled.py:1566-1568 | an n-byte little-endian read is below 2^(8n) |
| Numeric.LeUintSplit | generate_html_sampled.py:1620-1622 | a field of n + m bytes is its low n bytes plus 2^(8n) times the next m, so each byte carries weight 256^k |
| Numeric.LeUintShift | generate_html_sampled.py:1540-1575 | a field read at an offset does not depend on the bytes in front of it |
| Numeric.LeUintLeBytes | generate_html_sampled.py:1620-1622 | writing a value that fits as n little-endian bytes and reading them back gives the value |
| Numeric.Int32At | generate_html_sampled.py:1620-1622 | `getInt32(p, true)` lies in the signed 32-bit range and agrees with the unsigned little-endian word modulo 2^32 |
| Numeric.Int32RoundTrip | generate_html_sampled.py:1620-1622 | every signed 32-bit value written as two's-complement bytes reads back as itself |
| Numeric.IeeeValue | generate_html_sampled.py:1548-1556 | an IEEE value is non-finite exactly when its exponent field is all ones, and negative exactly when the sign is set and the value is not zero |
| Numeric.Binary32Value | generate_html_sampled.py:1553-1555 | a finite binary32 value is (1 + f/2^23) * 2^(e-127) for a normal exponent, within [2^(e-127), 2^(e-126)), and (f/2^23) * 2^-126 for a subnormal one |
| Numeric.Binary64Value | generate_html_sampled.py:1549-1551 | a finite binary64 value is (1 + f/2^52) * 2^(e-1023) for a normal exponent, within [2^(e-1023), 2^(e-1022)), and (f/2^52) * 2^-1022 for a subnormal one |
| Numeric.Binary32 | generate_html_sampled.py:1553-1555 | the binary32 number of a sign, exponent and fraction: non-finite exactly for exponent 255, else of the normal or subnormal magnitude, with the sign of the sign bit |
| Numeric.Binary64 | generate_html_sampled.py:1549-1551 | the binary64 number of a sign, exponent and fraction: non-finite exactly for exponent 2047, else of the normal or subnormal magnitude, with the sign of the sign bit |
| Numeric.Float32At | generate_html_sampled.py:1553-1555 | `getFloat32(p, true)` is the binary32 number whose sign is the top bit of byte 3, whose exponent is the low 7 bits of byte 3 and the top bit of byte 2, and whose fraction is the rest; it is NaN/infinite exactly when those 8 exponent bits are all set |
| Numeric.Float64At | generate_html_sampled.py:1549-1551 | `getFloat64(p, true)` is the binary64 number whose sign is the top bit of byte 7, whose exponent is the low 7 bits of byte 7 and the top 4 bits of byte 6, and whose fraction is the rest; it is NaN/infinite exactly when those 11 exponent bits are all set |
| Numeric.Float32One | generate_html_sampled.py:1553-1555 | the bytes 00 00 80 3F read as 1.0 |
| Numeric.Float32MinusTwo | generate_html_sampled.py:1553-1555 | the bytes 00 00 00 C0 read as -2.0 |
| Numeric.Float32Smallest | generate_html_sampled.py:1553-1555 | the bytes 01 00 00 00 read as the smallest subnormal number, 2^-149 |
| Numeric.Float64One | generate_html_sampled.py:1549-1551 | the bytes 00 00 00 00 00 00 F0 3F read as 1.0 |
| Numeric.Float64MinusTwo | generate_html_sampled.py:1549-1551 | the bytes 00 00 00 00 00 00 00 C0 read as -2.0 |
| JsText.LeadingSpaces | generate_html_sampled.py:1348 | counts exactly the run of white space that `trim` removes at the front |
| JsText.TextEnd | generate_html_sampled.py:1348 | marks exactly where the trailing white space that `trim` removes begins |
| JsText.Trim | generate_html_sampled.py:1348 | the trimmed line neither starts nor ends with white space, and is empty exactly when the line is all white space |
| JsText.ContainsIff | generate_html_sampled.py:1349 | `line.includes(p)` holds exactly when `p` occurs at some position |
| JsText.IndexOf | generate_html_sampled.py:1353 | finds the first occurrence of a character, or reports that there is none |
| JsText.Split | generate_html_sampled.py:1330 | `split` on one character gives at least one piece, and no piece contains the separator |
| JsText.JoinSplit | generate_html_sampled.py:1433 | joining the pieces of `text.split('\n')` with `'\n'` gives the text back |
| JsText.Tokens | generate_html_sampled.py:1479 | `line.trim().split(/\s+/)` never yields more pieces than characters |
| JsText.TokensAreWords | generate_html_sampled.py:1479 | every piece of `trim().split(/\s+/)` is a non-empty run of non-space characters |
| JsText.TokensJoin | generate_html_sampled.py:1479 | splitting words joined by single spaces gives the words back |
| JsText.ToLower | generate_html_sampled.py:3356 | lowers the ASCII capitals and keeps every other character |
| JsText.DigitRun | generate_html_sampled.py:1353 | the digits `parseInt` consumes are the longest run of digits at the front |
| JsText.ParseInt | generate_html_sampled.py:1353 | `parseInt` gives a number only when the text holds a digit |
| JsText.ParseUnsignedDecimal | generate_html_sampled.py:1353 | `parseInt` of a decimal digit string is its decimal value |
| JsText.NatToStringValue | generate_html_sampled.py:3125 | printing a number gives decimal digits whose value is the number |
| JsText.IntToStringIsWord | generate_html_sampled.py:3125 | a printed integer contains no white space |
| JsText.ParseIntToString | generate_html_sampled.py:3176 | `parseInt` reads back every integer printed in plain decimal, negative ones included (the page prints plain decimal below 1e21) |
| JsText.ParseFloatIntToString | generate_html_sampled.py:1481-1483 | `parseFloat` reads back every printed integer as that value, with no overflow to `Infinity` |
| JsText.ParseFloatSigned | generate_html_sampled.py:1481-1483 | `parseFloat` of an optional `-` and a literal that starts with a digit is the literal's exact value, negated after `-`; overflow and underflow are not modelled |
| JsText.ParseUnsignedFloatDecimal | generate_html_sampled.py:1481 | `parseFloat` of a digit string is its exact decimal value, with no overflow to `Infinity` |
| JsText.JsSlice | generate_html_sampled.py:1476 | `slice(start, end)` is the ordinary sub-list for in-range bounds and is empty when `end` is `NaN` |
| JsText.LexLessTotal | generate_html_sampled.py:2786 | the label order used in place of `localeCompare` is total |
| JsText.LexLessTransitive | generate_html_sampled.py:2786 | the label order is transitive |
| JsText.LexLessAsymmetric | generate_html_sampled.py:2786 | the label order is asymmetric |
| PyText.Stem | evaluate_attribute_all.py:23 | `Path.stem` is a prefix of the name; it differs from the name exactly when there is a `.` after the first character and before the last, and then it stops at the last such `.` |
| PyText.StemOfSuffixed | evaluate_attribute_all.py:23 | the stem of `w.ext` is `w` when `w` has no dot |
| PyText.RemoveAll | evaluate_relationship.py:24 | `str.replace(p, '')` never lengthens the string |
| PyText.RemoveAllPrefix | evaluate_relationship.py:24 | removing `annotations_` from `annotations_` + t gives t when t holds no further occurrence |
| PyText.SplitJoin | evaluate_attribute_all.py:25 | `'_'.join` followed by `split('_')` returns the parts when they contain no `_` |
| PyText.SortStrings | evaluate_attribute.py:153-154 | `sorted` on strings gives a sorted permutation |
| PyText.SortStringsOrderFree | evaluate_attribute.py:153-154 | two lists with the same elements sort to the same list |
| PyText.SortInts | sample_scene_graphs.py:56 | `sorted` on ids gives a sorted permutation |
| PyText.Dedup | evaluate_attribute.py:118 | dropping repeats keeps exactly the same elements, each once |
| PyText.SortedSet | evaluate_attribute.py:124 | `sorted(set(xs))` holds exactly the elements of xs |
| PyText.SortedSetIncreasing | evaluate_attribute.py:124 | `sorted(set(xs))` is strictly increasing |
| Mesh.StridePositions | generate_html_sampled.py:4059 | `for (v = 0; v < n; v += step)` visits exactly v, v+step, ... below n, and the next stride would pass n |
| Mesh.Downsample | generate_html_sampled.py:4050-4071 | a cloud with faces, or with at most 200000 points, is left alone; otherwise points and colours are thinned by `floor(n / 200000)` |
| Mesh.ThinPoints | generate_html_sampled.py:4059-4061 | thinning keeps the points at multiples of the step, in order, starting with the first |
| Mesh.ThinColors | generate_html_sampled.py:4062-4065 | thinning keeps the colours at multiples of the step when the cloud has colours |
| Mesh.DownsampleSize | generate_html_sampled.py:4052-4056 | a thinned cloud keeps at least 200000 and fewer than 400000 points, and a cloud below 400000 points is kept whole |
| Mesh.InRangeIndices | generate_html_sampled.py:2256-2263 | every kept face index names a vertex, and none is invented |
| Mesh.InRangeIndicesSub | generate_html_sampled.py:2256-2263 | the kept indices are a sub-multiset of the file's indices |
| Mesh.InRangeIndicesKeeps | generate_html_sampled.py:2256-2263 | every in-range index survives the filter |
| Mesh.InRangeIndicesEmpty | generate_html_sampled.py:2264-2269 | the filter leaves something exactly when some index is in range |
| Mesh.InRangeIndicesKeepsValid | generate_html_sampled.py:2256-2263 | a list whose indices are all in range is unchanged |
| Mesh.InRangeIndicesIdempotent | generate_html_sampled.py:2256-2263 | filtering twice is filtering once |
| Mesh.InRangeIndicesSplitsTriangles | generate_html_sampled.py:2256-2263 | the filter works index by index, so a partly valid triangle leaves a stray pair behind |
| Mesh.PrepareMesh | generate_html_sampled.py:2252-2270 | it renders as a mesh exactly when it has faces and some index is in range, and then every index is in range; without faces the geometry is unchanged |
| Mesh.ApplyColorFile | generate_html_sampled.py:4035-4043 | a colour file with as many points and with colours replaces the colours; otherwise the mesh is unchanged |
| Mesh.BoundsNone | generate_html_sampled.py:2355-2358 | there are no bounds exactly when no point is plausible (off the origin and within the limit) |
| Mesh.BoundsCount | generate_html_sampled.py:2345-2353 | `validPointCount` is the number of plausible points |
| Mesh.BoundsContain | generate_html_sampled.py:2335-2353 | every plausible point lies inside the box |
| Mesh.BoundsAttained | generate_html_sampled.py:2335-2353 | each face of the box touches some plausible point |
| Mesh.ComputeBounds | generate_html_sampled.py:2335-2358 | the loop's bounds equal the recursive definition: none, or the count, containment and tightness |
| PlyHeader.PropertyWidth | generate_html_sampled.py:1388-1391 | a vertex property line adds 0, 1, 2, 4 or 8 bytes |
| PlyHeader.FaceExtraWidth | generate_html_sampled.py:1395-1400 | a face property line other than `vertex_indices` adds 0, 1, 2, 4 or 8 bytes |
| PlyHeader.PropertyWidthUchar | generate_html_sampled.py:1388 | `property uchar red` adds 1 byte, the width of `uchar` |
| PlyHeader.PropertyWidthShort | generate_html_sampled.py:1388-1389 | `property short s` adds 2 bytes, the width of `short` |
| PlyHeader.PropertyWidthFloat | generate_html_sampled.py:1388-1390 | `property float x` adds 4 bytes, the width of `float` |
| PlyHeader.PropertyWidthDouble | generate_html_sampled.py:1388-1391 | `property double x` adds 8 bytes, the width of `double` |
| PlyHeader.PropertyWidthFirstMatch | generate_html_sampled.py:1388-1391 | the first matching substring decides: `property double tint` adds 4 bytes, not the 8 of `double` |
| PlyHeader.FaceExtraWidthUchar | generate_html_sampled.py:1396 | a `uchar` face property adds 1 byte |
| PlyHeader.FaceExtraWidthChar | generate_html_sampled.py:1396-1399 | a plain `char` face property adds nothing, not the 1 byte of `char` |
| PlyHeader.VertexProperty | generate_html_sampled.py:1369-1392 | one property line adds its width, and records the running offset for each field it names; other fields are untouched |
| PlyHeader.TrimAll | generate_html_sampled.py:1348 | each header line is read trimmed |
| PlyHeader.EndLine | generate_html_sampled.py:1408-1409 | the scan stops at the first line equal to `end_header`, or reads every line when there is none |
| PlyHeader.Scan | generate_html_sampled.py:1347-1439 | the header scan records the position of the first `end_header` line, which is one of the lines |
| PlyHeader.ScannedLinesShape | generate_html_sampled.py:1347-1436 | the loop reads the trimmed lines up to and including the first `end_header`, or all of them when there is none, and none before the last is `end_header` |
| PlyHeader.ScanFlags | generate_html_sampled.py:1349-1406 | the file is binary, has normals or has colours exactly when some line the loop reads says so |
| PlyHeader.ScanLayout | generate_html_sampled.py:1352-1392 | when the lines read hold one `element vertex` line followed by its property lines and then other elements, the vertex count is that line's count, the record width is the property widths' sum, and each field's offset is the width in front of its last property line |
| PlyHeader.FoldAppend | generate_html_sampled.py:1347 | scanning two blocks of lines is scanning the first, then the second |
| PlyHeader.PropertyBlock | generate_html_sampled.py:1369-1392 | after a run of property lines the record width is the sum of their widths; each field's offset is the width before its last mention, or is unchanged when it is not mentioned |
| PlyHeader.VertexLayout | generate_html_sampled.py:1352-1392 | the record width is the width sum of the property lines after `element vertex`, however the header started |
| PlyHeader.WithFallbackWidth | generate_html_sampled.py:1443-1449 | a declared layout is kept; with none, the estimate is 12 bytes plus 12 for normals plus 4 for colours, with colours at 24 or 12 |
| PlyHeader.Latin1 | generate_html_sampled.py:1311-1313 | each header byte becomes the character with that code |
| PlyHeader.Window | generate_html_sampled.py:1308 | the header window is the first `min(2000, length)` bytes |
| PlyHeader.HeaderCut | generate_html_sampled.py:1311-1323 | the header text stops only after a blank line that follows `end_header` |
| PlyHeader.HeaderText | generate_html_sampled.py:1308-1324 | the header text is the first bytes of the window, read one character per byte |
| PlyHeader.FindEndHeader | generate_html_sampled.py:1415-1430 | the byte search finds the first `end_header` followed by a newline, or reports none |
| PlyHeader.Utf8Length | generate_html_sampled.py:1434 | the UTF-8 length of a text lies between one and four bytes per character |
| PlyHeader.HeaderLength | generate_html_sampled.py:1411-1435 | the body offset either lies inside the 2000-byte window, where the byte search found `end_header`, or is at least one byte per character of the re-joined header lines and their newline |
| PlyHeader.HeaderLengthFound | generate_html_sampled.py:1411-1435 | with an `end_header` newline in the window the body starts just after the first one; with none it is the UTF-8 length of the lines up to `end_header` joined by newlines, plus one |
| PlyHeader.Utf8LengthAscii | generate_html_sampled.py:1434 | ASCII text takes one UTF-8 byte per character |
| PlyHeader.Utf8LengthAppend | generate_html_sampled.py:1433-1434 | the UTF-8 length of joined text is the sum of the parts' lengths |
| PlyBinary.ReadCoord | generate_html_sampled.py:1548-1556 | a coordinate read succeeds exactly when its 4 or 8 bytes are inside the body |
| PlyBinary.ReadPoint | generate_html_sampled.py:1546-1561 | a point read succeeds exactly when its three coordinates are inside the body |
| PlyBinary.Vertices | generate_html_sampled.py:1540-1575 | the vertex loop never yields more colours than points |
| PlyBinary.VerticesCount | generate_html_sampled.py:1540-1544 | the loop reads at most the declared count, and stops short only when the next record does not fit |
| PlyBinary.VerticesPoints | generate_html_sampled.py:1546-1563 | the k-th point is decoded from the k-th record, which fits in the buffer |
| PlyBinary.VerticesColors | generate_html_sampled.py:1565-1572 | when every record has a colour until the first one that lacks it, the k-th colour comes from the k-th record, and the colours stop at that first record without one |
| PlyBinary.BodyNoError | generate_html.py:849-882 | the older viewer's fixed layout never reads outside the buffer |
| PlyBinary.KeptIndices | generate_html_sampled.py:1625-1636 | whole triangles only, each index naming a decoded vertex away from the origin |
| PlyBinary.KeptTrianglesIff | generate_html_sampled.py:1625-1636 | a triangle is drawn exactly when the file holds it and it is valid |
| PlyBinary.FacesAreKeptRecords | generate_html_sampled.py:1604-1654 | the face loop keeps exactly the valid triangles among the records it reads, in file order |
| PlyBinary.DecodeBinary | generate_html_sampled.py:1528-1664 | a header past the end of the buffer is an error; otherwise there are no more colours than points, colours are reported only when present, every index names a point, and faces are reported exactly when the count is positive |
| PlyAscii.AsciiChannel | generate_html_sampled.py:1492-1494 | a colour channel is `NaN` exactly when `parseInt` fails |
| PlyAscii.AsciiVertices | generate_html_sampled.py:1476-1502 | at most one point per line, at most one colour per point, and no colours unless announced |
| PlyAscii.AsciiFaces | generate_html_sampled.py:1505-1523 | faces come as whole triangles whose indices lie in `[0, maxVertex]` |
| PlyAscii.AsciiVertexLine | generate_html_sampled.py:1478-1500 | one vertex line: skipped below three tokens, otherwise one point from its first three tokens, and one colour from tokens 4 to 6 exactly when colours are announced and there are six tokens |
| PlyAscii.AsciiVerticesAppend | generate_html_sampled.py:1477-1502 | the vertex loop over two runs of lines gives the points and colours of the first run followed by those of the second |
| PlyAscii.AsciiPointsIff | generate_html_sampled.py:1477-1488 | a point is read exactly when some line of three or more tokens carries it |
| PlyAscii.FaceLine | generate_html_sampled.py:1510-1521 | an accepted face line has three in-range indices |
| PlyAscii.FaceLineOf | generate_html_sampled.py:1512-1520 | a line whose tokens read as 3 and three indices is kept as that triangle exactly when all three are in range |
| PlyAscii.FaceLines | generate_html_sampled.py:1508-1509 | each face line is read on its own, one result per line |
| PlyAscii.AsciiFaceLine | generate_html_sampled.py:1509-1521 | one face line gives its triangle's three indices when kept, and nothing otherwise |
| PlyAscii.AsciiFacesAppend | generate_html_sampled.py:1509-1521 | the face loop over two runs of lines gives the indices of the first run followed by those of the second |
| PlyAscii.AsciiFaceKept | generate_html_sampled.py:1509-1521 | every kept face line's triangle appears in the result as an aligned triple |
| PlyAscii.DecodeAscii | generate_html_sampled.py:1469-1526 | the ASCII result has faces exactly when the count is positive, colours only when present, and indices inside the points; with an unreadable vertex count it is empty |
| PlyAscii.VertexLineRoundTrip | generate_html_sampled.py:1477-1488 | a vertex line written as `x y z` with integers reads back as those exact coordinates, with no overflow to `Infinity` |
| PlyAscii.FaceLineRoundTrip | generate_html_sampled.py:1509-1520 | with an index reader that reads printed integers back, a written face line `3 a b c` is accepted as that triangle exactly when its indices are in range |
| PlyAscii.AsciiReadsIntegers | generate_html_sampled.py:1512-1517 | `parseInt` reads back every integer printed in plain decimal |
| PlyAscii.AsciiFaceLineRoundTrip | generate_html_sampled.py:1509-1520 | with `parseInt` as the reader, a written face line `3 a b c` is accepted as that triangle exactly when its indices are in range |
| Ply.LegacyReader | generate_html.py:842-864 | the older layout is x, y, z [, normals] [, rgba], with colours last and never read outside a record |
| Ply.SampledReader | generate_html_sampled.py:1441-1451 | the sampled viewer reads records of the declared width, at the declared offsets and type, falling back to the estimate |
| Ply.FallbackReadsInside | generate_html_sampled.py:1443-1449 | the estimated layout never reads outside a record |
| Ply.AsciiBody | generate_html_sampled.py:1451-1459 | an ASCII body read with the header's counts is valid geometry with faces exactly when the face count is positive |
| Ply.LegacyBinary | generate_html.py:833-946 | the older viewer's binary body is valid geometry with faces exactly when the face count is positive, and fails only when the header length points past the end |
| Ply.BodyStart | generate_html_sampled.py:1337 | without an `end_header` line the body offset stays 0 |
| Ply.ParseSampled | generate_html_sampled.py:1303-1462 | a decoded PLY is valid geometry, has faces exactly when the header declares a positive face count, and fails only for a binary body |
| Ply.ParseLegacy | generate_html.py:684-776 | the same guarantees for the older viewer, whose only failure is a header that runs past the buffer |
| Ply.HeaderTextWindow | generate_html_sampled.py:1308 | the header depends only on the first 2000 bytes |
| Ply.LegacyAsciiWindow | generate_html.py:774 | the older viewer reads an ASCII file only from its first 2000 bytes |
| MultiScan.OrDefault | generate_html_sampled.py:1668 | a non-empty field is kept, and the fallback is used otherwise, so a non-empty fallback gives a non-empty result |
| MultiScan.Entry | generate_html_sampled.py:1688-1695 | reading past the end of the axes array gives `undefined`, which is not finite |
| MultiScan.Rotation3Layouts | generate_html_sampled.py:1686-1696 | the 9-entry and 16-entry layouts of the same rotation give the same matrix |
| MultiScan.ToQuaternion | generate_html_sampled.py:1700-1736 | a matrix with a non-finite entry gives the identity rotation |
| MultiScan.IdentityQuaternion | generate_html_sampled.py:1703-1711 | the identity matrix gives the identity quaternion |
| MultiScan.TraceBranchScalar | generate_html_sampled.py:1706-1711 | with a positive trace, qw is positive and qw^2 = (trace + 1) / 4 |
| MultiScan.ConvertObject | generate_html_sampled.py:1672-1753 | an object keeps its id and parts, and gets a non-empty label and mobility |
| MultiScan.ConvertObjects | generate_html_sampled.py:1672 | objects are converted one for one, in order |
| MultiScan.AddOnce | generate_html_sampled.py:1802-1805 | the name is present afterwards, no other object's list changes, and no object is invented |
| MultiScan.AddOnceIdempotent | generate_html_sampled.py:1803 | adding twice is adding once, and a list without repeats keeps none |
| MultiScan.MobilityAttributes | generate_html_sampled.py:1757-1766 | exactly the objects with a known mobility type get an entry, and the others keep theirs |
| MultiScan.MobilityLastWins | generate_html_sampled.py:1758-1765 | an object's entry is the mobility type of the last box with its id that has one |
| MultiScan.ArticulationAttributes | generate_html_sampled.py:1795-1813 | only objects that own a part can gain names, and the others keep their lists |
| MultiScan.Articulate | generate_html_sampled.py:1799-1813 | articulations touch only the object that owns the part |
| MultiScan.PartToObject | generate_html_sampled.py:1773-1778 | each listed part maps to an object that lists it, and every listed part is mapped |
| MultiScan.PartEdgesIff | generate_html_sampled.py:1781-1793 | an edge is a "part of" edge exactly when some part and its parent belong to two different objects |
| MultiScan.PairEdgesOnTop | generate_html_sampled.py:1830-1851 | a pair gives an edge from the higher box to the lower exactly when one rests on the other |
| MultiScan.HorizontallyCloseSymmetric | generate_html_sampled.py:1831-1834 | the horizontal test does not depend on the order of the pair |
| MultiScan.EdgesWithIff | generate_html_sampled.py:1820-1852 | the inner loop's edges are those of the later objects that rest on, or carry, the given one |
| MultiScan.OnTopEdgesIff | generate_html_sampled.py:1819-1854 | the inferred edges are exactly those of the pairs i < j where one rests on the other |
| MultiScan.StackedUnitBoxesNoEdge | generate_html_sampled.py:1835-1836 | unit boxes 0.3 apart overlap by 0.7 vertically and give no edge |
| MultiScan.ThinBoxesEdge | generate_html_sampled.py:1835-1849 | thin boxes touching at 0.4 apart give an "on top of" edge from the upper to the lower |
| MultiScan.Convert | generate_html_sampled.py:1667-1865 | the objects keep the input order and ids, and the scene id is never empty |
| MultiScan.ConvertEdges | generate_html_sampled.py:1769-1854 | the relationships are exactly the "part of" edges and the "on top of" edges |
| SceneGraph.Filter | generate_html_sampled.py:3349 | `filter` keeps exactly the elements that pass, in order |
| SceneGraph.FilterAppend | generate_html_sampled.py:3349 | filtering distributes over concatenation |
| SceneGraph.FindObject | generate_html_sampled.py:2644-2645 | `find` by id succeeds exactly when some object has the id |
| SceneGraph.FirstLabel | generate_html_sampled.py:2761 | `labels[0]` exists exactly when there is a label |
| SceneGraph.DisplayLabel | generate_html_sampled.py:2657 | the shown label is the first label, or `Object <id>`; it is never empty |
| SceneGraph.DatasetOf | generate_html_sampled.py:1885-1897 | `scene_` means MultiScan, `scene` without `_` means ScanNet, anything else 3RScan |
| SceneGraph.DatasetExamples | generate_html_sampled.py:1885-1897 | the three datasets' id formats are told apart |
| SceneGraph.ClassifySampledIff | generate_html_sampled.py:3349-3372 | a shown relationship has the object as subject and passes the type filter; it is "in between" exactly when its name contains `between` and it has two or more recipients, and "outgoing" otherwise |
| SceneGraph.AddedFor | generate_html_sampled.py:3364-3366 | the added relationships shown are those naming the object as subject or object |
| SceneGraph.ClassifyLegacyIff | generate_html.py:1755-1764 | outgoing relationships have the object as subject, incoming ones list it among the recipients, and both pass the type filter |
| SceneGraph.LegacySelfLoopTwice | generate_html.py:1755-1758 | the older viewer shows a self-loop under both headings |
| SceneGraph.ObjectMatchesFiltersIff | generate_html_sampled.py:3704-3718 | an object is listed exactly when no filter is set or it carries a selected attribute |
| SceneGraph.BeforeAsymmetric | generate_html_sampled.py:2779-2787 | the candidate comparator never puts two candidates before each other |
| SceneGraph.NotBeforeTransitive | generate_html_sampled.py:2779-2787 | "not before" is transitive, so the comparator is a consistent order |
| SceneGraph.SortCandidates | generate_html_sampled.py:2779-2787 | sorting gives an ordered permutation of the candidates |
| SceneGraph.SameClassFirst | generate_html_sampled.py:2784 | in the sorted list, every same-class candidate comes before every other one |
| SceneGraph.CandidateList | generate_html_sampled.py:2766-2778 | one candidate per object, built from the object |
| SceneGraph.Candidates | generate_html_sampled.py:2764-2787 | the candidate list is ordered and no longer than the object list |
| SceneGraph.CandidatesSound | generate_html_sampled.py:2764-2778 | every candidate is another object of the scene |
| SceneGraph.CandidatesComplete | generate_html_sampled.py:2764-2778 | every other object of the scene is a candidate |
| Session.FindPair | generate_html_sampled.py:2661-2664 | `findIndex` finds the first entry linking the pair in either order, or reports none |
| Session.RemoveAt | generate_html_sampled.py:2669 | `splice(i, 1)` removes exactly entry i and shifts the rest |
| Session.NewAnnotation | generate_html_sampled.py:2681-2688 | the new entry links the selected object to the candidate |
| Session.ToggleSimilarity | generate_html_sampled.py:2626-2699 | without a valid pair nothing changes; otherwise only the similarity list changes and the preview is cleared |
| Session.ToggleFlipsPair | generate_html_sampled.py:2661-2691 | marking a pair flips whether it is annotated |
| Session.ToggleKeepsOtherPairs | generate_html_sampled.py:2661-2691 | marking a pair leaves every other pair as it was |
| Session.ToggleKeepsNoDuplicates | generate_html_sampled.py:2661-2691 | toggling never creates a second entry for a pair |
| Session.ToggleTwiceRestores | generate_html_sampled.py:2626-2699 | marking the same candidate twice restores the list |
| Session.ToggleTwiceSamePairs | generate_html_sampled.py:2626-2699 | after two marks, the annotated pairs are those before |
| Session.AppendSimilarity | generate_html.py:1466-1493 | the older viewer refuses only a falsy selection, a self-pair or no graph, and otherwise always appends |
| Session.AppendSimilarityDuplicates | generate_html.py:1478-1485 | marking the same candidate twice there yields two entries for one pair |
| Session.DeleteAnnotation | generate_html_sampled.py:2865-2869 | deleting removes exactly that entry and touches nothing else |
| Session.DeleteUndoesToggle | generate_html_sampled.py:2866 | `splice(-1, 1)` undoes a mark that appended |
| Session.Validate | generate_html_sampled.py:2876-2880 | pressing a status stores it, or clears it when already stored; other keys are untouched |
| Session.ValidateTwice | generate_html_sampled.py:2876-2880 | pressing the same status twice returns to the start, except that a different earlier status is lost |
| Session.ValidateAttribute | generate_html_sampled.py:2872-2885 | only the attribute verdicts change, by the toggle rule |
| Session.ValidateRelationship | generate_html_sampled.py:3154-3167 | only the relationship verdicts change, by the toggle rule |
| Session.IndexOfId | generate_html_sampled.py:3145 | `findIndex` by id finds the first match, or reports none |
| Session.RemoveId | generate_html_sampled.py:3145-3150 | an absent id changes nothing, and a present one removes one entry |
| Session.AddAttribute | generate_html_sampled.py:3114-3140 | a name that is empty after trimming is refused; otherwise the trimmed name is appended with id `added_<object>_<ms>` |
| Session.DeleteUndoesAddAttribute | generate_html_sampled.py:3142-3151 | deleting the attribute just added restores the session |
| Session.AddRelationship | generate_html_sampled.py:3169-3204 | an empty predicate, or a target that reads as `NaN` or 0, is refused; otherwise the relationship is appended |
| Session.NoRelationshipToObjectZero | generate_html_sampled.py:3182-3185 | no added relationship targets object 0 |
| Session.DeleteUndoesAddRelationship | generate_html_sampled.py:3206-3215 | deleting the relationship just added towards an object picked from the target list restores the session, whether or not the addition was refused |
| Session.ClearValidations | generate_html_sampled.py:3095-3103 | clearing empties both verdict maps and both added lists, and keeps the similarity list |
| Session.LoadScene | generate_html_sampled.py:3939-3965 | a new scene clears the filters, verdicts and added lists, and keeps the similarity list |
| Session.LoadSceneById | generate_html_sampled.py:3874-3879 | picking the scene already loaded changes nothing; any other id is remembered and its graph loaded with the filters, verdicts and added lists cleared, keeping the similarity list, mode, selection and highlights |
| Session.LoadSceneByIdTwice | generate_html_sampled.py:3874-3875 | picking the same scene twice in a row is picking it once |
| Session.StepKeepsSceneId | generate_html_sampled.py:3874-3878 | only picking a different scene from the list changes the remembered scene id |
| Session.ReloadAfterRun | generate_html_sampled.py:3874-3875 | after any use of the controls that picks no other scene, picking the current scene again changes nothing, so the annotations made meanwhile survive |
| Session.SelectObject | generate_html_sampled.py:2588-2613 | clicking an object selects it and clears the highlights, in every mode, leaving the annotations, mode and colour counter alone |
| Session.SelectEnablesToggle | generate_html_sampled.py:2588-2691 | after selecting an object of the loaded scene, marking another object records the pair and marking it again removes it |
| Session.SetMode | generate_html_sampled.py:3746-3803 | pressing the active mode switches it off; similarity mode clears highlights; annotations are untouched |
| Session.SetModeTwice | generate_html_sampled.py:3748-3752 | pressing a mode button twice leaves no mode |
| Session.HighlightRelated | generate_html_sampled.py:3261-3274 | toggles one object's highlight with the next palette colour, leaving others alone |
| Session.HighlightTwice | generate_html_sampled.py:3261-3270 | highlighting and un-highlighting restores the highlights; only the colour counter moves |
| Session.HighlightBoth | generate_html_sampled.py:3276-3300 | two highlighted objects are both cleared; otherwise both end highlighted and the counter moves once per new one |
| Session.StepConsistent | generate_html_sampled.py:2626-3215 | every control keeps the annotations consistent: no duplicate pair, verdicts only `correct`/`incorrect`, no relationship to object 0 |
| Session.RunFromInitialConsistent | generate_html_sampled.py:1901-1918 | any sequence of controls from the opening state keeps them consistent |
| AnnotationDoc.Lookup | generate_html_sampled.py:2969 | the exported verdict is truthy exactly when a non-empty one is stored, and is then the stored one |
| AnnotationDoc.AttributeItems | generate_html_sampled.py:2964-2970 | one exported item per predicted attribute, carrying its id and verdict |
| AnnotationDoc.RelationshipItems | generate_html_sampled.py:2986-2992 | one exported item per predicted relationship, carrying its index and verdict |
| AnnotationDoc.Export | generate_html_sampled.py:2939-3001 | export is refused only with no graph outside similarity mode; it carries the similarity list, its total and the added lists |
| AnnotationDoc.SummaryCounts | generate_html_sampled.py:2975-2976 | the correct and incorrect counts add up to at most the stored verdicts, and to all of them when only the two statuses are stored |
| AnnotationDoc.Rebuild | generate_html_sampled.py:3043-3048 | the rebuilt map keeps only truthy verdicts |
| AnnotationDoc.Import | generate_html_sampled.py:3019-3074 | a refused scene mismatch changes nothing; each section absent from the file keeps its current value |
| AnnotationDoc.RebuildEntries | generate_html_sampled.py:3043-3048 | re-reading exported entries gives the verdict map restricted to the exported keys |
| AnnotationDoc.ExportImportRoundTrip | generate_html_sampled.py:2939-3074 | importing an export restores the similarity list, the added lists and the verdicts of existing items |
| AnnotationDoc.ExportImportRestores | generate_html_sampled.py:2939-3074 | for a consistent session whose verdicts name existing items, import after export is the identity |
| EvalSimilarity.Canon | evaluate_similarity.py:30-32 | `(min, max)` is ordered and holds the same two ids |
| EvalSimilarity.CanonIffLinks | evaluate_similarity.py:30-32 | two entries give the same pair exactly when they link the same objects |
| EvalSimilarity.GroundTruthPairsIff | evaluate_similarity.py:28-32 | a pair is ground truth exactly when some entry gives it |
| EvalSimilarity.GroundTruthCount | evaluate_similarity.py:28-37 | with no duplicate entries there are as many pairs as entries |
| EvalSimilarity.ValidatedObjects | evaluate_similarity.py:19-22 | the validated objects are those of the predicted attribute items |
| EvalSimilarity.ValidationOf | evaluate_similarity.py:16-38 | `total_annotations` counts the entries and bounds the pairs |
| EvalSimilarity.ReportValidationOf | generate_similarity_detail_report.py:21-42 | the report keeps a file exactly when its scene id is non-empty |
| EvalSimilarity.ExportedValidation | evaluate_similarity.py:19-37 | for an exported consistent session every entry is one pair and the validated objects are those with a predicted attribute |
| EvalSimilarity.PairsFrom | evaluate_similarity.py:82-86 | one object contributes a pair per related id when both ends are validated |
| EvalSimilarity.PredictedPairs | evaluate_similarity.py:74-88 | a key that is not an integer aborts; otherwise every pair has both ends validated |
| EvalSimilarity.PredictedPairsIff | evaluate_similarity.py:74-88 | a predicted pair is kept exactly when a validated object lists a validated related id |
| EvalSimilarity.ReportPredictedPairs | generate_similarity_detail_report.py:52-74 | a missing predictions file gives no pairs |
| EvalSimilarity.PredictionTwinsAgree | generate_similarity_detail_report.py:58-74 | when every key is an integer both scripts find the same pairs |
| EvalSimilarity.F1 | evaluate_similarity.py:114-117 | F1 lies in [0, 1] and is 0 exactly when precision or recall is 0 |
| EvalSimilarity.SplitCounts | evaluate_similarity.py:123-127 | tp + fp counts the predictions and tp + fn the ground truth |
| EvalSimilarity.ComputeMetrics | evaluate_similarity.py:98-128 | the counts add up, precision is tp over predictions and recall is tp over ground truth (0 when empty), and all three scores lie in [0, 1] |
| EvalSimilarity.PerfectPrediction | evaluate_similarity.py:98-128 | a non-empty prediction equal to the ground truth scores 1, 1, 1 |
| EvalSimilarity.ReportRecall | generate_similarity_detail_report.py:131 | the report's recall lies in [0, 1], and with no ground truth it is 1 exactly when nothing is predicted |
| EvalSimilarity.RecallConventions | generate_similarity_detail_report.py:131 | the two scripts' recalls differ exactly when both sets are empty |
| EvalSimilarity.PairsPartition | generate_similarity_detail_report.py:116-118 | tp, fp and fn pairs are disjoint and together cover every pair |
| EvalSimilarity.Totals | generate_similarity_detail_report.py:124-128 | summed counts still add up when each scene's do |
| EvalSimilarity.MicroPrecision | generate_similarity_detail_report.py:190 | the micro precision is total tp over total predictions, in [0, 1] |
| EvalSimilarity.MicroRecall | generate_similarity_detail_report.py:191 | the micro recall is total tp over total ground truth, in [0, 1] |
| EvalRelationship.VerdictOf | evaluate_relationship.py:41-55 | `correct` and `incorrect` are verdicts, null is unjudged, and anything else is counted nowhere |
| EvalRelationship.Judgements | evaluate_relationship.py:39-41 | each item is read for its predicate and its validation |
| EvalRelationship.Score | evaluate_relationship.py:31-57 | `total` is the number of items |
| EvalRelationship.OccurrencesCount | evaluate_relationship.py:43-55 | each counter counts exactly the items carrying its value |
| EvalRelationship.OccurrencesAccount | evaluate_relationship.py:43-55 | the three counters add up to at most the total, and to all of it exactly when no item has another value |
| EvalRelationship.ScoreAccounts | evaluate_relationship.py:31-57 | `correct + incorrect + null <= total`, with equality exactly when every validation is known |
| EvalRelationship.AccuracyBounds | evaluate_relationship.py:57 | the accuracy lies in [0, 1] and is 1 exactly when every item is correct |
| EvalRelationship.ScoreAccuracy | evaluate_relationship.py:57 | a scene's accuracy is 1 exactly when it has items and all are validated `correct` |
| EvalRelationship.PredicateAccuracy | evaluate_relationship.py:113-114 | a predicate's accuracy is correct over judged, or 0 with none judged, in [0, 1] |
| EvalRelationship.PredicateRow | evaluate_relationship.py:48-54 | a predicate's row counts the judgements of exactly its items |
| EvalRelationship.PredicateKeys | evaluate_relationship.py:48-54 | a predicate has a row exactly when some item of it was judged |
| EvalRelationship.ScorePredicateSums | evaluate_relationship.py:31-57 | the per-predicate rows sum to the scene's correct and incorrect counts |
| EvalRelationship.PredictedItems | evaluate_relationship.py:26-29 | a file contributes exactly when it has predicted relationship items |
| EvalRelationship.Process | evaluate_relationship.py:20-59 | a file without predicted relationships is skipped |
| EvalRelationship.LoadTotals | evaluate_relationship.py:20-59 | the totals are the sums over the processed files, even when a later file replaces an earlier one's scene |
| EvalRelationship.LoadSceneKeys | evaluate_relationship.py:24-58 | a scene key is present exactly when some processed file has it |
| EvalRelationship.LoadSceneValue | evaluate_relationship.py:24-58 | a scene holds the statistics of the last file with its key |
| EvalRelationship.LoadAccounts | evaluate_relationship.py:20-59 | `correct + incorrect + null <= total` over all files, with equality when every validation is known |
| EvalRelationship.LoadPredicateSums | evaluate_relationship.py:20-59 | the per-predicate rows sum to the global correct and incorrect totals |
| EvalRelationship.ExportedRelationshipsAccounted | evaluate_relationship.py:39-57 | for an exported consistent session every relationship lands in one counter |
| EvalRelationship.Merge | evaluate_relationship.py:252-254 | the merged table has the predicates of both |
| EvalRelationship.MergeSum | evaluate_relationship.py:252-254 | the merged rows sum to the sum of both tables |
| EvalRelationship.KeyInjective | evaluate_relationship.py:250 | `dataset/scene` keys from datasets without `/` never collide |
| EvalRelationship.CombineAccounts | evaluate_relationship.py:243-254 | combining keeps `correct + incorrect + null <= total`, and equality when each dataset has it |
| EvalRelationship.CombinePredicateSums | evaluate_relationship.py:243-254 | the combined rows sum to the combined totals when each dataset's do |
| EvalRelationship.CombineScenes | evaluate_relationship.py:249-250 | every dataset's scene appears under `dataset/scene` with its statistics |
| EvalRelationship.CombineKeys | evaluate_relationship.py:249-250 | every combined key is `dataset/scene` of some dataset's scene |
| EvalRelationship.CombineSingle | evaluate_relationship.py:243-254 | combining one dataset keeps its totals and rows |
| EvalAttribute.NamesOfAppend | evaluate_attribute.py:69-80 | the names of an object over two lists are those of the first, then of the second |
| EvalAttribute.NamesOfEmpty | evaluate_attribute.py:69-80 | an object has no names exactly when no entry mentions it |
| EvalAttribute.GroupNames | evaluate_attribute.py:95-99 | the `defaultdict(list)` grouping gives each object its names in input order |
| EvalAttribute.GroupKeys | evaluate_attribute.py:95-99 | an object is a key exactly when some entry mentions it |
| EvalAttribute.CorrectPredictedIff | evaluate_attribute.py:72-75 | a predicted attribute counts as ground truth exactly when it is validated `correct` |
| EvalAttribute.AddedNames | evaluate_attribute.py:78-80 | every added attribute counts as ground truth, in order |
| EvalAttribute.GroundTruthList | evaluate_attribute.py:69-82 | a file without attributes has no ground truth |
| EvalAttribute.GroundTruthOfObject | evaluate_attribute.py:69-82 | an object's ground truth is its correct predicted names, then its added names |
| EvalAttribute.PredictionList | evaluate_attribute.py:95-101 | one prediction per scene-graph attribute, none when absent |
| EvalAttribute.DisplayOrderFree | evaluate_attribute.py:153-154 | the display text does not depend on the order of the names |
| EvalAttribute.ObjectResultOf | evaluate_attribute.py:125-183 | an object with no names on either side is skipped; a two-sided one scores the trials' mean, and a one-sided one scores 0 with `(none)` on the empty side |
| EvalAttribute.ResultsForEach | evaluate_attribute.py:124-183 | when every id has names on some side, there is exactly one result per id, in id order, carrying that id's ground-truth and predicted names |
| EvalAttribute.Mean | evaluate_attribute.py:186 | the average times the count is the total, and 0 when nothing was scored |
| EvalAttribute.Evaluate | evaluate_attribute.py:104-194 | `total_objects` counts the results and the average is the mean of their scores |
| EvalAttribute.EvaluatedNames | evaluate_attribute.py:125-126 | each result carries its object's ground-truth and predicted names |
| EvalAttribute.EvaluatedInOrder | evaluate_attribute.py:124 | the results are in strictly increasing object order |
| EvalAttribute.EvaluatedObjects | evaluate_attribute.py:118-129 | an object has a result exactly when it appears in the ground truth or the predictions |
| EvalAttribute.EvaluatedCount | evaluate_attribute.py:118-171 | `total_objects` is the size of the union of both id sets |
| EvalAttributeAll.SceneIdOfStem | evaluate_attribute_all.py:25-31 | ScanNet stems give `parts[1]_parts[2]` and others `parts[1]`; too few parts gives no id |
| EvalAttributeAll.StemOfJson | evaluate_attribute_all.py:23 | the stem of `w.json` is `w` |
| EvalAttributeAll.ScanNetSceneId | evaluate_attribute_all.py:19-21 | `annotations_sceneXXXX_YY_<ts>.json` gives `sceneXXXX_YY` |
| EvalAttributeAll.RScanSceneId | evaluate_attribute_all.py:19-20 | `annotations_<uuid>_<ts>.json` gives the uuid |
| EvalAttributeAll.MinSimilarity | evaluate_attribute_all.py:166 | the minimum is one of the scenes' averages and below all of them |
| EvalAttributeAll.MaxSimilarity | evaluate_attribute_all.py:167 | the maximum is one of the scenes' averages and above all of them |
| EvalAttributeAll.AggregateResults | evaluate_attribute_all.py:146-168 | with no scenes all zeros; otherwise the scene count, the object sum, the mean of averages and the attained extremes |
| EvalAttributeAll.AverageWithinExtremes | evaluate_attribute_all.py:161-167 | the overall average lies between the minimum and the maximum |
| Sampling.SampleObjects | sample_scene_graphs.py:14-56 | the result is sorted and holds the ids of the sampled objects |
| Sampling.PartsExact | sample_scene_graphs.py:29-36 | agents, targetable and non-targetable objects split the object list |
| Sampling.AgentIdsExact | sample_scene_graphs.py:29-33 | an object is excluded from the rest exactly when it is an agent |
| Sampling.SampledFromObjects | sample_scene_graphs.py:39-54 | every sampled object is drawn from the scene, without repeats beyond the scene's own |
| Sampling.AgentsSampled | sample_scene_graphs.py:28-54 | every agent is sampled, for any request, when object ids are distinct |
| Sampling.SampleSize | sample_scene_graphs.py:39-54 | the sample has all agents when they fill the request, and otherwise `min(n, objects)` objects |
| Sampling.TargetablePreferred | sample_scene_graphs.py:45-51 | a non-targetable object is sampled only when the targetable ones do not fill the request |
| Sampling.SampledIds | sample_scene_graphs.py:56 | every sampled id names an object of the scene, and every agent's id is sampled |
| Sampling.ReductionPercentage | sample_scene_graphs.py:128 | the percentage lies in [0, 100] and is 0 exactly when nothing was dropped or there was nothing |
| Sampling.FilterSceneGraph | sample_scene_graphs.py:59-131 | the graph keeps its id and source and never gains objects; the statistics count the original relationships and the kept ones, never more than the original, with a reduction percentage in [0, 100] |
| Sampling.SampledGraphClosed | sample_scene_graphs.py:84-97 | every kept relationship and attribute mentions only kept objects |
| Sampling.KeptExactly | sample_scene_graphs.py:87-97 | a relationship or attribute is kept exactly when all its objects are sampled |
| Sampling.AgentCountKept | sample_scene_graphs.py:74-81 | all agent objects survive the sampling |

## Left out

- Rendering, the DOM, three.js scenes, cameras, lines and colours on screen.
  These are effects without results the model could state.
- File and network I/O (`fetch`, `FileReader`, `glob`, `json.load`,
  `json.dump`, `shutil.copy2`). Their contents are inputs here.
- The string-input branch of `parsePLY`. Every caller passes an
  `ArrayBuffer`.
- The Python MultiScan converter in generate_html_sampled.py:177-241. It
  only feeds the pages and duplicates the JavaScript one.
- `JsText.ParseFloat`: the decimal value is exact. Rounding to the nearest
  double is not modelled, and neither are its two extremes:
  - A literal too large for a double, such as `1e400`, is `Infinity` in
    the page. The vertex reader then turns it into 0 (generate_html_sampled.py:1481-1487).
    The model keeps the exact value, and the bounds then exclude the point
    as implausible.
  - A literal too small for a double, such as `1e-400`, is 0 in the page.
    The model keeps the exact non-zero value, so a point the page sees as
    the origin is not the origin here.
- `JsText.ParseFloatIntToString`: the exact read-back holds in the model
  for every integer. In the page it holds only below 2^1024; larger
  integers read as `Infinity`, and beyond 2^53 not every integer is a
  double.
- `JsText.ParseFloatSigned`: the exact value is stated for every literal.
  In the page a literal outside the double range reads as `Infinity` or
  0.
- `JsText.ParseUnsignedFloatDecimal`: the exact value is stated for every
  digit string. In the page a value past the double range reads as
  `Infinity`.
- `PlyAscii.VertexLineRoundTrip`: written integer coordinates read back
  exactly for every integer. In the page this holds only for integers a
  double represents exactly, which include every integer up to 2^53.
- `JsText.IntToString`: integers are printed in plain decimal, however
  large. The page prints a number of 1e21 or more in exponent form
  (`String(1e21)` is `"1e+21"`), and numbers beyond 2^53 are not exact.
  The ids and indices the page prints are far below either limit.
- `JsText.ParseIntToString`: the read-back holds in the model for every
  integer. In the page it holds only for integers below 1e21 in magnitude
  that a double holds exactly; `parseInt("1e+21")` is 1.
- `PlyAscii.AsciiReadsIntegers`: it inherits the unbounded printing of
  `JsText.IntToString`. The page's `parseInt` reads back printed integers
  only below 1e21 in magnitude that a double holds exactly.
- `Numeric.Float32At`, `Numeric.Float64At`: values are exact reals.
  Float32 rounding of the GPU buffer is not modelled.
- The sRGB transfer `Math.pow((c + 0.055) / 1.055, 2.4)` and `Math.sqrt`
  are parameters. Their values matter only to the colours and rotations
  on screen.
- `Sampling.SampledObjects`: `random.sample` with a seed is a parameter.
  It is only assumed to draw the requested number of entries from its
  population, so the exact sample is not predicted.
- `EvalAttribute.ObjectResultOf`: the CLIP model, the shuffles and
  `np.std` are one trials parameter. The mean is taken from it, not
  recomputed.
- `EvalAttributeAll.AggregateResults`: `std_similarity` and the image
  metrics (evaluate_attribute_all.py:163, 170-190) are not modelled.
  They are floating-point statistics of values the model does not
  compute.
- `evaluate_all_scenes`, `find_validation_and_scene_graph_pairs`,
  `print_results`, the LaTeX generator and the markdown report layout.
  These are directory walks and text formatting.
- `EvalRelationship.PredictedItems`: a file whose `predicted` entry has no
  `items` is read as having no predicted relationships. The script would
  raise `KeyError` there.
- `EvalAttributeAll.SceneIdOfStem`: a stem with too few `_` parts gives no
  id, where the script raises `IndexError`.
- `AnnotationDoc.Import`: the verdict maps hold whatever string the file
  stores, as the page does. After an import, only export/import round
  trips are stated, not `Session.Consistent`.
- The camera fitting after a scene load. It only moves the view.
- `MultiScan.Convert`: the attribute map is described member by member
  (`AddOnce`, `Articulate`), not by one closed-form contract.
- `MultiScan.ArticulationAttributes`: its own contract states only which
  objects it can touch and that others keep their lists. The added names
  are stated by `AddOnce` and `Articulate`.
- `PlyHeader.Scan`: its own contract states only the shape of the result
  (the end line). The values are stated by `ScannedLinesShape`,
  `ScanFlags`, `ScanLayout` and the `PropertyWidth*` lemmas.
- `PlyHeader.HeaderLength`: its own contract only bounds the length. The
  exact byte count is stated by `HeaderLengthFound`, `Utf8LengthAscii`
  and `Utf8LengthAppend`.
- `PlyAscii.AsciiVertices`: its own contract states only the sizes. The
  points and colours read from each line are stated by `AsciiVertexLine`,
  `AsciiVerticesAppend` and `AsciiPointsIff`.
- `PlyAscii.AsciiFaces`: its own contract states only that the triangles
  are in range. Which lines give which triangles is stated by
  `AsciiFaceLine`, `AsciiFacesAppend`, `AsciiFaceKept` and
  `AsciiFaceLineRoundTrip`.
- ASCII tokens are read through a `TokenReader`. `PlyAscii.AsciiReader`
  gives the page's readers (`Coordinate`, `AsciiChannel`, `ParseInt`).
- `JsText.ToLower`: only ASCII capitals are lowered. `toLowerCase` also
  maps other cased letters ("É" to "é", and "İ" to the two characters
  "i̇"), so it need not keep the length. Its one use is the `includes`
  test for "between" (`SceneGraph.IsBetween`). No character outside A-Z
  lowers to any of the letters b, e, t, w, n, so the test gives the same
  answer either way.
- `SceneGraph.SortCandidates`: labels are compared by code point, where
  the page uses `localeCompare`. The two orders differ on case and
  accents: `"chair".localeCompare("Table")` is negative, but by code point
  `"Table"` comes first. The stability of `Array.prototype.sort` (equal
  keys keep their input order) is not stated either.
- `SceneGraph.Candidates`: it inherits the code-point order of
  `SortCandidates`.
- `EvalSimilarity.ValidatedObjects`: a `predicted` entry without `items`
  is read as empty. The script raises `KeyError` there
  (evaluate_similarity.py:21).
- `EvalAttribute.GroundTruthList`: a `predicted` entry without `items` is
  read as empty. The script raises `KeyError` there
  (evaluate_attribute.py:73).
- `Mesh.ColorsAt`: it stops at the first index with no colour. The page
  pushes `undefined` components there instead
  (generate_html_sampled.py:4062-4065).
- `EvalRelationship.SceneKey`: a `scene_id` stored as `null` falls back to
  the file stem. Python's `dict.get` keeps `None` there.
- The detail report's per-scene and overall F1
  (generate_similarity_detail_report.py:132, 192) have no member of their
  own. They use the formula of `EvalSimilarity.F1`.

=== FILE: annotation_doc.dfy ===
/** The annotation file: what `exportAnnotations` writes and what
    `processAnnotationFile` reads back. Predicted attributes and
    relationships carry their validation inline (`null` when none); the
    added lists and the similarity entries are written as they are. */
module AnnotationDoc {
  import opened Wrappers
  import opened SceneGraph
  import opened Session

  datatype AttributeItem = AttributeItem(id: int, objectId: int, name: string, kind: Option<string>,
                                         validation: Option<string>)

  /** A predicted relationship as written: its position in the predicted
      list, subject, predicate, recipients and validation. */
  datatype RelationshipItem = RelationshipItem(index: int, subjectId: int, predicateName: string,
                                               objectIds: seq<int>, validation: Option<string>)

  datatype Summary = Summary(predictedTotal: nat, correct: nat, incorrect: nat, added: nat)

  datatype ExportDoc = ExportDoc(
    sceneId: string,
    timestamp: string,
    annotationType: string,
    similarity: seq<SimilarityAnnotation>,
    similarityTotal: nat,
    attributeItems: seq<AttributeItem>,
    addedAttributes: seq<AddedAttribute>,
    attributeSummary: Summary,
    relationshipItems: seq<RelationshipItem>,
    addedRelationships: seq<AddedRelationship>,
    relationshipSummary: Summary)

  /** A JavaScript string is truthy unless it is empty. */
  predicate Truthy(v: Option<string>) {
    v.Some? && v.value != ""
  }

  /** `map[k] || null`. */
  function Lookup(m: map<int, string>, k: int): (r: Option<string>)
    ensures Truthy(r) <==> k in m && m[k] != ""
    ensures r.Some? ==> k in m && r.value == m[k]
  {
    if k in m && m[k] != "" then Some(m[k]) else None
  }

  /** `Object.values(map).filter(v => v === value).length`. */
  function CountValue(m: map<int, string>, value: string): nat {
    |set k | k in m && m[k] == value|
  }

  function ModeName(m: Option<Mode>): string {
    match m
    case Some(SimilarityMode) => "similarity"
    case Some(AttributeMode) => "attribute"
    case Some(RelationshipMode) => "relationship"
    case None => "all"
  }

  function AttributeItems(attrs: seq<SgAttribute>, m: map<int, string>): (r: seq<AttributeItem>)
    ensures |r| == |attrs|
    ensures forall i :: 0 <= i < |r| ==> r[i].id == attrs[i].id && r[i].validation == Lookup(m, attrs[i].id)
  {
    seq(|attrs|, i requires 0 <= i < |attrs| =>
      var a := attrs[i];
      AttributeItem(a.id, a.objectId, a.name, if a.kind.Some? && a.kind.value != "" then a.kind else None,
                    Lookup(m, a.id)))
  }

  function RelationshipItems(rels: seq<SgRelationship>, m: map<int, string>): (r: seq<RelationshipItem>)
    ensures |r| == |rels|
    ensures forall i :: 0 <= i < |r| ==> r[i].index == i && r[i].validation == Lookup(m, i)
  {
    seq(|rels|, i requires 0 <= i < |rels| =>
      RelationshipItem(i, rels[i].subjectId, rels[i].name, rels[i].recipients, Lookup(m, i)))
  }

  /** `exportAnnotations`. Without a loaded scene graph it refuses (an
      alert), unless similarity mode is on; then the predicted lists are
      empty. The scene id is the graph's, else the one picked from the
      list; with neither it is `null` in the file, written here as the empty
      string, which the import treats the same way. */
  function Export(s: Session, timestamp: string): (r: Option<ExportDoc>)
    ensures r.None? <==> s.graph.None? && s.mode != Some(SimilarityMode)
    ensures r.Some? ==> r.value.similarity == s.similarity && r.value.similarityTotal == |s.similarity|
    ensures r.Some? ==> r.value.addedAttributes == s.addedAttributes && r.value.addedRelationships == s.addedRelationships
    ensures r.Some? && s.graph.Some? ==>
      |r.value.attributeItems| == |s.graph.value.attributes| && |r.value.relationshipItems| == |s.graph.value.relationships|
    ensures r.Some? && s.graph.None? ==> r.value.attributeItems == [] && r.value.relationshipItems == []
  {
    if s.graph.None? && s.mode != Some(SimilarityMode) then None
    else
      var attrs := if s.graph.Some? then s.graph.value.attributes else [];
      var rels := if s.graph.Some? then s.graph.value.relationships else [];
      var sceneId := if s.graph.Some? && s.graph.value.id != "" then s.graph.value.id
                     else if s.currentSceneId.Some? then s.currentSceneId.value else "";
      Some(ExportDoc(
        sceneId, timestamp, ModeName(s.mode),
        s.similarity, |s.similarity|,
        AttributeItems(attrs, s.attributeValidations), s.addedAttributes,
        Summary(|attrs|, CountValue(s.attributeValidations, Correct), CountValue(s.attributeValidations, Incorrect),
                |s.addedAttributes|),
        RelationshipItems(rels, s.relationshipValidations), s.addedRelationships,
        Summary(|rels|, CountValue(s.relationshipValidations, Correct), CountValue(s.relationshipValidations, Incorrect),
                |s.addedRelationships|)))
  }

  /** The summary counts never exceed the number of validated keys, and
      account for all of them when only the two statuses are stored. */
  lemma SummaryCounts(m: map<int, string>)
    ensures CountValue(m, Correct) + CountValue(m, Incorrect) <= |m|
    ensures StatusesOnly(m) ==> CountValue(m, Correct) + CountValue(m, Incorrect) == |m|
  {
    var st := set k | k in m && IsStatus(m[k]);
    CountsSplit(m);
    assert |st| <= |m.Keys| by { SubsetSize(st, m.Keys); }
    if StatusesOnly(m) {
      forall k | k in m.Keys ensures k in st { assert IsStatus(m[k]); }
      assert st == m.Keys;
    }
  }

  /** The two counts together count the keys holding a status. */
  lemma CountsSplit(m: map<int, string>)
    ensures CountValue(m, Correct) + CountValue(m, Incorrect) == |set k | k in m && IsStatus(m[k])|
  {
    var c := set k | k in m && m[k] == Correct;
    var i := set k | k in m && m[k] == Incorrect;
    assert c * i == {};
    assert (set k | k in m && IsStatus(m[k])) == c + i;
  }

  lemma SubsetSize(a: set<int>, b: set<int>)
    requires a <= b
    ensures |a| <= |b|
  {
    assert b == a + (b - a);
  }

  // ---------------------------------------------------------------------
  // Reading a file back

  /** The `attributes` part of a file: `predicted.items` and `added`, each
      possibly missing. */
  datatype AttributeSection = AttributeSection(items: Option<seq<AttributeItem>>, added: Option<seq<AddedAttribute>>)

  datatype RelationshipSection = RelationshipSection(items: Option<seq<RelationshipItem>>,
                                                     added: Option<seq<AddedRelationship>>)

  /** An annotation file as read: every section may be missing. */
  datatype ImportDoc = ImportDoc(
    sceneId: Option<string>,
    similarity: Option<seq<SimilarityAnnotation>>,
    attributes: Option<AttributeSection>,
    relationships: Option<RelationshipSection>)

  /** A validation as read back: the key it is stored under and its value. */
  datatype Entry = Entry(key: int, validation: Option<string>)

  /** The `forEach` that rebuilds a validation map: each item with a truthy
      validation stores it under its key, later items overriding earlier
      ones. */
  function Rebuild(es: seq<Entry>): (m: map<int, string>)
    ensures forall k :: k in m ==> m[k] != ""
    decreases |es|
  {
    if |es| == 0 then map[]
    else
      var m := Rebuild(es[..|es| - 1]);
      var e := es[|es| - 1];
      if Truthy(e.validation) then m[e.key := e.validation.value] else m
  }

  function AttributeEntries(items: seq<AttributeItem>): seq<Entry> {
    seq(|items|, i requires 0 <= i < |items| => Entry(items[i].id, items[i].validation))
  }

  function RelationshipEntries(items: seq<RelationshipItem>): seq<Entry> {
    seq(|items|, i requires 0 <= i < |items| => Entry(items[i].index, items[i].validation))
  }

  /** The file is for another scene than the one loaded. */
  predicate SceneMismatch(s: Session, doc: ImportDoc) {
    doc.sceneId.Some? && doc.sceneId.value != "" && s.graph.Some? && doc.sceneId.value != s.graph.value.id
  }

  /** `processAnnotationFile`. When the file names another scene and the
      user declines to go on, nothing changes. Otherwise every section
      present replaces its part of the state (a validation map is rebuilt
      from scratch) and every section missing leaves it alone. */
  function Import(s: Session, doc: ImportDoc, confirm: bool): (r: Session)
    ensures SceneMismatch(s, doc) && !confirm ==> r == s
    ensures r == s.(similarity := r.similarity,
                    attributeValidations := r.attributeValidations, addedAttributes := r.addedAttributes,
                    relationshipValidations := r.relationshipValidations, addedRelationships := r.addedRelationships)
    ensures doc.similarity.None? ==> r.similarity == s.similarity
    ensures doc.attributes.None? || doc.attributes.value.items.None? ==> r.attributeValidations == s.attributeValidations
    ensures doc.attributes.None? || doc.attributes.value.added.None? ==> r.addedAttributes == s.addedAttributes
    ensures doc.relationships.None? || doc.relationships.value.items.None? ==>
      r.relationshipValidations == s.relationshipValidations
    ensures doc.relationships.None? || doc.relationships.value.added.None? ==>
      r.addedRelationships == s.addedRelationships
  {
    if SceneMismatch(s, doc) && !confirm then s
    else
      var s1 := if doc.similarity.Some? then s.(similarity := doc.similarity.value) else s;
      var s2 := match doc.attributes
        case None => s1
        case Some(sec) =>
          var t := if sec.items.Some? then s1.(attributeValidations := Rebuild(AttributeEntries(sec.items.value))) else s1;
          if sec.added.Some? then t.(addedAttributes := sec.added.value) else t;
      match doc.relationships
      case None => s2
      case Some(sec) =>
        var t := if sec.items.Some? then s2.(relationshipValidations := Rebuild(RelationshipEntries(sec.items.value))) else s2;
        if sec.added.Some? then t.(addedRelationships := sec.added.value) else t
  }

  /** A written file as the reader sees it: every section is present. */
  function AsImport(d: ExportDoc): ImportDoc {
    ImportDoc(Some(d.sceneId), Some(d.similarity),
              Some(AttributeSection(Some(d.attributeItems), Some(d.addedAttributes))),
              Some(RelationshipSection(Some(d.relationshipItems), Some(d.addedRelationships))))
  }

  /** A validation map narrowed to the given keys and to truthy values. */
  function Restrict(m: map<int, string>, keys: set<int>): map<int, string> {
    map k | k in m && k in keys && m[k] != "" :: m[k]
  }

  function Entries(keys: seq<int>, m: map<int, string>): seq<Entry> {
    seq(|keys|, i requires 0 <= i < |keys| => Entry(keys[i], Lookup(m, keys[i])))
  }

  /** Rebuilding from the entries written for `keys` gives back the map
      restricted to those keys. */
  lemma {:induction false} RebuildEntries(keys: seq<int>, m: map<int, string>)
    ensures Rebuild(Entries(keys, m)) == Restrict(m, set k | k in keys)
    decreases |keys|
  {
    var es := Entries(keys, m);
    if |keys| > 0 {
      var n := |keys| - 1;
      assert es[..n] == Entries(keys[..n], m);
      RebuildEntries(keys[..n], m);
      assert (set k | k in keys) == (set k | k in keys[..n]) + {keys[n]} by {
        assert keys == keys[..n] + [keys[n]];
      }
    } else {
      assert (set k | k in keys) == {};
    }
  }

  function AttributeKeys(attrs: seq<SgAttribute>): seq<int> {
    seq(|attrs|, i requires 0 <= i < |attrs| => attrs[i].id)
  }

  function Positions(n: nat): seq<int> {
    seq(n, i requires 0 <= i < n => i)
  }

  /** The ids of the predicted attributes. */
  function AttributeIds(s: Session): set<int> {
    if s.graph.Some? then set k | k in AttributeKeys(s.graph.value.attributes) else {}
  }

  /** The positions of the predicted relationships. */
  function RelationshipPositions(s: Session): set<int> {
    if s.graph.Some? then set k | k in Positions(|s.graph.value.relationships|) else {}
  }

  /** Writing the annotations and reading the file back (with the scene
      check passed) restores the similarity entries and both added lists
      verbatim, and each validation map restricted to the predicted
      attribute ids and relationship positions. Nothing else changes. */
  lemma ExportImportRoundTrip(s: Session, timestamp: string, confirm: bool)
    requires Export(s, timestamp).Some?
    requires confirm || s.graph.None? || s.graph.value.id != ""
    ensures var r := Import(s, AsImport(Export(s, timestamp).value), confirm);
      && r.similarity == s.similarity
      && r.addedAttributes == s.addedAttributes
      && r.addedRelationships == s.addedRelationships
      && r.attributeValidations == Restrict(s.attributeValidations, AttributeIds(s))
      && r.relationshipValidations == Restrict(s.relationshipValidations, RelationshipPositions(s))
      && r == s.(similarity := r.similarity,
                 attributeValidations := r.attributeValidations, addedAttributes := r.addedAttributes,
                 relationshipValidations := r.relationshipValidations, addedRelationships := r.addedRelationships)
  {
    var d := Export(s, timestamp).value;
    assert confirm || !SceneMismatch(s, AsImport(d));
    AttributeMapRoundTrip(s, timestamp);
    RelationshipMapRoundTrip(s, timestamp);
  }

  /** The attribute validations read back from a written file. */
  lemma AttributeMapRoundTrip(s: Session, timestamp: string)
    requires Export(s, timestamp).Some?
    ensures Rebuild(AttributeEntries(Export(s, timestamp).value.attributeItems))
         == Restrict(s.attributeValidations, AttributeIds(s))
  {
    var d := Export(s, timestamp).value;
    var attrs := if s.graph.Some? then s.graph.value.attributes else [];
    assert AttributeEntries(d.attributeItems) == Entries(AttributeKeys(attrs), s.attributeValidations);
    RebuildEntries(AttributeKeys(attrs), s.attributeValidations);
    assert (set k | k in AttributeKeys(attrs)) == AttributeIds(s);
  }

  /** The relationship validations read back from a written file. */
  lemma RelationshipMapRoundTrip(s: Session, timestamp: string)
    requires Export(s, timestamp).Some?
    ensures Rebuild(RelationshipEntries(Export(s, timestamp).value.relationshipItems))
         == Restrict(s.relationshipValidations, RelationshipPositions(s))
  {
    var d := Export(s, timestamp).value;
    var rels := if s.graph.Some? then s.graph.value.relationships else [];
    assert RelationshipEntries(d.relationshipItems) == Entries(Positions(|rels|), s.relationshipValidations);
    RebuildEntries(Positions(|rels|), s.relationshipValidations);
    assert (set k | k in Positions(|rels|)) == RelationshipPositions(s);
  }

  /** Restricting a map of statuses to a superset of its keys changes nothing. */
  lemma RestrictAll(m: map<int, string>, keys: set<int>)
    requires StatusesOnly(m) && m.Keys <= keys
    ensures Restrict(m, keys) == m
  {
    forall k | k in m ensures m[k] != "" { assert IsStatus(m[k]); }
  }

  /** With a consistent state whose validations all concern predicted
      attributes and relationships, the round trip restores both maps
      exactly. */
  lemma ExportImportRestores(s: Session, timestamp: string, confirm: bool)
    requires Export(s, timestamp).Some?
    requires confirm || s.graph.None? || s.graph.value.id != ""
    requires Consistent(s)
    requires s.attributeValidations.Keys <= AttributeIds(s)
    requires s.relationshipValidations.Keys <= RelationshipPositions(s)
    ensures Import(s, AsImport(Export(s, timestamp).value), confirm) == s
  {
    ExportImportRoundTrip(s, timestamp, confirm);
    RestrictAll(s.attributeValidations, AttributeIds(s));
    RestrictAll(s.relationshipValidations, RelationshipPositions(s));
  }
}

=== FILE: eval_attribute.dfy ===
/** The attribute evaluation of one scene (`evaluate_attribute.py`): the
    ground truth of an annotation file (predicted attributes judged
    'correct' plus the attributes the annotator added), the predictions of
    the scene graph, both grouped by object, and the per-object comparison
    whose scores come from a text-similarity model. */
module EvalAttribute {
  import opened Wrappers
  import opened JsText
  import opened PyText
  import opened Session
  import opened SceneGraph
  import opened AnnotationDoc

  /** One attribute name attached to one object. */
  datatype Named = Named(objectId: int, name: string)

  // ---------------------------------------------------------------------
  // `defaultdict(list)` keyed by object id

  /** A read of the grouping: `d.get(obj_id, [])`. */
  function Names(m: map<int, seq<string>>, o: int): seq<string> {
    if o in m then m[o] else []
  }

  /** Appending each name, in order, to the list of its object. */
  function Group(ps: seq<Named>): (m: map<int, seq<string>>)
    decreases |ps|
  {
    if |ps| == 0 then map[]
    else
      var m := Group(ps[..|ps| - 1]);
      var x := ps[|ps| - 1];
      m[x.objectId := Names(m, x.objectId) + [x.name]]
  }

  /** Reference reading: the names given to `o`, in the order they occur. */
  function NamesOf(ps: seq<Named>, o: int): seq<string> {
    if |ps| == 0 then []
    else (if ps[0].objectId == o then [ps[0].name] else []) + NamesOf(ps[1..], o)
  }

  /** The object ids of a list of names, in order. */
  function ObjectIds(ps: seq<Named>): (r: seq<int>)
    ensures |r| == |ps|
    ensures forall k :: 0 <= k < |ps| ==> r[k] == ps[k].objectId
  {
    seq(|ps|, k requires 0 <= k < |ps| => ps[k].objectId)
  }

  lemma {:induction false} NamesOfAppend(a: seq<Named>, b: seq<Named>, o: int)
    ensures NamesOf(a + b, o) == NamesOf(a, o) + NamesOf(b, o)
  {
    if |a| > 0 {
      assert (a + b)[1..] == a[1..] + b;
      NamesOfAppend(a[1..], b, o);
    } else {
      assert a + b == b;
    }
  }

  /** An object gets a names list exactly when a name is given to it. */
  lemma {:induction false} NamesOfEmpty(ps: seq<Named>, o: int)
    ensures NamesOf(ps, o) == [] <==> o !in ObjectIds(ps)
  {
    if |ps| > 0 {
      NamesOfEmpty(ps[1..], o);
      assert ObjectIds(ps) == [ps[0].objectId] + ObjectIds(ps[1..]);
    }
  }

  /** The grouping holds, for every object, the names given to it in their
      order. */
  lemma {:induction false} GroupNames(ps: seq<Named>, o: int)
    ensures Names(Group(ps), o) == NamesOf(ps, o)
    decreases |ps|
  {
    if |ps| > 0 {
      var init := ps[..|ps| - 1];
      var x := ps[|ps| - 1];
      GroupNames(init, o);
      assert ps == init + [x];
      NamesOfAppend(init, [x], o);
      assert NamesOf([x], o) == (if x.objectId == o then [x.name] else []);
    }
  }

  /** The grouping holds exactly the objects that were given a name. */
  lemma {:induction false} GroupKeys(ps: seq<Named>, o: int)
    ensures o in Group(ps) <==> o in ObjectIds(ps)
    decreases |ps|
  {
    if |ps| > 0 {
      var init := ps[..|ps| - 1];
      GroupKeys(init, o);
      assert ObjectIds(ps) == ObjectIds(init) + [ps[|ps| - 1].objectId];
    }
  }

  // ---------------------------------------------------------------------
  // Loading

  /** The predicted attributes whose validation is 'correct', in order. */
  function CorrectPredicted(items: seq<AttributeItem>): (r: seq<Named>)
    ensures |r| <= |items|
  {
    if |items| == 0 then []
    else
      (if items[0].validation == Some(Correct) then [Named(items[0].objectId, items[0].name)] else [])
      + CorrectPredicted(items[1..])
  }

  /** A name comes from a predicted item exactly when some item judged
      'correct' carries it. */
  lemma {:induction false} CorrectPredictedIff(items: seq<AttributeItem>, x: Named)
    ensures x in CorrectPredicted(items) <==>
              exists k :: 0 <= k < |items| && items[k].validation == Some(Correct)
                            && x == Named(items[k].objectId, items[k].name)
  {
    if |items| > 0 {
      CorrectPredictedIff(items[1..], x);
      if x in CorrectPredicted(items[1..]) {
        var k :| 0 <= k < |items[1..]| && items[1..][k].validation == Some(Correct)
                  && x == Named(items[1..][k].objectId, items[1..][k].name);
        assert items[k + 1] == items[1..][k];
      }
      if exists k :: 0 <= k < |items| && items[k].validation == Some(Correct)
                     && x == Named(items[k].objectId, items[k].name) {
        var k :| 0 <= k < |items| && items[k].validation == Some(Correct)
                 && x == Named(items[k].objectId, items[k].name);
        if k > 0 {
          assert items[1..][k - 1] == items[k];
        }
      }
    }
  }

  /** Every added attribute, in order. */
  function AddedNames(added: seq<AddedAttribute>): (r: seq<Named>)
    ensures |r| == |added|
    ensures forall k :: 0 <= k < |added| ==> r[k] == Named(added[k].objectId, added[k].name)
  {
    seq(|added|, k requires 0 <= k < |added| => Named(added[k].objectId, added[k].name))
  }

  /** `load_ground_truth`: the correct predictions first, then the added
      attributes. */
  function GroundTruthList(doc: ImportDoc): (r: seq<Named>)
    ensures doc.attributes.None? ==> r == []
  {
    if doc.attributes.None? then []
    else CorrectPredicted(doc.attributes.value.items.GetOr([])) + AddedNames(doc.attributes.value.added.GetOr([]))
  }

  /** The ground truth of an object lists its correct predicted attributes
      and then the attributes added to it. */
  lemma GroundTruthOfObject(doc: ImportDoc, o: int)
    requires doc.attributes.Some?
    ensures Names(Group(GroundTruthList(doc)), o)
            == NamesOf(CorrectPredicted(doc.attributes.value.items.GetOr([])), o)
               + NamesOf(AddedNames(doc.attributes.value.added.GetOr([])), o)
  {
    GroupNames(GroundTruthList(doc), o);
    NamesOfAppend(CorrectPredicted(doc.attributes.value.items.GetOr([])),
                  AddedNames(doc.attributes.value.added.GetOr([])), o);
  }

  /** `load_predictions`: every attribute of the scene graph, in order. */
  function PredictionList(attrs: Option<seq<SgAttribute>>): (r: seq<Named>)
    ensures attrs.None? ==> r == []
    ensures attrs.Some? ==> |r| == |attrs.value|
                            && forall k :: 0 <= k < |r| ==> r[k] == Named(attrs.value[k].objectId, attrs.value[k].name)
  {
    if attrs.None? then []
    else seq(|attrs.value|, k requires 0 <= k < |attrs.value| => Named(attrs.value[k].objectId, attrs.value[k].name))
  }

  // ---------------------------------------------------------------------
  // Scoring

  /** Mean and standard deviation of the similarity over the shuffled
      trials. */
  datatype Score = Score(mean: real, std: real)

  datatype ObjectResult = ObjectResult(
    objectId: int,
    score: real,
    std: real,
    groundTruthText: string,
    predictedText: string,
    groundTruth: seq<string>,
    predicted: seq<string>)

  datatype Overall = Overall(averageSimilarity: real, totalObjects: nat, perObject: seq<ObjectResult>)

  const NoneText: string := "(none)"

  /** `", ".join(sorted(names))`. */
  function DisplayText(names: seq<string>): string {
    Join(SortStrings(names), ", ")
  }

  /** The displayed text of a list of names does not depend on its order. */
  lemma DisplayOrderFree(a: seq<string>, b: seq<string>)
    requires multiset(a) == multiset(b)
    ensures DisplayText(a) == DisplayText(b)
  {
    SortStringsOrderFree(a, b);
  }

  /** The result for one object; `trials` stands for the similarity model
      averaged over random orderings of both lists. An object with names on
      one side only scores zero and shows "(none)" for the missing side. */
  function ObjectResultOf(o: int, gt: seq<string>, pred: seq<string>,
                          trials: (seq<string>, seq<string>) -> Score): (r: Option<ObjectResult>)
    ensures r.None? <==> gt == [] && pred == []
    ensures r.Some? ==> r.value.objectId == o && r.value.groundTruth == gt && r.value.predicted == pred
    ensures r.Some? && gt != [] && pred != [] ==> r.value.score == trials(gt, pred).mean
    ensures r.Some? && (gt == [] || pred == []) ==> r.value.score == 0.0 && r.value.std == 0.0
    ensures r.Some? ==> r.value.groundTruthText == (if gt == [] then NoneText else DisplayText(gt))
    ensures r.Some? ==> r.value.predictedText == (if pred == [] then NoneText else DisplayText(pred))
  {
    if gt == [] && pred == [] then None
    else if gt != [] && pred != [] then
      var s := trials(gt, pred);
      Some(ObjectResult(o, s.mean, s.std, DisplayText(gt), DisplayText(pred), gt, pred))
    else if gt == [] then
      Some(ObjectResult(o, 0.0, 0.0, NoneText, DisplayText(pred), gt, pred))
    else
      Some(ObjectResult(o, 0.0, 0.0, DisplayText(gt), NoneText, gt, pred))
  }

  /** The loop over the object ids, skipping an object with no names. */
  function ResultsFor(ids: seq<int>, gt: map<int, seq<string>>, pred: map<int, seq<string>>,
                      trials: (seq<string>, seq<string>) -> Score): (r: seq<ObjectResult>)
    ensures |r| <= |ids|
  {
    if |ids| == 0 then []
    else
      var first := ObjectResultOf(ids[0], Names(gt, ids[0]), Names(pred, ids[0]), trials);
      (if first.Some? then [first.value] else []) + ResultsFor(ids[1..], gt, pred, trials)
  }

  /** `r` is the result for object `o`, comparing its two name lists. */
  predicate ResultFor(r: ObjectResult, o: int, gt: map<int, seq<string>>, pred: map<int, seq<string>>) {
    r.objectId == o && r.groundTruth == Names(gt, o) && r.predicted == Names(pred, o)
  }

  /** `rs` holds one result per id, in the order of the ids. */
  predicate AllResultsFor(rs: seq<ObjectResult>, ids: seq<int>, gt: map<int, seq<string>>, pred: map<int, seq<string>>) {
    |rs| == |ids| && forall k :: 0 <= k < |ids| ==> ResultFor(rs[k], ids[k], gt, pred)
  }

  /** When every id has a name on some side, each id gives one result, in
      the order of the ids. */
  lemma {:induction false} ResultsForEach(ids: seq<int>, gt: map<int, seq<string>>, pred: map<int, seq<string>>,
                                          trials: (seq<string>, seq<string>) -> Score)
    requires forall k :: 0 <= k < |ids| ==> Names(gt, ids[k]) != [] || Names(pred, ids[k]) != []
    ensures AllResultsFor(ResultsFor(ids, gt, pred, trials), ids, gt, pred)
  {
    if |ids| > 0 {
      ResultsForEach(ids[1..], gt, pred, trials);
      ResultsForHead(ids, gt, pred, trials);
      AllResultsCons(ResultsFor(ids, gt, pred, trials), ResultsFor(ids[1..], gt, pred, trials), ids, gt, pred);
    }
  }

  lemma AllResultsCons(rs: seq<ObjectResult>, rest: seq<ObjectResult>, ids: seq<int>,
                       gt: map<int, seq<string>>, pred: map<int, seq<string>>)
    requires |ids| > 0 && |rs| == 1 + |rest| && ResultFor(rs[0], ids[0], gt, pred)
    requires forall k :: 0 < k < |rs| ==> rs[k] == rest[k - 1]
    requires AllResultsFor(rest, ids[1..], gt, pred)
    ensures AllResultsFor(rs, ids, gt, pred)
  {
    forall k | 0 < k < |ids| ensures ResultFor(rs[k], ids[k], gt, pred) {
      assert ids[1..][k - 1] == ids[k];
    }
  }

  /** An id with a name on some side puts its result first. */
  lemma ResultsForHead(ids: seq<int>, gt: map<int, seq<string>>, pred: map<int, seq<string>>,
                       trials: (seq<string>, seq<string>) -> Score)
    requires |ids| > 0 && (Names(gt, ids[0]) != [] || Names(pred, ids[0]) != [])
    ensures var rs := ResultsFor(ids, gt, pred, trials);
            var rest := ResultsFor(ids[1..], gt, pred, trials);
            |rs| == 1 + |rest| && ResultFor(rs[0], ids[0], gt, pred)
            && forall k :: 0 < k < |rs| ==> rs[k] == rest[k - 1]
  {
    var first := ObjectResultOf(ids[0], Names(gt, ids[0]), Names(pred, ids[0]), trials);
    assert first.Some? && ResultFor(first.value, ids[0], gt, pred);
  }

  /** Sum of the scores. */
  function TotalScore(rs: seq<ObjectResult>): real {
    if |rs| == 0 then 0.0 else rs[0].score + TotalScore(rs[1..])
  }

  /** The ids of both groupings, each once, in increasing order. */
  function EvaluatedIds(gt: seq<Named>, pred: seq<Named>): seq<int> {
    SortedSet(ObjectIds(gt) + ObjectIds(pred))
  }

  /** `total / count if count > 0 else 0.0`. */
  function Mean(total: real, count: nat): (r: real)
    ensures count == 0 ==> r == 0.0
    ensures count > 0 ==> r * (count as real) == total
  {
    if count > 0 then total / (count as real) else 0.0
  }

  /** `calculate_similarity_scores`: one result per object, the number of
      results, and the mean score (zero when there is none). */
  function Evaluate(gt: seq<Named>, pred: seq<Named>,
                    trials: (seq<string>, seq<string>) -> Score): (r: Overall)
    ensures r.totalObjects == |r.perObject|
    ensures r.averageSimilarity == Mean(TotalScore(r.perObject), r.totalObjects)
  {
    var rs := ResultsFor(EvaluatedIds(gt, pred), Group(gt), Group(pred), trials);
    Overall(Mean(TotalScore(rs), |rs|), |rs|, rs)
  }

  /** Every evaluated id has a name on some side, and its lists are the
      names given to it. */
  lemma IdsHaveNames(gt: seq<Named>, pred: seq<Named>)
    ensures var ids := EvaluatedIds(gt, pred);
            forall k :: 0 <= k < |ids| ==>
              Names(Group(gt), ids[k]) == NamesOf(gt, ids[k]) && Names(Group(pred), ids[k]) == NamesOf(pred, ids[k])
              && (Names(Group(gt), ids[k]) != [] || Names(Group(pred), ids[k]) != [])
  {
    var ids := EvaluatedIds(gt, pred);
    forall k | 0 <= k < |ids|
      ensures Names(Group(gt), ids[k]) == NamesOf(gt, ids[k]) && Names(Group(pred), ids[k]) == NamesOf(pred, ids[k])
      ensures Names(Group(gt), ids[k]) != [] || Names(Group(pred), ids[k]) != []
    {
      assert ids[k] in ids;
      GroupNames(gt, ids[k]);
      GroupNames(pred, ids[k]);
      NamesOfEmpty(gt, ids[k]);
      NamesOfEmpty(pred, ids[k]);
    }
  }

  /** The results line up with the evaluated ids, one each. */
  lemma ResultsAreIds(gt: seq<Named>, pred: seq<Named>, trials: (seq<string>, seq<string>) -> Score)
    ensures var ids := EvaluatedIds(gt, pred);
            var rs := Evaluate(gt, pred, trials).perObject;
            |rs| == |ids|
            && forall k :: 0 <= k < |rs| ==>
                 rs[k].objectId == ids[k] && rs[k].groundTruth == NamesOf(gt, ids[k])
                 && rs[k].predicted == NamesOf(pred, ids[k])
  {
    var ids := EvaluatedIds(gt, pred);
    var g := Group(gt);
    var p := Group(pred);
    IdsHaveNames(gt, pred);
    ResultsForEach(ids, g, p, trials);
    var rs := ResultsFor(ids, g, p, trials);
    assert AllResultsFor(rs, ids, g, p);
    forall k | 0 <= k < |rs|
      ensures rs[k].objectId == ids[k] && rs[k].groundTruth == NamesOf(gt, ids[k]) && rs[k].predicted == NamesOf(pred, ids[k])
    {
      assert ResultFor(rs[k], ids[k], g, p);
    }
  }

  /** Each result compares the object's ground-truth names, in file order,
      with its predicted names. */
  lemma EvaluatedNames(gt: seq<Named>, pred: seq<Named>, trials: (seq<string>, seq<string>) -> Score)
    ensures var rs := Evaluate(gt, pred, trials).perObject;
            forall k :: 0 <= k < |rs| ==>
              rs[k].groundTruth == NamesOf(gt, rs[k].objectId) && rs[k].predicted == NamesOf(pred, rs[k].objectId)
  {
    ResultsAreIds(gt, pred, trials);
  }

  /** The results come in strictly increasing object order. */
  lemma EvaluatedInOrder(gt: seq<Named>, pred: seq<Named>, trials: (seq<string>, seq<string>) -> Score)
    ensures var rs := Evaluate(gt, pred, trials).perObject;
            forall i, j :: 0 <= i < j < |rs| ==> rs[i].objectId < rs[j].objectId
  {
    ResultsAreIds(gt, pred, trials);
    SortedSetIncreasing(ObjectIds(gt) + ObjectIds(pred));
  }

  /** An object has a result exactly when it is given a name on either
      side. */
  lemma EvaluatedObjects(gt: seq<Named>, pred: seq<Named>, trials: (seq<string>, seq<string>) -> Score, o: int)
    ensures var rs := Evaluate(gt, pred, trials).perObject;
            (exists k :: 0 <= k < |rs| && rs[k].objectId == o) <==> o in ObjectIds(gt) || o in ObjectIds(pred)
  {
    var ids := EvaluatedIds(gt, pred);
    var rs := Evaluate(gt, pred, trials).perObject;
    ResultsAreIds(gt, pred, trials);
    if o in ObjectIds(gt) || o in ObjectIds(pred) {
      assert o in ids;
      var k :| 0 <= k < |ids| && ids[k] == o;
      assert rs[k].objectId == o;
    }
    if exists k :: 0 <= k < |rs| && rs[k].objectId == o {
      var k :| 0 <= k < |rs| && rs[k].objectId == o;
      assert ids[k] in ids;
    }
  }

  /** The number of evaluated objects is the number of distinct object ids
      on either side. */
  lemma EvaluatedCount(gt: seq<Named>, pred: seq<Named>, trials: (seq<string>, seq<string>) -> Score)
    ensures Evaluate(gt, pred, trials).totalObjects
            == |set o | o in ObjectIds(gt) + ObjectIds(pred)|
  {
    ResultsAreIds(gt, pred, trials);
    SortedSetCard(ObjectIds(gt) + ObjectIds(pred));
  }

  /** `len(sorted(set(xs)))` is the number of distinct values of `xs`. */
  lemma SortedSetCard(xs: seq<int>)
    ensures |SortedSet(xs)| == |set x | x in xs|
  {
    var r := SortedSet(xs);
    SortedSetIncreasing(xs);
    IncreasingCard(r);
    assert (set x | x in r) == (set x | x in xs);
  }

  /** A strictly increasing list has as many elements as values. */
  lemma {:induction false} IncreasingCard(s: seq<int>)
    requires Increasing(s)
    ensures |set x | x in s| == |s|
  {
    if |s| > 0 {
      var t := s[1..];
      assert Increasing(t);
      IncreasingCard(t);
      assert (set x | x in s) == {s[0]} + (set x | x in t);
      assert s[0] !in t by {
        forall j | 0 <= j < |t| ensures t[j] != s[0] {
          assert s[0] < s[j + 1];
        }
      }
    }
  }
}

=== FILE: eval_attribute_all.dfy ===
/** The dataset-wide attribute evaluation (`evaluate_attribute_all.py`):
    the scene id read back from an annotation file name, and the summary of
    several per-scene results. */
module EvalAttributeAll {
  import opened Wrappers
  import opened JsText
  import opened PyText
  import opened EvalAttribute

  const Prefix: string := "annotations"
  const ScanNetPrefix: string := "annotations_scene"

  /** `extract_scene_id`: the stem of the file name split on underscores;
      a ScanNet name keeps the second and third pieces joined by an
      underscore, any other name keeps the second piece. A name with too
      few pieces is the `IndexError` the script raises, read as `None`. */
  function ExtractSceneId(fileName: string): (r: Option<string>) {
    SceneIdOfStem(Stem(fileName))
  }

  /** The scene id read from a file name's stem. */
  function SceneIdOfStem(stem: string): (r: Option<string>)
    ensures r.Some? && StartsWith(stem, ScanNetPrefix) ==>
              |Split(stem, '_')| >= 3 && r.value == Split(stem, '_')[1] + "_" + Split(stem, '_')[2]
    ensures r.Some? && !StartsWith(stem, ScanNetPrefix) ==>
              |Split(stem, '_')| >= 2 && r.value == Split(stem, '_')[1]
    ensures r.None? <==> |Split(stem, '_')| < (if StartsWith(stem, ScanNetPrefix) then 3 else 2)
  {
    var parts := Split(stem, '_');
    if StartsWith(stem, ScanNetPrefix) then
      if |parts| >= 3 then Some(parts[1] + "_" + parts[2]) else None
    else
      if |parts| >= 2 then Some(parts[1]) else None
  }

  /** The name of a ScanNet annotation file: scene, scan and timestamp. */
  function ScanNetFileName(scene: string, scan: string, timestamp: string): string {
    Prefix + "_" + scene + "_" + scan + "_" + timestamp + ".json"
  }

  /** The name of a 3RScan annotation file: scan id and timestamp. */
  function RScanFileName(scan: string, timestamp: string): string {
    Prefix + "_" + scan + "_" + timestamp + ".json"
  }

  /** The stem of `w + ".json"` is `w` for a non-empty `w`. */
  lemma StemOfJson(w: string)
    requires |w| > 0
    ensures Stem(w + ".json") == w
  {
    StemOfSuffixed(w, "json");
    assert w + "." + "json" == w + ".json";
  }

  lemma Join4(a: string, b: string, c: string, d: string)
    ensures Join([a, b, c, d], "_") == a + "_" + b + "_" + c + "_" + d
  {
    JoinCons(a, [b, c, d], "_");
    JoinCons(b, [c, d], "_");
    JoinCons(c, [d], "_");
    assert [a, b, c, d][1..] == [b, c, d];
    assert [b, c, d][1..] == [c, d];
  }

  lemma Join3(a: string, b: string, c: string)
    ensures Join([a, b, c], "_") == a + "_" + b + "_" + c
  {
    JoinCons(a, [b, c], "_");
    JoinCons(b, [c], "_");
    assert [a, b, c][1..] == [b, c];
  }

  /** A stem whose second piece starts with "scene" is a ScanNet stem. */
  lemma ScanNetStem(scene: string, scan: string, timestamp: string)
    requires StartsWith(scene, "scene")
    ensures StartsWith(Prefix + "_" + scene + "_" + scan + "_" + timestamp, ScanNetPrefix)
  {
    var stem := Prefix + "_" + scene + "_" + scan + "_" + timestamp;
    forall i | 0 <= i < |ScanNetPrefix| ensures stem[i] == ScanNetPrefix[i] {
      if i >= 12 {
        assert stem[i] == scene[i - 12];
      }
    }
  }

  /** A stem whose second piece is separator-free and does not start with
      "scene" is not a ScanNet stem. */
  lemma NotScanNetStem(scan: string, timestamp: string)
    requires !StartsWith(scan, "scene") && '_' !in scan
    ensures !StartsWith(Prefix + "_" + scan + "_" + timestamp, ScanNetPrefix)
  {
    var stem := Prefix + "_" + scan + "_" + timestamp;
    if |stem| >= |ScanNetPrefix| {
      var k: nat;
      if |scan| >= 5 {
        assert scan[..5] != "scene";
        k :| k < 5 && scan[k] != "scene"[k];
        assert stem[12 + k] == scan[k];
      } else {
        k := |scan|;
        assert stem[12 + k] == '_';
      }
      assert stem[..|ScanNetPrefix|][12 + k] != ScanNetPrefix[12 + k];
    }
  }

  /** A stem of four separator-free pieces, the second a ScanNet scene,
      gives the second and third pieces. */
  lemma ScanNetStemId(scene: string, scan: string, timestamp: string)
    requires StartsWith(scene, "scene")
    requires '_' !in scene && '_' !in scan && '_' !in timestamp
    ensures SceneIdOfStem(Join([Prefix, scene, scan, timestamp], "_")) == Some(scene + "_" + scan)
  {
    var stem := Join([Prefix, scene, scan, timestamp], "_");
    Join4(Prefix, scene, scan, timestamp);
    SplitJoin([Prefix, scene, scan, timestamp], '_');
    ScanNetStem(scene, scan, timestamp);
  }

  /** The ScanNet scene id `scene_scan` is read back from the file name it
      was written into. */
  lemma ScanNetSceneId(scene: string, scan: string, timestamp: string)
    requires StartsWith(scene, "scene")
    requires '_' !in scene && '_' !in scan && '_' !in timestamp
    ensures ExtractSceneId(ScanNetFileName(scene, scan, timestamp)) == Some(scene + "_" + scan)
  {
    var stem := Join([Prefix, scene, scan, timestamp], "_");
    Join4(Prefix, scene, scan, timestamp);
    assert stem + ".json" == ScanNetFileName(scene, scan, timestamp);
    StemOfJson(stem);
    ScanNetStemId(scene, scan, timestamp);
  }

  /** A stem of three separator-free pieces, the second not a ScanNet
      scene, gives the second piece. */
  lemma RScanStemId(scan: string, timestamp: string)
    requires !StartsWith(scan, "scene")
    requires '_' !in scan && '_' !in timestamp
    ensures SceneIdOfStem(Join([Prefix, scan, timestamp], "_")) == Some(scan)
  {
    Join3(Prefix, scan, timestamp);
    SplitJoin([Prefix, scan, timestamp], '_');
    NotScanNetStem(scan, timestamp);
  }

  /** The 3RScan scan id is read back from the file name it was written
      into, provided it does not itself start like a ScanNet scene. */
  lemma RScanSceneId(scan: string, timestamp: string)
    requires !StartsWith(scan, "scene")
    requires '_' !in scan && '_' !in timestamp
    ensures ExtractSceneId(RScanFileName(scan, timestamp)) == Some(scan)
  {
    var stem := Join([Prefix, scan, timestamp], "_");
    Join3(Prefix, scan, timestamp);
    assert stem + ".json" == RScanFileName(scan, timestamp);
    StemOfJson(stem);
    RScanStemId(scan, timestamp);
  }

  // ---------------------------------------------------------------------
  // Aggregation

  /** What the summary reads of one scene's evaluation. */
  datatype SceneResult = SceneResult(sceneId: string, averageSimilarity: real, totalObjects: nat)

  datatype Aggregate = Aggregate(
    averageSimilarity: real,
    totalScenes: nat,
    totalObjects: nat,
    minSimilarity: real,
    maxSimilarity: real)

  function SimilaritySum(rs: seq<SceneResult>): real {
    if |rs| == 0 then 0.0 else rs[0].averageSimilarity + SimilaritySum(rs[1..])
  }

  function ObjectSum(rs: seq<SceneResult>): nat {
    if |rs| == 0 then 0 else rs[0].totalObjects + ObjectSum(rs[1..])
  }

  /** `np.min` of the scene similarities. */
  function MinSimilarity(rs: seq<SceneResult>): (r: real)
    requires |rs| > 0
    ensures exists k :: 0 <= k < |rs| && rs[k].averageSimilarity == r
    ensures forall k :: 0 <= k < |rs| ==> r <= rs[k].averageSimilarity
  {
    if |rs| == 1 then rs[0].averageSimilarity
    else
      var m := MinSimilarity(rs[1..]);
      assert forall k :: 1 <= k < |rs| ==> rs[k] == rs[1..][k - 1];
      if rs[0].averageSimilarity <= m then rs[0].averageSimilarity else m
  }

  /** `np.max` of the scene similarities. */
  function MaxSimilarity(rs: seq<SceneResult>): (r: real)
    requires |rs| > 0
    ensures exists k :: 0 <= k < |rs| && rs[k].averageSimilarity == r
    ensures forall k :: 0 <= k < |rs| ==> rs[k].averageSimilarity <= r
  {
    if |rs| == 1 then rs[0].averageSimilarity
    else
      var m := MaxSimilarity(rs[1..]);
      assert forall k :: 1 <= k < |rs| ==> rs[k] == rs[1..][k - 1];
      if rs[0].averageSimilarity >= m then rs[0].averageSimilarity else m
  }

  /** `aggregate_results` without the standard deviation: all zero for no
      scenes, else the mean, count, object total and extremes. */
  function AggregateResults(rs: seq<SceneResult>): (r: Aggregate)
    ensures |rs| == 0 ==> r == Aggregate(0.0, 0, 0, 0.0, 0.0)
    ensures r.totalScenes == |rs| && r.totalObjects == ObjectSum(rs)
    ensures r.averageSimilarity == Mean(SimilaritySum(rs), |rs|)
    ensures |rs| > 0 ==> (exists k :: 0 <= k < |rs| && rs[k].averageSimilarity == r.minSimilarity)
                         && (exists k :: 0 <= k < |rs| && rs[k].averageSimilarity == r.maxSimilarity)
    ensures |rs| > 0 ==> forall k :: 0 <= k < |rs| ==>
                           r.minSimilarity <= rs[k].averageSimilarity <= r.maxSimilarity
  {
    if |rs| == 0 then Aggregate(0.0, 0, 0, 0.0, 0.0)
    else Aggregate(Mean(SimilaritySum(rs), |rs|), |rs|, ObjectSum(rs), MinSimilarity(rs), MaxSimilarity(rs))
  }

  /** The sum of values each between `lo` and `hi` lies between `n * lo`
      and `n * hi`. */
  lemma {:induction false} SumBounds(rs: seq<SceneResult>, lo: real, hi: real)
    requires forall k :: 0 <= k < |rs| ==> lo <= rs[k].averageSimilarity <= hi
    ensures (|rs| as real) * lo <= SimilaritySum(rs) <= (|rs| as real) * hi
  {
    if |rs| > 0 {
      assert forall k :: 0 <= k < |rs| - 1 ==> rs[1..][k] == rs[k + 1];
      SumBounds(rs[1..], lo, hi);
      assert (|rs| as real) * lo == lo + ((|rs| - 1) as real) * lo;
      assert (|rs| as real) * hi == hi + ((|rs| - 1) as real) * hi;
    }
  }

  /** The mean similarity over the scenes lies between the least and the
      greatest of them. */
  lemma AverageWithinExtremes(rs: seq<SceneResult>)
    requires |rs| > 0
    ensures var a := AggregateResults(rs);
            a.minSimilarity <= a.averageSimilarity <= a.maxSimilarity
  {
    var a := AggregateResults(rs);
    MeanOfBounded(rs, a.minSimilarity, a.maxSimilarity);
  }

  /** Scene similarities between `lo` and `hi` have a mean between them. */
  lemma MeanOfBounded(rs: seq<SceneResult>, lo: real, hi: real)
    requires |rs| > 0
    requires forall k :: 0 <= k < |rs| ==> lo <= rs[k].averageSimilarity <= hi
    ensures lo <= Mean(SimilaritySum(rs), |rs|) <= hi
  {
    SumBounds(rs, lo, hi);
    MeanBetween(SimilaritySum(rs), |rs|, lo, hi);
  }

  /** A total between `n * lo` and `n * hi` has a mean between `lo` and
      `hi`. */
  lemma MeanBetween(total: real, count: nat, lo: real, hi: real)
    requires count > 0
    requires (count as real) * lo <= total <= (count as real) * hi
    ensures lo <= Mean(total, count) <= hi
  {
    var n := count as real;
    var m := Mean(total, count);
    assert (m - lo) * n == total - n * lo;
    assert (hi - m) * n == n * hi - total;
  }
}

=== FILE: eval_relationship.dfy ===
/** The relationship evaluation (`evaluate_relationship.py`): per-scene and
    per-predicate tallies of the validations stored on predicted
    relationships, the global totals of one dataset, and the combined view
    of several datasets. */
module EvalRelationship {
  import opened Wrappers
  import opened JsText
  import opened PyText
  import opened Session
  import opened AnnotationDoc

  datatype Tally = Tally(correct: nat, incorrect: nat)

  function Plus(a: Tally, b: Tally): Tally {
    Tally(a.correct + b.correct, a.incorrect + b.incorrect)
  }

  lemma PlusZero(x: Tally)
    ensures Plus(x, Tally(0, 0)) == x
  {}

  lemma PlusAssoc(x: Tally, y: Tally, z: Tally)
    ensures Plus(Plus(x, y), z) == Plus(x, Plus(y, z))
  {}

  lemma PlusSwap(x: Tally, y: Tally, z: Tally)
    ensures Plus(Plus(x, y), z) == Plus(Plus(x, z), y)
  {}

  lemma PlusRearrange(x: Tally, y: Tally, z: Tally, u: Tally, w: Tally)
    requires Plus(x, z) == Plus(u, w)
    ensures Plus(Plus(x, y), z) == Plus(u, Plus(y, w))
  {}

  /** One scene's counts; `byPredicate` only holds predicates that received
      a 'correct' or 'incorrect' validation. */
  datatype SceneStats = SceneStats(correct: nat, incorrect: nat, nullValidation: nat, total: nat,
                                   byPredicate: map<string, Tally>)

  datatype Results = Results(
    perScene: map<string, SceneStats>,
    perPredicate: map<string, Tally>,
    totalCorrect: nat,
    totalIncorrect: nat,
    totalNull: nat,
    totalRelationships: nat)

  const NoResults := Results(map[], map[], 0, 0, 0, 0)

  /** A read of the `defaultdict` of tallies. */
  function Get(m: map<string, Tally>, p: string): Tally {
    if p in m then m[p] else Tally(0, 0)
  }

  /** How the item loop reads a validation: 'correct' and 'incorrect' are
      judgements, null is unjudged, and any other value is counted nowhere. */
  datatype Verdict = Judged(correct: bool) | Unjudged | Unknown

  function VerdictOf(v: Option<string>): (r: Verdict)
    ensures r == Judged(true) <==> v == Some(Correct)
    ensures r == Judged(false) <==> v == Some(Incorrect)
    ensures r == Unjudged <==> v.None?
  {
    if v.None? then Unjudged
    else if v.value == Correct then Judged(true)
    else if v.value == Incorrect then Judged(false)
    else Unknown
  }

  /** A validation the tallies know about: null, 'correct' or 'incorrect'. */
  predicate Counted(v: Option<string>) {
    VerdictOf(v) != Unknown
  }

  /** All the loop reads of an item: its predicate and its verdict. */
  datatype Judgement = Judgement(predicateName: string, verdict: Verdict)

  function Judgements(items: seq<RelationshipItem>): (js: seq<Judgement>)
    ensures |js| == |items|
    ensures forall k :: 0 <= k < |items| ==> js[k] == Judgement(items[k].predicateName, VerdictOf(items[k].validation))
  {
    seq(|items|, k requires 0 <= k < |items| => Judgement(items[k].predicateName, VerdictOf(items[k].validation)))
  }

  // ---------------------------------------------------------------------
  // One scene

  /** The counter that the loop over items increments for `w`. */
  function Occurrences(js: seq<Judgement>, w: Verdict): nat
    decreases |js|
  {
    if |js| == 0 then 0
    else Occurrences(js[..|js| - 1], w) + (if js[|js| - 1].verdict == w then 1 else 0)
  }

  /** What one item adds to its predicate's row. */
  function Delta(w: Verdict): Tally {
    match w
    case Judged(true) => Tally(1, 0)
    case Judged(false) => Tally(0, 1)
    case _ => Tally(0, 0)
  }

  /** One item's effect on a per-predicate table: only judgements touch it. */
  function Bump(m: map<string, Tally>, j: Judgement): map<string, Tally> {
    if j.verdict.Judged? then m[j.predicateName := Plus(Get(m, j.predicateName), Delta(j.verdict))] else m
  }

  /** The per-predicate updates of the item loop, applied to `m`. */
  function AddItems(m: map<string, Tally>, js: seq<Judgement>): map<string, Tally>
    decreases |js|
  {
    if |js| == 0 then m else Bump(AddItems(m, js[..|js| - 1]), js[|js| - 1])
  }

  /** `scene_stats` for the items of one file. */
  function Score(items: seq<RelationshipItem>): (st: SceneStats)
    ensures st.total == |items|
  {
    var js := Judgements(items);
    SceneStats(Occurrences(js, Judged(true)), Occurrences(js, Judged(false)), Occurrences(js, Unjudged),
               |items|, AddItems(map[], js))
  }

  /** The positions whose verdict is `w`. */
  function PositionsWith(js: seq<Judgement>, w: Verdict): set<nat> {
    set k: nat | k < |js| && js[k].verdict == w
  }

  /** Each counter counts exactly the items carrying its value. */
  lemma {:induction false} OccurrencesCount(js: seq<Judgement>, w: Verdict)
    ensures Occurrences(js, w) == |PositionsWith(js, w)|
    decreases |js|
  {
    if |js| > 0 {
      var n := |js| - 1;
      var init := js[..n];
      OccurrencesCount(init, w);
      var before := PositionsWith(init, w);
      if js[n].verdict == w {
        assert PositionsWith(js, w) == before + {n};
      } else {
        assert PositionsWith(js, w) == before;
      }
    }
  }

  /** The three counters never exceed the number of items, and reach it
      exactly when no item holds an unknown value. */
  lemma {:induction false} OccurrencesAccount(js: seq<Judgement>)
    ensures Occurrences(js, Judged(true)) + Occurrences(js, Judged(false)) + Occurrences(js, Unjudged) <= |js|
    ensures Occurrences(js, Judged(true)) + Occurrences(js, Judged(false)) + Occurrences(js, Unjudged) == |js| <==>
      forall k :: 0 <= k < |js| ==> js[k].verdict != Unknown
    decreases |js|
  {
    if |js| > 0 {
      var n := |js| - 1;
      var init := js[..n];
      OccurrencesAccount(init);
      if js[n].verdict == Unknown {
        assert !(forall k :: 0 <= k < |js| ==> js[k].verdict != Unknown);
      } else {
        assert (forall k :: 0 <= k < |js| ==> js[k].verdict != Unknown) <==>
               (forall k :: 0 <= k < n ==> init[k].verdict != Unknown);
      }
    }
  }

  /** null, 'correct' and 'incorrect' never count more than the items, and
      count every item exactly when no other value is stored. */
  lemma ScoreAccounts(items: seq<RelationshipItem>)
    ensures var st := Score(items);
      st.correct + st.incorrect + st.nullValidation <= st.total
    ensures var st := Score(items);
      st.correct + st.incorrect + st.nullValidation == st.total <==> forall k :: 0 <= k < |items| ==> Counted(items[k].validation)
  {
    OccurrencesAccount(Judgements(items));
  }

  /** `correct / total`, or 0 for a scene without relationships. */
  function Accuracy(st: SceneStats): (a: real)
    ensures st.total > 0 ==> a * st.total as real == st.correct as real
    ensures st.total == 0 ==> a == 0.0
  {
    if st.total > 0 then st.correct as real / st.total as real else 0.0
  }

  /** A counter reaches the number of items exactly when every item
      carries its value. */
  lemma {:induction false} OccurrencesAll(js: seq<Judgement>, w: Verdict)
    ensures Occurrences(js, w) <= |js|
    ensures Occurrences(js, w) == |js| <==> forall k :: 0 <= k < |js| ==> js[k].verdict == w
    decreases |js|
  {
    if |js| > 0 {
      var n := |js| - 1;
      var init := js[..n];
      OccurrencesAll(init, w);
      if js[n].verdict != w {
        assert !(forall k :: 0 <= k < |js| ==> js[k].verdict == w);
      } else {
        assert (forall k :: 0 <= k < |js| ==> js[k].verdict == w) <==>
               (forall k :: 0 <= k < n ==> init[k].verdict == w);
      }
    }
  }

  lemma RatioBounds(c: real, t: real, a: real)
    requires 0.0 <= c <= t && 0.0 < t && a * t == c
    ensures 0.0 <= a <= 1.0
    ensures a == 1.0 <==> c == t
  {}

  /** An accuracy lies in [0, 1] and is 1 exactly when every item counts
      as correct. */
  lemma AccuracyBounds(st: SceneStats)
    requires st.correct <= st.total
    ensures 0.0 <= Accuracy(st) <= 1.0
    ensures Accuracy(st) == 1.0 <==> st.total > 0 && st.correct == st.total
  {
    if st.total > 0 {
      RatioBounds(st.correct as real, st.total as real, Accuracy(st));
    }
  }

  /** Every verdict is a 'correct' judgement exactly when every validation
      is 'correct'. */
  lemma AllCorrect(items: seq<RelationshipItem>)
    ensures (forall k :: 0 <= k < |items| ==> Judgements(items)[k].verdict == Judged(true)) <==>
      forall k :: 0 <= k < |items| ==> items[k].validation == Some(Correct)
  {
    var js := Judgements(items);
    forall k | 0 <= k < |items| ensures js[k].verdict == Judged(true) <==> items[k].validation == Some(Correct) {
      assert js[k].verdict == VerdictOf(items[k].validation);
    }
  }

  /** A scene's accuracy lies in [0, 1], unvalidated items lowering it,
      and it is 1 exactly when there are items and every one is correct. */
  lemma ScoreAccuracy(items: seq<RelationshipItem>)
    ensures 0.0 <= Accuracy(Score(items)) <= 1.0
    ensures Accuracy(Score(items)) == 1.0 <==> |items| > 0 && forall k :: 0 <= k < |items| ==> items[k].validation == Some(Correct)
  {
    OccurrencesAll(Judgements(items), Judged(true));
    AllCorrect(items);
    AccuracyBounds(Score(items));
  }

  /** The per-predicate accuracy: `correct / (correct + incorrect)`, or 0. */
  function PredicateAccuracy(t: Tally): (a: real)
    ensures 0.0 <= a <= 1.0
    ensures t.correct + t.incorrect > 0 ==> a * (t.correct + t.incorrect) as real == t.correct as real
    ensures t.correct + t.incorrect == 0 ==> a == 0.0
  {
    var total := t.correct + t.incorrect;
    if total > 0 then
      var a := t.correct as real / total as real;
      RatioBounds(t.correct as real, total as real, a);
      a
    else 0.0
  }

  // ---------------------------------------------------------------------
  // Per-predicate tables

  /** The judgements of predicate `p`, in order. */
  function OfPredicate(js: seq<Judgement>, p: string): (r: seq<Judgement>)
    ensures |r| <= |js|
    decreases |js|
  {
    if |js| == 0 then []
    else
      var init := OfPredicate(js[..|js| - 1], p);
      if js[|js| - 1].predicateName == p then init + [js[|js| - 1]] else init
  }

  lemma GetBump(m: map<string, Tally>, j: Judgement, p: string)
    ensures Get(Bump(m, j), p) == if j.predicateName == p then Plus(Get(m, p), Delta(j.verdict)) else Get(m, p)
  {
    if !j.verdict.Judged? { PlusZero(Get(m, p)); }
  }

  /** The occurrence counts of one more judgement. */
  lemma OccurrencesSnoc(js: seq<Judgement>, j: Judgement)
    ensures Tally(Occurrences(js + [j], Judged(true)), Occurrences(js + [j], Judged(false))) ==
      Plus(Tally(Occurrences(js, Judged(true)), Occurrences(js, Judged(false))), Delta(j.verdict))
  {
    assert (js + [j])[..|js|] == js;
  }

  /** The loop's last step. */
  lemma AddItemsLast(m: map<string, Tally>, js: seq<Judgement>)
    requires |js| > 0
    ensures AddItems(m, js) == Bump(AddItems(m, js[..|js| - 1]), js[|js| - 1])
  {}

  /** The selection's last step. */
  lemma OfPredicateLast(js: seq<Judgement>, p: string)
    requires |js| > 0
    ensures js[|js| - 1].predicateName == p ==> OfPredicate(js, p) == OfPredicate(js[..|js| - 1], p) + [js[|js| - 1]]
    ensures js[|js| - 1].predicateName != p ==> OfPredicate(js, p) == OfPredicate(js[..|js| - 1], p)
  {}

  /** The counts a selection of judgements adds to a row. */
  function Row(mine: seq<Judgement>): Tally {
    Tally(Occurrences(mine, Judged(true)), Occurrences(mine, Judged(false)))
  }

  /** One step of `PredicateRow` for a judgement of `p` itself. */
  lemma PredicateRowSame(m: map<string, Tally>, js: seq<Judgement>, p: string)
    requires |js| > 0 && js[|js| - 1].predicateName == p
    requires Get(AddItems(m, js[..|js| - 1]), p) == Plus(Get(m, p), Row(OfPredicate(js[..|js| - 1], p)))
    ensures Get(AddItems(m, js), p) == Plus(Get(m, p), Row(OfPredicate(js, p)))
  {
    var j := js[|js| - 1];
    var mine0 := OfPredicate(js[..|js| - 1], p);
    AddItemsLast(m, js);
    GetBump(AddItems(m, js[..|js| - 1]), j, p);
    OfPredicateLast(js, p);
    OccurrencesSnoc(mine0, j);
    PlusAssoc(Get(m, p), Row(mine0), Delta(j.verdict));
  }

  /** One step of `PredicateRow` for a judgement of another predicate. */
  lemma PredicateRowOther(m: map<string, Tally>, js: seq<Judgement>, p: string)
    requires |js| > 0 && js[|js| - 1].predicateName != p
    requires Get(AddItems(m, js[..|js| - 1]), p) == Plus(Get(m, p), Row(OfPredicate(js[..|js| - 1], p)))
    ensures Get(AddItems(m, js), p) == Plus(Get(m, p), Row(OfPredicate(js, p)))
  {
    AddItemsLast(m, js);
    GetBump(AddItems(m, js[..|js| - 1]), js[|js| - 1], p);
    OfPredicateLast(js, p);
  }

  /** A predicate's row of the table is its earlier row plus the scene
      counts of the items naming that predicate. */
  lemma {:induction false} PredicateRow(m: map<string, Tally>, js: seq<Judgement>, p: string)
    ensures Get(AddItems(m, js), p) == Plus(Get(m, p), Row(OfPredicate(js, p)))
    decreases |js|
  {
    if |js| > 0 {
      PredicateRow(m, js[..|js| - 1], p);
      if js[|js| - 1].predicateName == p {
        PredicateRowSame(m, js, p);
      } else {
        PredicateRowOther(m, js, p);
      }
    } else {
      PlusZero(Get(m, p));
    }
  }

  /** A predicate has a row exactly when some item naming it was judged
      'correct' or 'incorrect' (or it had one before). */
  lemma {:induction false} PredicateKeys(m: map<string, Tally>, js: seq<Judgement>, p: string)
    ensures p in AddItems(m, js) <==>
      p in m || exists k :: 0 <= k < |js| && js[k].predicateName == p && js[k].verdict.Judged?
    decreases |js|
  {
    if |js| > 0 {
      var n := |js| - 1;
      PredicateKeys(m, js[..n], p);
      assert forall k :: 0 <= k < n ==> js[k] == js[..n][k];
    }
  }

  /** The sum of a table's rows over `keys`. */
  ghost function SumOver(m: map<string, Tally>, keys: set<string>): Tally
    requires keys <= m.Keys
    decreases keys
  {
    if keys == {} then Tally(0, 0)
    else
      var p :| p in keys;
      Plus(m[p], SumOver(m, keys - {p}))
  }

  /** The sum of all of a table's rows. */
  ghost function SumTallies(m: map<string, Tally>): Tally {
    SumOver(m, m.Keys)
  }

  /** Any row can be taken out of the sum first. */
  lemma {:induction false} SumOverRemove(m: map<string, Tally>, keys: set<string>, q: string)
    requires keys <= m.Keys && q in keys
    ensures SumOver(m, keys) == Plus(m[q], SumOver(m, keys - {q}))
    decreases keys
  {
    var p :| p in keys && SumOver(m, keys) == Plus(m[p], SumOver(m, keys - {p}));
    if p != q {
      SumOverRemove(m, keys - {p}, q);
      SumOverRemove(m, keys - {q}, p);
      assert keys - {p} - {q} == keys - {q} - {p};
      var r := SumOver(m, keys - {p} - {q});
      assert SumOver(m, keys) == Plus(m[p], Plus(m[q], r));
      assert SumOver(m, keys - {q}) == Plus(m[p], r);
    }
  }

  /** The sum only looks at the rows it sums. */
  lemma {:induction false} SumOverAgree(m1: map<string, Tally>, m2: map<string, Tally>, keys: set<string>)
    requires keys <= m1.Keys && keys <= m2.Keys
    requires forall k :: k in keys ==> m1[k] == m2[k]
    ensures SumOver(m1, keys) == SumOver(m2, keys)
    decreases keys
  {
    if keys != {} {
      var p :| p in keys && SumOver(m1, keys) == Plus(m1[p], SumOver(m1, keys - {p}));
      SumOverRemove(m2, keys, p);
      SumOverAgree(m1, m2, keys - {p});
    }
  }

  lemma SumSplit(m: map<string, Tally>, q: string)
    ensures SumTallies(m) == Plus(Get(m, q), SumTallies(m - {q}))
  {
    if q in m {
      SumOverRemove(m, m.Keys, q);
      assert (m - {q}).Keys == m.Keys - {q};
      SumOverAgree(m, m - {q}, m.Keys - {q});
    } else {
      assert m - {q} == m;
      PlusZero(SumTallies(m));
    }
  }

  lemma SumUpdate(m: map<string, Tally>, q: string, t: Tally)
    ensures SumTallies(m[q := t]) == Plus(t, SumTallies(m - {q}))
  {
    SumSplit(m[q := t], q);
    assert m[q := t] - {q} == m - {q};
  }

  /** A row never exceeds the sum of the table. */
  lemma RowAtMostSum(m: map<string, Tally>, q: string)
    ensures Get(m, q).correct <= SumTallies(m).correct
    ensures Get(m, q).incorrect <= SumTallies(m).incorrect
  {
    SumSplit(m, q);
  }

  /** One item adds its judgement to the table's sum. */
  lemma SumBump(m: map<string, Tally>, j: Judgement)
    ensures SumTallies(Bump(m, j)) == Plus(SumTallies(m), Delta(j.verdict))
  {
    if j.verdict.Judged? {
      SumSplit(m, j.predicateName);
      SumUpdate(m, j.predicateName, Plus(Get(m, j.predicateName), Delta(j.verdict)));
      PlusSwap(Get(m, j.predicateName), Delta(j.verdict), SumTallies(m - {j.predicateName}));
    } else {
      PlusZero(SumTallies(m));
    }
  }

  /** The row of judgements is the row of all but the last, plus the last. */
  lemma RowLast(js: seq<Judgement>)
    requires |js| > 0
    ensures Row(js) == Plus(Row(js[..|js| - 1]), Delta(js[|js| - 1].verdict))
  {}

  /** One step of `AddItemsSum`. */
  lemma AddItemsSumStep(m: map<string, Tally>, js: seq<Judgement>)
    requires |js| > 0
    requires SumTallies(AddItems(m, js[..|js| - 1])) == Plus(SumTallies(m), Row(js[..|js| - 1]))
    ensures SumTallies(AddItems(m, js)) == Plus(SumTallies(m), Row(js))
  {
    var init := js[..|js| - 1];
    var j := js[|js| - 1];
    AddItemsLast(m, js);
    SumBump(AddItems(m, init), j);
    RowLast(js);
    PlusAssoc(SumTallies(m), Row(init), Delta(j.verdict));
  }

  /** The rows of the table sum to the scene's 'correct' and 'incorrect'
      counts, added to what the table held before. */
  lemma {:induction false} AddItemsSum(m: map<string, Tally>, js: seq<Judgement>)
    ensures SumTallies(AddItems(m, js)) == Plus(SumTallies(m), Row(js))
    decreases |js|
  {
    if |js| == 0 {
      PlusZero(SumTallies(m));
    } else {
      AddItemsSum(m, js[..|js| - 1]);
      AddItemsSumStep(m, js);
    }
  }

  /** Per scene, the per-predicate tallies sum to the scene's counts. */
  lemma ScorePredicateSums(items: seq<RelationshipItem>)
    ensures SumTallies(Score(items).byPredicate) == Tally(Score(items).correct, Score(items).incorrect)
  {
    var js := Judgements(items);
    AddItemsSum(map[], js);
    assert SumTallies(map[]) == Tally(0, 0);
  }

  // ---------------------------------------------------------------------
  // One dataset

  /** An `annotations_*.json` file: its file-name stem and its contents. */
  datatype ValidationFile = ValidationFile(stem: string, doc: ImportDoc)

  /** `relationships.predicted.items`, when present. */
  function PredictedItems(doc: ImportDoc): (r: Option<seq<RelationshipItem>>)
    ensures r.Some? <==> doc.relationships.Some? && doc.relationships.value.items.Some?
  {
    if doc.relationships.Some? && doc.relationships.value.items.Some? then doc.relationships.value.items else None
  }

  /** `data.get('scene_id', stem.replace('annotations_', ''))`. */
  function SceneKey(f: ValidationFile): string {
    if f.doc.sceneId.Some? then f.doc.sceneId.value else RemoveAll(f.stem, "annotations_")
  }

  /** One iteration of the file loop; a file without predicted
      relationships is skipped. */
  function Process(acc: Results, f: ValidationFile): (r: Results)
    ensures PredictedItems(f.doc).None? ==> r == acc
  {
    match PredictedItems(f.doc)
    case None => acc
    case Some(items) =>
      var st := Score(items);
      Results(acc.perScene[SceneKey(f) := st], AddItems(acc.perPredicate, Judgements(items)),
              acc.totalCorrect + st.correct, acc.totalIncorrect + st.incorrect,
              acc.totalNull + st.nullValidation, acc.totalRelationships + st.total)
  }

  /** `load_relationship_validations` over the files in sorted order. */
  function Load(files: seq<ValidationFile>): Results
    decreases |files|
  {
    if |files| == 0 then NoResults else Process(Load(files[..|files| - 1]), files[|files| - 1])
  }

  /** The scenes of the processed files, in order. */
  function Processed(files: seq<ValidationFile>): (r: seq<SceneStats>)
    ensures |r| <= |files|
    decreases |files|
  {
    if |files| == 0 then []
    else
      var init := Processed(files[..|files| - 1]);
      match PredictedItems(files[|files| - 1].doc)
      case None => init
      case Some(items) => init + [Score(items)]
  }

  function SumCorrect(ss: seq<SceneStats>): nat {
    if |ss| == 0 then 0 else SumCorrect(ss[..|ss| - 1]) + ss[|ss| - 1].correct
  }

  function SumIncorrect(ss: seq<SceneStats>): nat {
    if |ss| == 0 then 0 else SumIncorrect(ss[..|ss| - 1]) + ss[|ss| - 1].incorrect
  }

  function SumNull(ss: seq<SceneStats>): nat {
    if |ss| == 0 then 0 else SumNull(ss[..|ss| - 1]) + ss[|ss| - 1].nullValidation
  }

  function SumTotal(ss: seq<SceneStats>): nat {
    if |ss| == 0 then 0 else SumTotal(ss[..|ss| - 1]) + ss[|ss| - 1].total
  }

  /** The global totals are the sums of the processed scenes' counts,
      even where two files share a scene key and the later one replaces
      the earlier one in `per_scene`. */
  lemma {:induction false} LoadTotals(files: seq<ValidationFile>)
    ensures var r := Load(files);
      var ss := Processed(files);
      r.totalCorrect == SumCorrect(ss) && r.totalIncorrect == SumIncorrect(ss)
      && r.totalNull == SumNull(ss) && r.totalRelationships == SumTotal(ss)
    decreases |files|
  {
    if |files| > 0 {
      var init := files[..|files| - 1];
      LoadTotals(init);
      var ss := Processed(files);
      if PredictedItems(files[|files| - 1].doc).Some? {
        assert ss[..|ss| - 1] == Processed(init);
      }
    }
  }

  /** A scene key is present exactly when some processed file has it. */
  lemma {:induction false} LoadSceneKeys(files: seq<ValidationFile>, key: string)
    ensures key in Load(files).perScene <==>
      exists i :: 0 <= i < |files| && PredictedItems(files[i].doc).Some? && SceneKey(files[i]) == key
    decreases |files|
  {
    if |files| > 0 {
      var n := |files| - 1;
      var init := files[..n];
      LoadSceneKeys(init, key);
      assert forall i :: 0 <= i < n ==> files[i] == init[i];
    }
  }

  /** A scene key holds the counts of the last processed file with that
      key. */
  lemma {:induction false} LoadSceneValue(files: seq<ValidationFile>, i: nat)
    requires i < |files| && PredictedItems(files[i].doc).Some?
    requires forall j :: i < j < |files| && PredictedItems(files[j].doc).Some? ==> SceneKey(files[j]) != SceneKey(files[i])
    ensures SceneKey(files[i]) in Load(files).perScene
    ensures Load(files).perScene[SceneKey(files[i])] == Score(PredictedItems(files[i].doc).value)
    decreases |files|
  {
    var n := |files| - 1;
    if i < n {
      var init := files[..n];
      assert init[i] == files[i];
      LoadSceneValue(init, i);
    }
  }

  /** Across the dataset, null, 'correct' and 'incorrect' never count more
      than the relationships, and count all of them when every processed
      item holds one of those values. */
  lemma {:induction false} LoadAccounts(files: seq<ValidationFile>)
    ensures var r := Load(files);
      r.totalCorrect + r.totalIncorrect + r.totalNull <= r.totalRelationships
    ensures (forall i, k :: (0 <= i < |files| && PredictedItems(files[i].doc).Some? &&
               0 <= k < |PredictedItems(files[i].doc).value|) ==> Counted(PredictedItems(files[i].doc).value[k].validation)) ==>
      var r := Load(files);
      r.totalCorrect + r.totalIncorrect + r.totalNull == r.totalRelationships
    decreases |files|
  {
    if |files| > 0 {
      var n := |files| - 1;
      var init := files[..n];
      LoadAccounts(init);
      assert forall i :: 0 <= i < n ==> files[i] == init[i];
      match PredictedItems(files[n].doc)
      case None =>
      case Some(items) => ScoreAccounts(items);
    }
  }

  /** Across the dataset, the per-predicate tallies sum to the global
      'correct' and 'incorrect' totals, so no row exceeds them. */
  lemma {:induction false} LoadPredicateSums(files: seq<ValidationFile>)
    ensures var r := Load(files);
      SumTallies(r.perPredicate) == Tally(r.totalCorrect, r.totalIncorrect)
    ensures var r := Load(files);
      forall p :: p in r.perPredicate ==> r.perPredicate[p].correct <= r.totalCorrect && r.perPredicate[p].incorrect <= r.totalIncorrect
    decreases |files|
  {
    if |files| > 0 {
      var n := |files| - 1;
      LoadPredicateSums(files[..n]);
      match PredictedItems(files[n].doc)
      case None =>
      case Some(items) => AddItemsSum(Load(files[..n]).perPredicate, Judgements(items));
    }
    var r := Load(files);
    forall p | p in r.perPredicate
      ensures r.perPredicate[p].correct <= r.totalCorrect && r.perPredicate[p].incorrect <= r.totalIncorrect
    {
      RowAtMostSum(r.perPredicate, p);
    }
  }

  /** A file written by the viewer from a consistent session is counted
      in full: each relationship of its graph is null, 'correct' or
      'incorrect'. */
  lemma ExportedRelationshipsAccounted(s: Session, timestamp: string)
    requires Export(s, timestamp).Some? && Consistent(s)
    ensures var items := PredictedItems(AsImport(Export(s, timestamp).value));
      && items.Some?
      && Score(items.value).total == (if s.graph.Some? then |s.graph.value.relationships| else 0)
      && Score(items.value).correct + Score(items.value).incorrect + Score(items.value).nullValidation == Score(items.value).total
  {
    var items := Export(s, timestamp).value.relationshipItems;
    forall k | 0 <= k < |items| ensures Counted(items[k].validation) {
      var v := Lookup(s.relationshipValidations, k);
      if v.Some? { assert IsStatus(s.relationshipValidations[k]); }
    }
    ScoreAccounts(items);
  }

  // ---------------------------------------------------------------------
  // Several datasets

  /** `per_predicate` tables merged by adding rows. */
  function Merge(a: map<string, Tally>, b: map<string, Tally>): (r: map<string, Tally>)
    ensures r.Keys == a.Keys + b.Keys
  {
    map p | p in a.Keys + b.Keys :: Plus(Get(a, p), Get(b, p))
  }

  lemma MergeRemove(a: map<string, Tally>, b: map<string, Tally>, q: string)
    requires q in b
    ensures Merge(a, b) == Merge(a, b - {q})[q := Plus(Get(a, q), b[q])]
  {
    var l := Merge(a, b);
    var r := Merge(a, b - {q})[q := Plus(Get(a, q), b[q])];
    assert l.Keys == r.Keys;
    forall k | k in l.Keys ensures l[k] == r[k] {
      if k != q { assert Get(b - {q}, k) == Get(b, k); }
    }
  }

  lemma MergeEmpty(a: map<string, Tally>)
    ensures Merge(a, map[]) == a
  {
    var r := Merge(a, map[]);
    assert r.Keys == a.Keys;
    forall k | k in a ensures r[k] == a[k] {}
  }

  /** Merging adds the sums. */
  lemma {:induction false} MergeSum(a: map<string, Tally>, b: map<string, Tally>)
    ensures SumTallies(Merge(a, b)) == Plus(SumTallies(a), SumTallies(b))
    decreases b.Keys
  {
    if b.Keys == {} {
      assert b == map[];
      MergeEmpty(a);
      assert SumTallies(b) == Tally(0, 0);
      PlusZero(SumTallies(a));
    } else {
      var q :| q in b;
      var b' := b - {q};
      assert b'.Keys == b.Keys - {q};
      MergeSum(a, b');
      var m' := Merge(a, b');
      var t := Plus(Get(a, q), b[q]);
      MergeRemove(a, b, q);
      SumUpdate(m', q, t);
      SumSplit(m', q);
      SumSplit(b, q);
      assert Get(m', q) == Get(a, q);
      var S1 := SumTallies(m' - {q});
      assert SumTallies(m') == Plus(Get(a, q), S1);
      assert SumTallies(Merge(a, b)) == Plus(t, S1);
      assert SumTallies(b) == Plus(b[q], SumTallies(b'));
      PlusRearrange(Get(a, q), b[q], S1, SumTallies(a), SumTallies(b'));
    }
  }

  /** The scenes of one dataset, keyed `dataset/scene_id`. */
  function Prefixed(dataset: string, m: map<string, SceneStats>): map<string, SceneStats> {
    map k | k in PrefixedKeys(dataset, m) :: m[k[|dataset| + 1..]]
  }

  function PrefixedKeys(dataset: string, m: map<string, SceneStats>): (r: set<string>)
    ensures forall k :: k in r ==> |dataset| + 1 <= |k| && k[|dataset| + 1..] in m
  {
    var r := set s | s in m :: dataset + "/" + s;
    assert forall s :: s in m ==> (dataset + "/" + s)[|dataset| + 1..] == s;
    r
  }

  /** `dataset/scene_id` keys from datasets without '/' never collide. */
  lemma KeyInjective(d1: string, s1: string, d2: string, s2: string)
    requires '/' !in d1 && '/' !in d2
    requires d1 + "/" + s1 == d2 + "/" + s2
    ensures d1 == d2 && s1 == s2
  {
    var k := d1 + "/" + s1;
    IndexOfAfter(d1, '/', s1);
    IndexOfAfter(d2, '/', s2);
    assert d1 == k[..|d1|] == d2;
    assert s1 == k[|d1| + 1..] == s2;
  }

  /** The combining fold of `main`, over `(dataset, results)` pairs. */
  function Combine(rs: seq<(string, Results)>): Results
    decreases |rs|
  {
    if |rs| == 0 then NoResults
    else
      var acc := Combine(rs[..|rs| - 1]);
      var (d, r) := rs[|rs| - 1];
      Results(acc.perScene + Prefixed(d, r.perScene), Merge(acc.perPredicate, r.perPredicate),
              acc.totalCorrect + r.totalCorrect, acc.totalIncorrect + r.totalIncorrect,
              acc.totalNull + r.totalNull, acc.totalRelationships + r.totalRelationships)
  }

  /** Combining keeps the accounting: when every dataset's counts fit its
      total (or fill it), so do the combined ones. */
  lemma {:induction false} CombineAccounts(rs: seq<(string, Results)>)
    requires forall i :: 0 <= i < |rs| ==>
      rs[i].1.totalCorrect + rs[i].1.totalIncorrect + rs[i].1.totalNull <= rs[i].1.totalRelationships
    ensures var c := Combine(rs);
      c.totalCorrect + c.totalIncorrect + c.totalNull <= c.totalRelationships
    ensures (forall i :: 0 <= i < |rs| ==>
        rs[i].1.totalCorrect + rs[i].1.totalIncorrect + rs[i].1.totalNull == rs[i].1.totalRelationships) ==>
      var c := Combine(rs);
      c.totalCorrect + c.totalIncorrect + c.totalNull == c.totalRelationships
    decreases |rs|
  {
    if |rs| > 0 {
      CombineAccounts(rs[..|rs| - 1]);
    }
  }

  /** The last dataset's contribution to the combined view. */
  lemma CombineLast(rs: seq<(string, Results)>)
    requires |rs| > 0
    ensures var c, acc, r := Combine(rs), Combine(rs[..|rs| - 1]), rs[|rs| - 1].1;
      && c.perScene == acc.perScene + Prefixed(rs[|rs| - 1].0, r.perScene)
      && c.perPredicate == Merge(acc.perPredicate, r.perPredicate)
      && c.totalCorrect == acc.totalCorrect + r.totalCorrect
      && c.totalIncorrect == acc.totalIncorrect + r.totalIncorrect
  {}

  /** Merging two tables whose sums are known. */
  lemma MergeTotals(a: map<string, Tally>, b: map<string, Tally>, ta: Tally, tb: Tally)
    requires SumTallies(a) == ta && SumTallies(b) == tb
    ensures SumTallies(Merge(a, b)) == Tally(ta.correct + tb.correct, ta.incorrect + tb.incorrect)
  {
    MergeSum(a, b);
  }

  /** One step of `CombinePredicateSums`. */
  lemma CombinePredicateSumsStep(rs: seq<(string, Results)>)
    requires |rs| > 0
    requires var acc := Combine(rs[..|rs| - 1]);
      SumTallies(acc.perPredicate) == Tally(acc.totalCorrect, acc.totalIncorrect)
    requires var r := rs[|rs| - 1].1;
      SumTallies(r.perPredicate) == Tally(r.totalCorrect, r.totalIncorrect)
    ensures var c := Combine(rs);
      SumTallies(c.perPredicate) == Tally(c.totalCorrect, c.totalIncorrect)
  {
    var acc := Combine(rs[..|rs| - 1]);
    var r := rs[|rs| - 1].1;
    CombineLast(rs);
    MergeTotals(acc.perPredicate, r.perPredicate, Tally(acc.totalCorrect, acc.totalIncorrect),
                Tally(r.totalCorrect, r.totalIncorrect));
  }

  /** Combining keeps the per-predicate sums equal to the totals. */
  lemma {:induction false} CombinePredicateSums(rs: seq<(string, Results)>)
    requires forall i :: 0 <= i < |rs| ==>
      SumTallies(rs[i].1.perPredicate) == Tally(rs[i].1.totalCorrect, rs[i].1.totalIncorrect)
    ensures var c := Combine(rs);
      SumTallies(c.perPredicate) == Tally(c.totalCorrect, c.totalIncorrect)
    decreases |rs|
  {
    if |rs| > 0 {
      var n := |rs| - 1;
      assert forall i :: 0 <= i < n ==> rs[..n][i] == rs[i];
      CombinePredicateSums(rs[..n]);
      CombinePredicateSumsStep(rs);
    } else {
      assert SumTallies(map[]) == Tally(0, 0);
    }
  }

  /** Dataset names are distinct and contain no '/'. */
  predicate WellNamed(rs: seq<(string, Results)>) {
    && (forall i :: 0 <= i < |rs| ==> '/' !in rs[i].0)
    && (forall i, j :: 0 <= i < j < |rs| ==> rs[i].0 != rs[j].0)
  }

  /** A scene of a dataset appears in its prefixed table with its counts. */
  lemma PrefixedHas(d: string, m: map<string, SceneStats>, s: string)
    requires s in m
    ensures d + "/" + s in Prefixed(d, m) && Prefixed(d, m)[d + "/" + s] == m[s]
  {
    assert (d + "/" + s)[|d| + 1..] == s;
    assert d + "/" + s in PrefixedKeys(d, m);
  }

  /** Every key of a prefixed table is `d/s` for one of its scenes. */
  lemma PrefixedOnly(d: string, m: map<string, SceneStats>, key: string)
    requires key in Prefixed(d, m)
    ensures exists s :: s in m && key == d + "/" + s
  {
    var s :| s in m && d + "/" + s == key;
  }

  /** A scene of an earlier dataset is not shadowed by the last one. */
  lemma NotShadowed(d: string, s: string, d2: string, m: map<string, SceneStats>)
    requires '/' !in d && '/' !in d2 && d != d2
    ensures d + "/" + s !in Prefixed(d2, m)
  {
    if d + "/" + s in Prefixed(d2, m) {
      PrefixedOnly(d2, m, d + "/" + s);
      var s2 :| s2 in m && d + "/" + s == d2 + "/" + s2;
      KeyInjective(d, s, d2, s2);
      assert false;
    }
  }

  /** With well-named datasets, every scene of every dataset appears under
      `dataset/scene_id` with its own counts, and nothing else appears. */
  lemma {:induction false} CombineScenes(rs: seq<(string, Results)>, i: nat, s: string)
    requires WellNamed(rs)
    requires i < |rs| && s in rs[i].1.perScene
    ensures rs[i].0 + "/" + s in Combine(rs).perScene
    ensures Combine(rs).perScene[rs[i].0 + "/" + s] == rs[i].1.perScene[s]
    decreases |rs|
  {
    var n := |rs| - 1;
    CombineLast(rs);
    if i < n {
      var init := rs[..n];
      assert init[i] == rs[i];
      assert WellNamed(init);
      CombineScenes(init, i, s);
      NotShadowed(rs[i].0, s, rs[n].0, rs[n].1.perScene);
    } else {
      PrefixedHas(rs[n].0, rs[n].1.perScene, s);
    }
  }

  /** Every combined key names a scene of one of the datasets. */
  lemma {:induction false} CombineKeys(rs: seq<(string, Results)>, key: string)
    requires key in Combine(rs).perScene
    ensures exists i, s :: 0 <= i < |rs| && s in rs[i].1.perScene && key == rs[i].0 + "/" + s
    decreases |rs|
  {
    var n := |rs| - 1;
    CombineLast(rs);
    if key in Prefixed(rs[n].0, rs[n].1.perScene) {
      PrefixedOnly(rs[n].0, rs[n].1.perScene, key);
      var s :| s in rs[n].1.perScene && key == rs[n].0 + "/" + s;
    } else {
      CombineKeys(rs[..n], key);
      var i, s :| 0 <= i < n && s in rs[..n][i].1.perScene && key == rs[..n][i].0 + "/" + s;
      assert rs[..n][i] == rs[i];
    }
  }

  /** The combined view of a single dataset has that dataset's totals and
      predicate table. */
  lemma CombineSingle(d: string, r: Results)
    ensures var c := Combine([(d, r)]);
      && c.totalCorrect == r.totalCorrect && c.totalIncorrect == r.totalIncorrect
      && c.totalNull == r.totalNull && c.totalRelationships == r.totalRelationships
      && c.perPredicate == r.perPredicate
  {
    assert [(d, r)][..0] == [];
    assert Merge(map[], r.perPredicate) == r.perPredicate;
  }
}

=== FILE: eval_similarity.dfy ===
/** The similarity evaluation (`evaluate_similarity.py`) and its per-scene
    report twin (`generate_similarity_detail_report.py`): ground-truth pairs
    from the annotation files, predicted pairs from the model's `related`
    lists restricted to validated objects, and precision / recall / F1.
    Metrics are computed over the reals; floating-point rounding is not
    modelled. */
module EvalSimilarity {
  import opened Wrappers
  import opened Session
  import opened AnnotationDoc

  /** An unordered pair of object ids, stored as (smaller, larger). */
  type Pair = (int, int)

  function Canon(a: int, b: int): (p: Pair)
    ensures p.0 <= p.1
    ensures {p.0, p.1} == {a, b}
  {
    if a <= b then (a, b) else (b, a)
  }

  /** (a, b) and (b, a) are the same pair. */
  lemma CanonSymmetric(a: int, b: int)
    ensures Canon(a, b) == Canon(b, a)
  {}

  /** Two entries have the same canonical pair exactly when they link the
      same two objects. */
  lemma CanonIffLinks(x: SimilarityAnnotation, y: SimilarityAnnotation)
    ensures Canon(x.id1, x.id2) == Canon(y.id1, y.id2) <==> Links(y, x.id1, x.id2)
  {}

  /** The ground-truth pair set of an annotation list. */
  function GroundTruthPairs(anns: seq<SimilarityAnnotation>): (r: set<Pair>)
    ensures |r| <= |anns|
  {
    if |anns| == 0 then {}
    else {Canon(anns[0].id1, anns[0].id2)} + GroundTruthPairs(anns[1..])
  }

  /** A pair is ground truth exactly when some entry links it. */
  lemma {:induction false} GroundTruthPairsIff(anns: seq<SimilarityAnnotation>, p: Pair)
    ensures p in GroundTruthPairs(anns) <==> exists k :: 0 <= k < |anns| && Canon(anns[k].id1, anns[k].id2) == p
  {
    if |anns| > 0 {
      var t := anns[1..];
      GroundTruthPairsIff(t, p);
      if p in GroundTruthPairs(t) {
        var k :| 0 <= k < |t| && Canon(t[k].id1, t[k].id2) == p;
        assert t[k] == anns[k + 1];
      }
      if exists k :: 0 <= k < |anns| && Canon(anns[k].id1, anns[k].id2) == p {
        var k :| 0 <= k < |anns| && Canon(anns[k].id1, anns[k].id2) == p;
        if k > 0 { assert anns[k] == t[k - 1]; }
      }
    }
  }

  lemma NoDuplicatesTail(anns: seq<SimilarityAnnotation>)
    requires |anns| > 0 && NoDuplicatePairs(anns)
    ensures NoDuplicatePairs(anns[1..])
  {
    var t := anns[1..];
    forall i, j | 0 <= i < j < |t| ensures !Links(t[j], t[i].id1, t[i].id2) {
      assert t[i] == anns[i + 1] && t[j] == anns[j + 1];
    }
  }

  /** When the list has no repeated pair (which the sampled viewer keeps
      true), `total_annotations` equals the number of ground-truth pairs. */
  lemma {:induction false} GroundTruthCount(anns: seq<SimilarityAnnotation>)
    requires NoDuplicatePairs(anns)
    ensures |GroundTruthPairs(anns)| == |anns|
  {
    if |anns| > 0 {
      var t := anns[1..];
      NoDuplicatesTail(anns);
      GroundTruthCount(t);
      var c := Canon(anns[0].id1, anns[0].id2);
      FirstPairNew(anns);
      assert GroundTruthPairs(anns) == {c} + GroundTruthPairs(t);
    }
  }

  /** The first entry's pair is linked by no later entry. */
  lemma FirstPairNew(anns: seq<SimilarityAnnotation>)
    requires |anns| > 0 && NoDuplicatePairs(anns)
    ensures Canon(anns[0].id1, anns[0].id2) !in GroundTruthPairs(anns[1..])
  {
    var t := anns[1..];
    var c := Canon(anns[0].id1, anns[0].id2);
    GroundTruthPairsIff(t, c);
    forall k | 0 <= k < |t| ensures Canon(t[k].id1, t[k].id2) != c {
      assert t[k] == anns[k + 1];
      CanonIffLinks(anns[0], anns[k + 1]);
    }
  }

  /** What `load_validation_results` keeps of one annotation file. */
  datatype ValidationRecord = ValidationRecord(pairs: set<Pair>, validated: set<int>, totalAnnotations: nat)

  /** The objects of every predicted attribute item, whatever its
      validation. */
  function ValidatedObjects(doc: ImportDoc): (r: set<int>)
    ensures doc.attributes.Some? && doc.attributes.value.items.Some? ==>
      forall o :: o in r <==> exists k :: 0 <= k < |doc.attributes.value.items.value| && doc.attributes.value.items.value[k].objectId == o
    ensures doc.attributes.None? || doc.attributes.value.items.None? ==> r == {}
  {
    if doc.attributes.Some? && doc.attributes.value.items.Some? then
      var items := doc.attributes.value.items.value;
      set k | 0 <= k < |items| :: items[k].objectId
    else {}
  }

  function ValidationOf(doc: ImportDoc): (r: ValidationRecord)
    ensures r.totalAnnotations == (if doc.similarity.Some? then |doc.similarity.value| else 0)
    ensures |r.pairs| <= r.totalAnnotations
  {
    var anns := if doc.similarity.Some? then doc.similarity.value else [];
    ValidationRecord(GroundTruthPairs(anns), ValidatedObjects(doc), |anns|)
  }

  /** The report twin skips a file whose `scene_id` is missing or empty. */
  function ReportValidationOf(doc: ImportDoc): (r: Option<(string, ValidationRecord)>)
    ensures r.Some? <==> doc.sceneId.Some? && doc.sceneId.value != ""
    ensures r.Some? ==> r.value.1 == ValidationOf(doc)
  {
    if doc.sceneId.Some? && doc.sceneId.value != "" then Some((doc.sceneId.value, ValidationOf(doc))) else None
  }

  /** For a file the viewer wrote from a consistent session, the validated
      objects are those carrying a predicted attribute and every similarity
      entry counts as one ground-truth pair. */
  lemma ExportedValidation(s: Session, timestamp: string)
    requires Export(s, timestamp).Some? && Consistent(s)
    ensures var r := ValidationOf(AsImport(Export(s, timestamp).value));
      && r.totalAnnotations == |s.similarity|
      && |r.pairs| == |s.similarity|
      && (s.graph.Some? ==> forall o :: o in r.validated <==>
            exists k :: 0 <= k < |s.graph.value.attributes| && s.graph.value.attributes[k].objectId == o)
  {
    var d := Export(s, timestamp).value;
    GroundTruthCount(s.similarity);
    if s.graph.Some? {
      var attrs := s.graph.value.attributes;
      forall k | 0 <= k < |attrs| ensures d.attributeItems[k].objectId == attrs[k].objectId {}
    }
  }

  // ---------------------------------------------------------------------
  // Predictions

  /** One entry of `attributes_from_images.json`: its key and its `related`
      list (`None` when missing or `null`, both read as empty). */
  datatype PredictionEntry = PredictionEntry(key: string, related: Option<seq<int>>)

  function RelatedOf(e: PredictionEntry): seq<int> {
    if e.related.Some? then e.related.value else []
  }

  /** The pairs one object contributes: each related id, when both ends are
      validated. */
  function PairsFrom(o: int, related: seq<int>, validated: set<int>): (r: set<Pair>)
    ensures forall p :: p in r <==> o in validated && exists j :: 0 <= j < |related| && related[j] in validated && p == Canon(o, related[j])
  {
    if |related| == 0 then {}
    else
      var rest := PairsFrom(o, related[1..], validated);
      assert forall j :: 1 <= j < |related| ==> related[j] == related[1..][j - 1];
      assert forall j :: 0 <= j < |related[1..]| ==> related[1..][j] == related[j + 1];
      (if o in validated && related[0] in validated then {Canon(o, related[0])} else {}) + rest
  }

  /** `load_model_predictions` of the evaluation script: `int(key)` is
      `toInt` (`None` for a `ValueError`); a key that is not an integer
      aborts the script. */
  function PredictedPairs(entries: seq<PredictionEntry>, validated: set<int>, toInt: string -> Option<int>): (r: Option<set<Pair>>)
    ensures r.None? <==> exists k :: 0 <= k < |entries| && toInt(entries[k].key).None?
    ensures r.Some? ==> forall p :: p in r.value ==> p.0 in validated && p.1 in validated
  {
    if |entries| == 0 then Some({})
    else
      var rest := PredictedPairs(entries[1..], validated, toInt);
      assert forall k :: 1 <= k < |entries| ==> entries[k] == entries[1..][k - 1];
      assert forall k :: 0 <= k < |entries[1..]| ==> entries[1..][k] == entries[k + 1];
      match toInt(entries[0].key)
      case None => None
      case Some(o) =>
        if rest.None? then None
        else
          var here := PairsFrom(o, RelatedOf(entries[0]), validated);
          assert forall p :: p in here ==> p.0 in validated && p.1 in validated by {
            forall p | p in here ensures p.0 in validated && p.1 in validated {
              var j :| 0 <= j < |RelatedOf(entries[0])| && RelatedOf(entries[0])[j] in validated && p == Canon(o, RelatedOf(entries[0])[j]);
            }
          }
          Some(here + rest.value)
  }

  /** The report twin's version: keys that are not integers are skipped,
      and a missing file gives no prediction at all. */
  function ReportPredictedPairs(file: Option<seq<PredictionEntry>>, validated: set<int>, toInt: string -> Option<int>): (r: set<Pair>)
    ensures file.None? ==> r == {}
    decreases if file.Some? then |file.value| else 0
  {
    match file
    case None => {}
    case Some(entries) =>
      if |entries| == 0 then {}
      else
        var rest := ReportPredictedPairs(Some(entries[1..]), validated, toInt);
        match toInt(entries[0].key)
        case None => rest
        case Some(o) => PairsFrom(o, RelatedOf(entries[0]), validated) + rest
  }

  /** When every key is an integer, both scripts find the same pairs. */
  lemma {:induction false} PredictionTwinsAgree(entries: seq<PredictionEntry>, validated: set<int>, toInt: string -> Option<int>)
    requires forall k :: 0 <= k < |entries| ==> toInt(entries[k].key).Some?
    ensures PredictedPairs(entries, validated, toInt) == Some(ReportPredictedPairs(Some(entries), validated, toInt))
  {
    if |entries| > 0 {
      PredictionTwinsAgree(entries[1..], validated, toInt);
    }
  }

  /** Entry `e` gives pair `p`: its key is an integer of a validated
      object and it lists a validated related id making up `p`. */
  predicate EntryGives(e: PredictionEntry, validated: set<int>, toInt: string -> Option<int>, p: Pair) {
    && toInt(e.key).Some?
    && toInt(e.key).value in validated
    && exists j :: 0 <= j < |RelatedOf(e)| && RelatedOf(e)[j] in validated && p == Canon(toInt(e.key).value, RelatedOf(e)[j])
  }

  /** A predicted pair is kept exactly when some validated object lists a
      validated related id. */
  lemma {:induction false} PredictedPairsIff(entries: seq<PredictionEntry>, validated: set<int>, toInt: string -> Option<int>, p: Pair)
    requires PredictedPairs(entries, validated, toInt).Some?
    ensures p in PredictedPairs(entries, validated, toInt).value <==>
      exists k :: 0 <= k < |entries| && EntryGives(entries[k], validated, toInt, p)
  {
    if |entries| > 0 {
      var t := entries[1..];
      PredictedPairsIff(t, validated, toInt, p);
      SomeEntryCons(entries, validated, toInt, p);
    }
  }

  lemma SomeEntryCons(entries: seq<PredictionEntry>, validated: set<int>, toInt: string -> Option<int>, p: Pair)
    requires |entries| > 0
    ensures (exists k :: 0 <= k < |entries| && EntryGives(entries[k], validated, toInt, p)) <==>
      EntryGives(entries[0], validated, toInt, p) || exists k :: 0 <= k < |entries[1..]| && EntryGives(entries[1..][k], validated, toInt, p)
  {
    var t := entries[1..];
    if exists k :: 0 <= k < |t| && EntryGives(t[k], validated, toInt, p) {
      var k :| 0 <= k < |t| && EntryGives(t[k], validated, toInt, p);
      assert t[k] == entries[k + 1];
    }
    if exists k :: 0 <= k < |entries| && EntryGives(entries[k], validated, toInt, p) {
      var k :| 0 <= k < |entries| && EntryGives(entries[k], validated, toInt, p);
      if k > 0 { assert entries[k] == t[k - 1]; }
    }
  }

  // ---------------------------------------------------------------------
  // Metrics

  datatype Metrics = Metrics(precision: real, recall: real, f1: real, tp: nat, fp: nat, fn: nat,
                             gtTotal: nat, predTotal: nat)

  /** Harmonic mean, 0 when either input is 0. */
  function F1(p: real, r: real): (f: real)
    requires 0.0 <= p <= 1.0 && 0.0 <= r <= 1.0
    ensures 0.0 <= f <= 1.0
    ensures f == 0.0 <==> p == 0.0 || r == 0.0
  {
    if p + r == 0.0 then 0.0
    else
      var f := 2.0 * (p * r) / (p + r);
      F1Bounds(p, r, f);
      f
  }

  lemma F1Bounds(p: real, r: real, f: real)
    requires 0.0 <= p <= 1.0 && 0.0 <= r <= 1.0 && p + r > 0.0
    requires f == 2.0 * (p * r) / (p + r)
    ensures 0.0 <= f <= 1.0
    ensures f == 0.0 <==> p == 0.0 || r == 0.0
  {
    ProductFacts(p, r);
    var q := p * r;
    assert 0.0 <= q;
    assert q <= p;
    assert q <= r;
    assert q + q <= p + r;
    assert 2.0 * q == q + q;
    QuotientAtMostOne(2.0 * q, p + r);
  }

  lemma ProductFacts(p: real, r: real)
    requires 0.0 <= p <= 1.0 && 0.0 <= r <= 1.0
    ensures 0.0 <= p * r <= p && p * r <= r
    ensures p * r == 0.0 <==> p == 0.0 || r == 0.0
  {
    if p == 0.0 {
      assert p * r == 0.0;
    } else if r == 0.0 {
      assert p * r == 0.0;
    } else {
      assert p * r > 0.0;
      assert p * (1.0 - r) >= 0.0;
      assert r * (1.0 - p) >= 0.0;
    }
  }

  lemma QuotientAtMostOne(a: real, b: real)
    requires 0.0 <= a <= b && b > 0.0
    ensures 0.0 <= a / b <= 1.0
    ensures a / b == 0.0 <==> a == 0.0
  {
    assert (a / b) * b == a;
  }

  lemma ProductBelow(p: real, r: real)
    requires 0.0 <= p && r <= 1.0
    ensures p * r <= p
  {
    assert p * (1.0 - r) >= 0.0;
  }

  lemma ProductPositive(p: real, r: real)
    requires p > 0.0 && r > 0.0
    ensures p * r > 0.0
  {}

  /** Sizes of the intersection and the two differences. */
  lemma SplitCounts(gt: set<Pair>, pred: set<Pair>)
    ensures |gt * pred| + |pred - gt| == |pred|
    ensures |gt * pred| + |gt - pred| == |gt|
  {
    assert pred == (gt * pred) + (pred - gt);
    assert (gt * pred) * (pred - gt) == {};
    assert gt == (gt * pred) + (gt - pred);
    assert (gt * pred) * (gt - pred) == {};
  }

  /** `compute_metrics`: precision is 0 without predictions, recall is 0
      without ground truth. */
  function ComputeMetrics(gt: set<Pair>, pred: set<Pair>): (m: Metrics)
    ensures m.tp + m.fp == m.predTotal == |pred|
    ensures m.tp + m.fn == m.gtTotal == |gt|
    ensures m.tp == |gt * pred|
    ensures 0.0 <= m.precision <= 1.0 && 0.0 <= m.recall <= 1.0 && 0.0 <= m.f1 <= 1.0
    ensures |pred| == 0 ==> m.precision == 0.0
    ensures |gt| == 0 ==> m.recall == 0.0
    ensures |pred| > 0 ==> m.precision * (|pred| as real) == m.tp as real
    ensures |gt| > 0 ==> m.recall * (|gt| as real) == m.tp as real
  {
    SplitCounts(gt, pred);
    var tp := |gt * pred|;
    var precision := if |pred| == 0 then 0.0 else (tp as real) / (|pred| as real);
    var recall := if |gt| == 0 then 0.0 else (tp as real) / (|gt| as real);
    Metrics(precision, recall, F1(precision, recall), tp, |pred - gt|, |gt - pred|, |gt|, |pred|)
  }

  /** A perfect prediction scores 1 on all three measures. */
  lemma PerfectPrediction(gt: set<Pair>)
    requires |gt| > 0
    ensures var m := ComputeMetrics(gt, gt); m.precision == 1.0 && m.recall == 1.0 && m.f1 == 1.0
  {
    assert gt * gt == gt;
    var m := ComputeMetrics(gt, gt);
    UnitRatio(m.precision, |gt| as real);
    UnitRatio(m.recall, |gt| as real);
    assert F1(1.0, 1.0) == 1.0;
  }

  lemma UnitRatio(x: real, n: real)
    requires n > 0.0 && x * n == n
    ensures x == 1.0
  {
    assert (x - 1.0) * n == 0.0;
  }

  /** The report's recall: 1 when both sets are empty, 0 when only the
      ground truth is. */
  function ReportRecall(gt: set<Pair>, pred: set<Pair>): (r: real)
    ensures 0.0 <= r <= 1.0
    ensures |gt| == 0 ==> (r == 1.0 <==> |pred| == 0)
  {
    SplitCounts(gt, pred);
    if |gt| > 0 then (|gt * pred| as real) / (|gt| as real)
    else if |pred| == 0 then 1.0 else 0.0
  }

  /** The two scripts disagree on recall only for a scene with neither
      ground truth nor predictions. */
  lemma RecallConventions(gt: set<Pair>, pred: set<Pair>)
    ensures ReportRecall(gt, pred) != ComputeMetrics(gt, pred).recall <==> |gt| == 0 && |pred| == 0
  {}

  /** The report's three pair lists: hits, false positives and misses
      split the union of ground truth and predictions without overlap. */
  lemma PairsPartition(gt: set<Pair>, pred: set<Pair>)
    ensures (gt * pred) + (pred - gt) + (gt - pred) == gt + pred
    ensures (gt * pred) * (pred - gt) == {} && (gt * pred) * (gt - pred) == {} && (pred - gt) * (gt - pred) == {}
  {}

  /** The counts a report scene adds to the running totals. */
  datatype SceneCounts = SceneCounts(tp: nat, fp: nat, fn: nat, gt: nat, pred: nat)

  function CountsOf(gt: set<Pair>, pred: set<Pair>): (c: SceneCounts)
    ensures c.tp + c.fp == c.pred && c.tp + c.fn == c.gt
  {
    SplitCounts(gt, pred);
    SceneCounts(|gt * pred|, |pred - gt|, |gt - pred|, |gt|, |pred|)
  }

  predicate Coherent(c: SceneCounts) {
    c.tp + c.fp == c.pred && c.tp + c.fn == c.gt
  }

  /** The running totals over the scenes of the report. */
  function Totals(cs: seq<SceneCounts>): (t: SceneCounts)
    ensures (forall k :: 0 <= k < |cs| ==> Coherent(cs[k])) ==> Coherent(t)
  {
    if |cs| == 0 then SceneCounts(0, 0, 0, 0, 0)
    else
      var r := Totals(cs[1..]);
      assert forall k :: 1 <= k < |cs| ==> cs[k] == cs[1..][k - 1];
      SceneCounts(cs[0].tp + r.tp, cs[0].fp + r.fp, cs[0].fn + r.fn, cs[0].gt + r.gt, cs[0].pred + r.pred)
  }

  /** Micro-averaged precision and recall from the totals, each 0 on a
      zero denominator. */
  function MicroPrecision(t: SceneCounts): (p: real)
    requires Coherent(t)
    ensures 0.0 <= p <= 1.0
    ensures t.pred > 0 ==> p * (t.pred as real) == t.tp as real
    ensures t.pred == 0 ==> p == 0.0
  {
    if t.pred > 0 then (t.tp as real) / (t.pred as real) else 0.0
  }

  function MicroRecall(t: SceneCounts): (r: real)
    requires Coherent(t)
    ensures 0.0 <= r <= 1.0
    ensures t.gt > 0 ==> r * (t.gt as real) == t.tp as real
    ensures t.gt == 0 ==> r == 0.0
  {
    if t.gt > 0 then (t.tp as real) / (t.gt as real) else 0.0
  }
}

=== FILE: jstext.dfy ===
/** The JavaScript (and a few Python) string built-ins the viewer and the
    scripts rely on: `trim`, `includes`, `startsWith`, `split`, `parseInt`,
    `parseFloat`, `toLowerCase`, `Array.prototype.slice` and number-to-string
    conversion of integers. */
module JsText {
  import opened Wrappers
  import Numeric

  /** The characters `String.prototype.trim` and the regular expression `\s`
      treat as white space (ECMAScript WhiteSpace and LineTerminator). */
  predicate IsSpace(c: char) {
    c == '\t' || c == '\n' || c == '\U{000B}' || c == '\U{000C}' || c == '\r' || c == ' '
    || c == '\U{00A0}' || c == '\U{1680}' || ('\U{2000}' <= c <= '\U{200A}')
    || c == '\U{2028}' || c == '\U{2029}' || c == '\U{202F}' || c == '\U{205F}'
    || c == '\U{3000}' || c == '\U{FEFF}'
  }

  /** How many white-space characters `s` starts with. */
  function LeadingSpaces(s: string): (k: nat)
    ensures k <= |s|
    ensures forall i :: 0 <= i < k ==> IsSpace(s[i])
    ensures k < |s| ==> !IsSpace(s[k])
  {
    if |s| > 0 && IsSpace(s[0]) then
      var k := LeadingSpaces(s[1..]);
      assert forall i :: 1 <= i < k + 1 ==> s[i] == s[1..][i - 1];
      1 + k
    else 0
  }

  /** Where the trailing white space of `s` begins. */
  function TextEnd(s: string): (e: nat)
    ensures e <= |s|
    ensures forall i :: e <= i < |s| ==> IsSpace(s[i])
    ensures e > 0 ==> !IsSpace(s[e - 1])
  {
    if |s| > 0 && IsSpace(s[|s| - 1]) then TextEnd(s[..|s| - 1]) else |s|
  }

  /** `trimStart`: drops leading white space. */
  function TrimStart(s: string): (r: string)
    ensures |r| <= |s|
    ensures |r| > 0 ==> !IsSpace(r[0])
  {
    s[LeadingSpaces(s)..]
  }

  /** `trim`: the characters of `s` between its leading and trailing white
      space. */
  function Trim(s: string): (r: string)
    ensures |r| <= |s|
    ensures |r| > 0 ==> !IsSpace(r[0]) && !IsSpace(r[|r| - 1])
    ensures r == "" <==> forall i :: 0 <= i < |s| ==> IsSpace(s[i])
  {
    var k := LeadingSpaces(s);
    if k == |s| then ""
    else
      var e := TextEnd(s);
      assert k < e;
      s[k..e]
  }

  predicate StartsWith(s: string, p: string) {
    |p| <= |s| && s[..|p|] == p
  }

  /** `s.includes(p)`. */
  predicate Contains(s: string, p: string)
    decreases |s|
  {
    StartsWith(s, p) || (|s| > 0 && Contains(s[1..], p))
  }

  /** `p` occurs in `s` at position `i`. */
  predicate MatchAt(s: string, p: string, i: nat) {
    i + |p| <= |s| && s[i..i + |p|] == p
  }

  /** An occurrence of `p` at position `i` witnesses `s.includes(p)`. */
  lemma {:induction false} ContainsAt(s: string, p: string, i: nat)
    requires MatchAt(s, p, i)
    ensures Contains(s, p)
    decreases i
  {
    if i == 0 {
      assert s[..|p|] == s[0..0 + |p|];
    } else {
      assert s[1..][i - 1..i - 1 + |p|] == s[i..i + |p|];
      ContainsAt(s[1..], p, i - 1);
    }
  }

  /** `s.includes(p)` has a witness position. */
  lemma {:induction false} ContainsWitness(s: string, p: string) returns (i: nat)
    requires Contains(s, p)
    ensures MatchAt(s, p, i)
    decreases |s|
  {
    if StartsWith(s, p) {
      i := 0;
      assert s[0..0 + |p|] == s[..|p|];
    } else {
      var k := ContainsWitness(s[1..], p);
      assert s[1..][k..k + |p|] == s[k + 1..k + 1 + |p|];
      i := k + 1;
    }
  }

  /** `includes` finds `p` exactly when `p` occurs at some position of `s`. */
  lemma ContainsIff(s: string, p: string)
    ensures Contains(s, p) <==> exists i: nat :: MatchAt(s, p, i)
  {
    forall i: nat | MatchAt(s, p, i) ensures Contains(s, p) { ContainsAt(s, p, i); }
    if Contains(s, p) { var i := ContainsWitness(s, p); }
  }

  /** `p` between any two strings is contained in the result. */
  lemma ContainsIn(a: string, p: string, b: string)
    ensures Contains(a + p + b, p)
  {
    var s := a + p + b;
    assert s[|a|..|a| + |p|] == p;
    ContainsAt(s, p, |a|);
  }

  /** `s` cannot contain `p` when a character of `p` never occurs in `s`. */
  lemma {:induction false} ContainsChar(s: string, p: string, c: char)
    requires c in p && c !in s
    ensures !Contains(s, p)
    decreases |s|
  {
    var k :| 0 <= k < |p| && p[k] == c;
    if |p| <= |s| {
      assert s[..|p|][k] != p[k];
    }
    if |s| > 0 {
      ContainsChar(s[1..], p, c);
    }
  }

  /** Position of the first `c` in `s`, if any. */
  function IndexOf(s: string, c: char): (r: Option<nat>)
    ensures r.None? <==> c !in s
    ensures r.Some? ==> r.value < |s| && s[r.value] == c && c !in s[..r.value]
  {
    if |s| == 0 then None
    else if s[0] == c then Some(0)
    else match IndexOf(s[1..], c)
      case None => None
      case Some(k) => assert s[..k + 1] == [s[0]] + s[1..][..k]; Some(k + 1)
  }

  /** The first `c` of `d + [c] + s` is the one after `d` when `d` holds none. */
  lemma {:induction false} IndexOfAfter(d: string, c: char, s: string)
    requires c !in d
    ensures IndexOf(d + [c] + s, c) == Some(|d|)
    decreases |d|
  {
    if |d| > 0 {
      assert (d + [c] + s)[1..] == d[1..] + [c] + s;
      IndexOfAfter(d[1..], c, s);
    }
  }

  /** `s.split(sep)` for a one-character separator. */
  function Split(s: string, sep: char): (r: seq<string>)
    ensures |r| >= 1
    ensures forall k :: 0 <= k < |r| ==> sep !in r[k]
    decreases |s|
  {
    match IndexOf(s, sep)
    case None => [s]
    case Some(i) => [s[..i]] + Split(s[i + 1..], sep)
  }

  /** `parts.join(sep)`. */
  function Join(parts: seq<string>, sep: string): string {
    if |parts| == 0 then ""
    else if |parts| == 1 then parts[0]
    else parts[0] + sep + Join(parts[1..], sep)
  }

  /** Joining the pieces of a split with the separator gives back the string. */
  lemma {:induction false} JoinSplit(s: string, sep: char)
    ensures Join(Split(s, sep), [sep]) == s
    decreases |s|
  {
    match IndexOf(s, sep)
    case None =>
    case Some(i) =>
      var rest := Split(s[i + 1..], sep);
      JoinSplit(s[i + 1..], sep);
      JoinCons(s[..i], rest, [sep]);
      assert s == s[..i] + [sep] + s[i + 1..];
  }

  /** Joining a list with at least two parts: the first, the separator, and
      the join of the rest. */
  lemma JoinCons(w: string, rest: seq<string>, sep: string)
    requires |rest| >= 1
    ensures Join([w] + rest, sep) == w + sep + Join(rest, sep)
  {
    assert ([w] + rest)[1..] == rest;
  }

  /** The white-space-separated tokens of `s`: `s.trim().split(/\s+/)` for a
      string whose trimmed form is not empty. */
  function Tokens(s: string): (r: seq<string>)
    ensures |r| <= |s|
    decreases |s|
  {
    var t := TrimStart(s);
    if |t| == 0 then []
    else
      var n := WordLength(t);
      [t[..n]] + Tokens(t[n..])
  }

  /** Every token is a non-empty run of non-space characters. */
  lemma {:induction false} TokensAreWords(s: string)
    ensures forall k :: 0 <= k < |Tokens(s)| ==> IsWord(Tokens(s)[k])
    decreases |s|
  {
    var t := TrimStart(s);
    if |t| > 0 {
      var n := WordLength(t);
      WordPrefix(t);
      TokensAreWords(t[n..]);
      WordsCons(t[..n], Tokens(t[n..]));
    }
  }

  lemma WordsCons(w: string, rest: seq<string>)
    requires IsWord(w) && forall k :: 0 <= k < |rest| ==> IsWord(rest[k])
    ensures forall k :: 0 <= k < 1 + |rest| ==> IsWord(([w] + rest)[k])
  {
    forall k | 0 <= k < 1 + |rest| ensures IsWord(([w] + rest)[k]) {
      if k > 0 { assert ([w] + rest)[k] == rest[k - 1]; }
    }
  }

  /** The leading run of non-space characters is a word. */
  lemma WordPrefix(t: string)
    requires |t| > 0 && !IsSpace(t[0])
    ensures IsWord(t[..WordLength(t)])
  {
    var n := WordLength(t);
    forall j | 0 <= j < n ensures !IsSpace(t[..n][j]) {
      assert t[..n][j] == t[j];
    }
  }

  /** A non-empty string without white space. */
  predicate IsWord(w: string) {
    |w| > 0 && forall j :: 0 <= j < |w| ==> !IsSpace(w[j])
  }

  /** Length of the leading run of non-space characters. */
  function WordLength(s: string): (n: nat)
    requires |s| > 0 && !IsSpace(s[0])
    ensures 0 < n <= |s|
    ensures forall j :: 0 <= j < n ==> !IsSpace(s[j])
    ensures n < |s| ==> IsSpace(s[n])
  {
    if |s| == 1 || IsSpace(s[1]) then 1 else 1 + WordLength(s[1..])
  }

  /** The word at the start of `w + tail` is `w` when `tail` is empty or
      starts with white space. */
  lemma {:induction false} WordLengthOfWord(w: string, tail: string)
    requires IsWord(w) && (|tail| == 0 || IsSpace(tail[0]))
    ensures WordLength(w + tail) == |w|
  {
    if |w| > 1 {
      assert (w + tail)[1..] == w[1..] + tail;
      WordLengthOfWord(w[1..], tail);
    }
  }

  /** A word followed by white space and more text: the word is the first
      token. */
  lemma TokensCons(w: string, rest: string)
    requires IsWord(w)
    ensures Tokens(w + " " + rest) == [w] + Tokens(rest)
  {
    var s := w + " " + rest;
    assert s == w + (" " + rest);
    WordLengthOfWord(w, " " + rest);
    TrimStartWord(s);
    assert s[..|w|] == w;
    assert s[|w|..] == " " + rest;
    TokensSpace(rest);
  }

  /** Text that starts with a non-space character is not trimmed. */
  lemma TrimStartWord(s: string)
    requires |s| > 0 && !IsSpace(s[0])
    ensures TrimStart(s) == s
  {}

  /** Leading white space does not change the tokens. */
  lemma TokensSpace(rest: string)
    ensures Tokens(" " + rest) == Tokens(rest)
  {
    assert (" " + rest)[1..] == rest;
    assert TrimStart(" " + rest) == TrimStart(rest);
  }

  lemma TokensWord(w: string)
    requires IsWord(w)
    ensures Tokens(w) == [w]
  {
    assert w + "" == w;
    WordLengthOfWord(w, "");
    assert w[|w|..] == "";
  }

  /** One step of `TokensJoin`. */
  lemma TokensJoinStep(ws: seq<string>)
    requires |ws| > 1 && IsWord(ws[0])
    requires Tokens(Join(ws[1..], " ")) == ws[1..]
    ensures Tokens(Join(ws, " ")) == ws
  {
    TokensCons(ws[0], Join(ws[1..], " "));
    assert ws == [ws[0]] + ws[1..];
  }

  /** Splitting words joined by single spaces gives the words back. */
  lemma {:induction false} TokensJoin(ws: seq<string>)
    requires forall k :: 0 <= k < |ws| ==> IsWord(ws[k])
    ensures Tokens(Join(ws, " ")) == ws
  {
    if |ws| == 1 {
      TokensWord(ws[0]);
      assert ws == [ws[0]];
    } else if |ws| > 1 {
      TokensJoin(ws[1..]);
      TokensJoinStep(ws);
    } else {
      assert TrimStart("") == "";
    }
  }

  /** `toLowerCase` on the ASCII letters. */
  function ToLower(s: string): (r: string)
    ensures |r| == |s|
    ensures forall i :: 0 <= i < |s| ==>
      r[i] == (if 'A' <= s[i] <= 'Z' then (s[i] as int + 32) as char else s[i])
  {
    if |s| == 0 then "" else
      [if 'A' <= s[0] <= 'Z' then (s[0] as int + 32) as char else s[0]] + ToLower(s[1..])
  }

  // ---------------------------------------------------------------------
  // Numbers

  /** The value of an alphanumeric digit (0-9, a-z, A-Z), or -1. */
  function DigitValue(c: char): int {
    if '0' <= c <= '9' then c as int - '0' as int
    else if 'a' <= c <= 'z' then c as int - 'a' as int + 10
    else if 'A' <= c <= 'Z' then c as int - 'A' as int + 10
    else -1
  }

  predicate IsDigit(c: char, radix: nat) {
    0 <= DigitValue(c) < radix
  }

  /** Length of the longest prefix of `s` made of digits of `radix`. */
  function DigitRun(s: string, radix: nat): (n: nat)
    ensures n <= |s|
    ensures forall j :: 0 <= j < n ==> IsDigit(s[j], radix)
    ensures n < |s| ==> !IsDigit(s[n], radix)
  {
    if |s| > 0 && IsDigit(s[0], radix) then 1 + DigitRun(s[1..], radix) else 0
  }

  /** The value of a decimal or hexadecimal digit string, most significant
      digit first. */
  function DigitsValue(s: string, radix: nat): nat
    requires radix == 10 || radix == 16
    requires forall j :: 0 <= j < |s| ==> IsDigit(s[j], radix)
  {
    if |s| == 0 then 0
    else
      var high := DigitsValue(s[..|s| - 1], radix);
      var d := DigitValue(s[|s| - 1]);
      assert IsDigit(s[|s| - 1], radix);
      (if radix == 16 then 16 * high else 10 * high) + d
  }

  lemma MulNonNegative(a: nat, b: nat)
    ensures a * b >= 0
  {}

  /** `parseInt(s)` with no radix argument: leading white space, an optional
      sign, an optional `0x`/`0X` prefix selecting base 16, then the longest
      run of digits; `None` stands for `NaN`. */
  function ParseInt(s: string): (r: Option<int>)
    ensures r.Some? ==> exists k :: 0 <= k < |s| && IsDigit(s[k], 16)
  {
    var t := TrimStart(s);
    var neg := |t| > 0 && t[0] == '-';
    var u := Unsigned(t);
    match ParseUnsignedInt(u)
    case None => None
    case Some(v) =>
      assert IsDigit(u[0], 16);
      assert u[0] in s;
      var iv: int := v;
      Some(if neg then -iv else iv)
  }

  /** What follows an optional leading sign. */
  function Unsigned(t: string): (u: string)
    ensures |u| <= |t| && u == t[|t| - |u|..]
  {
    if |t| > 0 && (t[0] == '-' || t[0] == '+') then t[1..] else t
  }

  /** The digits part of `parseInt`, after the sign. */
  function ParseUnsignedInt(u: string): (r: Option<nat>)
    ensures r.Some? ==> |u| > 0 && IsDigit(u[0], 16)
  {
    var hex := |u| >= 2 && u[0] == '0' && (u[1] == 'x' || u[1] == 'X');
    var radix := if hex then 16 else 10;
    var body := if hex then u[2..] else u;
    var n := DigitRun(body, radix);
    if n == 0 then None else Some(DigitsValue(body[..n], radix))
  }

  /** A string made only of decimal digits. */
  predicate AllDecimal(d: string) {
    forall j :: 0 <= j < |d| ==> '0' <= d[j] <= '9'
  }

  /** The longest run of digits of a digit string is the whole string. */
  lemma {:induction false} DecimalRun(d: string)
    requires AllDecimal(d)
    ensures DigitRun(d, 10) == |d|
  {
    if |d| > 0 {
      assert IsDigit(d[0], 10);
      assert AllDecimal(d[1..]);
      DecimalRun(d[1..]);
    }
  }

  lemma ParseUnsignedDecimal(d: string)
    requires |d| > 0 && AllDecimal(d)
    ensures forall j :: 0 <= j < |d| ==> IsDigit(d[j], 10)
    ensures ParseUnsignedInt(d) == Some(DigitsValue(d, 10))
  {
    DecimalRun(d);
    if |d| >= 2 { assert d[1] != 'x' && d[1] != 'X'; }
    assert d[..|d|] == d;
  }

  function DigitChar(d: nat): char
    requires d < 10
  {
    ('0' as int + d) as char
  }

  /** Decimal rendering of a natural number. */
  function NatToString(n: nat): (r: string)
    ensures |r| > 0 && AllDecimal(r)
  {
    if n < 10 then [DigitChar(n)] else NatToString(n / 10) + [DigitChar(n % 10)]
  }

  /** `String(n)` (or a template literal) for an integer-valued number,
      in plain decimal: the exponent form JavaScript uses from 1e21 on is
      not modelled. */
  function IntToString(n: int): string {
    if n < 0 then "-" + NatToString(-n) else NatToString(n)
  }

  lemma {:induction false} NatToStringValue(n: nat)
    ensures forall j :: 0 <= j < |NatToString(n)| ==> IsDigit(NatToString(n)[j], 10)
    ensures DigitsValue(NatToString(n), 10) == n
  {
    var r := NatToString(n);
    if n >= 10 {
      NatToStringValue(n / 10);
      assert r[..|r| - 1] == NatToString(n / 10);
    }
  }

  /** A number written by `IntToString` is a single word. */
  lemma IntToStringIsWord(n: int)
    ensures IsWord(IntToString(n))
  {
    var d := NatToString(if n < 0 then -n else n);
    assert forall j :: 0 <= j < |d| ==> '0' <= d[j] <= '9';
  }

  /** `parseInt` reads back what integer-to-string conversion wrote. */
  lemma ParseIntToString(n: int)
    ensures ParseInt(IntToString(n)) == Some(n)
  {
    if n < 0 {
      ParseNegative(n);
    } else {
      ParseNonNegative(n);
    }
  }

  lemma ParseNonNegative(n: int)
    requires n >= 0
    ensures ParseInt(IntToString(n)) == Some(n)
  {
    var d := NatToString(n);
    NatToStringValue(n);
    ParseUnsignedDecimal(d);
    TrimStartNoSpace(d);
    ParseIntUnsigned(d, d, n);
  }

  lemma ParseNegative(n: int)
    requires n < 0
    ensures ParseInt(IntToString(n)) == Some(n)
  {
    var d := NatToString(-n);
    NatToStringValue(-n);
    ParseUnsignedDecimal(d);
    var s := "-" + d;
    TrimStartNoSpace(s);
    assert s[1..] == d;
    ParseIntUnsigned(s, d, -n);
  }

  /** `parseInt` of a string without leading space whose part after the
      sign reads as `v`. */
  lemma ParseIntUnsigned(s: string, u: string, v: nat)
    requires TrimStart(s) == s && Unsigned(s) == u && ParseUnsignedInt(u) == Some(v)
    ensures ParseInt(s).Some?
    ensures ParseInt(s).value == if |s| > 0 && s[0] == '-' then -(v as int) else v as int
  {
    assert ParseUnsignedInt(Unsigned(TrimStart(s))) == Some(v);
  }

  /** `trimStart` leaves a string that starts with a non-space unchanged. */
  lemma TrimStartNoSpace(s: string)
    requires |s| > 0 && (s[0] == '-' || '0' <= s[0] <= '9')
    ensures TrimStart(s) == s
  {
    assert !IsSpace(s[0]);
  }

  /** `parseFloat(s)`: leading white space, an optional sign, then the longest
      prefix that is `Infinity` or a decimal literal with optional fraction and
      exponent. `NonFinite` stands for `NaN` and the infinities. The exact
      decimal value is kept: rounding to the nearest double is not modelled. */
  function ParseFloat(s: string): Numeric.Num {
    var t := TrimStart(s);
    var neg := |t| > 0 && t[0] == '-';
    match ParseUnsignedFloat(Unsigned(t))
    case NonFinite => Numeric.NonFinite
    case Finite(v) => Numeric.Finite(if neg then -v else v)
  }

  /** The part of `parseFloat` after the sign. */
  function ParseUnsignedFloat(u: string): Numeric.Num {
    if StartsWith(u, "Infinity") then Numeric.NonFinite else DecimalPrefix(u)
  }

  /** The value of the longest decimal literal at the head of `u`. */
  function DecimalPrefix(u: string): Numeric.Num {
    var n1 := DigitRun(u, 10);
    var frac := FractionDigits(u[n1..]);
    if n1 + |frac| == 0 then Numeric.NonFinite
    else
      var mantissa := DigitsValue(u[..n1] + frac, 10);
      var e := ExponentOf(AfterFraction(u[n1..]));
      Numeric.Finite((mantissa as real) * Numeric.Pow10(e - |frac|))
  }

  /** The digits after a leading `.`, or "" when `s` does not start with one. */
  function FractionDigits(s: string): (r: string)
    ensures forall j :: 0 <= j < |r| ==> IsDigit(r[j], 10)
  {
    if |s| > 0 && s[0] == '.' then s[1..][..DigitRun(s[1..], 10)] else ""
  }

  /** What follows the fraction digits. */
  function AfterFraction(s: string): string {
    if |s| > 0 && s[0] == '.' then s[1..][DigitRun(s[1..], 10)..] else s
  }

  /** The exponent part `e[+-]digits` at the head of `s`, or 0 when there is
      none (an `e` with no digits after it is not part of the number). */
  function ExponentOf(s: string): int {
    if |s| > 0 && (s[0] == 'e' || s[0] == 'E') then
      var t := s[1..];
      var neg := |t| > 0 && t[0] == '-';
      var u := if |t| > 0 && (t[0] == '-' || t[0] == '+') then t[1..] else t;
      var n := DigitRun(u, 10);
      if n == 0 then 0
      else
        var v: int := DigitsValue(u[..n], 10);
        if neg then -v else v
    else 0
  }

  /** `parseFloat` reads back what integer-to-string conversion wrote. */
  lemma ParseFloatIntToString(n: int)
    ensures ParseFloat(IntToString(n)) == Numeric.Finite(n as real)
  {
    var m: nat := if n < 0 then -n else n;
    var d := NatToString(m);
    NatToStringValue(m);
    ParseUnsignedFloatDecimal(d);
    assert ParseUnsignedFloat(d) == Numeric.Finite(m as real);
    var s := IntToString(n);
    if n < 0 {
      assert s == "-" + d;
      ParseFloatSigned(s, d, true);
    } else {
      assert s == d;
      ParseFloatSigned(s, d, false);
    }
  }

  /** `parseFloat` of a sign (or none) followed by an unsigned literal `d`. */
  lemma ParseFloatSigned(s: string, d: string, neg: bool)
    requires |d| > 0 && '0' <= d[0] <= '9'
    requires s == (if neg then "-" + d else d)
    ensures ParseFloat(s) == match ParseUnsignedFloat(d)
      case NonFinite => Numeric.NonFinite
      case Finite(v) => Numeric.Finite(if neg then -v else v)
  {
    TrimStartNoSpace(s);
    if neg {
      assert s[0] == '-' && s[1..] == d;
    } else {
      assert s[0] != '-' && s[0] != '+';
    }
    assert Unsigned(TrimStart(s)) == d;
  }

  lemma ParseUnsignedFloatDecimal(d: string)
    requires |d| > 0 && AllDecimal(d)
    ensures forall j :: 0 <= j < |d| ==> IsDigit(d[j], 10)
    ensures ParseUnsignedFloat(d) == Numeric.Finite(DigitsValue(d, 10) as real)
  {
    DecimalRun(d);
    assert !StartsWith(d, "Infinity") by {
      assert '0' <= d[0] <= '9';
      if |d| >= 8 { assert d[..8][0] == d[0]; }
    }
    assert d[|d|..] == "";
    assert d[..|d|] + "" == d;
    assert ExponentOf("") == 0;
    assert Numeric.Pow10(0) == 1.0;
  }

  // ---------------------------------------------------------------------
  // Arrays

  /** `Array.prototype.slice(start, end)`; an `end` of `None` is `NaN`, which
      counts as 0. Negative positions count from the end. */
  function JsSlice<T>(s: seq<T>, start: int, end: Option<int>): (r: seq<T>)
    ensures |r| <= |s|
    ensures start >= 0 && end.Some? && start <= end.value <= |s| ==> r == s[start..end.value]
    ensures end.None? ==> r == []
  {
    var from := SliceIndex(|s|, start);
    var to := SliceIndex(|s|, end.GetOr(0));
    if from < to then s[from..to] else []
  }

  function SliceIndex(len: nat, x: int): (r: nat)
    ensures r <= len
  {
    if x < 0 then (if len + x < 0 then 0 else len + x) else if x < len then x else len
  }

  /** Code-point lexicographic order: Python's `<` on `str`, and the order the
      model uses in place of `localeCompare`. */
  predicate LexLess(a: string, b: string) {
    if |a| == 0 then |b| > 0
    else if |b| == 0 then false
    else if a[0] != b[0] then a[0] < b[0]
    else LexLess(a[1..], b[1..])
  }

  lemma {:induction false} LexLessIrreflexive(a: string)
    ensures !LexLess(a, a)
  {
    if |a| > 0 { LexLessIrreflexive(a[1..]); }
  }

  lemma {:induction false} LexLessTotal(a: string, b: string)
    ensures a == b || LexLess(a, b) || LexLess(b, a)
  {
    if |a| > 0 && |b| > 0 && a[0] == b[0] {
      LexLessTotal(a[1..], b[1..]);
      if a[1..] == b[1..] { assert a == [a[0]] + a[1..]; assert b == [b[0]] + b[1..]; }
    }
  }

  lemma {:induction false} LexLessAsymmetric(a: string, b: string)
    ensures !(LexLess(a, b) && LexLess(b, a))
  {
    if |a| > 0 && |b| > 0 && a[0] == b[0] { LexLessAsymmetric(a[1..], b[1..]); }
  }

  lemma {:induction false} LexLessTransitive(a: string, b: string, c: string)
    requires LexLess(a, b) && LexLess(b, c)
    ensures LexLess(a, c)
  {
    if |a| > 0 && |b| > 0 && |c| > 0 && a[0] == b[0] && b[0] == c[0] {
      LexLessTransitive(a[1..], b[1..], c[1..]);
    }
  }
}

=== FILE: mesh.dfy ===
/** The vertex data a decoded PLY file yields, and the clean-up the viewer
    applies to it before rendering: stride downsampling of large point
    clouds, the face-index range filter, the colour-file merge and the
    bounding box of the plausible points. */
module Mesh {
  import opened Wrappers
  import Numeric

  /** One vertex position; coordinates are already sanitised (non-finite
      values replaced by zero), so they are plain reals. */
  datatype Point = Point(x: real, y: real, z: real)

  /** One vertex colour. Channels come from `parseInt(...) / 255` in the
      ASCII reader, which can be `NaN`, so they are JavaScript numbers. */
  datatype Rgb = Rgb(r: Numeric.Num, g: Numeric.Num, b: Numeric.Num)

  /** The `{points, colors, indices, hasColors, hasFaces}` record both
      readers return. `points` holds one entry per decoded vertex (the
      flat JavaScript array holds three numbers per entry) and `indices`
      the flat triangle index list. */
  datatype Geometry = Geometry(
    points: seq<Point>,
    colors: seq<Rgb>,
    indices: seq<int>,
    hasColors: bool,
    hasFaces: bool)

  /** Point clouds above this many vertices are thinned. */
  const MaxPoints: nat := 200000

  predicate IsOrigin(p: Point) {
    p.x == 0.0 && p.y == 0.0 && p.z == 0.0
  }

  // ---------------------------------------------------------------------
  // Stride downsampling

  /** Vertex positions v, v + step, v + 2*step, ... below n. */
  function StridePositions(n: nat, step: nat, v: nat): (r: seq<nat>)
    requires step > 0
    ensures forall k :: 0 <= k < |r| ==> r[k] == v + k * step && r[k] < n
    ensures v < n ==> |r| > 0 && v + (|r| - 1) * step < n <= v + |r| * step
    ensures v >= n ==> r == []
    decreases n - v
  {
    if v >= n then []
    else
      var rest := StridePositions(n, step, v + step);
      StrideCons(n, step, v, rest);
      [v] + rest
  }

  /** One more stride in front of the strides from `v + step`. */
  lemma StrideCons(n: nat, step: nat, v: nat, rest: seq<nat>)
    requires step > 0 && v < n
    requires forall k :: 0 <= k < |rest| ==> rest[k] == v + step + k * step && rest[k] < n
    requires v + step < n ==> |rest| > 0 && v + step + (|rest| - 1) * step < n <= v + step + |rest| * step
    requires v + step >= n ==> rest == []
    ensures var r := [v] + rest;
      (forall k :: 0 <= k < |r| ==> r[k] == v + k * step && r[k] < n)
      && v + (|r| - 1) * step < n <= v + |r| * step
  {
    var r := [v] + rest;
    forall k | 0 <= k < |r| ensures r[k] == v + k * step && r[k] < n {
      if k > 0 {
        assert r[k] == rest[k - 1];
        assert (k - 1) * step + step == k * step;
      }
    }
    assert (|r| - 1) * step == |rest| * step;
    assert |r| * step == |rest| * step + step;
  }

  /** The thinning step of the loaders: without faces and above
      `MaxPoints` vertices, keep every `step`-th vertex, step being
      `floor(n / MaxPoints)`, and the colour at the same position when the
      geometry has colours (otherwise the colour list becomes empty). */
  function Downsample(g: Geometry): (r: Geometry)
    ensures g.hasFaces || |g.points| <= MaxPoints ==> r == g
    ensures !g.hasFaces && |g.points| > MaxPoints ==>
      |g.points| / MaxPoints >= 1 && r == Thin(g, |g.points| / MaxPoints)
  {
    var n := |g.points|;
    if g.hasFaces || n <= MaxPoints then g else Thin(g, n / MaxPoints)
  }

  /** Keeps the vertices at positions 0, step, 2*step, ... and, when the
      geometry has colours, the colours at the same positions. */
  function Thin(g: Geometry, step: nat): (r: Geometry)
    requires step >= 1
    ensures r.indices == g.indices && r.hasFaces == g.hasFaces && r.hasColors == g.hasColors
    ensures !g.hasColors ==> r.colors == []
  {
    var kept := StridePositions(|g.points|, step, 0);
    var cols := if g.hasColors then ColorsAt(g.colors, kept) else [];
    g.(points := PointsAt(g.points, kept), colors := cols)
  }

  /** The thinned points are the ones at multiples of `step`, and there are
      just enough of them to cover the original list. */
  lemma ThinPoints(g: Geometry, step: nat)
    requires step >= 1
    ensures var r := Thin(g, step);
      forall k :: 0 <= k < |r.points| ==> k * step < |g.points| && r.points[k] == g.points[k * step]
    ensures |g.points| > 0 ==>
      (|Thin(g, step).points| - 1) * step < |g.points| <= |Thin(g, step).points| * step
  {
    var kept := StridePositions(|g.points|, step, 0);
    var pts := PointsAt(g.points, kept);
    assert Thin(g, step).points == pts;
    PointsAtStride(g.points, kept, pts, step);
  }

  lemma PointsAtStride(points: seq<Point>, kept: seq<nat>, pts: seq<Point>, step: nat)
    requires |pts| == |kept|
    requires forall k :: 0 <= k < |kept| ==> kept[k] == 0 + k * step && kept[k] < |points|
    requires forall k :: 0 <= k < |pts| ==> pts[k] == points[kept[k]]
    ensures forall k :: 0 <= k < |pts| ==> k * step < |points| && pts[k] == points[k * step]
  {
    forall k | 0 <= k < |pts|
      ensures k * step < |points| && pts[k] == points[k * step]
    {
      var p := kept[k];
      assert p == k * step;
    }
  }

  /** With colours, the thinned colours are the ones at the kept vertex
      positions, as far as the colour list reaches. */
  lemma ThinColors(g: Geometry, step: nat)
    requires step >= 1 && g.hasColors
    ensures var r := Thin(g, step);
      |r.colors| <= |r.points|
      && forall k :: 0 <= k < |r.colors| ==> k * step < |g.colors| && r.colors[k] == g.colors[k * step]
  {
    var kept := StridePositions(|g.points|, step, 0);
    var cols := ColorsAt(g.colors, kept);
    assert Thin(g, step).colors == cols;
    ColorsAtStride(g.colors, kept, cols, step);
  }

  lemma ColorsAtStride(colors: seq<Rgb>, kept: seq<nat>, cols: seq<Rgb>, step: nat)
    requires |cols| <= |kept|
    requires forall k :: 0 <= k < |kept| ==> kept[k] == k * step
    requires forall k :: 0 <= k < |cols| ==> kept[k] < |colors| && cols[k] == colors[kept[k]]
    ensures forall k :: 0 <= k < |cols| ==> k * step < |colors| && cols[k] == colors[k * step]
  {
    forall k | 0 <= k < |cols|
      ensures k * step < |colors| && cols[k] == colors[k * step]
    {
      var p := kept[k];
      assert p == k * step;
    }
  }

  /** The points at the given positions. */
  function PointsAt(points: seq<Point>, at: seq<nat>): (r: seq<Point>)
    requires forall k :: 0 <= k < |at| ==> at[k] < |points|
    ensures |r| == |at|
    ensures forall k :: 0 <= k < |r| ==> r[k] == points[at[k]]
  {
    if |at| == 0 then [] else [points[at[0]]] + PointsAt(points, at[1..])
  }

  /** The colours at the given positions, stopping at the first position
      past the end of the colour list (the JavaScript pushes `undefined`
      from there on). */
  function ColorsAt(colors: seq<Rgb>, at: seq<nat>): (r: seq<Rgb>)
    ensures |r| <= |at|
    ensures forall k :: 0 <= k < |r| ==> at[k] < |colors| && r[k] == colors[at[k]]
  {
    if |at| == 0 || at[0] >= |colors| then [] else [colors[at[0]]] + ColorsAt(colors, at[1..])
  }

  /** Thinning never caps the cloud at `MaxPoints`: a cloud of n vertices
      above the limit keeps at least `MaxPoints` and fewer than twice as
      many, and one below twice the limit is kept whole. */
  lemma DownsampleSize(g: Geometry)
    requires !g.hasFaces && |g.points| > MaxPoints
    ensures MaxPoints <= |Downsample(g).points| < 2 * MaxPoints
    ensures |g.points| < 2 * MaxPoints ==> Downsample(g).points == g.points
  {
    var n := |g.points|;
    var s := n / MaxPoints;
    assert Downsample(g) == Thin(g, s);
    ThinPoints(g, s);
    StrideCountBounds(n, s, |Thin(g, s).points|);
    if n < 2 * MaxPoints {
      StepOne(n);
      ThinByOne(g);
    }
  }

  lemma StepOne(n: nat)
    requires MaxPoints < n < 2 * MaxPoints
    ensures n / MaxPoints == 1
  {}

  /** A step of 1 keeps every point. */
  lemma ThinByOne(g: Geometry)
    ensures Thin(g, 1).points == g.points
  {
    ThinByOneLength(g);
    ThinByOneElements(g);
  }

  lemma ThinByOneLength(g: Geometry)
    ensures |Thin(g, 1).points| == |g.points|
  {
    ThinPoints(g, 1);
    var c := |Thin(g, 1).points|;
    if |g.points| > 0 {
      assert (c - 1) * 1 == c - 1 && c * 1 == c;
    }
  }

  lemma ThinByOneElements(g: Geometry)
    ensures forall k :: 0 <= k < |Thin(g, 1).points| ==> k < |g.points| && Thin(g, 1).points[k] == g.points[k]
  {
    ThinPoints(g, 1);
    var r := Thin(g, 1).points;
    forall k | 0 <= k < |r| ensures k < |g.points| && r[k] == g.points[k] {
      assert k * 1 == k;
    }
  }

  /** Arithmetic behind `DownsampleSize`: c strides of floor(n / M) cover n
      with the last one starting below n only if M <= c < 2M. */
  lemma StrideCountBounds(n: nat, s: nat, c: nat)
    requires n > MaxPoints && s == n / MaxPoints
    requires (c - 1) * s < n <= c * s
    ensures MaxPoints <= c < 2 * MaxPoints
  {
    assert s * MaxPoints <= n < s * MaxPoints + MaxPoints;
    assert s >= 1;
    MulMonotone(s, MaxPoints, c);
    assert (c - 1) * s < (2 * MaxPoints - 1) * s by {
      assert n <= s * MaxPoints + MaxPoints - 1;
      assert (s - 1) * (MaxPoints - 1) >= 0 by { MulNonNegative(s - 1, MaxPoints - 1); }
    }
    MulCancel(c - 1, 2 * MaxPoints - 1, s);
  }

  lemma MulNonNegative(a: nat, b: nat)
    ensures a * b >= 0
  {}

  /** c * s >= s * m forces c >= m for a positive s. */
  lemma MulMonotone(s: nat, m: nat, c: int)
    requires s > 0 && c * s >= s * m
    ensures c >= m
  {
    if c < m {
      assert (m - c) * s > 0 by { MulPositive(m - c, s); }
    }
  }

  lemma MulPositive(a: int, b: int)
    requires a > 0 && b > 0
    ensures a * b > 0
  {}

  /** a * s < b * s forces a < b for a positive s. */
  lemma MulCancel(a: int, b: int, s: int)
    requires s > 0 && a * s < b * s
    ensures a < b
  {
    if a >= b {
      assert (a - b) * s >= 0 by { if a > b { MulPositive(a - b, s); } }
    }
  }

  // ---------------------------------------------------------------------
  // Face indices

  /** The index range check before `setIndex`: each index outside
      [0, n - 1] is dropped on its own, not with its triangle. */
  function InRangeIndices(indices: seq<int>, n: nat): (r: seq<int>)
    ensures |r| <= |indices|
    ensures forall k :: 0 <= k < |r| ==> 0 <= r[k] < n
  {
    if |indices| == 0 then []
    else
      var rest := InRangeIndices(indices[1..], n);
      if 0 <= indices[0] < n then [indices[0]] + rest else rest
  }

  /** The filter only drops indices. */
  lemma {:induction false} InRangeIndicesSub(indices: seq<int>, n: nat)
    ensures multiset(InRangeIndices(indices, n)) <= multiset(indices)
  {
    if |indices| > 0 {
      InRangeIndicesSub(indices[1..], n);
      assert indices == [indices[0]] + indices[1..];
    }
  }

  /** The filter keeps every index in range. */
  lemma {:induction false} InRangeIndicesKeeps(indices: seq<int>, n: nat)
    ensures forall k :: 0 <= k < |indices| && 0 <= indices[k] < n ==> indices[k] in InRangeIndices(indices, n)
  {
    if |indices| > 0 {
      var rest := indices[1..];
      InRangeIndicesKeeps(rest, n);
      forall k | 0 < k < |indices| ensures indices[k] == rest[k - 1] {}
    }
  }

  /** The filter leaves something exactly when some index is in range. */
  lemma InRangeIndicesEmpty(indices: seq<int>, n: nat)
    ensures |InRangeIndices(indices, n)| > 0 <==> exists k :: 0 <= k < |indices| && 0 <= indices[k] < n
  {
    var valid := InRangeIndices(indices, n);
    InRangeIndicesKeeps(indices, n);
    if |valid| > 0 {
      InRangeIndicesSub(indices, n);
      assert valid[0] in multiset(indices);
      var k :| 0 <= k < |indices| && indices[k] == valid[0];
    }
  }

  /** Indices that are all in range pass the filter unchanged, so the
      filter is idempotent. */
  lemma {:induction false} InRangeIndicesKeepsValid(indices: seq<int>, n: nat)
    requires forall k :: 0 <= k < |indices| ==> 0 <= indices[k] < n
    ensures InRangeIndices(indices, n) == indices
  {
    if |indices| > 0 {
      var rest := indices[1..];
      assert forall k :: 0 <= k < |rest| ==> rest[k] == indices[k + 1];
      InRangeIndicesKeepsValid(rest, n);
      assert indices == [indices[0]] + rest;
    }
  }

  lemma InRangeIndicesIdempotent(indices: seq<int>, n: nat)
    ensures InRangeIndices(InRangeIndices(indices, n), n) == InRangeIndices(indices, n)
  {
    InRangeIndicesKeepsValid(InRangeIndices(indices, n), n);
  }

  /** Dropping single indices can leave a list that is no longer made of
      whole triangles. */
  lemma InRangeIndicesSplitsTriangles()
    ensures InRangeIndices([0, 1, 5], 2) == [0, 1]
  {
    assert [0, 1, 5][1..] == [1, 5];
    assert [1, 5][1..] == [5];
    assert [5][1..] == [];
  }

  /** What `loadPointCloud` renders: a geometry reported with faces and a
      non-empty index list is drawn as a mesh over the in-range indices; if
      none are in range it falls back to a point cloud (`hasFaces` false). */
  predicate RendersAsMesh(g: Geometry) {
    g.hasFaces && |g.indices| > 0
  }

  function PrepareMesh(g: Geometry): (r: Geometry)
    ensures r.points == g.points && r.colors == g.colors && r.hasColors == g.hasColors
    ensures r.hasFaces ==> g.hasFaces
    ensures RendersAsMesh(r) ==> forall k :: 0 <= k < |r.indices| ==> 0 <= r.indices[k] < |g.points|
    ensures RendersAsMesh(r) <==>
      g.hasFaces && exists k :: 0 <= k < |g.indices| && 0 <= g.indices[k] < |g.points|
    ensures !RendersAsMesh(g) ==> r == g
  {
    if g.hasFaces && |g.indices| > 0 then
      var valid := InRangeIndices(g.indices, |g.points|);
      InRangeIndicesEmpty(g.indices, |g.points|);
      if |valid| > 0 then
        g.(indices := valid)
      else g.(hasFaces := false)
    else g
  }

  // ---------------------------------------------------------------------
  // Colour file

  /** For 3RScan scenes a second PLY file may carry the real colours: they
      replace the mesh's colours only when that file has the same number of
      vertices and reports colours. */
  function ApplyColorFile(mesh: Geometry, colorFile: Geometry): (r: Geometry)
    ensures r.points == mesh.points && r.indices == mesh.indices && r.hasFaces == mesh.hasFaces
    ensures r.colors == colorFile.colors || r == mesh
    ensures r.colors == colorFile.colors && r.hasColors
      <== |colorFile.points| == |mesh.points| && colorFile.hasColors
    ensures |colorFile.points| != |mesh.points| || !colorFile.hasColors ==> r == mesh
  {
    if |colorFile.points| == |mesh.points| && colorFile.hasColors then
      mesh.(colors := colorFile.colors, hasColors := true)
    else mesh
  }

  // ---------------------------------------------------------------------
  // Bounds

  /** A point the bounding box counts: not exactly the origin (a replaced
      `NaN`) and every coordinate below `limit` in magnitude. */
  predicate Plausible(p: Point, limit: real) {
    !IsOrigin(p) && Abs(p.x) < limit && Abs(p.y) < limit && Abs(p.z) < limit
  }

  function Abs(x: real): real {
    if x < 0.0 then -x else x
  }

  /** The room-scale limit of the sampled viewer. */
  const RoomLimit: real := 100.0
  /** The limit of the older viewer. */
  const LegacyLimit: real := 10000000000.0

  datatype Bounds = Bounds(lo: Point, hi: Point, count: nat) {
    function Center(): Point {
      Point((lo.x + hi.x) / 2.0, (lo.y + hi.y) / 2.0, (lo.z + hi.z) / 2.0)
    }
  }

  /** The number of plausible points. */
  function PlausibleCount(points: seq<Point>, limit: real): nat {
    if |points| == 0 then 0
    else
      var last := if Plausible(points[|points| - 1], limit) then 1 else 0;
      PlausibleCount(points[..|points| - 1], limit) + last
  }

  predicate Below(a: Point, b: Point) {
    a.x <= b.x && a.y <= b.y && a.z <= b.z
  }

  function MinPoint(a: Point, b: Point): Point {
    Point(Min(a.x, b.x), Min(a.y, b.y), Min(a.z, b.z))
  }

  function MaxPoint(a: Point, b: Point): Point {
    Point(Max(a.x, b.x), Max(a.y, b.y), Max(a.z, b.z))
  }

  /** One iteration of the bounds loop. */
  function BoundsStep(b: Option<Bounds>, p: Point, limit: real): Option<Bounds> {
    if !Plausible(p, limit) then b
    else match b
      case None => Some(Bounds(p, p, 1))
      case Some(c) => Some(Bounds(MinPoint(c.lo, p), MaxPoint(c.hi, p), c.count + 1))
  }

  /** The bounds loop run over `points`. */
  function BoundsOf(points: seq<Point>, limit: real): Option<Bounds> {
    if |points| == 0 then None
    else BoundsStep(BoundsOf(points[..|points| - 1], limit), points[|points| - 1], limit)
  }

  /** There are bounds exactly when some point is plausible. */
  lemma {:induction false} BoundsNone(points: seq<Point>, limit: real)
    ensures BoundsOf(points, limit).None? <==> forall i :: 0 <= i < |points| ==> !Plausible(points[i], limit)
  {
    if |points| > 0 {
      var n := |points| - 1;
      BoundsNone(points[..n], limit);
      assert forall i :: 0 <= i < n ==> points[..n][i] == points[i];
    }
  }

  /** The count is the number of plausible points. */
  lemma {:induction false} BoundsCount(points: seq<Point>, limit: real)
    ensures BoundsOf(points, limit).Some? ==>
      BoundsOf(points, limit).value.count == PlausibleCount(points, limit) > 0
    ensures BoundsOf(points, limit).None? ==> PlausibleCount(points, limit) == 0
  {
    if |points| > 0 {
      BoundsCount(points[..|points| - 1], limit);
    }
  }

  /** Every plausible point lies within the bounds. */
  lemma {:induction false} BoundsContain(points: seq<Point>, limit: real)
    ensures BoundsOf(points, limit).Some? ==>
      forall i :: 0 <= i < |points| && Plausible(points[i], limit) ==>
        Below(BoundsOf(points, limit).value.lo, points[i]) && Below(points[i], BoundsOf(points, limit).value.hi)
  {
    if |points| > 0 {
      var n := |points| - 1;
      var init := points[..n];
      BoundsContain(init, limit);
      BoundsNone(init, limit);
      assert forall i :: 0 <= i < n ==> init[i] == points[i];
    }
  }

  /** Each face of the box is attained by a plausible point. */
  predicate Attained(points: seq<Point>, limit: real, c: Bounds) {
    && (exists i :: 0 <= i < |points| && Plausible(points[i], limit) && points[i].x == c.lo.x)
    && (exists i :: 0 <= i < |points| && Plausible(points[i], limit) && points[i].x == c.hi.x)
    && (exists i :: 0 <= i < |points| && Plausible(points[i], limit) && points[i].y == c.lo.y)
    && (exists i :: 0 <= i < |points| && Plausible(points[i], limit) && points[i].y == c.hi.y)
    && (exists i :: 0 <= i < |points| && Plausible(points[i], limit) && points[i].z == c.lo.z)
    && (exists i :: 0 <= i < |points| && Plausible(points[i], limit) && points[i].z == c.hi.z)
  }

  /** Attainment survives appending a point and taking the componentwise
      minimum and maximum with it. */
  lemma AttainedStep(init: seq<Point>, p: Point, limit: real, c: Bounds)
    requires Attained(init, limit, c) && Plausible(p, limit)
    ensures Attained(init + [p], limit, Bounds(MinPoint(c.lo, p), MaxPoint(c.hi, p), c.count + 1))
  {
    var ps := init + [p];
    var n := |init|;
    assert ps[n] == p;
    assert forall i :: 0 <= i < n ==> ps[i] == init[i];
  }

  /** The bounds are tight: every face touches a plausible point. */
  lemma {:induction false} BoundsAttained(points: seq<Point>, limit: real)
    ensures BoundsOf(points, limit).Some? ==> Attained(points, limit, BoundsOf(points, limit).value)
  {
    if |points| > 0 {
      var n := |points| - 1;
      var init := points[..n];
      var p := points[n];
      assert points == init + [p];
      BoundsAttained(init, limit);
      var prev := BoundsOf(init, limit);
      if Plausible(p, limit) {
        if prev.Some? {
          AttainedStep(init, p, limit, prev.value);
        } else {
          assert points[n] == p;
        }
      } else if prev.Some? {
        assert forall i :: 0 <= i < n ==> points[i] == init[i];
      }
    }
  }

  /** The bounds pass of `loadPointCloud`: the componentwise minimum and
      maximum over the plausible points and how many there are; `None` when
      there is none (the viewer then stops). */
  method ComputeBounds(points: seq<Point>, limit: real) returns (b: Option<Bounds>)
    ensures b.None? <==> forall i :: 0 <= i < |points| ==> !Plausible(points[i], limit)
    ensures b.Some? ==> b.value.count == PlausibleCount(points, limit) && b.value.count > 0
    ensures b.Some? ==> forall i :: 0 <= i < |points| && Plausible(points[i], limit) ==>
      Below(b.value.lo, points[i]) && Below(points[i], b.value.hi)
    ensures b.Some? ==> Attained(points, limit, b.value)
  {
    var lo := Point(0.0, 0.0, 0.0);
    var hi := Point(0.0, 0.0, 0.0);
    var count: nat := 0;
    var i := 0;
    while i < |points|
      invariant 0 <= i <= |points|
      invariant count == 0 ==> BoundsOf(points[..i], limit).None?
      invariant count > 0 ==> BoundsOf(points[..i], limit) == Some(Bounds(lo, hi, count))
    {
      var p := points[i];
      assert points[..i + 1][..i] == points[..i];
      if Plausible(p, limit) {
        if count == 0 {
          lo, hi := p, p;
        } else {
          lo := Point(Min(lo.x, p.x), Min(lo.y, p.y), Min(lo.z, p.z));
          hi := Point(Max(hi.x, p.x), Max(hi.y, p.y), Max(hi.z, p.z));
        }
        count := count + 1;
      }
      i := i + 1;
    }
    assert points[..i] == points;
    if count == 0 {
      b := None;
    } else {
      b := Some(Bounds(lo, hi, count));
    }
    BoundsNone(points, limit);
    BoundsCount(points, limit);
    BoundsContain(points, limit);
    BoundsAttained(points, limit);
  }

  function Min(a: real, b: real): real {
    if a <= b then a else b
  }

  function Max(a: real, b: real): real {
    if a >= b then a else b
  }
}

=== FILE: multiscan.dfy ===
/** `convertMultiscanToSceneGraph`: turns a MultiScan annotation record into
    the viewer's scene graph shape. Oriented boxes get a quaternion from
    their rotation matrix, mobility types and articulations become
    attributes, the part hierarchy becomes "part of" edges, and boxes
    resting on one another (Y up) become "on top of" edges. */
module MultiScan {
  import opened Wrappers
  import opened Numeric

  datatype Vec3 = Vec3(x: real, y: real, z: real)

  /** A rotation as `[qx, qy, qz, qw]`. */
  datatype Quaternion = Quaternion(x: real, y: real, z: real, w: real)

  const IdentityRotation := Quaternion(0.0, 0.0, 0.0, 1.0)

  /** An input object. Missing text fields are empty strings; missing box
      fields are `None`. */
  datatype MsObject = MsObject(
    objectId: int,
    labelName: string,
    centroid: Option<Vec3>,
    axesLengths: Option<Vec3>,
    normalizedAxes: Option<seq<Num>>,
    mobilityType: string,
    partIds: seq<int>)

  /** An input part: its parent part, if any, and its articulation types. */
  datatype MsPart = MsPart(partId: int, parentId: Option<int>, articulations: seq<string>)

  datatype MsScan = MsScan(scanId: string, objects: seq<MsObject>, parts: seq<MsPart>)

  /** An output object with its oriented box. */
  datatype Box = Box(id: int, labelName: string, center: Vec3, halfDims: Vec3, rotation: Quaternion,
                     mobilityType: string, partIds: seq<int>)

  /** An output edge in the converter's own `{subject, predicate, object}`
      shape. */
  datatype Edge = Edge(subject: int, predicateName: string, obj: int)

  datatype Converted = Converted(id: string, objects: seq<Box>, relationships: seq<Edge>, attributes: map<int, seq<string>>)

  /** `s || d`: an empty string is falsy. */
  function OrDefault(s: string, d: string): (r: string)
    ensures r != ""  <== d != ""
    ensures s != "" ==> r == s
  {
    if s == "" then d else s
  }

  // ---------------------------------------------------------------------
  // Rotation matrix

  /** `a[i]`, where reading past the end gives `undefined`, which is not
      finite. */
  function Entry(a: seq<Num>, i: nat): (n: Num)
    ensures i >= |a| ==> n.NonFinite?
    ensures i < |a| ==> n == a[i]
  {
    if i < |a| then a[i] else NonFinite
  }

  /** The default `normalizedAxes`: the 4x4 identity. */
  const IdentityAxes: seq<Num> := [
    Finite(1.0), Finite(0.0), Finite(0.0), Finite(0.0),
    Finite(0.0), Finite(1.0), Finite(0.0), Finite(0.0),
    Finite(0.0), Finite(0.0), Finite(1.0), Finite(0.0),
    Finite(0.0), Finite(0.0), Finite(0.0), Finite(1.0)]

  /** The 3x3 rotation, row-major: the nine entries themselves when there
      are nine, otherwise the upper-left block of a row-major 4x4. */
  function Rotation3(a: seq<Num>): (m: seq<Num>)
    ensures |m| == 9
  {
    if |a| == 9 then a
    else [Entry(a, 0), Entry(a, 1), Entry(a, 2),
          Entry(a, 4), Entry(a, 5), Entry(a, 6),
          Entry(a, 8), Entry(a, 9), Entry(a, 10)]
  }

  /** A 3x3 rotation written as a homogeneous 4x4 matrix. */
  function Homogeneous(m: seq<Num>): (a: seq<Num>)
    requires |m| == 9
    ensures |a| == 16
  {
    m[0..3] + [Finite(0.0)] + m[3..6] + [Finite(0.0)] + m[6..9] + [Finite(0.0)]
      + [Finite(0.0), Finite(0.0), Finite(0.0), Finite(1.0)]
  }

  /** Both accepted layouts give back the same rotation: the 3x3 block of
      the homogeneous form of a rotation is that rotation. */
  lemma Rotation3Layouts(m: seq<Num>)
    requires |m| == 9
    ensures Rotation3(m) == m
    ensures Rotation3(Homogeneous(m)) == m
  {
    var a := Homogeneous(m);
    assert a[0] == m[0] && a[1] == m[1] && a[2] == m[2];
    assert a[4] == m[3] && a[5] == m[4] && a[6] == m[5];
    assert a[8] == m[6] && a[9] == m[7] && a[10] == m[8];
  }

  // ---------------------------------------------------------------------
  // Quaternion

  /** `x * s` for a possibly non-finite `s`. */
  function Mul(x: real, s: Num): (r: Num)
    ensures r.Finite? <==> s.Finite?
  {
    match s
    case Finite(v) => Finite(x * v)
    case NonFinite => NonFinite
  }

  /** `x / s` for a possibly non-finite `s`; dividing by zero gives an
      infinity or `NaN`. */
  function Div(x: real, s: Num): (r: Num)
    ensures r.Finite? <==> s.Finite? && s.v != 0.0
  {
    match s
    case Finite(v) => if v == 0.0 then NonFinite else Finite(x / v)
    case NonFinite => NonFinite
  }

  predicate AllFinite(m: seq<Num>) {
    forall i :: 0 <= i < |m| ==> m[i].Finite?
  }

  /** The four branches of the matrix-to-quaternion conversion, on finite
      entries; `sqrt` stands for `Math.sqrt` (`NaN` for a negative
      argument). Results are `[qx, qy, qz, qw]`. */
  function Branches(m: seq<real>, sqrt: real -> Num): (q: seq<Num>)
    requires |m| == 9
    ensures |q| == 4
  {
    var m00, m01, m02 := m[0], m[1], m[2];
    var m10, m11, m12 := m[3], m[4], m[5];
    var m20, m21, m22 := m[6], m[7], m[8];
    var trace := m00 + m11 + m22;
    if trace > 0.0 then
      var s := Div(0.5, sqrt(trace + 1.0));
      [Mul(m21 - m12, s), Mul(m02 - m20, s), Mul(m10 - m01, s), Div(0.25, s)]
    else if m00 > m11 && m00 > m22 then
      var s := Mul(2.0, sqrt(1.0 + m00 - m11 - m22));
      [Mul(0.25, s), Div(m01 + m10, s), Div(m02 + m20, s), Div(m21 - m12, s)]
    else if m11 > m22 then
      var s := Mul(2.0, sqrt(1.0 + m11 - m00 - m22));
      [Div(m01 + m10, s), Mul(0.25, s), Div(m12 + m21, s), Div(m02 - m20, s)]
    else
      var s := Mul(2.0, sqrt(1.0 + m22 - m00 - m11));
      [Div(m02 + m20, s), Div(m12 + m21, s), Mul(0.25, s), Div(m10 - m01, s)]
  }

  function Values(m: seq<Num>): (r: seq<real>)
    requires AllFinite(m)
    ensures |r| == |m|
    ensures forall i :: 0 <= i < |m| ==> r[i] == m[i].v
  {
    if |m| == 0 then [] else [m[0].v] + Values(m[1..])
  }

  /** The quaternion of a 3x3 rotation: the identity when an entry is not
      finite or when the conversion produces a non-finite component. */
  function ToQuaternion(m: seq<Num>, sqrt: real -> Num): (q: Quaternion)
    requires |m| == 9
    ensures !AllFinite(m) ==> q == IdentityRotation
  {
    if !AllFinite(m) then IdentityRotation
    else
      var r := Branches(Values(m), sqrt);
      if AllFinite(r) then Quaternion(r[0].v, r[1].v, r[2].v, r[3].v) else IdentityRotation
  }

  /** The identity matrix gives the identity rotation. */
  lemma IdentityQuaternion(sqrt: real -> Num)
    requires sqrt(4.0) == Finite(2.0)
    ensures ToQuaternion(Rotation3(IdentityAxes), sqrt) == IdentityRotation
  {
    var m := Rotation3(IdentityAxes);
    assert AllFinite(m);
    var v := Values(m);
    assert v == [1.0, 0.0, 0.0, 0.0, 1.0, 0.0, 0.0, 0.0, 1.0];
  }

  /** With a positive trace and an exact square root, the scalar part is
      positive and `qw^2 = (trace + 1) / 4`. */
  lemma TraceBranchScalar(m: seq<Num>, sqrt: real -> Num)
    requires |m| == 9 && AllFinite(m)
    requires m[0].v + m[4].v + m[8].v > 0.0
    requires sqrt(m[0].v + m[4].v + m[8].v + 1.0).Finite?
    requires var r := sqrt(m[0].v + m[4].v + m[8].v + 1.0).v;
      r > 0.0 && r * r == m[0].v + m[4].v + m[8].v + 1.0
    ensures var q := ToQuaternion(m, sqrt);
      q.w > 0.0 && q.w * q.w == (m[0].v + m[4].v + m[8].v + 1.0) / 4.0
  {
    var v := Values(m);
    var t := v[0] + v[4] + v[8];
    var r := sqrt(t + 1.0).v;
    var s := 0.5 / r;
    assert Div(0.5, sqrt(t + 1.0)) == Finite(s);
    assert s > 0.0;
    assert 0.25 / s == r / 2.0;
    var q := Branches(v, sqrt);
    assert q[3] == Finite(r / 2.0);
    assert AllFinite(q);
  }

  // ---------------------------------------------------------------------
  // Objects

  /** One converted object: defaults for missing fields, the quaternion of
      the rotation and half the axis lengths. */
  function ConvertObject(o: MsObject, sqrt: real -> Num): (b: Box)
    ensures b.id == o.objectId && b.partIds == o.partIds
    ensures b.labelName != "" && b.mobilityType != ""
  {
    var axes := o.normalizedAxes.GetOr(IdentityAxes);
    var lengths := o.axesLengths.GetOr(Vec3(1.0, 1.0, 1.0));
    Box(o.objectId, OrDefault(o.labelName, "unknown"), o.centroid.GetOr(Vec3(0.0, 0.0, 0.0)),
        Vec3(lengths.x / 2.0, lengths.y / 2.0, lengths.z / 2.0),
        ToQuaternion(Rotation3(axes), sqrt),
        OrDefault(o.mobilityType, "unknown"), o.partIds)
  }

  function ConvertObjects(os: seq<MsObject>, sqrt: real -> Num): (bs: seq<Box>)
    ensures |bs| == |os|
    ensures forall i :: 0 <= i < |os| ==> bs[i] == ConvertObject(os[i], sqrt)
  {
    if |os| == 0 then [] else [ConvertObject(os[0], sqrt)] + ConvertObjects(os[1..], sqrt)
  }

  // ---------------------------------------------------------------------
  // Attributes

  /** Mobility attributes: each object whose mobility type is not
      `unknown` gets exactly that type (a later object with the same id
      replaces an earlier one). */
  function MobilityAttributes(bs: seq<Box>, attrs: map<int, seq<string>>): (r: map<int, seq<string>>)
    ensures forall k :: k in r <==> k in attrs || exists i :: 0 <= i < |bs| && Mobile(bs[i], k)
    ensures forall k :: k in attrs && (forall i :: 0 <= i < |bs| ==> !Mobile(bs[i], k)) ==> r[k] == attrs[k]
    decreases |bs|
  {
    if |bs| == 0 then attrs
    else
      var b := bs[0];
      var next := if b.mobilityType != "unknown" then attrs[b.id := [b.mobilityType]] else attrs;
      assert forall j :: 0 <= j < |bs| - 1 ==> bs[1..][j] == bs[j + 1];
      MobilityAttributes(bs[1..], next)
  }

  /** Box `b` gives object `k` a mobility attribute. */
  predicate Mobile(b: Box, k: int) {
    b.id == k && b.mobilityType != "unknown"
  }

  /** No box after the `i`-th gives its object a mobility attribute. */
  predicate LastMobile(bs: seq<Box>, i: int)
    requires 0 <= i < |bs|
  {
    forall j :: i < j < |bs| ==> !Mobile(bs[j], bs[i].id)
  }

  /** The last box that gives an object a mobility type decides it. */
  lemma {:induction false} MobilityLastWins(bs: seq<Box>, attrs: map<int, seq<string>>, i: nat)
    requires i < |bs| && bs[i].mobilityType != "unknown" && LastMobile(bs, i)
    ensures var r := MobilityAttributes(bs, attrs); bs[i].id in r && r[bs[i].id] == [bs[i].mobilityType]
    decreases |bs|
  {
    var b := bs[0];
    var next := if b.mobilityType != "unknown" then attrs[b.id := [b.mobilityType]] else attrs;
    if i == 0 {
      assert forall j :: 0 <= j < |bs| - 1 ==> !Mobile(bs[1..][j], b.id) by {
        forall j | 0 <= j < |bs| - 1 ensures !Mobile(bs[1..][j], b.id) { assert bs[1..][j] == bs[j + 1]; }
      }
    } else {
      assert LastMobile(bs[1..], i - 1) by {
        forall j | i - 1 < j < |bs| - 1 ensures !Mobile(bs[1..][j], bs[1..][i - 1].id) { assert bs[1..][j] == bs[j + 1]; }
      }
      MobilityLastWins(bs[1..], next, i - 1);
    }
  }

  /** Adds `name` to the attributes of `id` unless it is already there. */
  function AddOnce(attrs: map<int, seq<string>>, id: int, name: string): (r: map<int, seq<string>>)
    ensures id in r && name in r[id]
    ensures forall k :: k in attrs && k != id ==> k in r && r[k] == attrs[k]
    ensures forall k :: k in r ==> k in attrs || k == id
  {
    if id in attrs then
      if name in attrs[id] then attrs else attrs[id := attrs[id] + [name]]
    else attrs[id := [name]]
  }

  predicate NoDuplicates(s: seq<string>) {
    forall i, j :: 0 <= i < j < |s| ==> s[i] != s[j]
  }

  /** Adding twice is adding once, and a list without repeats stays
      without repeats. */
  lemma AddOnceIdempotent(attrs: map<int, seq<string>>, id: int, name: string)
    ensures AddOnce(AddOnce(attrs, id, name), id, name) == AddOnce(attrs, id, name)
    ensures id in attrs && NoDuplicates(attrs[id]) ==> NoDuplicates(AddOnce(attrs, id, name)[id])
  {}

  /** The attribute an articulation type adds, if any. */
  function ArticulationName(kind: string): Option<string> {
    if kind == "rotation" then Some("rotatable")
    else if kind == "translation" then Some("slidable")
    else None
  }

  function Articulate(attrs: map<int, seq<string>>, id: int, kinds: seq<string>): (r: map<int, seq<string>>)
    ensures forall k :: k in attrs && k != id ==> k in r && r[k] == attrs[k]
    ensures forall k :: k in r ==> k in attrs || k == id
    decreases |kinds|
  {
    if |kinds| == 0 then attrs
    else
      var next := match ArticulationName(kinds[0]) case Some(n) => AddOnce(attrs, id, n) case None => attrs;
      Articulate(next, id, kinds[1..])
  }

  // ---------------------------------------------------------------------
  // Part hierarchy

  /** `partToObject`: every part id of every object maps to that object;
      a later object claiming the same part wins. */
  function PartToObject(bs: seq<Box>): (r: map<int, int>)
    ensures forall p :: p in r ==> exists i :: 0 <= i < |bs| && p in bs[i].partIds && r[p] == bs[i].id
    ensures forall i, p :: 0 <= i < |bs| && p in bs[i].partIds ==> p in r
  {
    if |bs| == 0 then map[]
    else
      var m := PartToObject(bs[..|bs| - 1]);
      var last := bs[|bs| - 1];
      var r := Claim(m, last.partIds, last.id);
      assert forall i :: 0 <= i < |bs| - 1 ==> bs[..|bs| - 1][i] == bs[i];
      r
  }

  function Claim(m: map<int, int>, parts: seq<int>, id: int): (r: map<int, int>)
    ensures forall p :: p in r <==> p in m || p in parts
    ensures forall p :: p in parts ==> r[p] == id
    ensures forall p :: p in m && p !in parts ==> r[p] == m[p]
    decreases |parts|
  {
    if |parts| == 0 then m else Claim(m[parts[0] := id], parts[1..], id)
  }

  /** The part loop: a part with a parent gives a "part of" edge from the
      child's object to the parent's object when both parts belong to
      objects and those objects differ. */
  function PartEdges(parts: seq<MsPart>, owner: map<int, int>): (r: seq<Edge>)
    ensures forall e :: e in r ==> e.predicateName == "part of" && e.subject != e.obj
  {
    if |parts| == 0 then []
    else
      var p := parts[0];
      var e :=
        if p.parentId.Some? && p.partId in owner && p.parentId.value in owner
           && owner[p.partId] != owner[p.parentId.value]
        then [Edge(owner[p.partId], "part of", owner[p.parentId.value])] else [];
      e + PartEdges(parts[1..], owner)
  }

  /** An edge is a "part of" edge exactly when some part and its parent
      belong to two different objects. */
  lemma {:induction false} PartEdgesIff(parts: seq<MsPart>, owner: map<int, int>, e: Edge)
    ensures e in PartEdges(parts, owner) <==>
      exists i :: 0 <= i < |parts| && PartOfEdge(parts[i], owner, e)
  {
    if |parts| > 0 {
      PartEdgesIff(parts[1..], owner, e);
      if e in PartEdges(parts[1..], owner) {
        var i :| 0 <= i < |parts[1..]| && PartOfEdge(parts[1..][i], owner, e);
        assert PartOfEdge(parts[i + 1], owner, e);
      }
      if exists i :: 0 <= i < |parts| && PartOfEdge(parts[i], owner, e) {
        var i :| 0 <= i < |parts| && PartOfEdge(parts[i], owner, e);
        if i > 0 {
          assert PartOfEdge(parts[1..][i - 1], owner, e);
        }
      }
    }
  }

  predicate PartOfEdge(p: MsPart, owner: map<int, int>, e: Edge) {
    p.parentId.Some? && p.partId in owner && p.parentId.value in owner
    && e == Edge(owner[p.partId], "part of", owner[p.parentId.value]) && e.subject != e.obj
  }

  /** The articulation attributes, part by part. */
  function ArticulationAttributes(parts: seq<MsPart>, owner: map<int, int>, attrs: map<int, seq<string>>): (r: map<int, seq<string>>)
    ensures forall k :: k in r ==> k in attrs || k in owner.Values
    ensures forall k :: k in attrs && k !in owner.Values ==> k in r && r[k] == attrs[k]
    decreases |parts|
  {
    if |parts| == 0 then attrs
    else
      var p := parts[0];
      var next := if |p.articulations| > 0 && p.partId in owner then Articulate(attrs, owner[p.partId], p.articulations) else attrs;
      ArticulationAttributes(parts[1..], owner, next)
  }

  // ---------------------------------------------------------------------
  // On top of

  function Max(a: real, b: real): real {
    if a >= b then a else b
  }

  function Abs(a: real): real {
    if a < 0.0 then -a else a
  }

  /** `sqrt(dx^2 + dz^2) < max(h1x + h2x, h1z + h2z)` with the square root
      taken exactly. */
  predicate HorizontallyClose(b1: Box, b2: Box) {
    var m := Max(b1.halfDims.x + b2.halfDims.x, b1.halfDims.z + b2.halfDims.z);
    var dx := b1.center.x - b2.center.x;
    var dz := b1.center.z - b2.center.z;
    m > 0.0 && dx * dx + dz * dz < m * m
  }

  /** The edges the pair loop emits for objects `b1` (earlier) and `b2`. */
  function PairEdges(b1: Box, b2: Box): (r: seq<Edge>)
    ensures |r| <= 1
  {
    var dy := b1.center.y - b2.center.y;
    if HorizontallyClose(b1, b2) && (b1.halfDims.y + b2.halfDims.y) - Abs(dy) < 0.1 && Abs(dy) < 0.5 then
      if dy > 0.05 then [Edge(b1.id, "on top of", b2.id)]
      else if dy < -0.05 then [Edge(b2.id, "on top of", b1.id)]
      else []
    else []
  }

  /** `upper` rests on `lower`: they overlap horizontally, their vertical
      extents overlap by less than 0.1, and the centre of `upper` is higher
      by strictly between 0.05 and 0.5. */
  predicate OnTop(upper: Box, lower: Box) {
    var dy := upper.center.y - lower.center.y;
    HorizontallyClose(upper, lower) && (upper.halfDims.y + lower.halfDims.y) - dy < 0.1 && 0.05 < dy < 0.5
  }

  lemma HorizontallyCloseSymmetric(b1: Box, b2: Box)
    ensures HorizontallyClose(b1, b2) == HorizontallyClose(b2, b1)
  {
    var dx := b1.center.x - b2.center.x;
    var dz := b1.center.z - b2.center.z;
    assert (-dx) * (-dx) == dx * dx;
    assert (-dz) * (-dz) == dz * dz;
  }

  /** A pair gives an edge from the higher object to the lower exactly when
      one rests on the other; the order of the pair does not matter. */
  lemma PairEdgesOnTop(b1: Box, b2: Box)
    ensures PairEdges(b1, b2) ==
      (if OnTop(b1, b2) then [Edge(b1.id, "on top of", b2.id)]
       else if OnTop(b2, b1) then [Edge(b2.id, "on top of", b1.id)]
       else [])
  {
    HorizontallyCloseSymmetric(b1, b2);
  }

  /** Edges of every pair `i < j`, in loop order. */
  function OnTopEdges(bs: seq<Box>): seq<Edge> {
    if |bs| == 0 then [] else EdgesWith(bs[0], bs[1..]) + OnTopEdges(bs[1..])
  }

  function EdgesWith(b: Box, later: seq<Box>): seq<Edge> {
    if |later| == 0 then [] else PairEdges(b, later[0]) + EdgesWith(b, later[1..])
  }

  /** The edges involving `b` and a later object are those where one of
      the two rests on the other. */
  lemma {:induction false} EdgesWithIff(b: Box, later: seq<Box>, e: Edge)
    ensures e in EdgesWith(b, later) <==>
      exists j :: 0 <= j < |later| && RestsOn(b, later[j], e)
  {
    if |later| > 0 {
      PairEdgesOnTop(b, later[0]);
      EdgesWithIff(b, later[1..], e);
      if e in EdgesWith(b, later[1..]) {
        var j :| 0 <= j < |later[1..]| && RestsOn(b, later[1..][j], e);
        assert RestsOn(b, later[j + 1], e);
      }
      if exists j :: 0 <= j < |later| && RestsOn(b, later[j], e) {
        var j :| 0 <= j < |later| && RestsOn(b, later[j], e);
        if j > 0 {
          assert RestsOn(b, later[1..][j - 1], e);
        }
      }
    }
  }

  /** `e` is the edge the pair (`b1`, `b2`) emits. */
  predicate RestsOn(b1: Box, b2: Box, e: Edge) {
    (OnTop(b1, b2) && e == Edge(b1.id, "on top of", b2.id))
    || (!OnTop(b1, b2) && OnTop(b2, b1) && e == Edge(b2.id, "on top of", b1.id))
  }

  /** The inferred edges are exactly the edges of the pairs `i < j` where
      one object rests on the other. */
  lemma {:induction false} OnTopEdgesIff(bs: seq<Box>, e: Edge)
    ensures e in OnTopEdges(bs) <==>
      exists i, j :: 0 <= i < j < |bs| && RestsOn(bs[i], bs[j], e)
  {
    if |bs| > 0 {
      EdgesWithIff(bs[0], bs[1..], e);
      OnTopEdgesIff(bs[1..], e);
      SomePairCons(bs, e);
    }
  }

  /** A pair of `bs` either starts at its first object or lies in the rest. */
  lemma SomePairCons(bs: seq<Box>, e: Edge)
    requires |bs| > 0
    ensures (exists i, j :: 0 <= i < j < |bs| && RestsOn(bs[i], bs[j], e)) <==>
      (exists j :: 0 <= j < |bs[1..]| && RestsOn(bs[0], bs[1..][j], e))
      || (exists i, j :: 0 <= i < j < |bs[1..]| && RestsOn(bs[1..][i], bs[1..][j], e))
  {
    PairCons(bs, (x, y) => RestsOn(x, y, e));
  }

  lemma PairCons<T>(s: seq<T>, p: (T, T) -> bool)
    requires |s| > 0
    ensures (exists i, j :: 0 <= i < j < |s| && p(s[i], s[j])) <==>
      (exists j :: 0 <= j < |s[1..]| && p(s[0], s[1..][j]))
      || (exists i, j :: 0 <= i < j < |s[1..]| && p(s[1..][i], s[1..][j]))
  {
    var t := s[1..];
    if exists j :: 0 <= j < |t| && p(s[0], t[j]) {
      var j :| 0 <= j < |t| && p(s[0], t[j]);
      assert p(s[0], s[j + 1]);
    }
    if exists i, j :: 0 <= i < j < |t| && p(t[i], t[j]) {
      var i, j :| 0 <= i < j < |t| && p(t[i], t[j]);
      assert p(s[i + 1], s[j + 1]);
    }
    if exists i, j :: 0 <= i < j < |s| && p(s[i], s[j]) {
      var i, j :| 0 <= i < j < |s| && p(s[i], s[j]);
      if i == 0 {
        assert p(s[0], t[j - 1]);
      } else {
        assert p(t[i - 1], t[j - 1]);
      }
    }
  }

  function UnitBoxAt(id: int, y: real): Box {
    Box(id, "box", Vec3(0.0, y, 0.0), Vec3(0.5, 0.5, 0.5), IdentityRotation, "unknown", [])
  }

  /** Two unit boxes stacked 0.3 apart overlap by 0.7 vertically, which is
      far more than 0.1, so no edge is inferred. */
  lemma StackedUnitBoxesNoEdge()
    ensures PairEdges(UnitBoxAt(1, 0.3), UnitBoxAt(2, 0.0)) == []
  {}

  /** Two thin boxes whose faces meet, one 0.4 above the other, give an
      edge from the upper to the lower. */
  lemma ThinBoxesEdge()
    ensures var upper := Box(1, "book", Vec3(0.0, 0.4, 0.0), Vec3(0.5, 0.2, 0.5), IdentityRotation, "unknown", []);
      var lower := Box(2, "table", Vec3(0.0, 0.0, 0.0), Vec3(0.5, 0.2, 0.5), IdentityRotation, "unknown", []);
      PairEdges(lower, upper) == [Edge(1, "on top of", 2)]
  {}

  // ---------------------------------------------------------------------
  // The converter

  /** The whole conversion: objects in input order, "part of" edges before
      "on top of" edges, mobility attributes then articulation attributes. */
  function Convert(scan: MsScan, sqrt: real -> Num): (c: Converted)
    ensures |c.objects| == |scan.objects|
    ensures forall i :: 0 <= i < |c.objects| ==> c.objects[i].id == scan.objects[i].objectId
    ensures c.id != ""
  {
    var bs := ConvertObjects(scan.objects, sqrt);
    var owner := PartToObject(bs);
    var attrs := ArticulationAttributes(scan.parts, owner, MobilityAttributes(bs, map[]));
    Converted(OrDefault(scan.scanId, "unknown"), bs, PartEdges(scan.parts, owner) + OnTopEdges(bs), attrs)
  }
  /** The converter's relationships are exactly the "part of" edges of
      parts whose parent belongs to another object, and the "on top of"
      edges of the pairs where one object rests on the other. */
  lemma ConvertEdges(scan: MsScan, sqrt: real -> Num, e: Edge)
    ensures var c := Convert(scan, sqrt);
      e in c.relationships <==>
        (exists i :: 0 <= i < |scan.parts| && PartOfEdge(scan.parts[i], PartToObject(c.objects), e))
        || (exists i, j :: 0 <= i < j < |c.objects| && RestsOn(c.objects[i], c.objects[j], e))
  {
    var c := Convert(scan, sqrt);
    PartEdgesIff(scan.parts, PartToObject(c.objects), e);
    OnTopEdgesIff(c.objects, e);
  }
}

=== FILE: numeric.dfy ===
/** Numbers as the viewer sees them: IEEE doubles are either finite reals or
    one of `NaN`, `Infinity`, `-Infinity`; the binary PLY reader decodes
    little-endian integers and IEEE floats from a byte buffer. */
module Numeric {

  /** A JavaScript number: a finite value, or a non-finite one (`NaN` or an
      infinity). Rounding of finite values is not modelled. */
  datatype Num = Finite(v: real) | NonFinite

  /** Bytes of an `ArrayBuffer`. */
  type Byte = b: int | 0 <= b < 256

  function Pow2Nat(k: nat): (r: nat)
    ensures r >= 1
  {
    if k == 0 then 1 else 2 * Pow2Nat(k - 1)
  }

  /** 2^k as a real, for any integer k: doubling up from 2^0, halving
      down from it. */
  function Pow2(k: int): (r: real)
    ensures r > 0.0
    decreases if k < 0 then -k else k
  {
    if k == 0 then 1.0 else if k > 0 then 2.0 * Pow2(k - 1) else Pow2(k + 1) / 2.0
  }

  /** Raising the exponent by one doubles the power. */
  lemma Pow2Succ(k: int)
    ensures Pow2(k + 1) == 2.0 * Pow2(k)
  {}

  lemma Pow2Step(k: int, j: int)
    requires j == k + 1
    ensures Pow2(j) == 2.0 * Pow2(k)
  {
    Pow2Succ(k);
  }

  /** Eight exponent steps multiply by 256. */
  lemma Pow2Up8(k: int)
    ensures Pow2(k + 8) == 256.0 * Pow2(k)
  {
    Pow2Succ(k); Pow2Succ(k + 1); Pow2Succ(k + 2); Pow2Succ(k + 3);
    Pow2Succ(k + 4); Pow2Succ(k + 5); Pow2Succ(k + 6); Pow2Succ(k + 7);
  }

  /** 2^(k+23) == 2^23 * 2^k: the weight of the binary32 fraction field. */
  lemma Pow2Up23(k: int, j: int)
    requires j == k + 23
    ensures Pow2(j) == 8388608.0 * Pow2(k)
  {
    Pow2Up8(k); Pow2Up8(k + 8);
    Pow2Succ(k + 16); Pow2Succ(k + 17); Pow2Succ(k + 18); Pow2Succ(k + 19);
    Pow2Succ(k + 20); Pow2Succ(k + 21); Pow2Succ(k + 22);
  }

  /** 2^(k+52) == 2^52 * 2^k: the weight of the binary64 fraction field. */
  lemma Pow2Up52(k: int, j: int)
    requires j == k + 52
    ensures Pow2(j) == 4503599627370496.0 * Pow2(k)
  {
    Pow2Up8(k); Pow2Up8(k + 8); Pow2Up8(k + 16); Pow2Up8(k + 24); Pow2Up8(k + 32); Pow2Up8(k + 40);
    Pow2Succ(k + 48); Pow2Succ(k + 49); Pow2Succ(k + 50); Pow2Succ(k + 51);
  }

  function Pow10Nat(k: nat): (r: nat)
    ensures r >= 1
  {
    if k == 0 then 1 else 10 * Pow10Nat(k - 1)
  }

  /** 10^k as a real, for any integer k. */
  function Pow10(k: int): real {
    if k >= 0 then Pow10Nat(k) as real else 1.0 / (Pow10Nat(-k) as real)
  }

  /** `isNaN(x) || !isFinite(x) ? 0 : x`: the decoders' replacement of
      non-finite coordinates by zero. */
  function Sanitize(x: Num): (r: real)
    ensures x.Finite? ==> r == x.v
    ensures x.NonFinite? ==> r == 0.0
  {
    match x
    case Finite(v) => v
    case NonFinite => 0.0
  }

  /** The unsigned little-endian integer held in `n` bytes at `p`. */
  function LeUint(data: seq<Byte>, p: nat, n: nat): (r: nat)
    requires p + n <= |data|
    ensures r < Pow2Nat(8 * n)
    decreases n
  {
    if n == 0 then 0
    else
      var lo := data[p];
      var hi := LeUint(data, p + 1, n - 1);
      assert Pow2Nat(8 * n) == 256 * Pow2Nat(8 * (n - 1)) by { Pow2Add8(n - 1); }
      lo + 256 * hi
  }

  /** Splitting a field: the low `n` bytes, plus the next `m` bytes weighted
      by 256^n. */
  lemma {:induction false} LeUintSplit(data: seq<Byte>, p: nat, n: nat, m: nat)
    requires p + n + m <= |data|
    ensures LeUint(data, p, n + m) == LeUint(data, p, n) + Pow2Nat(8 * n) * LeUint(data, p + n, m)
    decreases n
  {
    if n > 0 {
      LeUintSplit(data, p + 1, n - 1, m);
      Pow2Add8(n - 1);
      var hi := LeUint(data, p + n, m);
      assert LeUint(data, p + 1, n - 1 + m) == LeUint(data, p + 1, n - 1) + Pow2Nat(8 * (n - 1)) * hi;
      assert LeUint(data, p, n + m) == data[p] + 256 * LeUint(data, p + 1, n - 1 + m);
      assert LeUint(data, p, n) == data[p] + 256 * LeUint(data, p + 1, n - 1);
      ShiftWeight(data[p], LeUint(data, p + 1, n - 1), Pow2Nat(8 * (n - 1)), hi);
    } else {
      assert Pow2Nat(0) == 1;
    }
  }

  /** lo + 256 * (a + w * h) == (lo + 256 * a) + (256 * w) * h. */
  lemma ShiftWeight(lo: int, a: int, w: int, h: int)
    ensures lo + 256 * (a + w * h) == (lo + 256 * a) + (256 * w) * h
  {}

  /** The four bytes of a 32-bit field with their weights. */
  lemma LeUint4(data: seq<Byte>, p: nat)
    requires p + 4 <= |data|
    ensures LeUint(data, p, 4) == data[p] as int + 0x100 * (data[p + 1] as int) + 0x1_0000 * (data[p + 2] as int)
                                 + 0x100_0000 * (data[p + 3] as int)
  {}

  /** The field read at `p` does not depend on the bytes in front of it. */
  lemma {:induction false} LeUintShift(a: seq<Byte>, d: seq<Byte>, p: nat, n: nat)
    requires p + n <= |d|
    ensures LeUint(a + d, |a| + p, n) == LeUint(d, p, n)
    decreases n
  {
    if n > 0 {
      LeUintShift(a, d, p + 1, n - 1);
      assert (a + d)[|a| + p] == d[p];
    }
  }

  /** The `n` little-endian bytes of `v` (its low `8n` bits). */
  function LeBytes(v: nat, n: nat): (r: seq<Byte>)
    ensures |r| == n
  {
    if n == 0 then [] else [v % 256] + LeBytes(v / 256, n - 1)
  }

  /** Reading back the bytes of a value that fits gives the value. */
  lemma {:induction false} LeUintLeBytes(v: nat, n: nat)
    requires v < Pow2Nat(8 * n)
    ensures LeUint(LeBytes(v, n), 0, n) == v
    decreases n
  {
    if n > 0 {
      Pow2Add8(n - 1);
      LeUintLeBytes(v / 256, n - 1);
      var rest := LeBytes(v / 256, n - 1);
      LeUintShift([v % 256], rest, 0, n - 1);
      assert LeBytes(v, n) == [v % 256] + rest;
    }
  }

  lemma Pow2Add8(k: nat)
    ensures Pow2Nat(8 * k + 8) == 256 * Pow2Nat(8 * k)
  {
    var a := 8 * k;
    assert Pow2Nat(a + 8) == 2 * Pow2Nat(a + 7);
    assert Pow2Nat(a + 7) == 2 * Pow2Nat(a + 6);
    assert Pow2Nat(a + 6) == 2 * Pow2Nat(a + 5);
    assert Pow2Nat(a + 5) == 2 * Pow2Nat(a + 4);
    assert Pow2Nat(a + 4) == 2 * Pow2Nat(a + 3);
    assert Pow2Nat(a + 3) == 2 * Pow2Nat(a + 2);
    assert Pow2Nat(a + 2) == 2 * Pow2Nat(a + 1);
    assert Pow2Nat(a + 1) == 2 * Pow2Nat(a);
  }

  /** `DataView.getInt32(p, true)`: a signed 32-bit little-endian integer. */
  function Int32At(data: seq<Byte>, p: nat): (r: int)
    requires p + 4 <= |data|
    ensures -0x8000_0000 <= r < 0x8000_0000
    ensures r % 0x1_0000_0000 == LeUint(data, p, 4)
  {
    assert Pow2Nat(32) == 0x1_0000_0000 by { Pow2Nat32(); }
    var u := LeUint(data, p, 4);
    if u >= 0x8000_0000 then u - 0x1_0000_0000 else u
  }

  /** A signed 32-bit value written as its two's-complement bytes reads
      back as itself. */
  lemma Int32RoundTrip(v: int)
    requires -0x8000_0000 <= v < 0x8000_0000
    ensures Int32At(LeBytes(v % 0x1_0000_0000, 4), 0) == v
  {
    Pow2Nat32();
    LeUintLeBytes(v % 0x1_0000_0000, 4);
  }

  lemma Pow2Nat32()
    ensures Pow2Nat(32) == 0x1_0000_0000
  {
    Pow2Add8(0); Pow2Add8(1); Pow2Add8(2); Pow2Add8(3);
  }

  /** The value of an IEEE 754 binary number from its fields: the all-ones
      exponent `expMax` is `NaN` or an infinity, exponent zero is subnormal,
      and otherwise the hidden leading one is added. `fracBits` is the
      width of the fraction field and `bias` the exponent bias. */
  function IeeeValue(negative: bool, exp: nat, frac: nat, expMax: nat, fracBits: nat, bias: nat): (r: Num)
    ensures r.NonFinite? <==> exp == expMax
    ensures r.Finite? ==> (r.v < 0.0 <==> negative && (exp > 0 || frac > 0))
  {
    if exp == expMax then NonFinite
    else
      var magnitude :=
        if exp == 0 then Scale(frac, exp + 1 - bias - fracBits)
        else Scale(Pow2Nat(fracBits) + frac, exp - bias - fracBits);
      ScaleSign(frac, exp + 1 - bias - fracBits);
      ScaleSign(Pow2Nat(fracBits) + frac, exp - bias - fracBits);
      Finite(if negative then -magnitude else magnitude)
  }

  /** m * 2^e. */
  function Scale(m: nat, e: int): real {
    (m as real) * Pow2(e)
  }

  lemma ScaleSign(m: nat, e: int)
    ensures Scale(m, e) >= 0.0 && (Scale(m, e) > 0.0 <==> m > 0)
  {
    PositiveFactor(m as real, Pow2(e));
  }

  lemma PositiveFactor(x: real, y: real)
    requires x >= 0.0 && y > 0.0
    ensures x * y >= 0.0 && (x * y > 0.0 <==> x > 0.0)
  {}

  function Abs(x: real): (r: real)
    ensures r >= 0.0 && (r == x || r == -x)
  {
    if x < 0.0 then -x else x
  }

  /** The binary32 value in the form of section 3.4 of IEEE 754: (1 +
      f/2^23) * 2^(e-127) for a normal exponent, (f/2^23) * 2^-126 for a
      subnormal one (e == 0, so 2^(e-126) is that weight). A normal value
      lies in [2^(e-127), 2^(e-126)) in magnitude. */
  lemma Binary32Value(negative: bool, e: nat, f: nat)
    requires e < 255 && f < 0x80_0000
    ensures var r := IeeeValue(negative, e, f, 255, 23, 127);
      && (e > 0 ==> Abs(r.v) == (1.0 + (f as real) / 8388608.0) * Pow2(e - 127))
      && (e > 0 ==> Pow2(e - 127) <= Abs(r.v) < Pow2(e - 126))
      && (e == 0 ==> Abs(r.v) == ((f as real) / 8388608.0) * Pow2(e - 126))
  {
    Pow2Nat23();
    IeeeMagnitude(negative, e, f, 255, 23, 127, 0x80_0000);
    if e > 0 {
      Binary32Normal(e, f, Abs(IeeeValue(negative, e, f, 255, 23, 127).v));
    } else {
      Binary32Subnormal(e, f, Abs(IeeeValue(negative, e, f, 255, 23, 127).v));
    }
  }

  lemma Binary32Normal(e: int, f: int, a: real)
    requires 0 < e < 255 && 0 <= f < 0x80_0000
    requires a == ((0x80_0000 + f) as real) * Pow2(e - 127 - 23)
    ensures a == (1.0 + (f as real) / 8388608.0) * Pow2(e - 127)
    ensures Pow2(e - 127) <= a < Pow2(e - 126)
  {
    var u := Pow2(e - 127 - 23);
    Pow2Up23(e - 127 - 23, e - 127);
    Pow2Step(e - 127, e - 126);
    NormalMagnitude(a, (0x80_0000 + f) as real, u, f as real, 8388608.0, Pow2(e - 127), Pow2(e - 126));
  }

  lemma Binary32Subnormal(e: int, f: int, a: real)
    requires e == 0 && 0 <= f < 0x80_0000
    requires a == (f as real) * Pow2(e + 1 - 127 - 23)
    ensures a == ((f as real) / 8388608.0) * Pow2(e - 126)
  {
    var u := Pow2(e + 1 - 127 - 23);
    Pow2Up23(e + 1 - 127 - 23, e - 126);
    Significand((0x80_0000 + f) as real, f as real, 8388608.0, u);
  }

  /** The magnitude of a finite value: the significand (with the hidden
      bit for a normal exponent) times the weight of its last bit. */
  lemma IeeeMagnitude(negative: bool, exp: nat, frac: nat, expMax: nat, fracBits: nat, bias: nat, hidden: nat)
    requires exp != expMax && hidden == Pow2Nat(fracBits)
    ensures var r := IeeeValue(negative, exp, frac, expMax, fracBits, bias);
      && (exp > 0 ==> Abs(r.v) == ((hidden + frac) as real) * Pow2(exp - bias - fracBits))
      && (exp == 0 ==> Abs(r.v) == (frac as real) * Pow2(exp + 1 - bias - fracBits))
  {
    IeeeAbs(negative, exp, frac, expMax, fracBits, bias);
  }

  /** The magnitude is the scaled significand, whatever the sign. */
  lemma IeeeAbs(negative: bool, exp: nat, frac: nat, expMax: nat, fracBits: nat, bias: nat)
    requires exp != expMax
    ensures Abs(IeeeValue(negative, exp, frac, expMax, fracBits, bias).v)
      == if exp == 0 then Scale(frac, exp + 1 - bias - fracBits) else Scale(Pow2Nat(fracBits) + frac, exp - bias - fracBits)
  {
    if exp == 0 {
      ScaleSign(frac, exp + 1 - bias - fracBits);
    } else {
      ScaleSign(Pow2Nat(fracBits) + frac, exp - bias - fracBits);
    }
  }

  /** The binary64 value in the form of section 3.4 of IEEE 754: (1 +
      f/2^52) * 2^(e-1023) for a normal exponent, (f/2^52) * 2^-1022 for a
      subnormal one (e == 0, so 2^(e-1022) is that weight). */
  lemma Binary64Value(negative: bool, e: nat, f: nat)
    requires e < 2047 && f < 0x10_0000_0000_0000
    ensures var r := IeeeValue(negative, e, f, 2047, 52, 1023);
      && (e > 0 ==> Abs(r.v) == (1.0 + (f as real) / 4503599627370496.0) * Pow2(e - 1023))
      && (e > 0 ==> Pow2(e - 1023) <= Abs(r.v) < Pow2(e - 1022))
      && (e == 0 ==> Abs(r.v) == ((f as real) / 4503599627370496.0) * Pow2(e - 1022))
  {
    Pow2Nat52();
    IeeeMagnitude(negative, e, f, 2047, 52, 1023, 0x10_0000_0000_0000);
    if e > 0 {
      Binary64Normal(e, f, Abs(IeeeValue(negative, e, f, 2047, 52, 1023).v));
    } else {
      Binary64Subnormal(e, f, Abs(IeeeValue(negative, e, f, 2047, 52, 1023).v));
    }
  }

  lemma Binary64Normal(e: int, f: int, a: real)
    requires 0 < e < 2047 && 0 <= f < 0x10_0000_0000_0000
    requires a == ((0x10_0000_0000_0000 + f) as real) * Pow2(e - 1023 - 52)
    ensures a == (1.0 + (f as real) / 4503599627370496.0) * Pow2(e - 1023)
    ensures Pow2(e - 1023) <= a < Pow2(e - 1022)
  {
    var u := Pow2(e - 1023 - 52);
    Pow2Up52(e - 1023 - 52, e - 1023);
    Pow2Step(e - 1023, e - 1022);
    NormalMagnitude(a, (0x10_0000_0000_0000 + f) as real, u, f as real, 4503599627370496.0,
                    Pow2(e - 1023), Pow2(e - 1022));
  }

  lemma Binary64Subnormal(e: int, f: int, a: real)
    requires e == 0 && 0 <= f < 0x10_0000_0000_0000
    requires a == (f as real) * Pow2(e + 1 - 1023 - 52)
    ensures a == ((f as real) / 4503599627370496.0) * Pow2(e - 1022)
  {
    var u := Pow2(e + 1 - 1023 - 52);
    Pow2Up52(e + 1 - 1023 - 52, e - 1022);
    Significand((0x10_0000_0000_0000 + f) as real, f as real, 4503599627370496.0, u);
  }

  /** With m == c + f: m * u == (1 + f/c) * (c * u), and it lies in
      [c * u, 2 * c * u) when 0 <= f < c; likewise f * u == (f/c) * (c * u). */
  lemma Significand(m: real, f: real, c: real, u: real)
    requires c > 0.0 && u > 0.0 && 0.0 <= f < c && m == c + f
    ensures m * u == (1.0 + f / c) * (c * u)
    ensures c * u <= m * u < 2.0 * (c * u)
    ensures f * u == (f / c) * (c * u)
  {
    assert (1.0 + f / c) * c == c + f;
  }

  /** A normal magnitude a == (c + f) * u, where c * u is the power of two
      of the exponent, is (1 + f/c) times that power and below twice it. */
  lemma NormalMagnitude(a: real, m: real, u: real, f: real, c: real, p: real, p2: real)
    requires c > 0.0 && u > 0.0 && 0.0 <= f < c && m == c + f
    requires a == m * u && p == c * u && p2 == 2.0 * p
    ensures a == (1.0 + f / c) * p && p <= a < p2
  {
    Significand(m, f, c, u);
  }

  lemma Pow2Nat23()
    ensures Pow2Nat(23) == 0x80_0000
  {
    Pow2Add8(0); Pow2Add8(1);
    assert Pow2Nat(23) == 128 * Pow2Nat(16);
  }

  lemma Pow2Nat52()
    ensures Pow2Nat(52) == 0x10_0000_0000_0000
  {
    Pow2Add8(0); Pow2Add8(1); Pow2Add8(2); Pow2Add8(3); Pow2Add8(4); Pow2Add8(5);
    assert Pow2Nat(52) == 16 * Pow2Nat(48);
  }

  /** `DataView.getFloat32(p, true)`: the little-endian word `w` holds the
      sign bit, 8 exponent bits and 23 fraction bits, valued as section 3.4
      of IEEE 754 says. The fields, read off the four bytes, are: the sign
      in the top bit of byte 3, the exponent in the low 7 bits of byte 3
      and the top bit of byte 2, the fraction in the rest. */
  function Float32At(data: seq<Byte>, p: nat): (r: Num)
    requires p + 4 <= |data|
    ensures r == Binary32(data[p + 3] >= 128,
                          (data[p + 3] as int % 128) * 2 + data[p + 2] as int / 128,
                          (data[p + 2] as int % 128) * 0x1_0000 + (data[p + 1] as int) * 0x100 + data[p] as int)
    ensures r.NonFinite? <==> data[p + 3] % 128 == 127 && data[p + 2] >= 128
  {
    var w := LeUint(data, p, 4);
    Float32Fields(data, p);
    Binary32(w >= 0x8000_0000, (w / 0x80_0000) % 256, w % 0x80_0000)
  }

  /** A binary32 number from its sign, 8-bit exponent and 23-bit fraction. */
  function Binary32(negative: bool, e: nat, f: nat): (r: Num)
    requires e < 256 && f < 0x80_0000
    ensures r.NonFinite? <==> e == 255
    ensures r.Finite? && e > 0 ==> Abs(r.v) == (1.0 + (f as real) / 8388608.0) * Pow2(e - 127)
    ensures r.Finite? && e == 0 ==> Abs(r.v) == ((f as real) / 8388608.0) * Pow2(e - 126)
    ensures r.Finite? ==> (r.v < 0.0 <==> negative && (e > 0 || f > 0))
  {
    var r := IeeeValue(negative, e, f, 255, 23, 127);
    if e < 255 then Binary32Value(negative, e, f); r else r
  }

  /** Where the binary32 fields sit in the four bytes. */
  lemma Float32Fields(data: seq<Byte>, p: nat)
    requires p + 4 <= |data|
    ensures var w := LeUint(data, p, 4); var e := (w / 0x80_0000) % 256; var f := w % 0x80_0000;
      && e == (data[p + 3] as int % 128) * 2 + data[p + 2] as int / 128
      && f == (data[p + 2] as int % 128) * 0x1_0000 + (data[p + 1] as int) * 0x100 + data[p]
      && (w >= 0x8000_0000 <==> data[p + 3] >= 128)
      && (w % 0x8000_0000 != 0 <==> e > 0 || f > 0)
  {
    LeUint4(data, p);
    Word32Fields(LeUint(data, p, 4), data[p], data[p + 1], data[p + 2], data[p + 3]);
  }

  /** The same on the four byte values. */
  lemma Word32Fields(w: int, b0: int, b1: int, b2: int, b3: int)
    requires 0 <= b0 < 256 && 0 <= b1 < 256 && 0 <= b2 < 256 && 0 <= b3 < 256
    requires w == b0 + 0x100 * b1 + 0x1_0000 * b2 + 0x100_0000 * b3
    ensures var e := (w / 0x80_0000) % 256; var f := w % 0x80_0000;
      && e == (b3 % 128) * 2 + b2 / 128
      && f == (b2 % 128) * 0x1_0000 + b1 * 0x100 + b0
      && (w >= 0x8000_0000 <==> b3 >= 128)
      && (w % 0x8000_0000 != 0 <==> e > 0 || f > 0)
  {
    var sign := b3 / 128;
    var e := (b3 % 128) * 2 + b2 / 128;
    var f := (b2 % 128) * 0x1_0000 + b1 * 0x100 + b0;
    assert w == (sign * 256 + e) * 0x80_0000 + f;
    DivMod(w, 0x80_0000, sign * 256 + e, f);
    DivMod(sign * 256 + e, 256, sign, e);
    DivMod(w, 0x8000_0000, sign, e * 0x80_0000 + f);
  }

  /** Division with remainder is unique. */
  lemma DivMod(w: int, c: int, q: int, r: int)
    requires c > 0 && w == q * c + r && 0 <= r < c
    ensures w / c == q && w % c == r
  {
    var q0, r0 := w / c, w % c;
    assert (q - q0) * c == r0 - r by {
      assert w == q0 * c + r0;
      Distribute(q, q0, c);
    }
    if q > q0 {
      AtLeastOnce(q - q0, c);
    } else if q < q0 {
      AtLeastOnce(q0 - q, c);
      Distribute(q0, q, c);
    }
  }

  lemma Distribute(a: int, b: int, c: int)
    ensures (a - b) * c == a * c - b * c
  {}

  lemma AtLeastOnce(x: int, c: int)
    requires x >= 1 && c > 0
    ensures x * c >= c
  {}

  /** `DataView.getFloat64(p, true)`: the little-endian word `w` holds the
      sign bit, 11 exponent bits and 52 fraction bits, valued as section
      3.4 of IEEE 754 says. The fields, read off the eight bytes, are: the
      sign in the top bit of byte 7, the exponent in the low 7 bits of byte
      7 and the top 4 bits of byte 6, the fraction in the rest. */
  function Float64At(data: seq<Byte>, p: nat): (r: Num)
    requires p + 8 <= |data|
    ensures LeUint(data, p, 6) < 0x1_0000_0000_0000
    ensures r == Binary64(data[p + 7] >= 128,
                          (data[p + 7] as int % 128) * 16 + data[p + 6] as int / 16,
                          (data[p + 6] as int % 16) * 0x1_0000_0000_0000 + LeUint(data, p, 6))
    ensures r.NonFinite? <==> data[p + 7] % 128 == 127 && data[p + 6] >= 0xF0
  {
    var w := LeUint(data, p, 8);
    var e := (w / 0x10_0000_0000_0000) % 2048;
    var f := w % 0x10_0000_0000_0000;
    assert LeUint(data, p, 6) < 0x1_0000_0000_0000
      && e == (data[p + 7] as int % 128) * 16 + data[p + 6] as int / 16
      && f == (data[p + 6] as int % 16) * 0x1_0000_0000_0000 + LeUint(data, p, 6)
      && (w >= 0x8000_0000_0000_0000 <==> data[p + 7] >= 128) by { Float64Fields(data, p); }
    ExponentAllOnes64(data[p + 6] as int, data[p + 7] as int);
    Binary64(w >= 0x8000_0000_0000_0000, e, f)
  }

  /** A binary64 number from its sign, 11-bit exponent and 52-bit fraction. */
  function Binary64(negative: bool, e: nat, f: nat): (r: Num)
    requires e < 2048 && f < 0x10_0000_0000_0000
    ensures r.NonFinite? <==> e == 2047
    ensures r.Finite? && e > 0 ==> Abs(r.v) == (1.0 + (f as real) / 4503599627370496.0) * Pow2(e - 1023)
    ensures r.Finite? && e == 0 ==> Abs(r.v) == ((f as real) / 4503599627370496.0) * Pow2(e - 1022)
    ensures r.Finite? ==> (r.v < 0.0 <==> negative && (e > 0 || f > 0))
  {
    var r := IeeeValue(negative, e, f, 2047, 52, 1023);
    if e < 2047 then Binary64Value(negative, e, f); r else r
  }

  /** Where the binary64 fields sit in the eight bytes. */
  lemma Float64Fields(data: seq<Byte>, p: nat)
    requires p + 8 <= |data|
    ensures LeUint(data, p, 6) < 0x1_0000_0000_0000
    ensures var w := LeUint(data, p, 8); var e := (w / 0x10_0000_0000_0000) % 2048; var f := w % 0x10_0000_0000_0000;
      && e == (data[p + 7] as int % 128) * 16 + data[p + 6] as int / 16
      && f == (data[p + 6] as int % 16) * 0x1_0000_0000_0000 + LeUint(data, p, 6)
      && (w >= 0x8000_0000_0000_0000 <==> data[p + 7] >= 128)
      && (w % 0x8000_0000_0000_0000 != 0 <==> e > 0 || f > 0)
  {
    Float64Word(data, p);
    assert LeUint(data, p, 6) < 0x1_0000_0000_0000 by { Pow2Nat48(); }
    Word64Fields(LeUint(data, p, 8), LeUint(data, p, 6), data[p + 6], data[p + 7]);
  }

  /** The 11-bit exponent is all ones exactly when byte 7 holds seven
      ones below its sign bit and byte 6 four ones on top. */
  lemma ExponentAllOnes64(b6: int, b7: int)
    requires 0 <= b6 < 256 && 0 <= b7 < 256
    ensures (b7 % 128) * 16 + b6 / 16 == 2047 <==> b7 % 128 == 127 && b6 >= 0xF0
  {
  }

  /** The same on the low 48 bits and the two top bytes. */
  lemma Word64Fields(w: int, low: int, b6: int, b7: int)
    requires 0 <= low < 0x1_0000_0000_0000 && 0 <= b6 < 256 && 0 <= b7 < 256
    requires w == low + 0x1_0000_0000_0000 * (b6 + 0x100 * b7)
    ensures var e := (w / 0x10_0000_0000_0000) % 2048; var f := w % 0x10_0000_0000_0000;
      && e == (b7 % 128) * 16 + b6 / 16
      && f == (b6 % 16) * 0x1_0000_0000_0000 + low
      && (w >= 0x8000_0000_0000_0000 <==> b7 >= 128)
      && (w % 0x8000_0000_0000_0000 != 0 <==> e > 0 || f > 0)
  {
    var sign := b7 / 128;
    var e := (b7 % 128) * 16 + b6 / 16;
    var f := (b6 % 16) * 0x1_0000_0000_0000 + low;
    assert w == (sign * 2048 + e) * 0x10_0000_0000_0000 + f;
    DivMod(w, 0x10_0000_0000_0000, sign * 2048 + e, f);
    DivMod(sign * 2048 + e, 2048, sign, e);
    DivMod(w, 0x8000_0000_0000_0000, sign, e * 0x10_0000_0000_0000 + f);
  }

  /** The 64-bit word with the two top bytes split off. */
  lemma Float64Word(data: seq<Byte>, p: nat)
    requires p + 8 <= |data|
    ensures LeUint(data, p, 8) == LeUint(data, p, 6) + 0x1_0000_0000_0000 * (data[p + 6] as int + 0x100 * (data[p + 7] as int))
  {
    LeUintSplit(data, p, 6, 2);
    Pow2Nat48();
  }

  lemma Pow2Nat48()
    ensures Pow2Nat(48) == 0x1_0000_0000_0000
  {
    Pow2Add8(0); Pow2Add8(1); Pow2Add8(2); Pow2Add8(3); Pow2Add8(4); Pow2Add8(5);
  }

  /** `getFloat32` of the bytes 00 00 80 3F is 1.0. */
  lemma Float32One(data: seq<Byte>, p: nat)
    requires p + 4 <= |data|
    requires data[p] == 0 && data[p + 1] == 0 && data[p + 2] == 0x80 && data[p + 3] == 0x3F
    ensures Float32At(data, p) == Finite(1.0)
  {
    Binary32Power(data[p + 3] >= 128, (data[p + 3] as int % 128) * 2 + data[p + 2] as int / 128, 0, 1.0);
  }

  /** `getFloat32` of the bytes 00 00 00 C0 is -2.0. */
  lemma Float32MinusTwo(data: seq<Byte>, p: nat)
    requires p + 4 <= |data|
    requires data[p] == 0 && data[p + 1] == 0 && data[p + 2] == 0 && data[p + 3] == 0xC0
    ensures Float32At(data, p) == Finite(-2.0)
  {
    assert Pow2(1) == 2.0;
    Binary32Power(data[p + 3] >= 128, (data[p + 3] as int % 128) * 2 + data[p + 2] as int / 128, 0, -2.0);
  }

  /** A normal binary32 number with an empty fraction is a signed power
      of two. */
  lemma Binary32Power(negative: bool, e: nat, f: nat, v: real)
    requires 0 < e < 255 && f == 0
    requires v == if negative then -Pow2(e - 127) else Pow2(e - 127)
    ensures Binary32(negative, e, f) == Finite(v)
  {
  }

  /** `getFloat32` of the bytes 01 00 00 00 is the smallest subnormal
      number, 2^-149 (given as `Pow2(k)` with k == -149). */
  lemma Float32Smallest(data: seq<Byte>, p: nat, k: int)
    requires p + 4 <= |data| && k == -149
    requires data[p] == 1 && data[p + 1] == 0 && data[p + 2] == 0 && data[p + 3] == 0
    ensures Float32At(data, p) == Finite(Pow2(k))
  {
    Float32Fields(data, p);
    var e := (LeUint(data, p, 4) / 0x80_0000) % 256;
    Pow2Up23(k, e - 126);
    Reciprocal(8388608.0, Pow2(k));
  }

  /** `getFloat64` of the bytes 00 00 00 00 00 00 F0 3F is 1.0. */
  lemma Float64One(data: seq<Byte>, p: nat)
    requires p + 8 <= |data|
    requires data[p] == 0 && data[p + 1] == 0 && data[p + 2] == 0 && data[p + 3] == 0
    requires data[p + 4] == 0 && data[p + 5] == 0 && data[p + 6] == 0xF0 && data[p + 7] == 0x3F
    ensures Float64At(data, p) == Finite(1.0)
  {
    LeUintZero(data, p, 6);
    Binary64Power(data[p + 7] >= 128, (data[p + 7] as int % 128) * 16 + data[p + 6] as int / 16, 0, 1.0);
  }

  /** `getFloat64` of the bytes 00 00 00 00 00 00 00 C0 is -2.0. */
  lemma Float64MinusTwo(data: seq<Byte>, p: nat)
    requires p + 8 <= |data|
    requires data[p] == 0 && data[p + 1] == 0 && data[p + 2] == 0 && data[p + 3] == 0
    requires data[p + 4] == 0 && data[p + 5] == 0 && data[p + 6] == 0 && data[p + 7] == 0xC0
    ensures Float64At(data, p) == Finite(-2.0)
  {
    LeUintZero(data, p, 6);
    assert Pow2(1) == 2.0;
    Binary64Power(data[p + 7] >= 128, (data[p + 7] as int % 128) * 16 + data[p + 6] as int / 16, 0, -2.0);
  }

  /** A normal binary64 number with an empty fraction is a signed power
      of two. */
  lemma Binary64Power(negative: bool, e: nat, f: nat, v: real)
    requires 0 < e < 2047 && f == 0
    requires v == if negative then -Pow2(e - 1023) else Pow2(e - 1023)
    ensures Binary64(negative, e, f) == Finite(v)
  {
  }

  /** Six zero bytes read as zero. */
  lemma LeUintZero(data: seq<Byte>, p: nat, n: nat)
    requires p + n <= |data|
    requires forall i :: p <= i < p + n ==> data[i] == 0
    ensures LeUint(data, p, n) == 0
    decreases n
  {
    if n > 0 {
      LeUintZero(data, p + 1, n - 1);
    }
  }

  lemma Reciprocal(c: real, x: real)
    requires c > 0.0
    ensures (1.0 / c) * (c * x) == x
  {}
}

=== FILE: ply.dfy ===
/** `parsePLY` of both viewers: the header is read from the first bytes of
    the buffer, then the body is handed to the binary or the ASCII reader.
    The older viewer (generate_html.py) assumes the fixed record layout
    x, y, z [, nx, ny, nz] [, r, g, b, a] and reads colours as they are;
    the sampled viewer (generate_html_sampled.py) uses the layout the header
    declares and converts colours from sRGB to linear. */
module Ply {
  import opened Wrappers
  import opened Numeric
  import opened JsText
  import opened Mesh
  import opened PlyHeader
  import opened PlyBinary
  import opened PlyAscii

  /** The older viewer's record reader: 12 bytes of float32 coordinates,
      then 12 bytes of normals when announced, then 4 colour bytes when
      announced; a record is read while its 12 coordinate bytes fit. */
  function LegacyReader(hasNormals: bool, hasColors: bool): (rd: Reader)
    ensures rd.ReadsInside()
    ensures rd.fit == 12 && !rd.isDouble && rd.transfer == Raw && rd.readColors == hasColors
    ensures rd.stride == 12 + (if hasNormals then 12 else 0) + (if hasColors then 4 else 0)
    ensures hasColors ==> rd.colorOffset + 4 == rd.stride
  {
    var stride := 12 + (if hasNormals then 12 else 0) + (if hasColors then 4 else 0);
    Reader(stride, 12, 0, 4, 8, false, hasColors, if hasNormals then 24 else 12, Raw)
  }

  /** The sampled viewer's record reader: the declared record width (or
      the fixed-layout estimate when the header declared no vertex
      property), the declared coordinate offsets and type, and colours
      through the sRGB transfer; a record is read while a whole record
      fits. */
  function SampledReader(h: Header): (rd: Reader)
    ensures rd.stride == rd.fit && rd.stride > 0 && rd.transfer == Srgb && rd.readColors == h.hasColors
    ensures h.layout.bytesPerVertex > 0 ==> rd.stride == h.layout.bytesPerVertex
    ensures h.layout.bytesPerVertex > 0 ==>
      rd.xOffset == h.layout.xOffset && rd.yOffset == h.layout.yOffset && rd.zOffset == h.layout.zOffset
    ensures h.layout.bytesPerVertex > 0 ==> rd.colorOffset == h.layout.colorOffset && rd.isDouble == h.layout.xyzIsDouble
  {
    var l := WithFallbackWidth(h);
    Reader(l.bytesPerVertex, l.bytesPerVertex, l.xOffset, l.yOffset, l.zOffset, l.xyzIsDouble,
           h.hasColors, l.colorOffset, Srgb)
  }

  /** When the header declared no vertex property, the estimated layout
      reads float coordinates inside each record, so the sampled viewer's
      vertex loop cannot fail on it. */
  lemma FallbackReadsInside(h: Header)
    requires h.layout.bytesPerVertex == 0 && !h.layout.xyzIsDouble
    ensures SampledReader(h).ReadsInside()
  {}

  /** The header lines of a buffer and what the scan makes of them. */
  function HeaderLines(bytes: seq<Byte>): seq<string> {
    Split(HeaderText(bytes), '\n')
  }

  /** `headerLength`: computed only once the `end_header` line is found,
      0 otherwise. */
  function BodyStart(bytes: seq<Byte>, lines: seq<string>, h: Header): (n: nat)
    requires h.endLine.Some? ==> h.endLine.value < |lines|
    ensures h.endLine.None? ==> n == 0
  {
    match h.endLine
    case Some(i) => HeaderLength(bytes, lines, i)
    case None => 0
  }

  /** The sampled viewer's `parsePLY` on an `ArrayBuffer`. A binary body is
      read from the buffer after the header; otherwise the whole buffer is
      decoded as text (`decode` stands for `TextDecoder('utf-8')`) and read
      as an ASCII body. */
  function ParseSampled(bytes: seq<Byte>, decode: seq<Byte> -> string, pow24: real -> real): (r: Result<Geometry, DecodeError>)
    ensures r.Ok? ==> ValidGeometry(r.value)
    ensures r.Ok? ==> r.value.hasFaces == (Scan(HeaderLines(bytes)).faceCount.GetOr(0) > 0)
    ensures r.Err? ==> Scan(HeaderLines(bytes)).isBinary
  {
    var lines := HeaderLines(bytes);
    SampledBody(bytes, lines, Scan(lines), decode, pow24)
  }

  /** The body part of the sampled viewer's `parsePLY`, given the scanned
      header. */
  function SampledBody(bytes: seq<Byte>, lines: seq<string>, h: Header, decode: seq<Byte> -> string, pow24: real -> real): (r: Result<Geometry, DecodeError>)
    requires h.endLine.Some? ==> h.endLine.value < |lines|
    ensures r.Ok? ==> ValidGeometry(r.value)
    ensures r.Ok? ==> r.value.hasFaces == (h.faceCount.GetOr(0) > 0)
    ensures r.Err? ==> h.isBinary
  {
    if h.isBinary then
      DecodeBinary(bytes, BodyStart(bytes, lines, h), h.vertexCount, h.faceCount, h.hasColors,
                   SampledReader(h), h.faceExtraBytes, pow24)
    else
      Ok(AsciiBody(decode(bytes), h, AsciiReader(Srgb, pow24)))
  }

  /** An ASCII body read with the counts and colour flag of the header. */
  function AsciiBody(text: string, h: Header, rd: TokenReader): (g: Geometry)
    ensures ValidGeometry(g)
    ensures g.hasFaces == (h.faceCount.GetOr(0) > 0)
  {
    DecodeAscii(text, h.HeaderEnd(), h.vertexCount, h.faceCount, h.hasColors, rd)
  }

  /** The older viewer's `parsePLY` on an `ArrayBuffer`. A binary body is
      read with the fixed layout; otherwise the ASCII reader is given only
      the header text, that is at most the first 2000 bytes. */
  function ParseLegacy(bytes: seq<Byte>): (r: Result<Geometry, DecodeError>)
    ensures r.Ok? ==> ValidGeometry(r.value)
    ensures r.Ok? ==> r.value.hasFaces == (Scan(HeaderLines(bytes)).faceCount.GetOr(0) > 0)
    ensures r.Err? ==> r.error == HeaderPastEnd
  {
    var lines := HeaderLines(bytes);
    LegacyBody(bytes, lines, Scan(lines), HeaderText(bytes))
  }

  /** The body part of the older viewer's `parsePLY`, given the header
      text and the scanned header. */
  function LegacyBody(bytes: seq<Byte>, lines: seq<string>, h: Header, text: string): (r: Result<Geometry, DecodeError>)
    requires h.endLine.Some? ==> h.endLine.value < |lines|
    ensures r.Ok? ==> ValidGeometry(r.value)
    ensures r.Ok? ==> r.value.hasFaces == (h.faceCount.GetOr(0) > 0)
    ensures r.Err? ==> r.error == HeaderPastEnd
  {
    if h.isBinary then LegacyBinary(bytes, BodyStart(bytes, lines, h), h)
    else Ok(AsciiBody(text, h, AsciiReader(Raw, Identity)))
  }

  /** A binary body read with the older viewer's fixed layout from byte
      `start`: it fails only when the header length points past the end. */
  function LegacyBinary(bytes: seq<Byte>, start: nat, h: Header): (r: Result<Geometry, DecodeError>)
    ensures r.Ok? ==> ValidGeometry(r.value)
    ensures r.Ok? ==> r.value.hasFaces == (h.faceCount.GetOr(0) > 0)
    ensures r.Err? ==> r.error == HeaderPastEnd
  {
    var rd := LegacyReader(h.hasNormals, h.hasColors);
    if start <= |bytes| then
      BodyNoError(bytes[start..], rd, h.vertexCount.GetOr(0), 0, Identity);
      DecodeBinary(bytes, start, h.vertexCount, h.faceCount, h.hasColors, rd, 0, Identity)
    else
      DecodeBinary(bytes, start, h.vertexCount, h.faceCount, h.hasColors, rd, 0, Identity)
  }

  /** Colours are not transferred in the older viewer; the transfer
      function is never applied. */
  const Identity: real -> real := (x: real) => x

  /** What both readers guarantee the renderer: colours never outnumber
      points, colours are reported only when present, every index names a
      decoded point, and a cloud without faces has no indices. */
  predicate ValidGeometry(g: Geometry) {
    && |g.colors| <= |g.points|
    && (g.hasColors ==> |g.colors| > 0)
    && (forall k :: 0 <= k < |g.indices| ==> 0 <= g.indices[k] < |g.points|)
    && (!g.hasFaces ==> g.indices == [])
  }

  /** The header text depends only on the first 2000 bytes. */
  lemma HeaderTextWindow(bytes: seq<Byte>)
    ensures HeaderText(Window(bytes)) == HeaderText(bytes)
  {
    assert Window(Window(bytes)) == Window(bytes);
  }

  /** In the older viewer an ASCII file is read from its first 2000 bytes
      only: whatever follows them does not change the result. */
  lemma LegacyAsciiWindow(bytes: seq<Byte>)
    requires !Scan(HeaderLines(bytes)).isBinary
    ensures ParseLegacy(Window(bytes)) == ParseLegacy(bytes)
  {
    HeaderTextWindow(bytes);
  }
}

=== FILE: ply_ascii.dfy ===
/** The ASCII body reader of both viewers (`parseASCIIPLY`): the vertex
    lines that follow the header, then the face lines, each split into
    white-space separated tokens. */
module PlyAscii {
  import opened Wrappers
  import opened Numeric
  import opened JsText
  import opened Mesh
  import opened PlyBinary

  /** How single tokens are read: a coordinate, a colour channel and a
      face index. The loops below are written over a reader so that their
      structure can be reasoned about apart from the number parsing. */
  datatype TokenReader = TokenReader(
    coord: string -> real,
    channel: string -> Num,
    index: string -> Option<int>)

  /** The readers of `parseASCIIPLY`: `Coordinate` for coordinates,
      `AsciiChannel` for colours, `parseInt` for indices. */
  function AsciiReader(t: Transfer, pow24: real -> real): TokenReader {
    TokenReader(Coordinate, (s: string) => AsciiChannel(s, t, pow24), ParseInt)
  }

  /** A coordinate token: `parseFloat`, with `NaN` and the infinities
      replaced by zero. */
  function Coordinate(s: string): real {
    Sanitize(ParseFloat(s))
  }

  /** The position written on a vertex line: its first three tokens. */
  function PointOf(rd: TokenReader, parts: seq<string>): (p: Point)
    requires |parts| >= 3
  {
    Point(rd.coord(parts[0]), rd.coord(parts[1]), rd.coord(parts[2]))
  }

  /** One colour channel: `parseInt(token) / 255`, then the transfer
      function; `NaN` stays `NaN` through both transfers. */
  function AsciiChannel(token: string, t: Transfer, pow24: real -> real): (c: Num)
    ensures c.NonFinite? <==> ParseInt(token).None?
  {
    match ParseInt(token)
    case None => NonFinite
    case Some(n) =>
      var v := (n as real) / 255.0;
      Finite(if t == Raw then v else SrgbToLinear(v, pow24))
  }

  /** The colour written on a vertex line, from tokens 4 to 6. */
  function ColorOf(rd: TokenReader, parts: seq<string>): Rgb
    requires |parts| >= 6
  {
    Rgb(rd.channel(parts[3]), rd.channel(parts[4]), rd.channel(parts[5]))
  }

  /** The vertex loop over the data lines: a line with fewer than three
      tokens (a blank line included) is skipped; otherwise it gives a point,
      and also a colour when colours are announced and it has six tokens. */
  function AsciiVertices(lines: seq<string>, hasColors: bool, rd: TokenReader): (d: Decoded)
    ensures |d.colors| <= |d.points| <= |lines|
    ensures !hasColors ==> d.colors == []
  {
    if |lines| == 0 then Decoded([], [])
    else
      var parts := Tokens(lines[0]);
      var rest := AsciiVertices(lines[1..], hasColors, rd);
      if |parts| < 3 then rest
      else
        var c := if hasColors && |parts| >= 6 then [ColorOf(rd, parts)] else [];
        Decoded([PointOf(rd, parts)] + rest.points, c + rest.colors)
  }

  /** The face loop: each face line is read on its own (`FaceLine`) and
      the kept triangles' indices are collected in file order. */
  function AsciiFaces(lines: seq<string>, maxVertex: int, rd: TokenReader): (r: seq<int>)
    ensures |r| % 3 == 0
    ensures forall k :: 0 <= k < |r| ==> 0 <= r[k] <= maxVertex
  {
    Corners(FaceLines(lines, maxVertex, rd), maxVertex)
  }

  /** Each face line read on its own. */
  function FaceLines(lines: seq<string>, maxVertex: int, rd: TokenReader): (faces: seq<Option<Triangle>>)
    ensures |faces| == |lines|
    ensures forall k :: 0 <= k < |faces| ==> faces[k] == FaceLine(Tokens(lines[k]), maxVertex, rd)
  {
    seq(|lines|, k requires 0 <= k < |lines| => FaceLine(Tokens(lines[k]), maxVertex, rd))
  }

  predicate InBounds(t: Triangle, maxVertex: int) {
    0 <= t.a <= maxVertex && 0 <= t.b <= maxVertex && 0 <= t.c <= maxVertex
  }

  /** The indices of the triangles present, in order. */
  function Corners(faces: seq<Option<Triangle>>, maxVertex: int): (r: seq<int>)
    requires forall k :: 0 <= k < |faces| && faces[k].Some? ==> InBounds(faces[k].value, maxVertex)
    ensures |r| % 3 == 0
    ensures forall k :: 0 <= k < |r| ==> 0 <= r[k] <= maxVertex
  {
    if |faces| == 0 then []
    else
      var rest := Corners(faces[1..], maxVertex);
      match faces[0]
      case None => rest
      case Some(t) =>
        assert InBounds(faces[0].value, maxVertex);
        var r := [t.a, t.b, t.c] + rest;
        assert forall k :: 3 <= k < |r| ==> r[k] == rest[k - 3];
        r
  }

  /** The triangle a face line's tokens describe, if it is kept. */
  function FaceLine(parts: seq<string>, maxVertex: int, rd: TokenReader): (r: Option<Triangle>)
    ensures r.Some? ==> InBounds(r.value, maxVertex)
  {
    if |parts| >= 4 && rd.index(parts[0]) == Some(3) then
      match (rd.index(parts[1]), rd.index(parts[2]), rd.index(parts[3]))
      case (Some(a), Some(b), Some(c)) =>
        if 0 <= a <= maxVertex && 0 <= b <= maxVertex && 0 <= c <= maxVertex then Some(Triangle(a, b, c)) else None
      case _ => None
    else None
  }

  /** Reading two runs of vertex lines one after the other gives the points
      and the colours of the first run followed by those of the second. */
  lemma {:induction false} AsciiVerticesAppend(a: seq<string>, b: seq<string>, hasColors: bool, rd: TokenReader)
    ensures AsciiVertices(a + b, hasColors, rd).points
      == AsciiVertices(a, hasColors, rd).points + AsciiVertices(b, hasColors, rd).points
    ensures AsciiVertices(a + b, hasColors, rd).colors
      == AsciiVertices(a, hasColors, rd).colors + AsciiVertices(b, hasColors, rd).colors
    decreases |a|
  {
    if |a| == 0 {
      assert a + b == b;
    } else {
      assert (a + b)[0] == a[0];
      assert (a + b)[1..] == a[1..] + b;
      AsciiVerticesAppend(a[1..], b, hasColors, rd);
      var parts := Tokens(a[0]);
      var ra, rb := AsciiVertices(a[1..], hasColors, rd), AsciiVertices(b, hasColors, rd);
      if |parts| >= 3 {
        var c := if hasColors && |parts| >= 6 then [ColorOf(rd, parts)] else [];
        assert c + (ra.colors + rb.colors) == (c + ra.colors) + rb.colors;
        assert [PointOf(rd, parts)] + (ra.points + rb.points) == ([PointOf(rd, parts)] + ra.points) + rb.points;
      }
    }
  }

  /** A single vertex line: skipped below three tokens, else one point, and
      one colour when colours are announced and the line has six tokens. */
  lemma AsciiVertexLine(line: string, hasColors: bool, rd: TokenReader)
    ensures var parts := Tokens(line); var d := AsciiVertices([line], hasColors, rd);
      && (|parts| < 3 ==> d.points == [] && d.colors == [])
      && (|parts| >= 3 ==> d.points == [PointOf(rd, parts)])
      && (|parts| >= 3 && hasColors && |parts| >= 6 ==> d.colors == [ColorOf(rd, parts)])
      && (|parts| >= 3 && !(hasColors && |parts| >= 6) ==> d.colors == [])
  {
    assert [line][1..] == [];
  }

  /** A point is read exactly when some line with at least three tokens
      carries it. */
  lemma {:induction false} AsciiPointsIff(lines: seq<string>, hasColors: bool, rd: TokenReader, q: Point)
    ensures q in AsciiVertices(lines, hasColors, rd).points
      <==> exists k :: 0 <= k < |lines| && |Tokens(lines[k])| >= 3 && PointOf(rd, Tokens(lines[k])) == q
    decreases |lines|
  {
    if |lines| > 0 {
      AsciiPointsIff(lines[1..], hasColors, rd, q);
      assert forall k :: 0 <= k < |lines[1..]| ==> lines[1..][k] == lines[k + 1];
      if exists k :: 0 <= k < |lines| && |Tokens(lines[k])| >= 3 && PointOf(rd, Tokens(lines[k])) == q {
        var k :| 0 <= k < |lines| && |Tokens(lines[k])| >= 3 && PointOf(rd, Tokens(lines[k])) == q;
        if k > 0 {
          assert lines[1..][k - 1] == lines[k];
        }
      }
    }
  }

  /** Reading two runs of face lines one after the other gives the indices
      of the first run followed by those of the second. */
  lemma AsciiFacesAppend(a: seq<string>, b: seq<string>, maxVertex: int, rd: TokenReader)
    ensures AsciiFaces(a + b, maxVertex, rd) == AsciiFaces(a, maxVertex, rd) + AsciiFaces(b, maxVertex, rd)
  {
    var fa, fb := FaceLines(a, maxVertex, rd), FaceLines(b, maxVertex, rd);
    assert FaceLines(a + b, maxVertex, rd) == fa + fb;
    CornersAppend(fa, fb, maxVertex);
  }

  lemma {:induction false} CornersAppend(a: seq<Option<Triangle>>, b: seq<Option<Triangle>>, maxVertex: int)
    requires forall k :: 0 <= k < |a| && a[k].Some? ==> InBounds(a[k].value, maxVertex)
    requires forall k :: 0 <= k < |b| && b[k].Some? ==> InBounds(b[k].value, maxVertex)
    ensures Corners(a + b, maxVertex) == Corners(a, maxVertex) + Corners(b, maxVertex)
    decreases |a|
  {
    if |a| == 0 {
      assert a + b == b;
    } else {
      assert (a + b)[0] == a[0];
      assert (a + b)[1..] == a[1..] + b;
      CornersAppend(a[1..], b, maxVertex);
    }
  }

  /** A single face line gives its triangle's three indices when it is
      kept and nothing otherwise. */
  lemma AsciiFaceLine(line: string, maxVertex: int, rd: TokenReader)
    ensures AsciiFaces([line], maxVertex, rd) == match FaceLine(Tokens(line), maxVertex, rd)
      case Some(t) => [t.a, t.b, t.c]
      case None => []
  {
    var faces := FaceLines([line], maxVertex, rd);
    assert faces == [FaceLine(Tokens(line), maxVertex, rd)];
    assert faces[1..] == [];
    assert Corners(faces[1..], maxVertex) == [];
  }

  /** Every kept face line puts its triangle's indices in the result, as
      one aligned triple. */
  lemma AsciiFaceKept(lines: seq<string>, maxVertex: int, rd: TokenReader, k: nat)
    requires k < |lines| && FaceLine(Tokens(lines[k]), maxVertex, rd).Some?
    ensures var tri := FaceLine(Tokens(lines[k]), maxVertex, rd).value; var r := AsciiFaces(lines, maxVertex, rd);
      exists j :: 0 <= j && j + 3 <= |r| && j % 3 == 0 && r[j] == tri.a && r[j + 1] == tri.b && r[j + 2] == tri.c
  {
    var tri := FaceLine(Tokens(lines[k]), maxVertex, rd).value;
    var pre, post := lines[..k], lines[k + 1..];
    assert lines == pre + [lines[k]] + post;
    AsciiFacesAppend(pre + [lines[k]], post, maxVertex, rd);
    AsciiFacesAppend(pre, [lines[k]], maxVertex, rd);
    AsciiFaceLine(lines[k], maxVertex, rd);
    var p := AsciiFaces(pre, maxVertex, rd);
    var r := AsciiFaces(lines, maxVertex, rd);
    assert r == p + [tri.a, tri.b, tri.c] + AsciiFaces(post, maxVertex, rd);
    var j := |p|;
    assert r[j] == tri.a && r[j + 1] == tri.b && r[j + 2] == tri.c;
  }

  /** The whole ASCII body: the `vertexCount` lines after line `headerEnd`
      (`lines.slice(headerEnd, headerEnd + vertexCount)`, so a `NaN` count
      reads none), then, when the face count is positive, the `faceCount`
      lines after those. Colours are reported only when announced and at
      least one was read. */
  function DecodeAscii(text: string, headerEnd: nat, vertexCount: Option<int>, faceCount: Option<int>,
                       hasColors: bool, rd: TokenReader): (g: Geometry)
    ensures g.hasFaces == (faceCount.Some? && faceCount.value > 0)
    ensures g.hasColors <==> hasColors && |g.colors| > 0
    ensures |g.colors| <= |g.points|
    ensures forall k :: 0 <= k < |g.indices| ==> 0 <= g.indices[k] < |g.points|
    ensures !g.hasFaces ==> g.indices == []
    ensures vertexCount.None? ==> g.points == [] && g.indices == []
  {
    var lines := Split(text, '\n');
    var dataLines := JsSlice(lines, headerEnd, if vertexCount.Some? then Some(headerEnd + vertexCount.value) else None);
    var d := AsciiVertices(dataLines, hasColors, rd);
    var faces := faceCount.GetOr(0);
    var indices :=
      if faces > 0 && vertexCount.Some? then
        var faceStart := headerEnd + vertexCount.value;
        AsciiFaces(JsSlice(lines, faceStart, Some(faceStart + faces)), |d.points| - 1, rd)
      else [];
    Geometry(d.points, d.colors, indices, hasColors && |d.colors| > 0, faces > 0)
  }

  // ---------------------------------------------------------------------
  // Writing and reading back

  /** A vertex with integer coordinates as a writer puts it on a line. */
  function VertexText(x: int, y: int, z: int): string {
    Join([IntToString(x), IntToString(y), IntToString(z)], " ")
  }

  /** A triangle as a writer puts it on a face line. */
  function FaceText(t: Triangle): string {
    Join(["3", IntToString(t.a), IntToString(t.b), IntToString(t.c)], " ")
  }

  /** A vertex line written from integer coordinates is read back as the
      same point. */
  lemma VertexLineRoundTrip(x: int, y: int, z: int, t: Transfer, pow24: real -> real)
    ensures var parts := Tokens(VertexText(x, y, z));
      |parts| == 3 && PointOf(AsciiReader(t, pow24), parts) == Point(x as real, y as real, z as real)
  {
    IntToStringIsWord(x);
    IntToStringIsWord(y);
    IntToStringIsWord(z);
    TokensJoin([IntToString(x), IntToString(y), IntToString(z)]);
    ParseFloatIntToString(x);
    ParseFloatIntToString(y);
    ParseFloatIntToString(z);
  }

  /** The index reader reads every written integer back. */
  ghost predicate ReadsIntegers(rd: TokenReader) {
    forall n: int :: rd.index(IntToString(n)) == Some(n)
  }

  /** `parseInt` reads every written integer back. */
  lemma AsciiReadsIntegers(tr: Transfer, pow24: real -> real)
    ensures ReadsIntegers(AsciiReader(tr, pow24))
  {
    forall n: int ensures AsciiReader(tr, pow24).index(IntToString(n)) == Some(n) {
      ParseIntToString(n);
    }
  }

  /** A written face line is read back as its triangle exactly when its
      three indices name vertices in [0, maxVertex]. */
  lemma FaceLineRoundTrip(t: Triangle, maxVertex: int, rd: TokenReader)
    requires ReadsIntegers(rd)
    ensures FaceLine(Tokens(FaceText(t)), maxVertex, rd)
      == (if 0 <= t.a <= maxVertex && 0 <= t.b <= maxVertex && 0 <= t.c <= maxVertex then Some(t) else None)
  {
    IntToStringIsWord(t.a);
    IntToStringIsWord(t.b);
    IntToStringIsWord(t.c);
    assert IsWord("3");
    TokensJoin(["3", IntToString(t.a), IntToString(t.b), IntToString(t.c)]);
    var parts := Tokens(FaceText(t));
    assert parts == [IntToString(3), IntToString(t.a), IntToString(t.b), IntToString(t.c)] by {
      assert IntToString(3) == "3";
    }
    FaceLineOf(parts, maxVertex, rd, t);
  }

  /** The round trip with the readers of `parseASCIIPLY`. */
  lemma AsciiFaceLineRoundTrip(t: Triangle, maxVertex: int, tr: Transfer, pow24: real -> real)
    ensures FaceLine(Tokens(FaceText(t)), maxVertex, AsciiReader(tr, pow24))
      == (if 0 <= t.a <= maxVertex && 0 <= t.b <= maxVertex && 0 <= t.c <= maxVertex then Some(t) else None)
  {
    AsciiReadsIntegers(tr, pow24);
    FaceLineRoundTrip(t, maxVertex, AsciiReader(tr, pow24));
  }

  /** Four tokens that read as 3 and the triangle's indices give the
      triangle when it is in bounds. */
  lemma FaceLineOf(parts: seq<string>, maxVertex: int, rd: TokenReader, t: Triangle)
    requires |parts| >= 4 && rd.index(parts[0]) == Some(3)
    requires rd.index(parts[1]) == Some(t.a) && rd.index(parts[2]) == Some(t.b) && rd.index(parts[3]) == Some(t.c)
    ensures FaceLine(parts, maxVertex, rd) == if InBounds(t, maxVertex) then Some(t) else None
  {
  }

  /** The index reader reads a written integer back. */
  lemma AsciiIndex(tr: Transfer, pow24: real -> real, n: int)
    ensures AsciiReader(tr, pow24).index(IntToString(n)) == Some(n)
  {
    ParseIntToString(n);
  }

}

=== FILE: ply_binary.dfy ===
/** The little-endian binary body reader of both viewers (`parseBinaryPLY`):
    a fold over the vertex records that stops at the first record that no
    longer fits, then a walk over the face records that keeps the valid
    triangles. */
module PlyBinary {
  import opened Wrappers
  import opened Numeric
  import opened Mesh

  /** Why a binary body cannot be read: the header length lies beyond the
      buffer (the `DataView` constructor throws), or a field read runs past
      the end of the buffer (`getFloat32`/`getFloat64` throw and the reader
      rethrows). */
  datatype DecodeError = HeaderPastEnd | ReadPastEnd

  /** How colour bytes become channel values: `byte / 255` as is (older
      viewer) or passed through `sRGBToLinear` (sampled viewer). */
  datatype Transfer = Raw | Srgb

  /** `sRGBToLinear`; `pow24` stands for `x => Math.pow(x, 2.4)`. */
  function SrgbToLinear(c: real, pow24: real -> real): real {
    if c <= 0.04045 then c / 12.92 else pow24((c + 0.055) / 1.055)
  }

  /** Where a vertex record's fields are: `stride` bytes per record, a
      record is read only while `fit` bytes remain from its start, the
      coordinate offsets, whether coordinates are doubles, and the colour
      bytes (read only when `readColors`, the offset is not negative and four
      bytes fit). */
  datatype Reader = Reader(
    stride: nat,
    fit: nat,
    xOffset: nat,
    yOffset: nat,
    zOffset: nat,
    isDouble: bool,
    readColors: bool,
    colorOffset: int,
    transfer: Transfer)
  {
    function Width(): nat {
      if isDouble then 8 else 4
    }

    /** Every coordinate read of a record that fits stays inside it. */
    predicate ReadsInside() {
      xOffset + Width() <= fit && yOffset + Width() <= fit && zOffset + Width() <= fit
    }
  }

  /** Vertices and colours decoded so far. */
  datatype Decoded = Decoded(points: seq<Point>, colors: seq<Rgb>)

  /** One coordinate at byte `p`, sanitised. */
  function ReadCoord(body: seq<Byte>, p: nat, isDouble: bool): (r: Result<real, DecodeError>)
    ensures r.Ok? <==> p + (if isDouble then 8 else 4) <= |body|
  {
    if isDouble then
      if p + 8 <= |body| then Ok(Sanitize(Float64At(body, p))) else Err(ReadPastEnd)
    else
      if p + 4 <= |body| then Ok(Sanitize(Float32At(body, p))) else Err(ReadPastEnd)
  }

  /** The position of the record at byte `off`. */
  function ReadPoint(body: seq<Byte>, rd: Reader, off: nat): (r: Result<Point, DecodeError>)
    ensures r.Ok? <==>
      off + rd.xOffset + rd.Width() <= |body| && off + rd.yOffset + rd.Width() <= |body|
      && off + rd.zOffset + rd.Width() <= |body|
  {
    match ReadCoord(body, off + rd.xOffset, rd.isDouble)
    case Err(e) => Err(e)
    case Ok(x) =>
      match ReadCoord(body, off + rd.yOffset, rd.isDouble)
      case Err(e) => Err(e)
      case Ok(y) =>
        match ReadCoord(body, off + rd.zOffset, rd.isDouble)
        case Err(e) => Err(e)
        case Ok(z) => Ok(Point(x, y, z))
  }

  /** Whether the colour of the record at `off` is read. */
  predicate ColorFits(body: seq<Byte>, rd: Reader, off: nat) {
    rd.readColors && rd.colorOffset >= 0 && off + rd.colorOffset + 4 <= |body|
  }

  /** The first three colour bytes of the record at `off` (the fourth,
      alpha, is skipped). */
  function ReadColor(body: seq<Byte>, rd: Reader, off: nat, pow24: real -> real): Rgb
    requires ColorFits(body, rd, off)
  {
    var p := off + rd.colorOffset;
    Rgb(Channel(body[p], rd.transfer, pow24),
        Channel(body[p + 1], rd.transfer, pow24),
        Channel(body[p + 2], rd.transfer, pow24))
  }

  function Channel(b: Byte, t: Transfer, pow24: real -> real): Num {
    var c := (b as real) / 255.0;
    Finite(if t == Raw then c else SrgbToLinear(c, pow24))
  }

  /** How the vertex loop reads one record, given the byte where it
      starts: the loop advances `stride` bytes per record and reads a record
      only while `fit` bytes remain; `point` reads the position (or fails)
      and `color` the colour, if any. */
  datatype RecordReader = RecordReader(
    stride: nat,
    fit: nat,
    point: nat -> Result<Point, DecodeError>,
    color: nat -> Option<Rgb>)

  /** The record reader of a body: the coordinates and colour of the record
      starting at each byte. */
  function BodyReader(body: seq<Byte>, rd: Reader, pow24: real -> real): RecordReader {
    RecordReader(rd.stride, rd.fit,
      (off: nat) => ReadPoint(body, rd, off),
      (off: nat) => if ColorFits(body, rd, off) then Some(ReadColor(body, rd, off, pow24)) else None)
  }

  /** The start of the `k`-th record after the one at `base`. */
  function RecordStart(rr: RecordReader, base: nat, k: nat): nat {
    base + k * rr.stride
  }

  lemma RecordStartNext(rr: RecordReader, base: nat, k: nat)
    requires k > 0
    ensures RecordStart(rr, base, k) == RecordStart(rr, base + rr.stride, k - 1)
  {
    assert k * rr.stride == (k - 1) * rr.stride + rr.stride;
  }

  /** Whether records have colours only up to some point of the buffer: a
      colour at a record implies one at every earlier record. */
  ghost predicate ColorsLeading(rr: RecordReader) {
    forall a: nat, b: nat :: a <= b && rr.color(b).Some? ==> rr.color(a).Some?
  }

  /** The vertex loop over a body of `size` bytes, with `remaining`
      iterations left and the next record at byte `off`. */
  function Vertices(rr: RecordReader, size: nat, remaining: int, off: nat): (r: Result<Decoded, DecodeError>)
    ensures r.Ok? ==> |r.value.colors| <= |r.value.points|
    decreases if remaining > 0 then remaining else 0
  {
    if remaining <= 0 || off + rr.fit > size then Ok(Decoded([], []))
    else
      match rr.point(off)
      case Err(e) => Err(e)
      case Ok(p) =>
        match Vertices(rr, size, remaining - 1, off + rr.stride)
        case Err(e) => Err(e)
        case Ok(rest) =>
          var c := if rr.color(off).Some? then [rr.color(off).value] else [];
          Ok(Decoded([p] + rest.points, c + rest.colors))
  }

  /** How many records the vertex loop reads: as many as declared, unless
      the buffer runs out first, and it stops without error at the first
      record that does not fit. */
  lemma {:induction false} VerticesCount(rr: RecordReader, size: nat, remaining: int, off: nat)
    requires Vertices(rr, size, remaining, off).Ok?
    ensures var d := Vertices(rr, size, remaining, off).value;
      (remaining > 0 ==> |d.points| <= remaining) && (remaining <= 0 ==> d.points == [])
    ensures var d := Vertices(rr, size, remaining, off).value;
      |d.points| < remaining ==> RecordStart(rr, off, |d.points|) + rr.fit > size
    decreases if remaining > 0 then remaining else 0
  {
    if remaining > 0 && off + rr.fit <= size {
      var d := Vertices(rr, size, remaining, off).value;
      VerticesCount(rr, size, remaining - 1, off + rr.stride);
      if |d.points| < remaining {
        RecordStartNext(rr, off, |d.points|);
      }
    }
  }

  /** Every decoded point is the position of its own record, and every
      record it reads fits in the buffer. */
  lemma {:induction false} VerticesPoints(rr: RecordReader, size: nat, remaining: int, off: nat)
    requires Vertices(rr, size, remaining, off).Ok?
    ensures var d := Vertices(rr, size, remaining, off).value;
      forall k :: 0 <= k < |d.points| ==>
        RecordStart(rr, off, k) + rr.fit <= size && rr.point(RecordStart(rr, off, k)) == Ok(d.points[k])
    decreases if remaining > 0 then remaining else 0
  {
    if remaining > 0 && off + rr.fit <= size {
      var d := Vertices(rr, size, remaining, off).value;
      var next := off + rr.stride;
      VerticesPoints(rr, size, remaining - 1, next);
      var rest := Vertices(rr, size, remaining - 1, next).value;
      assert d.points[1..] == rest.points;
      forall k | 0 <= k < |d.points|
        ensures RecordStart(rr, off, k) + rr.fit <= size && rr.point(RecordStart(rr, off, k)) == Ok(d.points[k])
      {
        if k > 0 {
          RecordStartNext(rr, off, k);
          assert d.points[k] == rest.points[k - 1];
        }
      }
    }
  }

  /** When colours are leading, the decoded colours are those of the first
      records, one each, up to the first record without one. */
  lemma {:induction false} VerticesColors(rr: RecordReader, size: nat, remaining: int, off: nat)
    requires ColorsLeading(rr)
    requires Vertices(rr, size, remaining, off).Ok?
    ensures var d := Vertices(rr, size, remaining, off).value;
      forall k :: 0 <= k < |d.colors| ==> rr.color(RecordStart(rr, off, k)) == Some(d.colors[k])
    ensures var d := Vertices(rr, size, remaining, off).value;
      |d.colors| < |d.points| ==> rr.color(RecordStart(rr, off, |d.colors|)).None?
    decreases if remaining > 0 then remaining else 0
  {
    if remaining > 0 && off + rr.fit <= size {
      var d := Vertices(rr, size, remaining, off).value;
      var next := off + rr.stride;
      VerticesColors(rr, size, remaining - 1, next);
      var rest := Vertices(rr, size, remaining - 1, next).value;
      assert RecordStart(rr, off, 0) == off;
      if rr.color(off).Some? {
        assert d.colors == [rr.color(off).value] + rest.colors;
        forall k | 0 <= k < |d.colors| ensures rr.color(RecordStart(rr, off, k)) == Some(d.colors[k]) {
          if k > 0 {
            RecordStartNext(rr, off, k);
            assert d.colors[k] == rest.colors[k - 1];
          }
        }
        if |d.colors| < |d.points| {
          RecordStartNext(rr, off, |d.colors|);
        }
      } else {
        NoColorAfter(rr, size, remaining - 1, next, off);
      }
    }
  }

  /** Once a record has no colour, no later record contributes one. */
  lemma {:induction false} NoColorAfter(rr: RecordReader, size: nat, remaining: int, off: nat, before: nat)
    requires ColorsLeading(rr)
    requires before <= off && rr.color(before).None?
    requires Vertices(rr, size, remaining, off).Ok?
    ensures Vertices(rr, size, remaining, off).value.colors == []
    decreases if remaining > 0 then remaining else 0
  {
    if remaining > 0 && off + rr.fit <= size {
      assert rr.color(off).None?;
      NoColorAfter(rr, size, remaining - 1, off + rr.stride, before);
    }
  }

  /** When every record that fits has a readable position, the vertex loop
      cannot fail. */
  lemma {:induction false} VerticesNoError(rr: RecordReader, size: nat, remaining: int, off: nat)
    requires forall o: nat :: o + rr.fit <= size ==> rr.point(o).Ok?
    ensures Vertices(rr, size, remaining, off).Ok?
    decreases if remaining > 0 then remaining else 0
  {
    if remaining > 0 && off + rr.fit <= size {
      VerticesNoError(rr, size, remaining - 1, off + rr.stride);
    }
  }

  /** A body's colours are leading: the colour guard only fails further into
      the buffer. */
  lemma BodyColorsLeading(body: seq<Byte>, rd: Reader, pow24: real -> real)
    ensures ColorsLeading(BodyReader(body, rd, pow24))
  {
    var rr := BodyReader(body, rd, pow24);
    forall a: nat, b: nat | a <= b && rr.color(b).Some? ensures rr.color(a).Some? {
      assert ColorFits(body, rd, b);
    }
  }

  /** With a reader whose coordinate reads stay inside each record, every
      record that fits has a readable position, so decoding the body never
      fails. */
  lemma BodyNoError(body: seq<Byte>, rd: Reader, remaining: int, off: nat, pow24: real -> real)
    requires rd.ReadsInside()
    ensures Vertices(BodyReader(body, rd, pow24), |body|, remaining, off).Ok?
  {
    var rr := BodyReader(body, rd, pow24);
    forall o: nat | o + rr.fit <= |body| ensures rr.point(o).Ok? {
      assert rr.point(o) == ReadPoint(body, rd, o);
    }
    VerticesNoError(rr, |body|, remaining, off);
  }

  // ---------------------------------------------------------------------
  // Faces

  datatype Triangle = Triangle(a: int, b: int, c: int)

  /** The three signed 32-bit vertex indices of a triangle record. */
  function TriangleAt(body: seq<Byte>, o: nat): Triangle
    requires o + 12 <= |body|
  {
    Triangle(Int32At(body, o), Int32At(body, o + 4), Int32At(body, o + 8))
  }

  /** A triangle is kept when its three indices lie in [0, n - 1] for the n
      decoded vertices and none of its vertices is exactly the origin. */
  predicate Keep(t: Triangle, points: seq<Point>) {
    0 <= t.a < |points| && 0 <= t.b < |points| && 0 <= t.c < |points|
    && !IsOrigin(points[t.a]) && !IsOrigin(points[t.b]) && !IsOrigin(points[t.c])
  }

  /** The face loop from byte `off` with `remaining` faces left: each face
      starts with a vertex count byte; a triangle whose indices and extra
      bytes fit is read (and kept if valid), other counts from 1 to 9 are
      skipped with their extra bytes, and a count of 0 or 10 and above, or
      running out of buffer, ends the loop. */
  function Faces(body: seq<Byte>, off: nat, extra: nat, remaining: int, points: seq<Point>): seq<int>
    decreases if remaining > 0 then remaining else 0
  {
    if remaining <= 0 || off + 1 > |body| then []
    else
      var n := body[off];
      var o := off + 1;
      if n == 3 && o + 12 + extra <= |body| then
        var t := TriangleAt(body, o);
        (if Keep(t, points) then [t.a, t.b, t.c] else []) + Faces(body, o + 12 + extra, extra, remaining - 1, points)
      else if 0 < n < 10 then
        var next := o + 4 * n + extra;
        if next > |body| then [] else Faces(body, next, extra, remaining - 1, points)
      else []
  }

  /** Every triangle record the face loop reads, kept or not. */
  function TriangleRecords(body: seq<Byte>, off: nat, extra: nat, remaining: int): seq<Triangle>
    decreases if remaining > 0 then remaining else 0
  {
    if remaining <= 0 || off + 1 > |body| then []
    else
      var n := body[off];
      var o := off + 1;
      if n == 3 && o + 12 + extra <= |body| then
        [TriangleAt(body, o)]
          + TriangleRecords(body, o + 12 + extra, extra, remaining - 1)
      else if 0 < n < 10 then
        var next := o + 4 * n + extra;
        if next > |body| then [] else TriangleRecords(body, next, extra, remaining - 1)
      else []
  }

  /** The indices of the kept triangles, in order: whole triangles only,
      each index naming a decoded vertex away from the origin. */
  function KeptIndices(ts: seq<Triangle>, points: seq<Point>): (r: seq<int>)
    ensures |r| % 3 == 0
    ensures forall k :: 0 <= k < |r| ==> 0 <= r[k] < |points| && !IsOrigin(points[r[k]])
  {
    if |ts| == 0 then []
    else (if Keep(ts[0], points) then [ts[0].a, ts[0].b, ts[0].c] else []) + KeptIndices(ts[1..], points)
  }

  /** An index list read back three at a time. */
  function Triangles(r: seq<int>): seq<Triangle> {
    if |r| < 3 then [] else [Triangle(r[0], r[1], r[2])] + Triangles(r[3..])
  }

  /** A triangle is drawn if and only if the file holds it and it is valid. */
  lemma {:induction false} KeptTrianglesIff(ts: seq<Triangle>, points: seq<Point>)
    ensures forall t :: t in Triangles(KeptIndices(ts, points)) <==> t in ts && Keep(t, points)
  {
    if |ts| > 0 {
      var rest := KeptIndices(ts[1..], points);
      KeptTrianglesIff(ts[1..], points);
      assert ts == [ts[0]] + ts[1..];
      if Keep(ts[0], points) {
        var r := [ts[0].a, ts[0].b, ts[0].c] + rest;
        assert KeptIndices(ts, points) == r;
        assert r[3..] == rest;
        assert Triangles(r) == [ts[0]] + Triangles(rest);
      } else {
        assert KeptIndices(ts, points) == rest;
      }
    }
  }

  /** The face loop keeps exactly the valid triangles among those it reads,
      in file order. */
  lemma {:induction false} FacesAreKeptRecords(body: seq<Byte>, off: nat, extra: nat, remaining: int, points: seq<Point>)
    ensures Faces(body, off, extra, remaining, points) == KeptIndices(TriangleRecords(body, off, extra, remaining), points)
    decreases if remaining > 0 then remaining else 0
  {
    if remaining > 0 && off + 1 <= |body| {
      var n := body[off];
      var o := off + 1;
      if n == 3 && o + 12 + extra <= |body| {
        FacesAreKeptRecords(body, o + 12 + extra, extra, remaining - 1, points);
        TriangleStep(body, off, extra, remaining, points);
      } else if 0 < n < 10 && o + 4 * n + extra <= |body| {
        FacesAreKeptRecords(body, o + 4 * n + extra, extra, remaining - 1, points);
        SkipStep(body, off, extra, remaining, points);
      }
    }
  }

  /** One skipped face record, of a count other than three. */
  lemma SkipStep(body: seq<Byte>, off: nat, extra: nat, remaining: int, points: seq<Point>)
    requires remaining > 0 && off + 1 <= |body|
    requires !(body[off] == 3 && off + 13 + extra <= |body|) && 0 < body[off] < 10
    requires off + 1 + 4 * body[off] + extra <= |body|
    requires Faces(body, off + 1 + 4 * body[off] + extra, extra, remaining - 1, points)
          == KeptIndices(TriangleRecords(body, off + 1 + 4 * body[off] + extra, extra, remaining - 1), points)
    ensures Faces(body, off, extra, remaining, points) == KeptIndices(TriangleRecords(body, off, extra, remaining), points)
  {}

  /** One triangle record read by both loops. */
  lemma TriangleStep(body: seq<Byte>, off: nat, extra: nat, remaining: int, points: seq<Point>)
    requires remaining > 0 && off + 13 + extra <= |body| && body[off] == 3
    requires Faces(body, off + 13 + extra, extra, remaining - 1, points)
          == KeptIndices(TriangleRecords(body, off + 13 + extra, extra, remaining - 1), points)
    ensures Faces(body, off, extra, remaining, points) == KeptIndices(TriangleRecords(body, off, extra, remaining), points)
  {
    var t := TriangleAt(body, off + 1);
    var rest := TriangleRecords(body, off + 13 + extra, extra, remaining - 1);
    TriangleRecordsHead(body, off, extra, remaining);
    KeptIndicesCons(t, rest, points);
  }

  lemma TriangleRecordsHead(body: seq<Byte>, off: nat, extra: nat, remaining: int)
    requires remaining > 0 && off + 13 + extra <= |body| && body[off] == 3
    ensures TriangleRecords(body, off, extra, remaining)
         == [TriangleAt(body, off + 1)] + TriangleRecords(body, off + 13 + extra, extra, remaining - 1)
  {}

  lemma KeptIndicesCons(t: Triangle, ts: seq<Triangle>, points: seq<Point>)
    ensures KeptIndices([t] + ts, points) == (if Keep(t, points) then [t.a, t.b, t.c] else []) + KeptIndices(ts, points)
  {
    assert ([t] + ts)[1..] == ts;
  }

  // ---------------------------------------------------------------------
  // The whole body

  /** The byte where the face records start: right after the last vertex
      record read. */
  function FacesStart(vertices: nat, stride: nat): nat {
    vertices * stride
  }

  /** The body reader: the body starts `headerLength` bytes into the
      buffer; a `NaN` vertex count reads no vertex; faces are read after the
      last vertex record only when the declared face count is positive;
      colours are reported only when the header announced them and at least
      one was read; `hasFaces` is the declared face count being positive. */
  function DecodeBinary(bytes: seq<Byte>, headerLength: nat, vertexCount: Option<int>, faceCount: Option<int>,
                        hasColors: bool, rd: Reader, extra: nat, pow24: real -> real): (r: Result<Geometry, DecodeError>)
    ensures headerLength > |bytes| ==> r == Err(HeaderPastEnd)
    ensures r.Ok? ==> r.value.hasFaces == (faceCount.Some? && faceCount.value > 0)
    ensures r.Ok? ==> (r.value.hasColors <==> hasColors && |r.value.colors| > 0)
    ensures r.Ok? ==> |r.value.colors| <= |r.value.points|
    ensures r.Ok? ==> forall k :: 0 <= k < |r.value.indices| ==> 0 <= r.value.indices[k] < |r.value.points|
    ensures r.Ok? && !r.value.hasFaces ==> r.value.indices == []
  {
    if headerLength > |bytes| then Err(HeaderPastEnd)
    else
      var body := bytes[headerLength..];
      var count := vertexCount.GetOr(0);
      match Vertices(BodyReader(body, rd, pow24), |body|, count, 0)
      case Err(e) => Err(e)
      case Ok(d) =>
        var faces := faceCount.GetOr(0);
        var start := FacesStart(|d.points|, rd.stride);
        FacesAreKeptRecords(body, start, extra, faces, d.points);
        var indices := if faces > 0 then Faces(body, start, extra, faces, d.points) else [];
        Ok(Geometry(d.points, d.colors, indices, hasColors && |d.colors| > 0, faces > 0))
  }
}

=== FILE: ply_header.dfy ===
/** The PLY header scan of the viewer's `parsePLY`: the header text taken
    from the first bytes of the file, the line-by-line scan that derives
    the element counts and the vertex record layout, and the byte length of
    the header. */
module PlyHeader {
  import opened Wrappers
  import opened JsText
  import Numeric

  /** Which element the header lines currently describe. */
  datatype Section = Outside | VertexSection | FaceSection

  /** The vertex record layout: total width, the offsets of the colour
      bytes (-1 until a `property uchar red` line is seen inside the vertex
      element) and of x, y and z, and whether x was declared `double`. */
  datatype Layout = Layout(
    bytesPerVertex: nat,
    colorOffset: int,
    xOffset: nat,
    yOffset: nat,
    zOffset: nat,
    xyzIsDouble: bool)

  /** The header fields `parsePLY` tracks while it reads the header lines.
      Counts are `parseInt` results (`None` is `NaN`); `endLine` is the index
      of the `end_header` line once it is found. */
  datatype Header = Header(
    isBinary: bool,
    vertexCount: Option<int>,
    faceCount: Option<int>,
    section: Section,
    layout: Layout,
    faceExtraBytes: nat,
    hasNormals: bool,
    hasColors: bool,
    endLine: Option<nat>)
  {
    /** The line index after `end_header` (`headerEnd`), 0 when there is
        none. */
    function HeaderEnd(): nat {
      match endLine
      case Some(i) => i + 1
      case None => 0
    }
  }

  /** The values the scan starts from. */
  const Initial := Header(false, Some(0), Some(0), Outside, Layout(0, -1, 0, 4, 8, false), 0, false, false, None)

  /** `parseInt(line.split(' ')[2])`: the count field of an `element`
      line; a missing field is `undefined`, which parses to `NaN`. */
  function ElementCount(line: string): Option<int> {
    var parts := Split(line, ' ');
    if |parts| < 3 then None else ParseInt(parts[2])
  }

  /** Bytes a vertex property takes, chosen by the first substring that
      matches in the order char, short, int/float, double (so `uchar`
      counts as `char` and a `double` whose name contains "int" counts
      4). A line matching none of them adds nothing. */
  function PropertyWidth(line: string): (w: nat)
    ensures w == 0 || w == 1 || w == 2 || w == 4 || w == 8
  {
    if Contains(line, "uchar") || Contains(line, "char") then 1
    else if Contains(line, "ushort") || Contains(line, "short") then 2
    else if Contains(line, "uint") || Contains(line, "int") || Contains(line, "float") then 4
    else if Contains(line, "double") then 8
    else 0
  }

  /** Bytes a face property other than `vertex_indices` adds per face:
      here only `uchar` counts 1, so a plain `char` adds nothing. */
  function FaceExtraWidth(line: string): (w: nat)
    ensures w == 0 || w == 1 || w == 2 || w == 4 || w == 8
  {
    if Contains(line, "uchar") then 1
    else if Contains(line, "ushort") || Contains(line, "short") then 2
    else if Contains(line, "uint") || Contains(line, "int") || Contains(line, "float") then 4
    else if Contains(line, "double") then 8
    else 0
  }

  /** The widths of the PLY scalar types, as the format defines them. */
  function TypeWidth(t: string): nat {
    if t == "char" || t == "uchar" then 1
    else if t == "short" || t == "ushort" then 2
    else if t == "int" || t == "uint" || t == "float" then 4
    else if t == "double" then 8
    else 0
  }

  /** A line without the letters c, s and n names none of the types
      tested before `float`. */
  lemma NoNarrowType(line: string)
    requires 'c' !in line && 's' !in line && 'n' !in line
    ensures !Contains(line, "uchar") && !Contains(line, "char")
    ensures !Contains(line, "ushort") && !Contains(line, "short")
    ensures !Contains(line, "uint") && !Contains(line, "int")
  {
    ContainsChar(line, "uchar", 'c');
    ContainsChar(line, "char", 'c');
    ContainsChar(line, "ushort", 's');
    ContainsChar(line, "short", 's');
    ContainsChar(line, "uint", 'n');
    ContainsChar(line, "int", 'n');
  }

  /** The width of a `uchar` property is found by the first test. */
  lemma PropertyWidthUchar(line: string)
    requires line == "property uchar red"
    ensures PropertyWidth(line) == TypeWidth("uchar")
  {
    assert Contains(line, "uchar") by {
      assert line == "property " + "uchar" + " red";
      ContainsIn("property ", "uchar", " red");
    }
  }

  /** A `short` property is 2 bytes: no "char" occurs before the test for it. */
  lemma PropertyWidthShort(line: string)
    requires line == "property short s"
    ensures PropertyWidth(line) == TypeWidth("short")
  {
    assert !Contains(line, "uchar") by { ContainsChar(line, "uchar", 'c'); }
    assert !Contains(line, "char") by { ContainsChar(line, "char", 'c'); }
    assert Contains(line, "short") by {
      assert line == "property " + "short" + " s";
      ContainsIn("property ", "short", " s");
    }
  }

  /** A `float` property is 4 bytes. */
  lemma PropertyWidthFloat(line: string)
    requires line == "property float x"
    ensures PropertyWidth(line) == TypeWidth("float")
  {
    assert 'c' !in line && 's' !in line && 'n' !in line;
    assert Contains(line, "float") by {
      assert line == "property " + "float" + " x";
      ContainsIn("property ", "float", " x");
    }
    FloatWidth(line);
  }

  /** Past the narrow types, a line naming `float` is 4 bytes. */
  lemma FloatWidth(line: string)
    requires 'c' !in line && 's' !in line && 'n' !in line
    requires Contains(line, "float")
    ensures PropertyWidth(line) == 4
  {
    NoNarrowType(line);
  }

  /** A `double` property is 8 bytes when its name holds none of the
      earlier type names. */
  lemma PropertyWidthDouble(line: string)
    requires line == "property double x"
    ensures PropertyWidth(line) == TypeWidth("double")
  {
    assert 'c' !in line && 's' !in line && 'n' !in line && 'f' !in line;
    assert Contains(line, "double") by {
      assert line == "property " + "double" + " x";
      ContainsIn("property ", "double", " x");
    }
    DoubleWidth(line);
  }

  /** Past the narrow types and `float`, a line naming `double` is 8 bytes. */
  lemma DoubleWidth(line: string)
    requires 'c' !in line && 's' !in line && 'n' !in line && 'f' !in line
    requires Contains(line, "double")
    ensures PropertyWidth(line) == 8
  {
    NoNarrowType(line);
    ContainsChar(line, "float", 'f');
  }

  /** The first match decides, not the declared type: a `double` property
      whose name contains "int" counts 4 bytes, not 8. */
  lemma PropertyWidthFirstMatch(line: string)
    requires line == "property double tint"
    ensures PropertyWidth(line) == 4 != TypeWidth("double")
  {
    assert 'c' !in line && 's' !in line;
    assert Contains(line, "int") by {
      assert line == "property double t" + "int" + "";
      ContainsIn("property double t", "int", "");
    }
    IntWidth(line);
  }

  /** Past the `char` and `short` tests, a line naming `int` is 4 bytes. */
  lemma IntWidth(line: string)
    requires 'c' !in line && 's' !in line
    requires Contains(line, "int")
    ensures PropertyWidth(line) == 4
  {
    ContainsChar(line, "uchar", 'c');
    ContainsChar(line, "char", 'c');
    ContainsChar(line, "ushort", 's');
    ContainsChar(line, "short", 's');
  }

  /** In the face element a `uchar` property adds 1 byte. */
  lemma FaceExtraWidthUchar(line: string)
    requires line == "property uchar flag"
    ensures FaceExtraWidth(line) == TypeWidth("uchar")
  {
    assert Contains(line, "uchar") by {
      assert line == "property " + "uchar" + " flag";
      ContainsIn("property ", "uchar", " flag");
    }
  }

  /** A plain `char` face property adds nothing, unlike the format's 1 byte. */
  lemma FaceExtraWidthChar(line: string)
    requires line == "property char mark"
    ensures FaceExtraWidth(line) == 0 != TypeWidth("char")
  {
    assert 'u' !in line && 's' !in line && 'i' !in line && 'f' !in line && 'd' !in line;
    NoFaceType(line);
  }

  /** A line without the letters u, s, i, f and d names no type a face
      property is measured by. */
  lemma NoFaceType(line: string)
    requires 'u' !in line && 's' !in line && 'i' !in line && 'f' !in line && 'd' !in line
    ensures FaceExtraWidth(line) == 0
  {
    ContainsChar(line, "uchar", 'u');
    ContainsChar(line, "ushort", 'u');
    ContainsChar(line, "short", 's');
    ContainsChar(line, "uint", 'u');
    ContainsChar(line, "int", 'i');
    ContainsChar(line, "float", 'f');
    ContainsChar(line, "double", 'd');
  }

  /** The layout fields a vertex property line can record. */
  datatype Field = X | Y | Z | Red

  /** Whether a (trimmed) vertex property line records `f`'s offset. */
  predicate Marks(line: string, f: Field) {
    match f
    case X => Contains(line, "property double x") || Contains(line, "property float x")
    case Y => Contains(line, "property double y") || Contains(line, "property float y")
    case Z => Contains(line, "property double z") || Contains(line, "property float z")
    case Red => Contains(line, "property uchar red")
  }

  /** The offset the layout records for `f`. */
  function Recorded(l: Layout, f: Field): int {
    match f
    case X => l.xOffset
    case Y => l.yOffset
    case Z => l.zOffset
    case Red => l.colorOffset
  }

  /** One `property` line inside the vertex element: the fields it names
      record the running byte offset, then the offset grows by the
      property's width. A `double x` also sets the double flag, which is
      never consulted for y or z. */
  function VertexProperty(l: Layout, line: string): (r: Layout)
    ensures r.bytesPerVertex == l.bytesPerVertex + PropertyWidth(line)
    ensures forall f :: Recorded(r, f) == if Marks(line, f) then l.bytesPerVertex else Recorded(l, f)
    ensures r.xyzIsDouble == (l.xyzIsDouble || Contains(line, "property double x"))
  {
    var off := l.bytesPerVertex;
    Layout(
      off + PropertyWidth(line),
      if Marks(line, Red) then off else l.colorOffset,
      if Marks(line, X) then off else l.xOffset,
      if Marks(line, Y) then off else l.yOffset,
      if Marks(line, Z) then off else l.zOffset,
      l.xyzIsDouble || Contains(line, "property double x"))
  }

  predicate IsElementLine(line: string) {
    StartsWith(line, "element")
  }

  predicate IsPropertyLine(line: string) {
    StartsWith(line, "property")
  }

  /** The element lines: `element vertex` and `element face` read their
      count and open their section (resetting the vertex width or the face
      extra bytes); any other element closes both. */
  function ElementLine(h: Header, line: string): Header {
    if StartsWith(line, "element vertex") then
      h.(vertexCount := ElementCount(line), section := VertexSection,
         layout := h.layout.(bytesPerVertex := 0))
    else if StartsWith(line, "element face") then
      h.(faceCount := ElementCount(line), section := FaceSection, faceExtraBytes := 0)
    else if IsElementLine(line) then h.(section := Outside)
    else h
  }

  /** The property lines: inside the vertex element they extend the layout,
      inside the face element those other than `vertex_indices` add their
      width to the face extra bytes. */
  function PropertyLine(h: Header, line: string): Header {
    if !IsPropertyLine(line) then h
    else match h.section
      case VertexSection => h.(layout := VertexProperty(h.layout, line))
      case FaceSection =>
        if Contains(line, "vertex_indices") then h
        else h.(faceExtraBytes := h.faceExtraBytes + FaceExtraWidth(line))
      case Outside => h
  }

  predicate NormalLine(line: string) {
    Contains(line, "property float nx") || Contains(line, "property float ny") || Contains(line, "property float nz")
  }

  predicate ColorLine(line: string) {
    Contains(line, "property uchar red") || Contains(line, "property uchar green") || Contains(line, "property uchar blue")
  }

  /** One trimmed header line. */
  function ScanLine(h: Header, line: string): Header {
    var h1 := h.(isBinary := h.isBinary || Contains(line, "format binary"));
    var h2 := PropertyLine(ElementLine(h1, line), line);
    h2.(hasNormals := h2.hasNormals || NormalLine(line), hasColors := h2.hasColors || ColorLine(line))
  }

  /** A `property` line is neither an `element` line nor `end_header`. */
  lemma PropertyLineKind(line: string)
    requires IsPropertyLine(line)
    ensures !IsElementLine(line) && line != "end_header"
    ensures !StartsWith(line, "element vertex") && !StartsWith(line, "element face")
  {
    assert line[0] == 'p';
  }

  /** An `element vertex` line opens the vertex section with an empty
      layout. */
  lemma VertexLineKind(h: Header, line: string)
    requires StartsWith(line, "element vertex")
    ensures ScanLine(h, line).section == VertexSection && ScanLine(h, line).layout.bytesPerVertex == 0
    ensures ScanLine(h, line).vertexCount == ElementCount(line)
  {
    assert line[0] == 'e';
    assert IsElementLine(line) by { assert line[..7] == "element vertex"[..7]; }
    assert !IsPropertyLine(line);
  }

  /** Inside the vertex section a property line changes the layout as
      `VertexProperty` says and keeps the section. */
  lemma ScanVertexProperty(h: Header, line: string)
    requires h.section == VertexSection && IsPropertyLine(line)
    ensures ScanLine(h, line).section == VertexSection
    ensures ScanLine(h, line).vertexCount == h.vertexCount
    ensures ScanLine(h, line).layout == VertexProperty(h.layout, line)
  {
    PropertyLineKind(line);
  }

  /** The header loop body applied to each of the (trimmed) `lines` in
      turn. */
  function Fold(h: Header, lines: seq<string>): Header
    decreases |lines|
  {
    if |lines| == 0 then h else Fold(ScanLine(h, lines[0]), lines[1..])
  }

  /** Every line trimmed. */
  function TrimAll(lines: seq<string>): (r: seq<string>)
    ensures |r| == |lines|
    ensures forall k :: 0 <= k < |r| ==> r[k] == Trim(lines[k])
  {
    if |lines| == 0 then [] else [Trim(lines[0])] + TrimAll(lines[1..])
  }

  /** The index of the first line equal to `end_header`, if any. */
  function EndLine(lines: seq<string>): (r: Option<nat>)
    ensures r.Some? ==> r.value < |lines| && lines[r.value] == "end_header"
    ensures r.Some? ==> forall k :: 0 <= k < r.value ==> lines[k] != "end_header"
    ensures r.None? ==> forall k :: 0 <= k < |lines| ==> lines[k] != "end_header"
  {
    if |lines| == 0 then None
    else if lines[0] == "end_header" then Some(0)
    else match EndLine(lines[1..])
      case None => None
      case Some(k) => Some(k + 1)
  }

  /** The lines the header loop reads: each trimmed, up to and including
      the first `end_header` line, or all of them when there is none. */
  function ScannedLines(lines: seq<string>): (r: seq<string>)
    ensures |r| <= |lines|
  {
    var t := TrimAll(lines);
    match EndLine(t)
    case Some(k) => t[..k + 1]
    case None => t
  }

  /** The scanned lines are the trimmed lines up to the first `end_header`,
      which ends them, or all of them when none is `end_header`. */
  lemma ScannedLinesShape(lines: seq<string>)
    ensures var r := ScannedLines(lines);
      && (forall k :: 0 <= k < |r| ==> r[k] == Trim(lines[k]))
      && (EndLine(TrimAll(lines)).Some? ==>
            |r| == EndLine(TrimAll(lines)).value + 1 && r[|r| - 1] == "end_header")
      && (EndLine(TrimAll(lines)).None? ==> |r| == |lines|)
      && (forall k :: 0 <= k < |r| - 1 ==> r[k] != "end_header")
  {
  }

  /** Some line of `ls` contains `p`. */
  predicate AnyContains(ls: seq<string>, p: string) {
    exists k :: 0 <= k < |ls| && Contains(ls[k], p)
  }

  predicate AnyNormal(ls: seq<string>) {
    exists k :: 0 <= k < |ls| && NormalLine(ls[k])
  }

  predicate AnyColor(ls: seq<string>) {
    exists k :: 0 <= k < |ls| && ColorLine(ls[k])
  }

  /** The header scan of `parsePLY`: the loop reads the scanned lines and
      `endLine` records where it stopped. */
  function Scan(lines: seq<string>): (r: Header)
    ensures r.endLine == EndLine(TrimAll(lines))
    ensures r.endLine.Some? ==> r.endLine.value < |lines|
  {
    Fold(Initial, ScannedLines(lines)).(endLine := EndLine(TrimAll(lines)))
  }

  /** The file is binary, has normals or has colours exactly when one of
      the lines the scan reads says so. */
  lemma ScanFlags(lines: seq<string>)
    ensures Scan(lines).isBinary <==> AnyContains(ScannedLines(lines), "format binary")
    ensures Scan(lines).hasNormals <==> AnyNormal(ScannedLines(lines))
    ensures Scan(lines).hasColors <==> AnyColor(ScannedLines(lines))
  {
    FoldFlags(Initial, ScannedLines(lines));
  }

  /** The three flags are set by the first line that mentions them and
      never cleared. */
  lemma {:induction false} FoldFlags(h: Header, ls: seq<string>)
    ensures Fold(h, ls).isBinary == (h.isBinary || AnyContains(ls, "format binary"))
    ensures Fold(h, ls).hasNormals == (h.hasNormals || AnyNormal(ls))
    ensures Fold(h, ls).hasColors == (h.hasColors || AnyColor(ls))
    decreases |ls|
  {
    if |ls| > 0 {
      ScanLineFlags(h, ls[0]);
      FoldFlags(ScanLine(h, ls[0]), ls[1..]);
      AnySplit(ls, "format binary");
    }
  }

  /** One line sets each flag when it mentions it and clears none. */
  lemma ScanLineFlags(h: Header, line: string)
    ensures ScanLine(h, line).isBinary == (h.isBinary || Contains(line, "format binary"))
    ensures ScanLine(h, line).hasNormals == (h.hasNormals || NormalLine(line))
    ensures ScanLine(h, line).hasColors == (h.hasColors || ColorLine(line))
  {
  }

  /** Whether some line qualifies: the first one, or one of the rest. */
  lemma AnySplit(ls: seq<string>, p: string)
    requires |ls| > 0
    ensures AnyContains(ls, p) == (Contains(ls[0], p) || AnyContains(ls[1..], p))
    ensures AnyNormal(ls) == (NormalLine(ls[0]) || AnyNormal(ls[1..]))
    ensures AnyColor(ls) == (ColorLine(ls[0]) || AnyColor(ls[1..]))
  {
    assert forall k :: 0 <= k < |ls[1..]| ==> ls[1..][k] == ls[k + 1];
    if AnyContains(ls, p) && !Contains(ls[0], p) {
      var k :| 0 <= k < |ls| && Contains(ls[k], p);
      assert Contains(ls[1..][k - 1], p);
    }
    if AnyNormal(ls) && !NormalLine(ls[0]) {
      var k :| 0 <= k < |ls| && NormalLine(ls[k]);
      assert NormalLine(ls[1..][k - 1]);
    }
    if AnyColor(ls) && !ColorLine(ls[0]) {
      var k :| 0 <= k < |ls| && ColorLine(ls[k]);
      assert ColorLine(ls[1..][k - 1]);
    }
  }


  /** Folding over `a + b` is folding over `a` and then over `b`. */
  lemma {:induction false} FoldAppend(h: Header, a: seq<string>, b: seq<string>)
    ensures Fold(h, a + b) == Fold(Fold(h, a), b)
    decreases |a|
  {
    if |a| > 0 {
      assert (a + b)[0] == a[0];
      assert (a + b)[1..] == a[1..] + b;
      FoldAppend(ScanLine(h, a[0]), a[1..], b);
    } else {
      assert a + b == b;
    }
  }

  /** The total width of a run of vertex property lines. */
  function WidthSum(block: seq<string>): nat {
    if |block| == 0 then 0 else PropertyWidth(block[0]) + WidthSum(block[1..])
  }

  /** Every line of `block` is a `property` line. */
  predicate AllProperties(block: seq<string>) {
    forall k :: 0 <= k < |block| ==> IsPropertyLine(block[k])
  }

  /** `block[k]` is the last line of `block` that records `f`. */
  predicate LastMark(block: seq<string>, f: Field, k: nat) {
    k < |block| && Marks(block[k], f)
    && forall j :: k < j < |block| ==> !Marks(block[j], f)
  }

  /** No line of `block` records `f`. */
  predicate NoMark(block: seq<string>, f: Field) {
    forall k :: 0 <= k < |block| ==> !Marks(block[k], f)
  }

  /** Inside the vertex element every property line adds its width to the
      running offset, and each of x, y, z and red records the running
      offset of the last line that names it. */
  lemma PropertyBlock(h: Header, block: seq<string>)
    requires h.section == VertexSection && AllProperties(block)
    ensures Fold(h, block).section == VertexSection
    ensures Fold(h, block).vertexCount == h.vertexCount
    ensures Fold(h, block).layout.bytesPerVertex == h.layout.bytesPerVertex + WidthSum(block)
    ensures forall f, k: nat :: LastMark(block, f, k) ==>
      Recorded(Fold(h, block).layout, f) == h.layout.bytesPerVertex + WidthSum(block[..k])
    ensures forall f :: NoMark(block, f) ==> Recorded(Fold(h, block).layout, f) == Recorded(h.layout, f)
  {
    BlockWidth(h, block);
    forall f, k: nat | LastMark(block, f, k)
      ensures Recorded(Fold(h, block).layout, f) == h.layout.bytesPerVertex + WidthSum(block[..k])
    {
      BlockLastMark(h, block, f, k);
    }
    forall f | NoMark(block, f) ensures Recorded(Fold(h, block).layout, f) == Recorded(h.layout, f) {
      BlockNoMark(h, block, f);
    }
  }

  /** The first line of a block of properties and the rest of it. */
  lemma BlockTail(block: seq<string>)
    requires |block| > 0 && AllProperties(block)
    ensures IsPropertyLine(block[0]) && AllProperties(block[1..])
  {
    assert forall k :: 0 <= k < |block[1..]| ==> block[1..][k] == block[k + 1];
  }

  lemma {:induction false} BlockWidth(h: Header, block: seq<string>)
    requires h.section == VertexSection && AllProperties(block)
    ensures Fold(h, block).section == VertexSection
    ensures Fold(h, block).vertexCount == h.vertexCount
    ensures Fold(h, block).layout.bytesPerVertex == h.layout.bytesPerVertex + WidthSum(block)
    decreases |block|
  {
    if |block| > 0 {
      BlockTail(block);
      ScanVertexProperty(h, block[0]);
      BlockWidth(ScanLine(h, block[0]), block[1..]);
    }
  }

  lemma {:induction false} BlockNoMark(h: Header, block: seq<string>, f: Field)
    requires h.section == VertexSection && AllProperties(block) && NoMark(block, f)
    ensures Recorded(Fold(h, block).layout, f) == Recorded(h.layout, f)
    decreases |block|
  {
    if |block| > 0 {
      BlockTail(block);
      ScanVertexProperty(h, block[0]);
      assert !Marks(block[0], f);
      assert NoMark(block[1..], f) by {
        forall j | 0 <= j < |block[1..]| ensures !Marks(block[1..][j], f) { assert block[1..][j] == block[j + 1]; }
      }
      BlockNoMark(ScanLine(h, block[0]), block[1..], f);
    }
  }

  lemma {:induction false} BlockLastMark(h: Header, block: seq<string>, f: Field, k: nat)
    requires h.section == VertexSection && AllProperties(block) && LastMark(block, f, k)
    ensures Recorded(Fold(h, block).layout, f) == h.layout.bytesPerVertex + WidthSum(block[..k])
    decreases |block|
  {
    BlockTail(block);
    ScanVertexProperty(h, block[0]);
    var h' := ScanLine(h, block[0]);
    var rest := block[1..];
    if k == 0 {
      assert NoMark(rest, f) by {
        forall j | 0 <= j < |rest| ensures !Marks(rest[j], f) { assert rest[j] == block[j + 1]; }
      }
      BlockNoMark(h', rest, f);
      assert block[..0] == [];
    } else {
      assert LastMark(rest, f, k - 1) by {
        forall j | k - 1 < j < |rest| ensures !Marks(rest[j], f) { assert rest[j] == block[j + 1]; }
      }
      BlockLastMark(h', rest, f, k - 1);
      WidthSumPrefix(block, k);
    }
  }

  lemma WidthSumPrefix(block: seq<string>, k: nat)
    requires 0 < k <= |block|
    ensures WidthSum(block[..k]) == PropertyWidth(block[0]) + WidthSum(block[1..][..k - 1])
  {
    assert block[..k][0] == block[0];
    assert block[..k][1..] == block[1..][..k - 1];
  }

  /** An `element vertex` line starts a new vertex layout: whatever came
      before, the lines after it that are all properties give a vertex
      width that is the sum of their widths, and x, y, z and red record
      the running offsets of the last lines naming them. */
  lemma VertexLayout(pre: seq<string>, vline: string, block: seq<string>)
    requires StartsWith(vline, "element vertex") && AllProperties(block)
    ensures Fold(Initial, pre + [vline] + block).section == VertexSection
    ensures Fold(Initial, pre + [vline] + block).vertexCount == ElementCount(vline)
    ensures Fold(Initial, pre + [vline] + block).layout.bytesPerVertex == WidthSum(block)
    ensures forall f, k: nat :: LastMark(block, f, k) ==>
      Recorded(Fold(Initial, pre + [vline] + block).layout, f) == WidthSum(block[..k])
  {
    var h0 := Fold(Initial, pre);
    VertexLineKind(h0, vline);
    assert Fold(h0, [vline]) == ScanLine(h0, vline);
    FoldAppend(Initial, pre, [vline]);
    var h1 := Fold(Initial, pre + [vline]);
    FoldAppend(Initial, pre + [vline], block);
    PropertyBlock(h1, block);
  }

  /** No line of `ls` is an `element vertex` line. */
  predicate NoVertexElement(ls: seq<string>) {
    forall k :: 0 <= k < |ls| ==> !StartsWith(ls[k], "element vertex")
  }

  /** Outside the vertex element no line other than `element vertex`
      touches the vertex count or the layout. */
  lemma {:induction false} FoldOutsideVertex(h: Header, ls: seq<string>)
    requires h.section != VertexSection && NoVertexElement(ls)
    ensures Fold(h, ls).section != VertexSection
    ensures Fold(h, ls).vertexCount == h.vertexCount && Fold(h, ls).layout == h.layout
    decreases |ls|
  {
    if |ls| > 0 {
      assert !StartsWith(ls[0], "element vertex");
      assert NoVertexElement(ls[1..]) by {
        forall j | 0 <= j < |ls[1..]| ensures !StartsWith(ls[1..][j], "element vertex") { assert ls[1..][j] == ls[j + 1]; }
      }
      FoldOutsideVertex(ScanLine(h, ls[0]), ls[1..]);
    }
  }

  /** An element line other than `element vertex` closes the vertex
      element without touching its count or layout. */
  lemma CloseVertex(h: Header, line: string)
    requires IsElementLine(line) && !StartsWith(line, "element vertex")
    ensures ScanLine(h, line).section != VertexSection
    ensures ScanLine(h, line).vertexCount == h.vertexCount && ScanLine(h, line).layout == h.layout
  {
    assert line[0] == 'e';
    assert !IsPropertyLine(line);
  }

  /** The vertex layout the header scan ends with: when the lines read are
      some lines, one `element vertex` line, a run of property lines, and
      then lines that start with another element and declare no further
      vertex element, the count is that of the `element vertex` line and
      the layout is the one its property lines give. */
  lemma ScanLayout(lines: seq<string>, pre: seq<string>, vline: string, block: seq<string>, post: seq<string>)
    requires ScannedLines(lines) == pre + [vline] + block + post
    requires StartsWith(vline, "element vertex") && AllProperties(block)
    requires (|post| == 0 || IsElementLine(post[0])) && NoVertexElement(post)
    ensures Scan(lines).vertexCount == ElementCount(vline)
    ensures Scan(lines).layout.bytesPerVertex == WidthSum(block)
    ensures forall f, k: nat :: LastMark(block, f, k) ==>
      Recorded(Scan(lines).layout, f) == WidthSum(block[..k])
  {
    var body := pre + [vline] + block;
    VertexLayout(pre, vline, block);
    FoldAppend(Initial, body, post);
    var h := Fold(Initial, body);
    if |post| > 0 {
      CloseVertex(h, post[0]);
      assert NoVertexElement(post[1..]) by {
        forall j | 0 <= j < |post[1..]| ensures !StartsWith(post[1..][j], "element vertex") { assert post[1..][j] == post[j + 1]; }
      }
      FoldOutsideVertex(ScanLine(h, post[0]), post[1..]);
      assert Fold(h, post) == Fold(ScanLine(h, post[0]), post[1..]);
    }
  }

  // ---------------------------------------------------------------------
  // Width fallback

  /** When no vertex property was counted, the binary path falls back to
      float x, y, z, then float normals and four colour bytes when the
      header mentioned them, with the colour after the normals. Any other
      header is left as it is. */
  function WithFallbackWidth(h: Header): (r: Layout)
    ensures r.bytesPerVertex > 0
    ensures h.layout.bytesPerVertex > 0 ==> r == h.layout
    ensures h.layout.bytesPerVertex == 0 ==>
      r.bytesPerVertex == 12 + (if h.hasNormals then 12 else 0) + (if h.hasColors then 4 else 0)
      && r.colorOffset == (if h.hasNormals then 24 else 12)
      && r.xOffset == 0 && r.yOffset == 4 && r.zOffset == 8 && r.xyzIsDouble == h.layout.xyzIsDouble
  {
    if h.layout.bytesPerVertex == 0 then
      var w := 12 + (if h.hasNormals then 12 else 0) + (if h.hasColors then 4 else 0);
      Layout(w, if h.hasNormals then 24 else 12, 0, 4, 8, h.layout.xyzIsDouble)
    else h.layout
  }

  // ---------------------------------------------------------------------
  // Header text and header length

  /** At most this many leading bytes are read as header text. */
  const HeaderWindow: nat := 2000

  /** `String.fromCharCode` of each byte. */
  function Latin1(bytes: seq<Numeric.Byte>): (r: string)
    ensures |r| == |bytes|
    ensures forall k :: 0 <= k < |r| ==> r[k] as int == bytes[k]
  {
    if |bytes| == 0 then "" else [bytes[0] as char] + Latin1(bytes[1..])
  }

  function Window(bytes: seq<Numeric.Byte>): (hb: seq<Numeric.Byte>)
    ensures |hb| <= HeaderWindow && |hb| <= |bytes| && hb == bytes[..|hb|]
    ensures |hb| == HeaderWindow || hb == bytes
  {
    if |bytes| <= HeaderWindow then bytes else bytes[..HeaderWindow]
  }

  /** How many bytes of `hb` the header text loop takes, having taken `i`
      already: it stops after a newline that is directly followed by
      another newline, once a line break has been reached with
      "end_header" somewhere in the text so far. */
  function HeaderCut(hb: seq<Numeric.Byte>, i: nat, found: bool): (n: nat)
    requires i <= |hb|
    ensures i <= n <= |hb|
    ensures n < |hb| ==> i < n && hb[n - 1] == 10 && hb[n] == 10
    ensures n < |hb| ==> found || Contains(Latin1(hb[..n]), "end_header")
    decreases |hb| - i
  {
    if i == |hb| then i
    else
      var nl := hb[i] == 10;
      var f := found || (nl && Contains(Latin1(hb[..i + 1]), "end_header"));
      if nl && f && i + 1 < |hb| && hb[i + 1] == 10 then i + 1
      else
        var n := HeaderCut(hb, i + 1, f);
        if n < |hb| && !found && f then
          ContainsLonger(hb, i + 1, n, "end_header");
          n
        else n
  }

  /** The text of a longer prefix of the bytes contains whatever the text
      of a shorter one contains. */
  lemma ContainsLonger(hb: seq<Numeric.Byte>, m: nat, n: nat, p: string)
    requires m <= n <= |hb| && Contains(Latin1(hb[..m]), p)
    ensures Contains(Latin1(hb[..n]), p)
  {
    var t := Latin1(hb[..n]);
    assert t[..m] == Latin1(hb[..m]);
    ContainsPrefix(t, m, p);
  }

  /** A string contains whatever a prefix of it contains. */
  lemma ContainsPrefix(s: string, m: nat, p: string)
    requires m <= |s| && Contains(s[..m], p)
    ensures Contains(s, p)
  {
    var i := ContainsWitness(s[..m], p);
    assert s[i..i + |p|] == s[..m][i..i + |p|];
    ContainsAt(s, p, i);
  }

  /** The header text of an `ArrayBuffer`: the characters of a prefix of
      the first 2000 bytes. */
  function HeaderText(bytes: seq<Numeric.Byte>): (r: string)
    ensures |r| <= HeaderWindow && |r| <= |bytes|
    ensures forall k :: 0 <= k < |r| ==> r[k] as int == bytes[k]
  {
    var hb := Window(bytes);
    Latin1(hb[..HeaderCut(hb, 0, false)])
  }

  /** The bytes of "end_header\n". */
  const EndHeaderBytes: seq<Numeric.Byte> := [101, 110, 100, 95, 104, 101, 97, 100, 101, 114, 10]

  predicate EndHeaderAt(hb: seq<Numeric.Byte>, j: nat) {
    j + 11 <= |hb| && hb[j..j + 11] == EndHeaderBytes
  }

  /** The byte search for "end_header\n" from position `j`: the position
      just after its first occurrence, if any. */
  function FindEndHeader(hb: seq<Numeric.Byte>, j: nat): (r: Option<nat>)
    ensures r.Some? ==> r.value >= j + 11 && EndHeaderAt(hb, r.value - 11)
    ensures r.Some? ==> forall j' :: j <= j' < r.value - 11 ==> !EndHeaderAt(hb, j')
    ensures r.None? ==> forall j' :: j <= j' ==> !EndHeaderAt(hb, j')
    decreases |hb| - j
  {
    if j + 10 >= |hb| then None
    else if hb[j..j + 11] == EndHeaderBytes then Some(j + 11)
    else FindEndHeader(hb, j + 1)
  }

  /** Bytes of the UTF-8 encoding of `s`. */
  function Utf8Length(s: string): (n: nat)
    ensures |s| <= n <= 4 * |s|
    decreases |s|
  {
    if |s| == 0 then 0
    else
      var c := s[0] as int;
      (if c < 0x80 then 1 else if c < 0x800 then 2 else if c < 0x10000 then 3 else 4) + Utf8Length(s[1..])
  }

  /** Where `headerLength` points: just after the first "end_header\n" of
      the first 2000 bytes when there is one, and otherwise one byte past
      the UTF-8 encoding of the header lines joined by newlines. */
  lemma HeaderLengthFound(bytes: seq<Numeric.Byte>, lines: seq<string>, i: nat)
    requires i < |lines|
    ensures var n := HeaderLength(bytes, lines, i);
      (exists j :: EndHeaderAt(Window(bytes), j)) ==>
        11 <= n <= |Window(bytes)| && EndHeaderAt(Window(bytes), n - 11)
        && forall j :: 0 <= j < n - 11 ==> !EndHeaderAt(Window(bytes), j)
    ensures (forall j :: !EndHeaderAt(Window(bytes), j)) ==>
      HeaderLength(bytes, lines, i) == Utf8Length(Join(lines[..i + 1], "\n")) + 1
  {
    Utf8LengthAppend(Join(lines[..i + 1], "\n"), "\n");
  }

  /** Text of ASCII characters takes one UTF-8 byte per character. */
  lemma {:induction false} Utf8LengthAscii(s: string)
    requires forall k :: 0 <= k < |s| ==> s[k] as int < 0x80
    ensures Utf8Length(s) == |s|
    decreases |s|
  {
    if |s| > 0 {
      Utf8LengthAscii(s[1..]);
    }
  }

  /** The UTF-8 length of a concatenation is the sum of the lengths. */
  lemma {:induction false} Utf8LengthAppend(a: string, b: string)
    ensures Utf8Length(a + b) == Utf8Length(a) + Utf8Length(b)
    decreases |a|
  {
    if |a| > 0 {
      assert (a + b)[0] == a[0];
      assert (a + b)[1..] == a[1..] + b;
      Utf8LengthAppend(a[1..], b);
    } else {
      assert a + b == b;
    }
  }

  /** `headerLength` once the `i`-th line is `end_header`: the position just
      after the first "end_header\n" in the first 2000 bytes when there is
      one; otherwise the UTF-8 length of the lines up to it joined by
      newlines, plus one byte for the final newline. */
  function HeaderLength(bytes: seq<Numeric.Byte>, lines: seq<string>, i: nat): (n: nat)
    requires i < |lines|
    ensures n <= HeaderWindow || n >= |Join(lines[..i + 1], "\n")| + 1
  {
    match FindEndHeader(Window(bytes), 0)
    case Some(k) => k
    case None => Utf8Length(Join(lines[..i + 1], "\n") + "\n")
  }
}

=== FILE: pytext.dfy ===
/** The few Python string and path operations the offline scripts rely on:
    `Path.stem`, `str.replace(p, "")`, `str.split` read back through a join,
    and `sorted` on a list of strings. */
module PyText {
  import opened Wrappers
  import opened JsText

  /** Position of the last `c` in `s`: `str.rfind`. */
  function LastIndexOf(s: string, c: char): (r: Option<nat>)
    ensures r.None? <==> c !in s
    ensures r.Some? ==> r.value < |s| && s[r.value] == c && c !in s[r.value + 1..]
    decreases |s|
  {
    if |s| == 0 then None
    else if s[|s| - 1] == c then Some(|s| - 1)
    else
      var t := s[..|s| - 1];
      assert s == t + [s[|s| - 1]];
      match LastIndexOf(t, c)
      case None => None
      case Some(k) =>
        assert s[k + 1..] == t[k + 1..] + [s[|s| - 1]];
        Some(k)
  }

  /** `Path(name).stem`: the name without its final suffix. A leading dot
      or a trailing dot does not start a suffix. */
  function Stem(name: string): (r: string)
    ensures r <= name
    ensures r != name <==> exists i :: 0 < i < |name| - 1 && name[i] == '.' && '.' !in name[i + 1..]
    ensures r != name ==> |r| > 0 && name[|r|] == '.' && '.' !in name[|r| + 1..]
  {
    match LastIndexOf(name, '.')
    case None => name
    case Some(i) =>
      if 0 < i < |name| - 1 then
        assert name[i] == '.' && '.' !in name[i + 1..];
        name[..i]
      else
        forall j | 0 < j < |name| - 1 && name[j] == '.' ensures '.' in name[j + 1..] {
          if j < i {
            assert name[j + 1..][i - j - 1] == '.';
          } else if j > i {
            assert false;
          } else {
            assert false;
          }
        }
        name
  }

  /** Removing one final suffix: `Stem(w + "." + ext)` is `w` when `w` is
      not empty and `ext` is a non-empty suffix without dots. */
  lemma StemOfSuffixed(w: string, ext: string)
    requires |w| > 0 && |ext| > 0 && '.' !in ext
    ensures Stem(w + "." + ext) == w
  {
    var name := w + "." + ext;
    assert name[|w|] == '.';
    assert name[|w| + 1..] == ext;
    var r := Stem(name);
    assert r != name;
    if |r| < |w| {
      assert false;
    } else if |r| > |w| {
      assert false;
    }
    assert r == name[..|r|];
  }

  /** `s.replace(p, "")`: every non-overlapping occurrence of `p`, found
      left to right, is removed. */
  function RemoveAll(s: string, p: string): (r: string)
    requires |p| > 0
    ensures |r| <= |s|
    decreases |s|
  {
    if |s| < |p| then s
    else if s[..|p|] == p then RemoveAll(s[|p|..], p)
    else [s[0]] + RemoveAll(s[1..], p)
  }

  /** A string without an occurrence of `p` is left unchanged. */
  lemma {:induction false} RemoveAllAbsent(s: string, p: string)
    requires |p| > 0 && !Contains(s, p)
    ensures RemoveAll(s, p) == s
    decreases |s|
  {
    if |s| >= |p| {
      assert !StartsWith(s, p);
      assert !Contains(s[1..], p);
      RemoveAllAbsent(s[1..], p);
      assert s == [s[0]] + s[1..];
    }
  }

  /** Removing the prefix `p` from `p + t` gives `t` back when `t` holds no
      further occurrence of `p`. */
  lemma RemoveAllPrefix(p: string, t: string)
    requires |p| > 0 && !Contains(t, p)
    ensures RemoveAll(p + t, p) == t
  {
    var s := p + t;
    assert s[..|p|] == p;
    assert s[|p|..] == t;
    RemoveAllAbsent(t, p);
  }

  /** Splitting a join of separator-free pieces gives the pieces back. */
  lemma {:induction false} SplitJoin(ws: seq<string>, sep: char)
    requires |ws| >= 1
    requires forall k :: 0 <= k < |ws| ==> sep !in ws[k]
    ensures Split(Join(ws, [sep]), sep) == ws
    decreases |ws|
  {
    if |ws| > 1 {
      var rest := Join(ws[1..], [sep]);
      assert ws == [ws[0]] + ws[1..];
      JoinCons(ws[0], ws[1..], [sep]);
      SplitAfter(ws[0], sep, rest);
      SplitJoin(ws[1..], sep);
    } else {
      assert Join(ws, [sep]) == ws[0];
    }
  }

  /** Splitting `d + [sep] + rest` for a separator-free `d`. */
  lemma SplitAfter(d: string, sep: char, rest: string)
    requires sep !in d
    ensures Split(d + [sep] + rest, sep) == [d] + Split(rest, sep)
  {
    var s := d + [sep] + rest;
    IndexOfAfter(d, sep, rest);
    assert s[..|d|] == d;
    assert s[|d| + 1..] == rest;
  }

  // ---------------------------------------------------------------------
  // `sorted` on strings

  /** Non-decreasing in code-point order. */
  predicate Sorted(s: seq<string>) {
    forall i, j :: 0 <= i < j < |s| ==> !LexLess(s[j], s[i])
  }

  /** `!LexLess(b, a)` is transitive: it is the order `a <= b`. */
  lemma LeqTransitive(a: string, b: string, c: string)
    requires !LexLess(b, a) && !LexLess(c, b)
    ensures !LexLess(c, a)
  {
    LexLessTotal(a, b);
    LexLessTotal(b, c);
    if a != b && b != c { LexLessTransitive(a, b, c); LexLessAsymmetric(a, c); }
    else if a == b { } else { }
  }

  function InsertString(x: string, s: seq<string>): (r: seq<string>)
    ensures multiset(r) == multiset(s) + multiset{x}
  {
    if |s| == 0 || !LexLess(s[0], x) then [x] + s
    else
      assert s == [s[0]] + s[1..];
      [s[0]] + InsertString(x, s[1..])
  }

  lemma SortedCons(h: string, t: seq<string>)
    requires Sorted(t)
    requires forall y :: y in t ==> !LexLess(y, h)
    ensures Sorted([h] + t)
  {
    var r := [h] + t;
    forall i, j | 0 <= i < j < |r| ensures !LexLess(r[j], r[i]) {
      assert r[j] == t[j - 1];
      if i > 0 { assert r[i] == t[i - 1]; }
    }
  }

  lemma {:induction false} InsertStringSorted(x: string, s: seq<string>)
    requires Sorted(s)
    ensures Sorted(InsertString(x, s))
  {
    if |s| == 0 || !LexLess(s[0], x) {
      forall y | y in s ensures !LexLess(y, x) {
        var j :| 0 <= j < |s| && s[j] == y;
        if j > 0 { LeqTransitive(x, s[0], s[j]); }
      }
      SortedCons(x, s);
    } else {
      var t := s[1..];
      InsertStringSorted(x, t);
      var rest := InsertString(x, t);
      forall y | y in rest ensures !LexLess(y, s[0]) {
        assert y in multiset(rest);
        if y != x {
          assert y in multiset(t);
          var j :| 0 <= j < |t| && t[j] == y;
          assert s[j + 1] == y;
        } else {
          LexLessAsymmetric(s[0], x);
        }
      }
      SortedCons(s[0], rest);
    }
  }

  /** `sorted(xs)`: a sorted permutation of `xs`. */
  function SortStrings(xs: seq<string>): (r: seq<string>)
    ensures multiset(r) == multiset(xs)
    ensures Sorted(r)
  {
    if |xs| == 0 then []
    else
      assert xs == [xs[0]] + xs[1..];
      var t := SortStrings(xs[1..]);
      InsertStringSorted(xs[0], t);
      InsertString(xs[0], t)
  }

  /** The first element of a sorted list is at most any of its elements. */
  lemma SortedFirst(a: seq<string>, y: string)
    requires Sorted(a) && y in a
    ensures !LexLess(y, a[0])
  {
    var i :| 0 <= i < |a| && a[i] == y;
    if i == 0 { LexLessIrreflexive(y); }
  }

  /** Two sorted non-empty lists holding the same strings start alike. */
  lemma SortedSameHead(a: seq<string>, b: seq<string>)
    requires Sorted(a) && Sorted(b) && |a| > 0 && |b| > 0 && multiset(a) == multiset(b)
    ensures a[0] == b[0]
  {
    assert a[0] in multiset(b) && b[0] in multiset(a);
    SortedFirst(b, a[0]);
    SortedFirst(a, b[0]);
    LexLessTotal(a[0], b[0]);
  }

  /** Dropping the first element drops one copy of it from the multiset. */
  lemma MultisetTail(a: seq<string>)
    requires |a| > 0
    ensures multiset(a[1..]) == multiset(a) - multiset{a[0]}
  {
    assert a == [a[0]] + a[1..];
  }

  /** Two sorted lists holding the same strings are equal. */
  lemma {:induction false} SortedUnique(a: seq<string>, b: seq<string>)
    requires Sorted(a) && Sorted(b) && multiset(a) == multiset(b)
    ensures a == b
    decreases |a|
  {
    assert |a| == |multiset(a)| == |multiset(b)| == |b|;
    if |a| > 0 {
      SortedSameHead(a, b);
      MultisetTail(a);
      MultisetTail(b);
      SortedUnique(a[1..], b[1..]);
      assert a == [a[0]] + a[1..] && b == [b[0]] + b[1..];
    }
  }

  /** The sorted form of a list does not depend on the list's order. */
  lemma SortStringsOrderFree(a: seq<string>, b: seq<string>)
    requires multiset(a) == multiset(b)
    ensures SortStrings(a) == SortStrings(b)
  {
    SortedUnique(SortStrings(a), SortStrings(b));
  }

  // ---------------------------------------------------------------------
  // `sorted` and `set` on integers

  /** Non-decreasing. */
  predicate SortedInts(s: seq<int>) {
    forall i, j :: 0 <= i < j < |s| ==> s[i] <= s[j]
  }

  /** Strictly increasing: sorted and without repeats. */
  predicate Increasing(s: seq<int>) {
    forall i, j :: 0 <= i < j < |s| ==> s[i] < s[j]
  }

  /** No value occurs twice. */
  predicate Distinct(s: seq<int>) {
    forall i, j :: 0 <= i < j < |s| ==> s[i] != s[j]
  }

  function InsertInt(x: int, s: seq<int>): (r: seq<int>)
    ensures multiset(r) == multiset(s) + multiset{x}
  {
    if |s| == 0 || x <= s[0] then [x] + s
    else
      assert s == [s[0]] + s[1..];
      [s[0]] + InsertInt(x, s[1..])
  }

  lemma SortedIntCons(h: int, t: seq<int>)
    requires SortedInts(t)
    requires forall y :: y in t ==> h <= y
    ensures SortedInts([h] + t)
  {
    var r := [h] + t;
    forall i, j | 0 <= i < j < |r| ensures r[i] <= r[j] {
      assert r[j] == t[j - 1];
      if i > 0 {
        assert r[i] == t[i - 1] && t[i - 1] <= t[j - 1];
      } else {
        assert t[j - 1] in t;
      }
    }
  }

  lemma {:induction false} InsertIntSorted(x: int, s: seq<int>)
    requires SortedInts(s)
    ensures SortedInts(InsertInt(x, s))
  {
    if |s| == 0 || x <= s[0] {
      forall y | y in s ensures x <= y {
        var j :| 0 <= j < |s| && s[j] == y;
        assert s[0] <= s[j];
      }
      SortedIntCons(x, s);
    } else {
      var t := s[1..];
      assert SortedInts(t);
      InsertIntSorted(x, t);
      var rest := InsertInt(x, t);
      forall y | y in rest ensures s[0] <= y {
        assert y in multiset(rest);
        if y != x {
          assert y in multiset(t);
          var j :| 0 <= j < |t| && t[j] == y;
          assert s[j + 1] == y;
        }
      }
      SortedIntCons(s[0], rest);
    }
  }

  /** `sorted(xs)` on integers: a sorted permutation. */
  function SortInts(xs: seq<int>): (r: seq<int>)
    ensures multiset(r) == multiset(xs)
    ensures SortedInts(r)
  {
    if |xs| == 0 then []
    else
      assert xs == [xs[0]] + xs[1..];
      var t := SortInts(xs[1..]);
      InsertIntSorted(xs[0], t);
      InsertInt(xs[0], t)
  }

  /** The values of `xs`, each once: `set(xs)` as a list. */
  function Dedup(xs: seq<int>): (r: seq<int>)
    ensures Distinct(r)
    ensures forall x :: x in r <==> x in xs
  {
    if |xs| == 0 then []
    else
      var r := Dedup(xs[1..]);
      if xs[0] in r then r
      else
        var r' := [xs[0]] + r;
        assert forall k :: 0 < k < |r'| ==> r'[k] == r[k - 1];
        r'
  }

  /** A value occurring at two positions occurs twice in the multiset. */
  lemma TwoPositions(r: seq<int>, i: nat, j: nat)
    requires i < j < |r| && r[i] == r[j]
    ensures multiset(r)[r[i]] >= 2
  {
    assert r == r[..j] + r[j..];
    assert r[i] in multiset(r[..j]);
    assert r[j] in multiset(r[j..]);
  }

  /** In a list without repeats every value occurs at most once. */
  lemma {:induction false} DistinctOnce(d: seq<int>, x: int)
    requires Distinct(d)
    ensures multiset(d)[x] <= 1
  {
    if |d| > 0 {
      assert d == [d[0]] + d[1..];
      assert Distinct(d[1..]);
      DistinctOnce(d[1..], x);
      if x == d[0] {
        assert x !in d[1..];
      }
    }
  }

  /** `sorted(set(xs))`: each value of `xs` once, in increasing order. */
  function SortedSet(xs: seq<int>): (r: seq<int>)
    ensures forall x :: x in r <==> x in xs
  {
    var d := Dedup(xs);
    var r := SortInts(d);
    assert forall x :: x in r <==> x in multiset(d);
    r
  }

  lemma SortedSetIncreasing(xs: seq<int>)
    ensures Increasing(SortedSet(xs))
  {
    var d := Dedup(xs);
    var r := SortedSet(xs);
    assert r == SortInts(d);
    forall i, j | 0 <= i < j < |r| ensures r[i] < r[j] {
      if r[i] == r[j] {
        TwoPositions(r, i, j);
        DistinctOnce(d, r[i]);
        assert false;
      }
    }
  }
}

=== FILE: sampling.dfy ===
/** The scene-graph sampler (`sample_scene_graphs.py`): pick a subset of a
    scene's objects, always keeping the agent objects and preferring
    targetable ones, then keep the objects, relationships and attributes
    that only involve the picked objects. The random draw is a parameter. */
module Sampling {
  import opened Wrappers
  import opened PyText
  import opened SceneGraph

  const AgentLabel: string := "<AGENT>"

  /** An object of the source scene graph; a missing `labels` reads as the
      empty list and a missing `is_targetable` as true. */
  datatype SourceObject = SourceObject(id: int, labels: seq<string>, targetable: bool)

  /** A source scene graph; `relationships` and `attributes` may be absent. */
  datatype SourceGraph = SourceGraph(
    id: string,
    source: string,
    objects: seq<SourceObject>,
    relationships: Option<seq<SgRelationship>>,
    attributes: Option<seq<SgAttribute>>)

  /** The written scene graph: every section present. */
  datatype SampledGraph = SampledGraph(
    id: string,
    source: string,
    objects: seq<SourceObject>,
    relationships: seq<SgRelationship>,
    attributes: seq<SgAttribute>)

  predicate IsAgent(o: SourceObject) {
    AgentLabel in o.labels
  }

  predicate IsTargetable(o: SourceObject) {
    o.targetable
  }

  predicate NotTargetable(o: SourceObject) {
    !o.targetable
  }

  /** No two objects share an id. */
  predicate DistinctIds(objects: seq<SourceObject>) {
    forall i, j :: 0 <= i < j < |objects| ==> objects[i].id != objects[j].id
  }

  /** `random.sample(population, k)` for `k` no larger than the population:
      `k` elements drawn without replacement. */
  ghost predicate ValidSampler(choose: (seq<SourceObject>, nat) -> seq<SourceObject>) {
    forall pop: seq<SourceObject>, k: nat :: k <= |pop| ==>
      |choose(pop, k)| == k && multiset(choose(pop, k)) <= multiset(pop)
  }

  function Ids(objects: seq<SourceObject>): (r: seq<int>)
    ensures |r| == |objects|
    ensures forall k :: 0 <= k < |objects| ==> r[k] == objects[k].id
  {
    seq(|objects|, k requires 0 <= k < |objects| => objects[k].id)
  }

  function Agents(objects: seq<SourceObject>): seq<SourceObject> {
    Filter(objects, IsAgent)
  }

  function AgentIds(objects: seq<SourceObject>): set<int> {
    set o | o in Agents(objects) :: o.id
  }

  /** The test that an object's id is not an agent's id. */
  function NotAgentId(objects: seq<SourceObject>): SourceObject -> bool {
    (o: SourceObject) => o.id !in AgentIds(objects)
  }

  /** The objects whose id is not an agent's id. */
  function Remaining(objects: seq<SourceObject>): seq<SourceObject> {
    Filter(objects, NotAgentId(objects))
  }

  function Targetable(objects: seq<SourceObject>): seq<SourceObject> {
    Filter(Remaining(objects), IsTargetable)
  }

  function NonTargetable(objects: seq<SourceObject>): seq<SourceObject> {
    Filter(Remaining(objects), NotTargetable)
  }

  /** `max(0, num_objects - len(agent_objects))`. */
  function Slots(objects: seq<SourceObject>, n: int): nat {
    if n - |Agents(objects)| > 0 then n - |Agents(objects)| else 0
  }

  /** The objects `sample_objects` picks, before their ids are sorted: the
      agents, then targetable objects, then non-targetable ones; when even
      all of them are too few, the first `n` objects. */
  function SampledObjects(objects: seq<SourceObject>, n: int,
                          choose: (seq<SourceObject>, nat) -> seq<SourceObject>): seq<SourceObject>
  {
    var agents := Agents(objects);
    var targetable := Targetable(objects);
    var nonTargetable := NonTargetable(objects);
    var slots := Slots(objects, n);
    if slots == 0 then agents
    else if |targetable| >= slots then agents + choose(targetable, slots)
    else if |targetable| + |nonTargetable| >= slots then
      agents + targetable + choose(nonTargetable, slots - |targetable|)
    else objects[..if n < |objects| then n else |objects|]
  }

  /** `sample_objects`: the ids of the picked objects, sorted. */
  function SampleObjects(objects: seq<SourceObject>, n: int,
                         choose: (seq<SourceObject>, nat) -> seq<SourceObject>): (r: seq<int>)
    ensures SortedInts(r)
    ensures multiset(r) == multiset(Ids(SampledObjects(objects, n, choose)))
  {
    SortInts(Ids(SampledObjects(objects, n, choose)))
  }

  // ---------------------------------------------------------------------
  // Filtering with two predicates

  /** Two filters with predicates that never hold together pick disjoint
      parts of the list. */
  lemma {:induction false} FilterDisjoint<T(!new)>(s: seq<T>, p: T -> bool, q: T -> bool)
    requires forall x :: x in s && p(x) ==> !q(x)
    ensures multiset(Filter(s, p)) + multiset(Filter(s, q)) <= multiset(s)
  {
    if |s| > 0 {
      FilterDisjoint(s[1..], p, q);
      assert s == [s[0]] + s[1..];
    }
  }

  /** Two filters with complementary predicates split the list. */
  lemma {:induction false} FilterSplit<T(!new)>(s: seq<T>, p: T -> bool, q: T -> bool)
    requires forall x :: x in s ==> q(x) == !p(x)
    ensures multiset(Filter(s, p)) + multiset(Filter(s, q)) == multiset(s)
  {
    if |s| > 0 {
      FilterSplit(s[1..], p, q);
      assert s == [s[0]] + s[1..];
    }
  }

  /** Filtering with predicates that agree on the list gives the same list. */
  lemma {:induction false} FilterSame<T(!new)>(s: seq<T>, p: T -> bool, q: T -> bool)
    requires forall x :: x in s ==> p(x) == q(x)
    ensures Filter(s, p) == Filter(s, q)
  {
    if |s| > 0 {
      FilterSame(s[1..], p, q);
    }
  }

  // ---------------------------------------------------------------------
  // The parts of the population

  /** Agents and the remaining objects are disjoint parts of the scene, and
      the remaining objects split into targetable and non-targetable. */
  lemma Parts(objects: seq<SourceObject>)
    ensures multiset(Agents(objects)) + multiset(Remaining(objects)) <= multiset(objects)
    ensures multiset(Targetable(objects)) + multiset(NonTargetable(objects)) == multiset(Remaining(objects))
  {
    var q := NotAgentId(objects);
    forall x | x in objects && IsAgent(x) ensures !q(x) {
      assert x in Agents(objects);
    }
    FilterDisjoint(objects, IsAgent, q);
    FilterSplit(Remaining(objects), IsTargetable, NotTargetable);
  }

  /** With distinct ids, an object shares its id with an agent only when it
      is that agent. */
  lemma AgentIdsExact(objects: seq<SourceObject>, x: SourceObject)
    requires DistinctIds(objects) && x in objects
    ensures x.id in AgentIds(objects) <==> IsAgent(x)
  {
    if x.id in AgentIds(objects) {
      var a :| a in Agents(objects) && a.id == x.id;
      var i :| 0 <= i < |objects| && objects[i] == x;
      var j :| 0 <= j < |objects| && objects[j] == a;
      assert i == j;
    }
    if IsAgent(x) {
      assert x in Agents(objects);
    }
  }

  /** With distinct ids, the agents and the remaining objects are exactly
      the scene. */
  lemma PartsExact(objects: seq<SourceObject>)
    requires DistinctIds(objects)
    ensures multiset(Agents(objects)) + multiset(Remaining(objects)) == multiset(objects)
    ensures |Agents(objects)| + |Targetable(objects)| + |NonTargetable(objects)| == |objects|
  {
    var q := NotAgentId(objects);
    forall x | x in objects ensures q(x) == !IsAgent(x) {
      AgentIdsExact(objects, x);
    }
    FilterSplit(objects, IsAgent, q);
    Parts(objects);
    assert |multiset(Agents(objects)) + multiset(Remaining(objects))| == |objects|;
    assert |multiset(Targetable(objects)) + multiset(NonTargetable(objects))| == |Remaining(objects)|;
  }

  // ---------------------------------------------------------------------
  // What the sampler guarantees

  /** Every picked object is an object of the scene, picked at most as
      often as it occurs. */
  lemma SampledFromObjects(objects: seq<SourceObject>, n: int,
                           choose: (seq<SourceObject>, nat) -> seq<SourceObject>)
    requires ValidSampler(choose)
    ensures multiset(SampledObjects(objects, n, choose)) <= multiset(objects)
  {
    var agents := Agents(objects);
    var targetable := Targetable(objects);
    var nonTargetable := NonTargetable(objects);
    var slots := Slots(objects, n);
    Parts(objects);
    if slots > 0 && |targetable| >= slots {
      ChosenBag(agents, targetable, choose(targetable, slots));
    } else if slots > 0 && |targetable| + |nonTargetable| >= slots {
      ChosenBag(agents + targetable, nonTargetable, choose(nonTargetable, slots - |targetable|));
    } else if slots > 0 {
      PrefixBag(objects, if n < |objects| then n else |objects|);
    }
  }

  /** Replacing a pool by a draw from it keeps the bag within the pool's. */
  lemma ChosenBag<T>(a: seq<T>, pool: seq<T>, chosen: seq<T>)
    requires multiset(chosen) <= multiset(pool)
    ensures multiset(a + chosen) <= multiset(a + pool)
  {
  }

  lemma PrefixBag<T>(s: seq<T>, m: nat)
    requires m <= |s|
    ensures multiset(s[..m]) <= multiset(s)
  {
    assert s == s[..m] + s[m..];
  }

  /** With distinct ids, the agents are always picked, whatever the request. */
  lemma AgentsSampled(objects: seq<SourceObject>, n: int,
                      choose: (seq<SourceObject>, nat) -> seq<SourceObject>, o: SourceObject)
    requires DistinctIds(objects)
    requires o in objects && IsAgent(o)
    ensures o in SampledObjects(objects, n, choose)
  {
    assert o in Agents(objects);
    var slots := Slots(objects, n);
    if slots > 0 && |Targetable(objects)| + |NonTargetable(objects)| < slots {
      PartsExact(objects);
      assert objects[..|objects|] == objects;
    }
  }

  /** The number of picked objects: the agents when they already fill the
      request, else the request capped by the scene's size. */
  lemma SampleSize(objects: seq<SourceObject>, n: int,
                   choose: (seq<SourceObject>, nat) -> seq<SourceObject>)
    requires DistinctIds(objects) && ValidSampler(choose)
    ensures |SampledObjects(objects, n, choose)|
            == if n <= |Agents(objects)| then |Agents(objects)| else if n < |objects| then n else |objects|
  {
    PartsExact(objects);
    var slots := Slots(objects, n);
    var targetable := Targetable(objects);
    if slots > 0 && |targetable| >= slots {
      assert |choose(targetable, slots)| == slots;
    } else if slots > 0 && |targetable| + |NonTargetable(objects)| >= slots {
      assert |choose(NonTargetable(objects), slots - |targetable|)| == slots - |targetable|;
    }
  }

  /** A non-targetable object other than an agent is picked only once every
      targetable object is. */
  lemma TargetablePreferred(objects: seq<SourceObject>, n: int,
                            choose: (seq<SourceObject>, nat) -> seq<SourceObject>)
    requires DistinctIds(objects) && ValidSampler(choose)
    ensures var picked := SampledObjects(objects, n, choose);
            (exists o :: o in picked && !IsAgent(o) && !o.targetable) ==>
              forall o :: o in objects && o.targetable ==> o in picked
  {
    var picked := SampledObjects(objects, n, choose);
    var agents := Agents(objects);
    var targetable := Targetable(objects);
    var slots := Slots(objects, n);
    if slots == 0 {
      assert forall o :: o in picked ==> IsAgent(o);
    } else if |targetable| >= slots {
      forall o | o in picked ensures IsAgent(o) || o.targetable {
        if o !in agents {
          assert o in multiset(choose(targetable, slots));
        }
      }
    } else if |targetable| + |NonTargetable(objects)| >= slots {
      forall o | o in objects && o.targetable ensures o in picked {
        AgentIdsExact(objects, o);
        if !IsAgent(o) {
          assert o in Remaining(objects);
          assert o in targetable;
        }
      }
    } else {
      PartsExact(objects);
      assert picked == objects[..|objects|] == objects;
    }
  }

  /** Every sampled id is the id of an object of the scene, and every
      agent's id is sampled. */
  lemma SampledIds(objects: seq<SourceObject>, n: int,
                   choose: (seq<SourceObject>, nat) -> seq<SourceObject>)
    requires DistinctIds(objects) && ValidSampler(choose)
    ensures forall x :: x in SampleObjects(objects, n, choose) ==> exists o :: o in objects && o.id == x
    ensures forall o :: o in objects && IsAgent(o) ==> o.id in SampleObjects(objects, n, choose)
  {
    var picked := SampledObjects(objects, n, choose);
    var r := SampleObjects(objects, n, choose);
    SampledFromObjects(objects, n, choose);
    forall x | x in r ensures exists o :: o in objects && o.id == x {
      assert x in multiset(Ids(picked));
      var k :| 0 <= k < |picked| && Ids(picked)[k] == x;
      assert picked[k] in multiset(objects);
    }
    forall o | o in objects && IsAgent(o) ensures o.id in r {
      AgentsSampled(objects, n, choose, o);
      var k :| 0 <= k < |picked| && picked[k] == o;
      assert Ids(picked)[k] in multiset(Ids(picked));
    }
  }

  // ---------------------------------------------------------------------
  // Filtering one scene graph

  datatype Stats = Stats(
    sceneId: string,
    originalObjects: nat,
    sampledObjects: nat,
    originalRelationships: nat,
    sampledRelationships: nat,
    originalAttributes: nat,
    sampledAttributes: nat,
    reductionRelationships: int,
    reductionPercentage: real,
    agentObjects: nat,
    sampledAgentObjects: nat)

  /** A relationship is kept when its subject and all its recipients are
      sampled. */
  predicate Kept(ids: seq<int>, rel: SgRelationship) {
    rel.subjectId in ids && forall x :: x in rel.recipients ==> x in ids
  }

  function KeepRelationship(ids: seq<int>): SgRelationship -> bool {
    (rel: SgRelationship) => Kept(ids, rel)
  }

  function KeepObject(ids: seq<int>): SourceObject -> bool {
    (o: SourceObject) => o.id in ids
  }

  function KeepAttribute(ids: seq<int>): SgAttribute -> bool {
    (a: SgAttribute) => a.objectId in ids
  }

  function SampledAgent(ids: seq<int>): SourceObject -> bool {
    (o: SourceObject) => o.id in ids && IsAgent(o)
  }

  /** `(original - kept) / original * 100`, or 0 without relationships. */
  function ReductionPercentage(original: nat, kept: nat): (r: real)
    requires kept <= original
    ensures 0.0 <= r <= 100.0
    ensures r == 0.0 <==> original == kept || original == 0
  {
    if original > 0 then
      var d := (original - kept) as real;
      var o := original as real;
      assert 0.0 <= d <= o;
      PercentBounds(d, o);
      d / o * 100.0
    else 0.0
  }

  lemma PercentBounds(d: real, o: real)
    requires 0.0 <= d <= o && o > 0.0
    ensures 0.0 <= d / o * 100.0 <= 100.0
    ensures d / o * 100.0 == 0.0 <==> d == 0.0
  {
    assert d / o <= 1.0;
  }

  /** `filter_scene_graph` without the file handling: the sample of
      `min(n, len(objects))` objects, the kept parts of the graph in their
      original order, and the statistics. */
  function FilterSceneGraph(g: SourceGraph, n: int,
                            choose: (seq<SourceObject>, nat) -> seq<SourceObject>): (r: (SampledGraph, Stats))
    ensures r.0.id == g.id && r.0.source == g.source
    ensures |r.0.objects| <= |g.objects|
    ensures r.1.reductionRelationships >= 0 && 0.0 <= r.1.reductionPercentage <= 100.0
    ensures r.1.originalRelationships == |g.relationships.GetOr([])|
    ensures r.1.sampledRelationships == |r.0.relationships| <= r.1.originalRelationships
  {
    var ids := SampleObjects(g.objects, if n < |g.objects| then n else |g.objects|, choose);
    var rels := g.relationships.GetOr([]);
    var objects := Filter(g.objects, KeepObject(ids));
    var kept := Filter(rels, KeepRelationship(ids));
    var attrs := Filter(g.attributes.GetOr([]), KeepAttribute(ids));
    var stats := Stats(
      g.id, |g.objects|, |objects|, |rels|, |kept|, |g.attributes.GetOr([])|, |attrs|,
      |rels| - |kept|, ReductionPercentage(|rels|, |kept|),
      |Agents(g.objects)|, |Filter(g.objects, SampledAgent(ids))|);
    (SampledGraph(g.id, g.source, objects, kept, attrs), stats)
  }

  /** The ids sampled for a graph. */
  function SampledIdsOf(g: SourceGraph, n: int, choose: (seq<SourceObject>, nat) -> seq<SourceObject>): seq<int> {
    SampleObjects(g.objects, if n < |g.objects| then n else |g.objects|, choose)
  }

  /** The sampled graph has no dangling reference: every subject, recipient
      and attribute owner it mentions is one of its objects. */
  lemma SampledGraphClosed(g: SourceGraph, n: int, choose: (seq<SourceObject>, nat) -> seq<SourceObject>)
    requires DistinctIds(g.objects) && ValidSampler(choose)
    ensures var out := FilterSceneGraph(g, n, choose).0;
            (forall rel :: rel in out.relationships ==>
               (exists o :: o in out.objects && o.id == rel.subjectId)
               && forall x :: x in rel.recipients ==> exists o :: o in out.objects && o.id == x)
            && (forall a :: a in out.attributes ==> exists o :: o in out.objects && o.id == a.objectId)
  {
    var ids := SampledIdsOf(g, n, choose);
    var out := FilterSceneGraph(g, n, choose).0;
    SampledIds(g.objects, if n < |g.objects| then n else |g.objects|, choose);
    assert out.objects == Filter(g.objects, KeepObject(ids));
    forall x | x in ids ensures exists o :: o in out.objects && o.id == x {
      var o :| o in g.objects && o.id == x;
      assert o in out.objects;
    }
  }

  /** A relationship of the source is kept exactly when its subject and all
      its recipients are sampled, and an attribute exactly when its object
      is. */
  lemma KeptExactly(g: SourceGraph, n: int, choose: (seq<SourceObject>, nat) -> seq<SourceObject>,
                    rel: SgRelationship, a: SgAttribute)
    ensures var ids := SampledIdsOf(g, n, choose);
            var out := FilterSceneGraph(g, n, choose).0;
            (rel in out.relationships <==> rel in g.relationships.GetOr([]) && Kept(ids, rel))
            && (a in out.attributes <==> a in g.attributes.GetOr([]) && a.objectId in ids)
  {
  }

  /** Every agent of the source survives the sampling: the count the
      script checks equals the number of agents. */
  lemma AgentCountKept(g: SourceGraph, n: int, choose: (seq<SourceObject>, nat) -> seq<SourceObject>)
    requires DistinctIds(g.objects) && ValidSampler(choose)
    ensures FilterSceneGraph(g, n, choose).1.sampledAgentObjects == FilterSceneGraph(g, n, choose).1.agentObjects
  {
    var ids := SampledIdsOf(g, n, choose);
    SampledIds(g.objects, if n < |g.objects| then n else |g.objects|, choose);
    FilterSame(g.objects, SampledAgent(ids), IsAgent);
  }
}

=== FILE: scene_graph.dfy ===
/** The scene graph as the viewer reads it from `scene_graph.json` (objects,
    predicted relationships, predicted attributes) and the read-only views
    the side panel derives from it: the dataset a scene id belongs to, the
    relationship groups shown for a selected object, the attribute filter
    on the object list, and the order of similarity candidates. */
module SceneGraph {
  import opened Wrappers
  import opened JsText

  datatype SgObject = SgObject(id: int, labels: seq<string>)

  /** A predicted attribute; `kind` is the optional `type` field. */
  datatype SgAttribute = SgAttribute(id: int, objectId: int, name: string, kind: Option<string>)

  /** A predicted relationship; a missing `recipient_id` reads as the empty
      list everywhere the viewer looks at it. */
  datatype SgRelationship = SgRelationship(subjectId: int, name: string, recipients: seq<int>)

  datatype Graph = Graph(id: string, objects: seq<SgObject>, relationships: seq<SgRelationship>,
                         attributes: seq<SgAttribute>)

  /** `Array.prototype.filter`: the elements satisfying `p`, in order. */
  function Filter<T(!new)>(s: seq<T>, p: T -> bool): (r: seq<T>)
    ensures |r| <= |s|
    ensures forall x :: x in r <==> x in s && p(x)
  {
    if |s| == 0 then []
    else if p(s[0]) then [s[0]] + Filter(s[1..], p)
    else Filter(s[1..], p)
  }

  /** Filtering keeps the relative order of the kept elements: those
      before the split point come first. */
  lemma {:induction false} FilterAppend<T(!new)>(a: seq<T>, b: seq<T>, p: T -> bool)
    ensures Filter(a + b, p) == Filter(a, p) + Filter(b, p)
  {
    if |a| > 0 {
      assert (a + b)[1..] == a[1..] + b;
      FilterAppend(a[1..], b, p);
    } else {
      assert a + b == b;
    }
  }

  /** `objects.find(o => o.id === id)`: the first object with that id. */
  function FindObject(objects: seq<SgObject>, id: int): (r: Option<SgObject>)
    ensures r.Some? <==> exists k :: 0 <= k < |objects| && objects[k].id == id
    ensures r.Some? ==> r.value in objects && r.value.id == id
  {
    if |objects| == 0 then None
    else if objects[0].id == id then Some(objects[0])
    else
      var r := FindObject(objects[1..], id);
      assert forall k :: 1 <= k < |objects| ==> objects[k] == objects[1..][k - 1];
      r
  }

  /** `labels[0]`, undefined (`None`) on an empty label list. */
  function FirstLabel(o: SgObject): (r: Option<string>)
    ensures r.Some? <==> |o.labels| > 0
    ensures r.Some? ==> r.value == o.labels[0]
  {
    if |o.labels| > 0 then Some(o.labels[0]) else None
  }

  /** `labels[0] || \`Object ${id}\``: the first label unless it is missing
      or empty. */
  function DisplayLabel(o: SgObject): (r: string)
    ensures |o.labels| > 0 && o.labels[0] != "" ==> r == o.labels[0]
    ensures r != ""
  {
    match FirstLabel(o)
    case Some(l) => if l != "" then l else ObjectFallback(o.id)
    case None => ObjectFallback(o.id)
  }

  function ObjectFallback(id: int): (r: string)
    ensures StartsWith(r, "Object ")
  {
    "Object " + IntToString(id)
  }

  // ---------------------------------------------------------------------
  // Dataset of a scene id

  datatype Dataset = MultiScan | ScanNet | ThreeRScan

  /** `getDatasetFromSceneId`: `scene_` opens a MultiScan id, `scene`
      without the underscore a ScanNet id, anything else is a 3RScan id. */
  function DatasetOf(sceneId: string): (d: Dataset)
    ensures d == MultiScan <==> |sceneId| >= 6 && sceneId[..6] == "scene_"
    ensures d == ScanNet <==> |sceneId| >= 5 && sceneId[..5] == "scene" && !(|sceneId| >= 6 && sceneId[5] == '_')
    ensures d == ThreeRScan <==> !(|sceneId| >= 5 && sceneId[..5] == "scene")
  {
    if StartsWith(sceneId, "scene_") then MultiScan
    else if StartsWith(sceneId, "scene") then ScanNet
    else ThreeRScan
  }

  /** The three id shapes the comment above the detector names. */
  lemma DatasetExamples()
    ensures DatasetOf("scene_00000_00") == MultiScan
    ensures DatasetOf("scene0000_00") == ScanNet
    ensures DatasetOf("02b33dfb-be2b-2d54-92d2-cd012b2b3c40") == ThreeRScan
  {
    assert "scene_00000_00"[..6] == "scene_";
    assert "scene0000_00"[..5] == "scene";
    var u := "02b33dfb-be2b-2d54-92d2-cd012b2b3c40";
    assert u[..5][0] == u[0] == '0';
  }

  // ---------------------------------------------------------------------
  // Relationship panel

  /** A relationship shown under "in between": its lower-cased name
      contains `between` and it names at least two recipients, the
      selected object being the middle one. */
  predicate IsBetween(rel: SgRelationship) {
    Contains(ToLower(rel.name), "between") && |rel.recipients| >= 2
  }

  /** The type filter: an empty selection lets everything through. */
  predicate TypeSelected(filters: set<string>, rel: SgRelationship) {
    |filters| == 0 || rel.name in filters
  }

  datatype SampledView = SampledView(outgoing: seq<SgRelationship>, inBetween: seq<SgRelationship>)

  /** The sampled viewer's classification for a selected object: predicted
      relationships whose subject is the object, split into the "in
      between" group and the outgoing rest, then narrowed by the type
      filter. Incoming relationships are not shown. */
  function ClassifySampled(rels: seq<SgRelationship>, id: int, filters: set<string>): (v: SampledView)
  {
    var outgoing := Filter(rels, (r: SgRelationship) => r.subjectId == id);
    var between := Filter(outgoing, IsBetween);
    var rest := Filter(outgoing, (r: SgRelationship) => !IsBetween(r));
    if |filters| > 0 then
      SampledView(Filter(rest, (r: SgRelationship) => r.name in filters),
                  Filter(between, (r: SgRelationship) => r.name in filters))
    else SampledView(rest, between)
  }

  /** Which group a predicted relationship lands in, both directions: the
      shown relationships are exactly those of the selected subject that
      pass the type filter, and each lands in exactly one group. */
  lemma ClassifySampledIff(rels: seq<SgRelationship>, id: int, filters: set<string>, rel: SgRelationship)
    ensures rel in ClassifySampled(rels, id, filters).inBetween <==>
      rel in rels && rel.subjectId == id && IsBetween(rel) && TypeSelected(filters, rel)
    ensures rel in ClassifySampled(rels, id, filters).outgoing <==>
      rel in rels && rel.subjectId == id && !IsBetween(rel) && TypeSelected(filters, rel)
  {}

  /** Added relationships shown for a selected object: those naming it as
      subject or as object. The type filter does not apply to them. */
  function AddedFor<R(!new)>(added: seq<R>, subjectOf: R -> int, objectOf: R -> int, id: int): (r: seq<R>)
    ensures forall x :: x in r <==> x in added && (subjectOf(x) == id || objectOf(x) == id)
  {
    Filter(added, (x: R) => subjectOf(x) == id || objectOf(x) == id)
  }

  datatype LegacyView = LegacyView(outgoing: seq<SgRelationship>, incoming: seq<SgRelationship>)

  /** The older viewer's classification: outgoing relationships have the
      object as subject, incoming ones list it among the recipients; both
      are narrowed by the type filter. */
  function ClassifyLegacy(rels: seq<SgRelationship>, id: int, filters: set<string>): (v: LegacyView)
  {
    var outgoing := Filter(rels, (r: SgRelationship) => r.subjectId == id);
    var incoming := Filter(rels, (r: SgRelationship) => id in r.recipients);
    if |filters| > 0 then
      LegacyView(Filter(outgoing, (r: SgRelationship) => r.name in filters),
                 Filter(incoming, (r: SgRelationship) => r.name in filters))
    else LegacyView(outgoing, incoming)
  }

  lemma ClassifyLegacyIff(rels: seq<SgRelationship>, id: int, filters: set<string>, rel: SgRelationship)
    ensures rel in ClassifyLegacy(rels, id, filters).outgoing <==>
      rel in rels && rel.subjectId == id && TypeSelected(filters, rel)
    ensures rel in ClassifyLegacy(rels, id, filters).incoming <==>
      rel in rels && id in rel.recipients && TypeSelected(filters, rel)
  {}

  /** A self-loop shows up in both of the older viewer's groups. */
  lemma LegacySelfLoopTwice(id: int)
    ensures var rel := SgRelationship(id, "near", [id]);
      var v := ClassifyLegacy([rel], id, {});
      rel in v.outgoing && rel in v.incoming
  {}

  // ---------------------------------------------------------------------
  // Object filter

  /** Whether some attribute of object `id` has a name among `filters`. */
  predicate AnyNamed(attrs: seq<SgAttribute>, id: int, filters: set<string>) {
    |attrs| > 0 && ((attrs[0].objectId == id && attrs[0].name in filters) || AnyNamed(attrs[1..], id, filters))
  }

  /** `objectMatchesFilters`: with no attribute filter every object is
      listed; otherwise an object is listed when it carries at least one
      of the selected attribute names. */
  predicate ObjectMatchesFilters(filters: set<string>, attrs: seq<SgAttribute>, obj: SgObject) {
    |filters| == 0 || AnyNamed(attrs, obj.id, filters)
  }

  lemma {:induction false} AnyNamedIff(attrs: seq<SgAttribute>, id: int, filters: set<string>)
    ensures AnyNamed(attrs, id, filters) <==>
      exists k :: 0 <= k < |attrs| && attrs[k].objectId == id && attrs[k].name in filters
  {
    if |attrs| > 0 {
      AnyNamedIff(attrs[1..], id, filters);
      assert forall k :: 1 <= k < |attrs| ==> attrs[k] == attrs[1..][k - 1];
      if exists k :: 0 <= k < |attrs| && attrs[k].objectId == id && attrs[k].name in filters {
        var k :| 0 <= k < |attrs| && attrs[k].objectId == id && attrs[k].name in filters;
        if k > 0 { assert attrs[1..][k - 1] == attrs[k]; }
      }
    }
  }

  lemma ObjectMatchesFiltersIff(filters: set<string>, attrs: seq<SgAttribute>, obj: SgObject)
    ensures ObjectMatchesFilters(filters, attrs, obj) <==>
      |filters| == 0 || exists k :: 0 <= k < |attrs| && attrs[k].objectId == obj.id && attrs[k].name in filters
  {
    AnyNamedIff(attrs, obj.id, filters);
  }

  // ---------------------------------------------------------------------
  // Similarity candidates

  datatype Candidate = Candidate(id: int, text: string, sameClass: bool, annotated: bool)

  /** The candidate comparator. The sampled viewer orders same-class
      candidates first, then by label; the older viewer also puts
      candidates not yet annotated before annotated ones between those two
      keys. Labels compare by code point. */
  predicate Before(a: Candidate, b: Candidate, legacy: bool) {
    if a.sameClass != b.sameClass then a.sameClass
    else if legacy && a.annotated != b.annotated then !a.annotated
    else LexLess(a.text, b.text)
  }

  lemma BeforeAsymmetric(a: Candidate, b: Candidate, legacy: bool)
    ensures !(Before(a, b, legacy) && Before(b, a, legacy))
  {
    LexLessAsymmetric(a.text, b.text);
  }

  /** "Not after" is transitive, which is what insertion needs. */
  lemma NotBeforeTransitive(a: Candidate, b: Candidate, c: Candidate, legacy: bool)
    requires !Before(b, a, legacy) && !Before(c, b, legacy)
    ensures !Before(c, a, legacy)
  {
    if a.sameClass == b.sameClass == c.sameClass && (!legacy || a.annotated == b.annotated == c.annotated) {
      LexLessTotal(a.text, b.text);
      LexLessTotal(b.text, c.text);
      if LexLess(a.text, b.text) && LexLess(b.text, c.text) {
        LexLessTransitive(a.text, b.text, c.text);
        LexLessAsymmetric(a.text, c.text);
      } else if a.text == b.text && b.text == c.text {
        LexLessIrreflexive(a.text);
      } else if a.text == b.text {
        LexLessAsymmetric(b.text, c.text);
      } else {
        LexLessAsymmetric(a.text, b.text);
      }
    }
  }

  predicate Ordered(s: seq<Candidate>, legacy: bool) {
    forall i, j :: 0 <= i < j < |s| ==> !Before(s[j], s[i], legacy)
  }

  /** Inserts `x` ahead of the first element it does not come after, so
      an earlier equal candidate stays ahead of later ones. */
  function Insert(x: Candidate, s: seq<Candidate>, legacy: bool): (r: seq<Candidate>)
    ensures multiset(r) == multiset(s) + multiset{x}
  {
    if |s| == 0 || !Before(s[0], x, legacy) then [x] + s
    else
      assert s == [s[0]] + s[1..];
      [s[0]] + Insert(x, s[1..], legacy)
  }

  lemma OrderedCons(h: Candidate, t: seq<Candidate>, legacy: bool)
    requires Ordered(t, legacy)
    requires forall y :: y in t ==> !Before(y, h, legacy)
    ensures Ordered([h] + t, legacy)
  {
    var r := [h] + t;
    forall i, j | 0 <= i < j < |r| ensures !Before(r[j], r[i], legacy) {
      assert r[j] == t[j - 1];
      if i > 0 { assert r[i] == t[i - 1]; }
    }
  }

  /** Inserting into an ordered list keeps it ordered. */
  lemma {:induction false} InsertOrdered(x: Candidate, s: seq<Candidate>, legacy: bool)
    requires Ordered(s, legacy)
    ensures Ordered(Insert(x, s, legacy), legacy)
  {
    if |s| == 0 || !Before(s[0], x, legacy) {
      forall y | y in s ensures !Before(y, x, legacy) {
        var j :| 0 <= j < |s| && s[j] == y;
        if j > 0 { NotBeforeTransitive(x, s[0], s[j], legacy); }
      }
      OrderedCons(x, s, legacy);
    } else {
      BeforeAsymmetric(s[0], x, legacy);
      var t := s[1..];
      assert Ordered(t, legacy);
      InsertOrdered(x, t, legacy);
      var rest := Insert(x, t, legacy);
      forall y | y in rest ensures !Before(y, s[0], legacy) {
        assert y in multiset(rest);
        if y != x {
          assert y in multiset(t);
          var j :| 0 <= j < |t| && t[j] == y;
          assert s[j + 1] == y;
        }
      }
      OrderedCons(s[0], rest, legacy);
    }
  }

  /** The sort of the candidate list: a permutation that respects the
      comparator. */
  function SortCandidates(s: seq<Candidate>, legacy: bool): (r: seq<Candidate>)
    ensures multiset(r) == multiset(s)
    ensures |r| == |s|
    ensures Ordered(r, legacy)
  {
    if |s| == 0 then []
    else
      assert s == [s[0]] + s[1..];
      var t := SortCandidates(s[1..], legacy);
      InsertOrdered(s[0], t, legacy);
      var r := Insert(s[0], t, legacy);
      assert |multiset(r)| == |r|;
      r
  }

  /** In a sorted list, every same-class candidate comes before every
      other one. */
  lemma SameClassFirst(r: seq<Candidate>, legacy: bool, i: nat, j: nat)
    requires Ordered(r, legacy) && i < j < |r|
    requires r[j].sameClass
    ensures r[i].sameClass
  {
    assert !Before(r[j], r[i], legacy);
  }

  /** The candidate entry shown for object `o` next to the selected object. */
  function CandidateOf(o: SgObject, first: SgObject, annotated: int -> bool): Candidate {
    Candidate(o.id, DisplayLabel(o), FirstLabel(o) == FirstLabel(first), annotated(o.id))
  }

  /** The objects other than the selected one, in scene order. */
  function Others(objects: seq<SgObject>, first: SgObject): seq<SgObject> {
    Filter(objects, (o: SgObject) => o.id != first.id)
  }

  /** One candidate per object, in the same order. */
  function CandidateList(others: seq<SgObject>, first: SgObject, annotated: int -> bool): (cs: seq<Candidate>)
    ensures |cs| == |others|
    ensures forall k :: 0 <= k < |others| ==> cs[k] == CandidateOf(others[k], first, annotated)
  {
    seq(|others|, k requires 0 <= k < |others| => CandidateOf(others[k], first, annotated))
  }

  /** `showAnnotationCandidates`: every other object of the scene, marked
      same-class when its first label equals the selected object's, and
      annotated when `pairs` already links the two, in the order of the
      candidate comparator. */
  function Candidates(objects: seq<SgObject>, first: SgObject, annotated: int -> bool, legacy: bool): (r: seq<Candidate>)
    ensures |r| <= |objects|
    ensures Ordered(r, legacy)
  {
    SortCandidates(CandidateList(Others(objects, first), first, annotated), legacy)
  }

  /** Each candidate names an object of the scene other than the selected
      one, with its display label. */
  lemma CandidatesSound(objects: seq<SgObject>, first: SgObject, annotated: int -> bool, legacy: bool, c: Candidate)
    requires c in Candidates(objects, first, annotated, legacy)
    ensures c.id != first.id
    ensures exists o :: o in objects && o.id == c.id && c == CandidateOf(o, first, annotated)
  {
    var others := Others(objects, first);
    var cs := CandidateList(others, first, annotated);
    assert c in multiset(SortCandidates(cs, legacy));
    assert c in multiset(cs);
    var k :| 0 <= k < |cs| && cs[k] == c;
    assert others[k] in others;
  }

  /** Every object other than the selected one has its candidate. */
  lemma CandidatesComplete(objects: seq<SgObject>, first: SgObject, annotated: int -> bool, legacy: bool, o: SgObject)
    requires o in objects && o.id != first.id
    ensures CandidateOf(o, first, annotated) in Candidates(objects, first, annotated, legacy)
  {
    var others := Others(objects, first);
    var cs := CandidateList(others, first, annotated);
    assert o in others;
    var k :| 0 <= k < |others| && others[k] == o;
    assert cs[k] in multiset(SortCandidates(cs, legacy));
  }
}

=== FILE: session.dfy ===
/** The annotation engine of the viewer: the state it keeps between clicks
    and the transition each control triggers. Rendering is left out; every
    transition is a pure function from the old state to the new one. Clock
    readings (`Date.now()`, ISO timestamps) are parameters. */
module Session {
  import opened Wrappers
  import opened JsText
  import opened SceneGraph

  datatype Mode = SimilarityMode | AttributeMode | RelationshipMode

  /** One "these two objects are similar" entry; `id1` is the object
      selected when it was made. */
  datatype SimilarityAnnotation = SimilarityAnnotation(id1: int, id2: int, label1: string, label2: string,
                                                       sameClass: bool, timestamp: string)

  datatype AddedAttribute = AddedAttribute(id: string, objectId: int, name: string, timestamp: string)

  datatype AddedRelationship = AddedRelationship(id: string, subjectId: int, objectId: int,
                                                 predicateName: string, timestamp: string)

  /** A highlight colour: three.js hex value, CSS colour, border colour and
      name. */
  datatype Color = Color(hex: int, css: string, border: string, name: string)

  /** The highlight palette, cycled through in this order. */
  const Palette: seq<Color> := [
    Color(0xffa726, "#ffa726", "#ff6f00", "orange"),
    Color(0x42a5f5, "#42a5f5", "#1976d2", "blue"),
    Color(0xec407a, "#ec407a", "#c2185b", "pink"),
    Color(0xab47bc, "#ab47bc", "#7b1fa2", "purple"),
    Color(0x26a69a, "#26a69a", "#00796b", "teal"),
    Color(0xffca28, "#ffca28", "#f57f17", "yellow"),
    Color(0x66bb6a, "#66bb6a", "#388e3c", "green"),
    Color(0xff7043, "#ff7043", "#d84315", "deep-orange")
  ]

  /** The viewer's state. Validation maps send an attribute id, or a
      relationship's position in the predicted list, to the stored status;
      a missing key means "not validated". */
  datatype Session = Session(
    graph: Option<Graph>,
    currentSceneId: Option<string>,
    mode: Option<Mode>,
    selected: Option<int>,
    previewed: Option<int>,
    similarity: seq<SimilarityAnnotation>,
    attributeValidations: map<int, string>,
    addedAttributes: seq<AddedAttribute>,
    relationshipValidations: map<int, string>,
    addedRelationships: seq<AddedRelationship>,
    highlighted: map<int, Color>,
    nextColor: nat,
    attributeFilters: set<string>,
    relTypeFilters: set<string>)

  /** The page as it opens: nothing loaded, no mode, nothing annotated. */
  const Initial: Session :=
    Session(None, None, None, None, None, [], map[], [], map[], [], map[], 0, {}, {})

  /** The two statuses the validation buttons store. */
  const Correct: string := "correct"
  const Incorrect: string := "incorrect"

  predicate IsStatus(v: string) {
    v == Correct || v == Incorrect
  }

  /** The four annotation collections that a scene load and the clear button
      reset, and that nothing but the annotation controls touches. */
  predicate SameAnnotations(a: Session, b: Session) {
    && a.similarity == b.similarity
    && a.attributeValidations == b.attributeValidations
    && a.addedAttributes == b.addedAttributes
    && a.relationshipValidations == b.relationshipValidations
    && a.addedRelationships == b.addedRelationships
  }

  // ---------------------------------------------------------------------
  // Similarity annotations

  /** Whether an entry links `x` and `y`, in either order. */
  predicate Links(a: SimilarityAnnotation, x: int, y: int) {
    (a.id1 == x && a.id2 == y) || (a.id2 == x && a.id1 == y)
  }

  predicate PairPresent(anns: seq<SimilarityAnnotation>, x: int, y: int) {
    exists k :: 0 <= k < |anns| && Links(anns[k], x, y)
  }

  /** No two entries link the same unordered pair. */
  predicate NoDuplicatePairs(anns: seq<SimilarityAnnotation>) {
    forall i, j :: 0 <= i < j < |anns| ==> !Links(anns[j], anns[i].id1, anns[i].id2)
  }

  /** `findIndex` for the pair `x`, `y`: the first entry linking them. */
  function FindPair(anns: seq<SimilarityAnnotation>, x: int, y: int): (r: Option<nat>)
    ensures r.None? <==> !PairPresent(anns, x, y)
    ensures r.Some? ==> r.value < |anns| && Links(anns[r.value], x, y)
    ensures r.Some? ==> forall k :: 0 <= k < r.value ==> !Links(anns[k], x, y)
  {
    if |anns| == 0 then None
    else if Links(anns[0], x, y) then Some(0)
    else
      var r := FindPair(anns[1..], x, y);
      assert forall k :: 1 <= k < |anns| ==> anns[k] == anns[1..][k - 1];
      if r.Some? then Some(r.value + 1) else None
  }

  /** `splice(i, 1)` at an index known to be in range. */
  function RemoveAt<T>(s: seq<T>, i: nat): (r: seq<T>)
    requires i < |s|
    ensures |r| == |s| - 1
    ensures forall k :: 0 <= k < i ==> r[k] == s[k]
    ensures forall k :: i <= k < |r| ==> r[k] == s[k + 1]
  {
    s[..i] + s[i + 1..]
  }

  /** The checks `createSimilarityAnnotation` makes before it touches the
      list: an object is selected, the candidate is another object, and
      both are objects of the loaded scene. */
  predicate CanToggle(s: Session, candidate: int) {
    && s.selected.Some?
    && s.selected.value != candidate
    && s.graph.Some?
    && FindObject(s.graph.value.objects, s.selected.value).Some?
    && FindObject(s.graph.value.objects, candidate).Some?
  }

  /** The entry made for the selected object and a candidate. */
  function NewAnnotation(g: Graph, first: int, second: int, timestamp: string): (a: SimilarityAnnotation)
    requires FindObject(g.objects, first).Some? && FindObject(g.objects, second).Some?
    ensures a.id1 == first && a.id2 == second && Links(a, first, second)
  {
    var o1 := FindObject(g.objects, first).value;
    var o2 := FindObject(g.objects, second).value;
    SimilarityAnnotation(first, second, DisplayLabel(o1), DisplayLabel(o2),
                         FirstLabel(o1) == FirstLabel(o2), timestamp)
  }

  /** The sampled viewer's `createSimilarityAnnotation`: removes the entry
      linking the selected object and the candidate (in either order), or
      appends one when there is none, and drops the previewed candidate.
      With nothing selected, a self-pair or an unknown object, nothing
      happens. */
  function ToggleSimilarity(s: Session, candidate: int, timestamp: string): (r: Session)
    ensures !CanToggle(s, candidate) ==> r == s
    ensures r == s.(similarity := r.similarity, previewed := r.previewed)
    ensures CanToggle(s, candidate) ==> r.previewed == None
  {
    if !CanToggle(s, candidate) then s
    else
      var sel := s.selected.value;
      var anns := match FindPair(s.similarity, sel, candidate)
        case Some(i) => RemoveAt(s.similarity, i)
        case None => s.similarity + [NewAnnotation(s.graph.value, sel, candidate, timestamp)];
      s.(similarity := anns, previewed := None)
  }

  /** When no pair is annotated twice, the toggle flips whether the
      selected object and the candidate are linked. */
  lemma ToggleFlipsPair(s: Session, candidate: int, timestamp: string)
    requires CanToggle(s, candidate) && NoDuplicatePairs(s.similarity)
    ensures PairPresent(ToggleSimilarity(s, candidate, timestamp).similarity, s.selected.value, candidate)
        <==> !PairPresent(s.similarity, s.selected.value, candidate)
  {
    var sel := s.selected.value;
    var anns := ToggleSimilarity(s, candidate, timestamp).similarity;
    match FindPair(s.similarity, sel, candidate)
    case Some(i) =>
      assert anns == RemoveAt(s.similarity, i);
      forall k | 0 <= k < |anns| ensures !Links(anns[k], sel, candidate) {
        if k < i { assert anns[k] == s.similarity[k]; }
        else {
          assert anns[k] == s.similarity[k + 1];
          assert !Links(s.similarity[k + 1], s.similarity[i].id1, s.similarity[i].id2);
        }
      }
    case None =>
      assert Links(anns[|anns| - 1], sel, candidate);
  }

  /** Entries other than the toggled pair are kept: a pair other than
      {selected, candidate} is present after the toggle exactly when it
      was present before. */
  lemma ToggleKeepsOtherPairs(s: Session, candidate: int, timestamp: string, x: int, y: int)
    requires CanToggle(s, candidate)
    requires !((x == s.selected.value && y == candidate) || (y == s.selected.value && x == candidate))
    ensures PairPresent(ToggleSimilarity(s, candidate, timestamp).similarity, x, y) <==> PairPresent(s.similarity, x, y)
  {
    var sel := s.selected.value;
    match FindPair(s.similarity, sel, candidate)
    case Some(i) =>
      PresentAfterRemove(s.similarity, i, x, y);
    case None =>
      PresentAfterAppend(s.similarity, NewAnnotation(s.graph.value, sel, candidate, timestamp), x, y);
  }

  /** Removing an entry that does not link `x`, `y` keeps whether they are linked. */
  lemma PresentAfterRemove(anns: seq<SimilarityAnnotation>, i: nat, x: int, y: int)
    requires i < |anns| && !Links(anns[i], x, y)
    ensures PairPresent(RemoveAt(anns, i), x, y) <==> PairPresent(anns, x, y)
  {
    var r := RemoveAt(anns, i);
    if PairPresent(anns, x, y) {
      var k :| 0 <= k < |anns| && Links(anns[k], x, y);
      if k < i { assert r[k] == anns[k]; } else { assert r[k - 1] == anns[k]; }
    }
    if PairPresent(r, x, y) {
      var k :| 0 <= k < |r| && Links(r[k], x, y);
      if k < i { assert r[k] == anns[k]; } else { assert r[k] == anns[k + 1]; }
    }
  }

  /** Appending an entry that does not link `x`, `y` keeps whether they are linked. */
  lemma PresentAfterAppend(anns: seq<SimilarityAnnotation>, a: SimilarityAnnotation, x: int, y: int)
    requires !Links(a, x, y)
    ensures PairPresent(anns + [a], x, y) <==> PairPresent(anns, x, y)
  {
    var r := anns + [a];
    if PairPresent(r, x, y) {
      var k :| 0 <= k < |r| && Links(r[k], x, y);
      assert r[k] == if k < |anns| then anns[k] else a;
    }
    if PairPresent(anns, x, y) {
      var k :| 0 <= k < |anns| && Links(anns[k], x, y);
      assert r[k] == anns[k];
    }
  }

  /** The toggle never annotates a pair twice. */
  lemma ToggleKeepsNoDuplicates(s: Session, candidate: int, timestamp: string)
    requires NoDuplicatePairs(s.similarity)
    ensures NoDuplicatePairs(ToggleSimilarity(s, candidate, timestamp).similarity)
  {
    if CanToggle(s, candidate) {
      var sel := s.selected.value;
      match FindPair(s.similarity, sel, candidate)
      case Some(i) =>
        DeleteAnnotationKeepsNoDuplicates(s.similarity, i);
      case None =>
        AppendKeepsNoDuplicates(s.similarity, NewAnnotation(s.graph.value, sel, candidate, timestamp));
    }
  }

  lemma AppendKeepsNoDuplicates(anns: seq<SimilarityAnnotation>, a: SimilarityAnnotation)
    requires NoDuplicatePairs(anns) && !PairPresent(anns, a.id1, a.id2)
    ensures NoDuplicatePairs(anns + [a])
  {
    var r := anns + [a];
    forall i, j | 0 <= i < j < |r| ensures !Links(r[j], r[i].id1, r[i].id2) {
      assert r[i] == anns[i];
      if j < |anns| {
        assert r[j] == anns[j];
      } else {
        assert !Links(anns[i], a.id1, a.id2);
      }
    }
  }

  /** Toggling a pair that is not annotated, then toggling it again,
      restores the list exactly. */
  lemma ToggleTwiceRestores(s: Session, candidate: int, t1: string, t2: string)
    requires CanToggle(s, candidate)
    requires !PairPresent(s.similarity, s.selected.value, candidate)
    ensures ToggleSimilarity(ToggleSimilarity(s, candidate, t1), candidate, t2).similarity == s.similarity
  {
    var sel := s.selected.value;
    var s1 := ToggleSimilarity(s, candidate, t1);
    var a := NewAnnotation(s.graph.value, sel, candidate, t1);
    assert s1.similarity == s.similarity + [a];
    assert CanToggle(s1, candidate);
    FindPairAppended(s.similarity, a, sel, candidate);
    RemoveLast(s.similarity, a);
  }

  /** An entry appended to a list without the pair is the one found. */
  lemma FindPairAppended(anns: seq<SimilarityAnnotation>, a: SimilarityAnnotation, x: int, y: int)
    requires !PairPresent(anns, x, y) && Links(a, x, y)
    ensures FindPair(anns + [a], x, y) == Some(|anns|)
  {
    var r := anns + [a];
    assert r[|anns|] == a;
    forall k | 0 <= k < |anns| ensures !Links(r[k], x, y) {
      assert r[k] == anns[k];
    }
  }

  lemma RemoveLast<T>(s: seq<T>, x: T)
    ensures RemoveAt(s + [x], |s|) == s
  {
    assert (s + [x])[..|s|] == s;
  }

  /** Toggling an annotated pair twice keeps the same pairs annotated: the
      entry is removed and made again (at the end, with a new timestamp). */
  lemma ToggleTwiceSamePairs(s: Session, candidate: int, t1: string, t2: string, x: int, y: int)
    requires CanToggle(s, candidate) && NoDuplicatePairs(s.similarity)
    ensures PairPresent(ToggleSimilarity(ToggleSimilarity(s, candidate, t1), candidate, t2).similarity, x, y)
        <==> PairPresent(s.similarity, x, y)
  {
    var sel := s.selected.value;
    var s1 := ToggleSimilarity(s, candidate, t1);
    assert CanToggle(s1, candidate);
    ToggleKeepsNoDuplicates(s, candidate, t1);
    if (x == sel && y == candidate) || (y == sel && x == candidate) {
      ToggleFlipsPair(s, candidate, t1);
      ToggleFlipsPair(s1, candidate, t2);
      assert forall anns :: PairPresent(anns, x, y) <==> PairPresent(anns, sel, candidate);
    } else {
      ToggleKeepsOtherPairs(s, candidate, t1, x, y);
      ToggleKeepsOtherPairs(s1, candidate, t2, x, y);
    }
  }

  /** The older viewer's `createSimilarityAnnotation`: it refuses only a
      falsy selection (none, or object 0) and a self-pair, and otherwise
      always appends, whether or not the pair is already annotated or the
      objects exist. */
  function AppendSimilarity(s: Session, candidate: int, timestamp: string): (r: Session)
    ensures s.selected.None? || s.selected == Some(0) || s.selected == Some(candidate) || s.graph.None? ==> r == s
    ensures s.selected.Some? && s.selected.value != 0 && s.selected.value != candidate && s.graph.Some? ==>
      && |r.similarity| == |s.similarity| + 1
      && r.similarity[..|s.similarity|] == s.similarity
      && r.similarity[|s.similarity|].id1 == s.selected.value
      && r.similarity[|s.similarity|].id2 == candidate
    ensures r == s.(similarity := r.similarity, previewed := r.previewed)
  {
    if s.selected.None? || s.selected.value == 0 || s.selected.value == candidate || s.graph.None? then s
    else
      var sel := s.selected.value;
      var objects := s.graph.value.objects;
      var o1 := FindObject(objects, sel);
      var o2 := FindObject(objects, candidate);
      var label1 := if o1.Some? then DisplayLabel(o1.value) else ObjectFallback(sel);
      var label2 := if o2.Some? then DisplayLabel(o2.value) else ObjectFallback(candidate);
      var same := o1.Some? && o2.Some? && FirstLabel(o1.value) == FirstLabel(o2.value);
      var a := SimilarityAnnotation(sel, candidate, label1, label2, same, timestamp);
      var r := s.(similarity := s.similarity + [a], previewed := None);
      assert r.similarity[..|s.similarity|] == s.similarity;
      r
  }

  /** In the older viewer, marking the same candidate twice leaves two
      entries for one pair. */
  lemma AppendSimilarityDuplicates(s: Session, candidate: int, t1: string, t2: string)
    requires s.selected.Some? && s.selected.value != 0 && s.selected.value != candidate && s.graph.Some?
    requires s.similarity == []
    ensures var anns := AppendSimilarity(AppendSimilarity(s, candidate, t1), candidate, t2).similarity;
      |anns| == 2 && Links(anns[0], s.selected.value, candidate) && Links(anns[1], s.selected.value, candidate)
      && !NoDuplicatePairs(anns)
  {
    var s1 := AppendSimilarity(s, candidate, t1);
    var anns := AppendSimilarity(s1, candidate, t2).similarity;
    assert s1.similarity[0].id1 == s.selected.value;
    assert anns[0] == s1.similarity[0];
    assert Links(anns[1], anns[0].id1, anns[0].id2);
  }

  /** `deleteAnnotation(index)`: `splice(index, 1)`; a negative index
      counts from the end and an index past the end removes nothing. */
  function DeleteAnnotation(s: Session, index: int): (r: Session)
    ensures r == s.(similarity := r.similarity)
    ensures 0 <= index < |s.similarity| ==> r.similarity == RemoveAt(s.similarity, index)
    ensures index >= |s.similarity| ==> r == s
  {
    var k := SliceIndex(|s.similarity|, index);
    if k < |s.similarity| then s.(similarity := RemoveAt(s.similarity, k)) else s
  }

  /** Deleting the entry a toggle has just appended restores the list. */
  lemma DeleteUndoesToggle(s: Session, candidate: int, timestamp: string)
    requires CanToggle(s, candidate) && !PairPresent(s.similarity, s.selected.value, candidate)
    ensures DeleteAnnotation(ToggleSimilarity(s, candidate, timestamp), -1).similarity == s.similarity
  {
    var s1 := ToggleSimilarity(s, candidate, timestamp);
    assert |s1.similarity| == |s.similarity| + 1;
    assert RemoveAt(s1.similarity, |s.similarity|) == s.similarity;
  }

  // ---------------------------------------------------------------------
  // Validation

  /** `validateAttribute` / `validateRelationship` on their map: choosing
      the status already stored clears the key, any other choice stores
      it. */
  function Validate(m: map<int, string>, key: int, status: string): (r: map<int, string>)
    ensures key in r <==> !(key in m && m[key] == status)
    ensures key in r ==> r[key] == status
    ensures forall k :: k != key ==> (k in r <==> k in m) && (k in r ==> r[k] == m[k])
  {
    if key in m && m[key] == status then m - {key} else m[key := status]
  }

  /** Choosing the same status twice restores a key that held that status
      or none; a key that held the other status ends up cleared. */
  lemma ValidateTwice(m: map<int, string>, key: int, status: string)
    ensures key !in m || m[key] == status ==> Validate(Validate(m, key, status), key, status) == m
    ensures key in m && m[key] != status ==> Validate(Validate(m, key, status), key, status) == m - {key}
  {}

  /** Every stored value is one of the two statuses. */
  predicate StatusesOnly(m: map<int, string>) {
    forall k :: k in m ==> IsStatus(m[k])
  }

  lemma ValidateKeepsStatuses(m: map<int, string>, key: int, status: string)
    requires StatusesOnly(m) && IsStatus(status)
    ensures StatusesOnly(Validate(m, key, status))
  {}

  function ValidateAttribute(s: Session, attrId: int, status: string): (r: Session)
    ensures r == s.(attributeValidations := r.attributeValidations)
    ensures r.attributeValidations == Validate(s.attributeValidations, attrId, status)
    ensures attrId in r.attributeValidations <==> !(attrId in s.attributeValidations && s.attributeValidations[attrId] == status)
  {
    s.(attributeValidations := Validate(s.attributeValidations, attrId, status))
  }

  function ValidateRelationship(s: Session, index: int, status: string): (r: Session)
    ensures r == s.(relationshipValidations := r.relationshipValidations)
    ensures r.relationshipValidations == Validate(s.relationshipValidations, index, status)
    ensures index in r.relationshipValidations <==> !(index in s.relationshipValidations && s.relationshipValidations[index] == status)
  {
    s.(relationshipValidations := Validate(s.relationshipValidations, index, status))
  }

  // ---------------------------------------------------------------------
  // Added attributes and relationships

  /** `findIndex` by id. */
  function IndexOfId<T>(s: seq<T>, id: T -> string, key: string): (r: Option<nat>)
    ensures r.None? <==> forall k :: 0 <= k < |s| ==> id(s[k]) != key
    ensures r.Some? ==> r.value < |s| && id(s[r.value]) == key
    ensures r.Some? ==> forall k :: 0 <= k < r.value ==> id(s[k]) != key
  {
    if |s| == 0 then None
    else if id(s[0]) == key then Some(0)
    else
      var r := IndexOfId(s[1..], id, key);
      assert forall k :: 1 <= k < |s| ==> s[k] == s[1..][k - 1];
      if r.Some? then Some(r.value + 1) else None
  }

  /** Removes the first element with the given id; nothing when there is
      none. */
  function RemoveId<T>(s: seq<T>, id: T -> string, key: string): (r: seq<T>)
    ensures (forall k :: 0 <= k < |s| ==> id(s[k]) != key) ==> r == s
    ensures (exists k :: 0 <= k < |s| && id(s[k]) == key) ==> |r| == |s| - 1
    ensures IndexOfId(s, id, key).Some? ==> r == RemoveAt(s, IndexOfId(s, id, key).value)
  {
    match IndexOfId(s, id, key)
    case Some(i) => RemoveAt(s, i)
    case None => s
  }

  function AttributeId(a: AddedAttribute): string { a.id }
  function RelationshipId(a: AddedRelationship): string { a.id }

  /** The id given to an added attribute: `added_<object>_<ms>`. */
  function AttributeKey(objectId: int, now: int): string {
    "added_" + IntToString(objectId) + "_" + IntToString(now)
  }

  /** `addAnnotatedAttribute`: the typed name, trimmed, is appended for the
      object; a name that is empty after trimming is refused. */
  function AddAttribute(s: Session, objectId: int, input: string, now: int, timestamp: string): (r: Session)
    ensures r == s.(addedAttributes := r.addedAttributes)
    ensures Trim(input) == "" ==> r == s
    ensures Trim(input) != "" ==>
      r.addedAttributes == s.addedAttributes + [AddedAttribute(AttributeKey(objectId, now), objectId, Trim(input), timestamp)]
  {
    var name := Trim(input);
    if name == "" then s
    else s.(addedAttributes := s.addedAttributes + [AddedAttribute(AttributeKey(objectId, now), objectId, name, timestamp)])
  }

  /** `deleteAnnotatedAttribute`: removes the first added attribute with
      that id. */
  function DeleteAttribute(s: Session, id: string): (r: Session)
    ensures r == s.(addedAttributes := r.addedAttributes)
  {
    s.(addedAttributes := RemoveId(s.addedAttributes, AttributeId, id))
  }

  /** Deleting an added attribute by the id it was just given restores the
      list, provided no earlier entry carries the same id (two additions
      for one object within a millisecond would). */
  lemma DeleteUndoesAddAttribute(s: Session, objectId: int, input: string, now: int, timestamp: string)
    requires forall k :: 0 <= k < |s.addedAttributes| ==> s.addedAttributes[k].id != AttributeKey(objectId, now)
    ensures DeleteAttribute(AddAttribute(s, objectId, input, now, timestamp), AttributeKey(objectId, now)) == s
  {
    var key := AttributeKey(objectId, now);
    var s1 := AddAttribute(s, objectId, input, now, timestamp);
    if Trim(input) != "" {
      RemoveIdAppended(s.addedAttributes, AddedAttribute(key, objectId, Trim(input), timestamp), AttributeId, key);
    } else {
      assert RemoveId(s.addedAttributes, AttributeId, key) == s.addedAttributes;
    }
  }

  /** Removing by an id that only the last element carries drops exactly
      that element. */
  lemma RemoveIdAppended<T>(s: seq<T>, x: T, id: T -> string, key: string)
    requires id(x) == key
    requires forall k :: 0 <= k < |s| ==> id(s[k]) != key
    ensures RemoveId(s + [x], id, key) == s
  {
    var t := s + [x];
    assert IndexOfId(t, id, key) == Some(|s|) by {
      assert t[|s|] == x;
      forall k | 0 <= k < |s| ensures id(t[k]) != key { assert t[k] == s[k]; }
    }
    assert RemoveAt(t, |s|) == s;
  }

  function RelationshipKey(subjectId: int, objectId: int, now: int): string {
    "added_rel_" + IntToString(subjectId) + "_" + IntToString(objectId) + "_" + IntToString(now)
  }

  /** `addRelationship`: the trimmed predicate and the target read with
      `parseInt` are appended for the subject. An empty predicate is
      refused, and so is a target that reads as `NaN` or as 0 (the check is
      `!objectId`). */
  function AddRelationship(s: Session, subjectId: int, predicateInput: string, target: string,
                           now: int, timestamp: string): (r: Session)
    ensures r == s.(addedRelationships := r.addedRelationships)
    ensures Trim(predicateInput) == "" || ParseInt(target).None? || ParseInt(target) == Some(0) ==> r == s
    ensures Trim(predicateInput) != "" && ParseInt(target).Some? && ParseInt(target).value != 0 ==>
      var o := ParseInt(target).value;
      r.addedRelationships == s.addedRelationships +
        [AddedRelationship(RelationshipKey(subjectId, o, now), subjectId, o, Trim(predicateInput), timestamp)]
  {
    var predicateName := Trim(predicateInput);
    match ParseInt(target)
    case None => s
    case Some(o) =>
      if predicateName == "" || o == 0 then s
      else s.(addedRelationships := s.addedRelationships +
                [AddedRelationship(RelationshipKey(subjectId, o, now), subjectId, o, predicateName, timestamp)])
  }

  /** `deleteAddedRelationship`: removes the first added relationship with
      that id. */
  function DeleteRelationship(s: Session, id: string): (r: Session)
    ensures r == s.(addedRelationships := r.addedRelationships)
  {
    s.(addedRelationships := RemoveId(s.addedRelationships, RelationshipId, id))
  }

  /** An object with id 0 can never be the target of an added
      relationship, whatever is typed. */
  lemma NoRelationshipToObjectZero(s: Session, subjectId: int, predicateInput: string, target: string, now: int, timestamp: string)
    requires forall k :: 0 <= k < |s.addedRelationships| ==> s.addedRelationships[k].objectId != 0
    ensures var r := AddRelationship(s, subjectId, predicateInput, target, now, timestamp);
      forall k :: 0 <= k < |r.addedRelationships| ==> r.addedRelationships[k].objectId != 0
  {}

  /** Deleting the relationship just added, towards an object chosen from
      the target list (whose values are printed ids), restores the session. */
  lemma DeleteUndoesAddRelationship(s: Session, subjectId: int, predicateInput: string, o: int, now: int, timestamp: string)
    requires forall k :: 0 <= k < |s.addedRelationships| ==> s.addedRelationships[k].id != RelationshipKey(subjectId, o, now)
    ensures DeleteRelationship(AddRelationship(s, subjectId, predicateInput, IntToString(o), now, timestamp),
                               RelationshipKey(subjectId, o, now)) == s
  {
    var key := RelationshipKey(subjectId, o, now);
    ParseIntToString(o);
    if Trim(predicateInput) != "" && o != 0 {
      RemoveIdAppended(s.addedRelationships, AddedRelationship(key, subjectId, o, Trim(predicateInput), timestamp),
                       RelationshipId, key);
    } else {
      assert RemoveId(s.addedRelationships, RelationshipId, key) == s.addedRelationships;
    }
  }

  // ---------------------------------------------------------------------
  // Clear, scene load, mode switch

  /** `clearAttributeValidations`: empties both validation maps and both
      added lists; the similarity entries stay. */
  function ClearValidations(s: Session): (r: Session)
    ensures r.similarity == s.similarity
    ensures r.attributeValidations == map[] && r.relationshipValidations == map[]
    ensures r.addedAttributes == [] && r.addedRelationships == []
    ensures r == s.(attributeValidations := map[], addedAttributes := [], relationshipValidations := map[], addedRelationships := [])
  {
    s.(attributeValidations := map[], addedAttributes := [], relationshipValidations := map[], addedRelationships := [])
  }

  /** Loading a scene graph (from the file picker or the scene list): the
      filters are cleared and so are both validation maps and both added
      lists, but the similarity entries survive the change of scene. */
  function LoadScene(s: Session, g: Graph): (r: Session)
    ensures r.graph == Some(g)
    ensures r.similarity == s.similarity
    ensures r.attributeFilters == {} && r.relTypeFilters == {}
    ensures ClearValidations(r) == r
  {
    s.(graph := Some(g), attributeFilters := {}, relTypeFilters := {},
       attributeValidations := map[], addedAttributes := [], relationshipValidations := map[], addedRelationships := [])
  }

  /** `loadScene`, reached from the scene list: picking the scene that is
      already loaded does nothing at all; any other id is remembered and
      the graph read for it is loaded as above. The graph is a parameter,
      since fetching it is left out. */
  function LoadSceneById(s: Session, id: string, g: Graph): (r: Session)
    ensures s.currentSceneId == Some(id) ==> r == s
    ensures s.currentSceneId != Some(id) ==>
      && r.currentSceneId == Some(id) && r.graph == Some(g) && r.similarity == s.similarity
      && r.attributeFilters == {} && r.relTypeFilters == {} && ClearValidations(r) == r
      && r.mode == s.mode && r.selected == s.selected && r.highlighted == s.highlighted
  {
    if s.currentSceneId == Some(id) then s
    else LoadScene(s, g).(currentSceneId := Some(id))
  }

  /** Picking the same scene twice is the same as picking it once: the
      second click keeps whatever graph and annotations the first left. */
  lemma LoadSceneByIdTwice(s: Session, id: string, g1: Graph, g2: Graph)
    ensures LoadSceneById(LoadSceneById(s, id, g1), id, g2) == LoadSceneById(s, id, g1)
  {}

  /** `setAnnotationMode`: choosing the active mode again switches the mode
      off. Entering similarity mode drops the highlights. The annotation
      collections are never touched. */
  function SetMode(s: Session, mode: Option<Mode>): (r: Session)
    ensures r.mode == (if s.mode == mode then None else mode)
    ensures SameAnnotations(r, s)
    ensures r.mode == Some(SimilarityMode) ==> r.highlighted == map[]
    ensures r == s.(mode := r.mode, highlighted := r.highlighted)
  {
    var m := if s.mode == mode && mode.Some? then None else mode;
    s.(mode := m, highlighted := if m == Some(SimilarityMode) then map[] else s.highlighted)
  }

  /** Pressing the same mode button twice returns to the mode one started
      in, when that was a different mode or none. */
  lemma SetModeTwice(s: Session, mode: Mode)
    requires s.mode != Some(mode)
    ensures SetMode(s, Some(mode)).mode == Some(mode)
    ensures SetMode(SetMode(s, Some(mode)), Some(mode)).mode == None
  {}

  // ---------------------------------------------------------------------
  // Highlights

  /** `highlightRelatedObject`: un-highlights a highlighted object, or gives
      it the next palette colour. The colour counter moves only when an
      object is highlighted. */
  function HighlightRelated(s: Session, id: int): (r: Session)
    ensures id in r.highlighted <==> id !in s.highlighted
    ensures id in r.highlighted ==> r.highlighted[id] == Palette[s.nextColor % 8] && r.nextColor == s.nextColor + 1
    ensures id !in r.highlighted ==> r.nextColor == s.nextColor
    ensures forall k :: k != id ==> (k in r.highlighted <==> k in s.highlighted) && (k in r.highlighted ==> r.highlighted[k] == s.highlighted[k])
    ensures r == s.(highlighted := r.highlighted, nextColor := r.nextColor)
  {
    if id in s.highlighted then s.(highlighted := s.highlighted - {id})
    else Insert(s, id)
  }

  /** Highlights `id` with the next colour. */
  function Insert(s: Session, id: int): (r: Session)
    ensures r == s.(highlighted := s.highlighted[id := Palette[s.nextColor % 8]], nextColor := s.nextColor + 1)
  {
    s.(highlighted := s.highlighted[id := Palette[s.nextColor % 8]], nextColor := s.nextColor + 1)
  }

  /** Highlighting an object and un-highlighting it restores the
      highlights; only the colour counter has moved on. */
  lemma HighlightTwice(s: Session, id: int)
    requires id !in s.highlighted
    ensures HighlightRelated(HighlightRelated(s, id), id) == s.(nextColor := s.nextColor + 1)
  {
    assert s.highlighted[id := Palette[s.nextColor % 8]] - {id} == s.highlighted;
  }

  /** `highlightBothObjects`: when both are highlighted both are cleared;
      otherwise each one not yet highlighted is highlighted, in order. */
  function HighlightBoth(s: Session, a: int, b: int): (r: Session)
    ensures a in s.highlighted && b in s.highlighted ==> a !in r.highlighted && b !in r.highlighted
    ensures !(a in s.highlighted && b in s.highlighted) ==> a in r.highlighted && b in r.highlighted
    ensures forall k :: k != a && k != b ==> (k in r.highlighted <==> k in s.highlighted)
    ensures a in s.highlighted && b in s.highlighted ==> r.nextColor == s.nextColor
    ensures !(a in s.highlighted && b in s.highlighted) ==> r.nextColor == s.nextColor + |{a, b} - s.highlighted.Keys|
    ensures r == s.(highlighted := r.highlighted, nextColor := r.nextColor)
  {
    if a in s.highlighted && b in s.highlighted then
      s.(highlighted := s.highlighted - {a} - {b})
    else
      var s1 := if a in s.highlighted then s else Insert(s, a);
      var s2 := if b in s1.highlighted then s1 else Insert(s1, b);
      NewlyHighlighted(s.highlighted.Keys, a, b);
      s2
  }

  /** How many of `a` and `b` are not yet in `keys`. */
  lemma NewlyHighlighted(keys: set<int>, a: int, b: int)
    ensures |{a, b} - keys| == (if a in keys then 0 else 1) + (if b in keys || b == a then 0 else 1)
  {
    if a in keys && b in keys {
      assert {a, b} - keys == {};
    } else if a in keys {
      assert {a, b} - keys == {b};
    } else if b in keys || b == a {
      assert {a, b} - keys == {a};
    } else {
      assert {a, b} - keys == {a, b};
    }
  }

  /** `selectObject`: the clicked object becomes the selected one and, in
      every mode, the highlights are dropped; the colour counter stays. */
  function SelectObject(s: Session, id: int): (r: Session)
    ensures r.selected == Some(id) && r.highlighted == map[]
    ensures SameAnnotations(r, s) && r.nextColor == s.nextColor && r.mode == s.mode
    ensures r == s.(selected := r.selected, highlighted := r.highlighted)
  {
    s.(selected := Some(id), highlighted := map[])
  }

  /** Once an object of the loaded scene is selected, marking another object
      of the scene records the pair, and marking it again removes it. */
  lemma SelectEnablesToggle(s: Session, first: int, candidate: int, t1: string, t2: string)
    requires s.graph.Some? && first != candidate
    requires FindObject(s.graph.value.objects, first).Some? && FindObject(s.graph.value.objects, candidate).Some?
    requires NoDuplicatePairs(s.similarity) && !PairPresent(s.similarity, first, candidate)
    ensures var s1 := ToggleSimilarity(SelectObject(s, first), candidate, t1);
      PairPresent(s1.similarity, first, candidate)
      && !PairPresent(ToggleSimilarity(s1, candidate, t2).similarity, first, candidate)
  {
    var s0 := SelectObject(s, first);
    assert CanToggle(s0, candidate);
    ToggleFlipsPair(s0, candidate, t1);
    var s1 := ToggleSimilarity(s0, candidate, t1);
    ToggleKeepsNoDuplicates(s0, candidate, t1);
    assert CanToggle(s1, candidate);
    ToggleFlipsPair(s1, candidate, t2);
  }

  // ---------------------------------------------------------------------
  // Sessions driven by the controls

  /** The controls of the panel, with what each passes to its handler. A
      validation button stores `correct` or `incorrect`. */
  datatype Op =
    | MarkSimilar(candidate: int, timestamp: string)
    | DeleteSimilar(index: int)
    | ValidateAttr(attrId: int, correct: bool)
    | ValidateRel(index: int, correct: bool)
    | AddAttr(objectId: int, input: string, now: int, timestamp: string)
    | DeleteAttr(id: string)
    | AddRel(subjectId: int, predicateInput: string, target: string, now: int, timestamp: string)
    | DeleteRel(id: string)
    | Clear
    | Load(g: Graph)
    | LoadById(id: string, g: Graph)
    | Select(objectId: int)
    | SwitchMode(mode: Option<Mode>)
    | Highlight(objectId: int)
    | HighlightPair(first: int, second: int)

  function StatusOf(correct: bool): (v: string)
    ensures IsStatus(v)
  {
    if correct then Correct else Incorrect
  }

  function Step(s: Session, op: Op): Session {
    match op
    case MarkSimilar(c, t) => ToggleSimilarity(s, c, t)
    case DeleteSimilar(i) => DeleteAnnotation(s, i)
    case ValidateAttr(id, c) => ValidateAttribute(s, id, StatusOf(c))
    case ValidateRel(i, c) => ValidateRelationship(s, i, StatusOf(c))
    case AddAttr(o, input, now, t) => AddAttribute(s, o, input, now, t)
    case DeleteAttr(id) => DeleteAttribute(s, id)
    case AddRel(subj, p, target, now, t) => AddRelationship(s, subj, p, target, now, t)
    case DeleteRel(id) => DeleteRelationship(s, id)
    case Clear => ClearValidations(s)
    case Load(g) => LoadScene(s, g)
    case LoadById(id, g) => LoadSceneById(s, id, g)
    case Select(id) => SelectObject(s, id)
    case SwitchMode(m) => SetMode(s, m)
    case Highlight(id) => HighlightRelated(s, id)
    case HighlightPair(a, b) => HighlightBoth(s, a, b)
  }

  function Run(s: Session, ops: seq<Op>): Session
    decreases |ops|
  {
    if |ops| == 0 then s else Run(Step(s, ops[0]), ops[1..])
  }

  /** What the controls keep true of the annotations: no unordered pair is
      annotated twice, both validation maps hold only the two statuses, and
      no added relationship targets object 0. */
  predicate Consistent(s: Session) {
    && NoDuplicatePairs(s.similarity)
    && StatusesOnly(s.attributeValidations)
    && StatusesOnly(s.relationshipValidations)
    && (forall k :: 0 <= k < |s.addedRelationships| ==> s.addedRelationships[k].objectId != 0)
  }

  lemma DeleteAnnotationKeepsNoDuplicates(anns: seq<SimilarityAnnotation>, i: nat)
    requires i < |anns| && NoDuplicatePairs(anns)
    ensures NoDuplicatePairs(RemoveAt(anns, i))
  {
    var r := RemoveAt(anns, i);
    forall a, b | 0 <= a < b < |r| ensures !Links(r[b], r[a].id1, r[a].id2) {
      var a' := if a < i then a else a + 1;
      var b' := if b < i then b else b + 1;
      assert r[a] == anns[a'] && r[b] == anns[b'];
    }
  }

  lemma RemoveIdKeeps<T>(s: seq<T>, id: T -> string, key: string, p: T -> bool)
    requires forall k :: 0 <= k < |s| ==> p(s[k])
    ensures var r := RemoveId(s, id, key); forall k :: 0 <= k < |r| ==> p(r[k])
  {
    match IndexOfId(s, id, key)
    case Some(i) =>
      var r := RemoveAt(s, i);
      forall k | 0 <= k < |r| ensures p(r[k]) {
        if k < i { assert r[k] == s[k]; } else { assert r[k] == s[k + 1]; }
      }
    case None =>
  }

  /** Every control keeps the annotations consistent. */
  lemma StepConsistent(s: Session, op: Op)
    requires Consistent(s)
    ensures Consistent(Step(s, op))
  {
    if op.MarkSimilar? || op.DeleteSimilar? {
      SimilarityStepConsistent(s, op);
    } else if op.ValidateAttr? || op.ValidateRel? {
      ValidateStepConsistent(s, op);
    } else if op.AddRel? || op.DeleteRel? {
      RelationshipStepConsistent(s, op);
    } else {
      OtherStepConsistent(s, op);
    }
  }

  lemma SimilarityStepConsistent(s: Session, op: Op)
    requires Consistent(s) && (op.MarkSimilar? || op.DeleteSimilar?)
    ensures Consistent(Step(s, op))
  {
    if op.MarkSimilar? {
      ToggleKeepsNoDuplicates(s, op.candidate, op.timestamp);
    } else {
      var k := SliceIndex(|s.similarity|, op.index);
      if k < |s.similarity| { DeleteAnnotationKeepsNoDuplicates(s.similarity, k); }
    }
  }

  lemma ValidateStepConsistent(s: Session, op: Op)
    requires Consistent(s) && (op.ValidateAttr? || op.ValidateRel?)
    ensures Consistent(Step(s, op))
  {
    if op.ValidateAttr? {
      ValidateKeepsStatuses(s.attributeValidations, op.attrId, StatusOf(op.correct));
    } else {
      ValidateKeepsStatuses(s.relationshipValidations, op.index, StatusOf(op.correct));
    }
  }

  lemma RelationshipStepConsistent(s: Session, op: Op)
    requires Consistent(s) && (op.AddRel? || op.DeleteRel?)
    ensures Consistent(Step(s, op))
  {
    if op.AddRel? {
      NoRelationshipToObjectZero(s, op.subjectId, op.predicateInput, op.target, op.now, op.timestamp);
    } else {
      RemoveIdKeeps(s.addedRelationships, RelationshipId, op.id, (r: AddedRelationship) => r.objectId != 0);
    }
  }

  /** The remaining controls leave the similarity list, the validation maps
      and the added relationships as they were, or clear them. */
  lemma OtherStepConsistent(s: Session, op: Op)
    requires Consistent(s)
    requires !(op.MarkSimilar? || op.DeleteSimilar? || op.ValidateAttr? || op.ValidateRel? || op.AddRel? || op.DeleteRel?)
    ensures Consistent(Step(s, op))
  {}

  /** Whatever sequence of controls is used from the opening page, the
      annotations stay consistent. */
  lemma {:induction false} RunConsistent(s: Session, ops: seq<Op>)
    requires Consistent(s)
    ensures Consistent(Run(s, ops))
    decreases |ops|
  {
    if |ops| > 0 {
      StepConsistent(s, ops[0]);
      RunConsistent(Step(s, ops[0]), ops[1..]);
    }
  }

  /** Only picking a different scene from the list changes the remembered
      scene id. */
  lemma StepKeepsSceneId(s: Session, op: Op)
    requires !op.LoadById? || s.currentSceneId == Some(op.id)
    ensures Step(s, op).currentSceneId == s.currentSceneId
  {}

  /** Once a scene has been picked from the list, picking it again after
      any use of the controls that picks no other scene changes nothing:
      the annotations made meanwhile survive. */
  lemma {:induction false} ReloadAfterRun(s: Session, ops: seq<Op>, id: string, g: Graph)
    requires s.currentSceneId == Some(id)
    requires forall k :: 0 <= k < |ops| ==> !ops[k].LoadById? || ops[k].id == id
    ensures Run(s, ops).currentSceneId == Some(id)
    ensures Step(Run(s, ops), LoadById(id, g)) == Run(s, ops)
    decreases |ops|
  {
    if |ops| > 0 {
      StepKeepsSceneId(s, ops[0]);
      ReloadAfterRun(Step(s, ops[0]), ops[1..], id, g);
    }
  }

  lemma RunFromInitialConsistent(ops: seq<Op>)
    ensures Consistent(Run(Initial, ops))
  {
    RunConsistent(Initial, ops);
  }
}

=== FILE: wrappers.dfy ===
/** Option and Result values used where the source returns `undefined`, `NaN`,
    `null`, or throws. */
module Wrappers {

  /** A value that may be absent (`undefined`/`null` in the source). */
  datatype Option<+T> = None | Some(value: T) {

    /** Returns the value, or `default` if it is absent. */
    function GetOr(default: T): T {
      match this
      case Some(v) => v
      case None => default
    }
  }

  /** The outcome of an operation that may throw. */
  datatype Result<+T, +E> = Ok(value: T) | Err(error: E)
}
